=== FILE: README.md ===
# graphql-augment, modelled in Dafny

graphql-augment adds schema directives to a GraphQL schema (`@query`, `@insert` / `@update` / `@upsert` in the older generation, `@mutation`, `@batch`, `@sortable`, `@pageable`, `@result`, `@auth`). They augment the schema with generated input types, filter types, result types and extra field arguments. A resolver then walks the arguments of an incoming request along the tags those directives left, and calls user-supplied callbacks: `init`, `filter`, `nested`, `input`, `paginate`, `return`, `auth` and the others. The repository ships two generations. `lib/` is the newer one, with a single `@mutation`-aware base directive, `SimpleResponse` / `CompoundResponse` and deferred argument queues. `src/` is the older one, with one directive class per concern, a `ResultResolver` and the mutation-type queue. Both are modelled.

Shared model:
- **Schema.** `SchemaModel` holds the schema as an immutable value: an ordered list of types, the root query and mutation names, and the queues of deferred work. `GqlType` holds GraphQL type references (named, list, Non-Null). `JsValue` holds the JavaScript values a request carries.
- **Outcomes.** Errors are values of `Outcomes`. A thrown error becomes an `Err`, and a configuration error discards the whole visit.
- **Callbacks.** Callbacks are total function values in `Adapters.Adapter`. A resolver run returns the trace of callback events it caused together with its outcome (`Adapters.Run`). The properties of a walk are stated on that trace: which callbacks are called and in which order. In the newer resolver, `LibResolver.Guarded` says that every direct call (`filter`, `input`, `others`, `sort`, `cursor`, `paginate`, `resolve`) comes right after an `auth` gate on the same context. A `nested` call is not direct, because the sub-walks run between its gate and the call. `LibResolver.NestedStep` states that order: the gate on the current context first, then the sub-walks, then `nested` on that same context. The older resolver has no trace-wide predicate. There the gate is stated per step: `SrcResolver.FieldGate` and `SrcResolver.OperatorStepTrace` for direct calls, and `SrcResolver.NestedStep` for `nested`.
- **Authorisation.** `AuthGate` models `checkAuth` and `getJwtPayload` of lib/utils.js. src/utils.js:6-83 holds the same two functions, textually identical, so one module serves both resolvers. Each resolver reads the credential at the start of `resolve` (`ResolveCall`, lib/resolver.js:47, src/tools.js:19). JWT verification itself is a parameter.

Newer generation:
- `LibUtils`, `LibCommon`, `LibQuery`, `LibMutation`, `LibVisit`, `LibDeferred` and `Deferral` model the schema side.
- `LibResolver` and `Responses` model the resolver.

Older generation:
- `SrcConfig`, `SrcInput`, `SrcQuery`, `SrcBatch`, `SrcSort`, `SrcPage`, `SrcResult` and `SrcAuthDirective` model the directives.
- `SrcResolver` models src/tools.js.
- `Responses` models the `ResultResolver`.

## Model

| member | source | states |
|---|---|---|
| Adapters.Effect | lib/resolver.js:147-150 | a callback's truthy answer becomes the new context; a falsy answer keeps the old one |
| Adapters.Gate | lib/resolver.js:122-125 | without an `auth` callback nothing is recorded and the walk goes on; with one, exactly that call is recorded, and the walk fails exactly when the verdict denies |
| Adapters.NestedOf | lib/resolver.js:127-134 | the nested group holds only `filter.nested` / `input.nested` arguments and is no longer than the declared list |
| Adapters.PlainOf | lib/resolver.js:127-134 | the plain group holds only arguments of the other tags |
| Adapters.PartitionSplits | lib/resolver.js:127-134 | the two groups together are the declared arguments as a multiset: nothing lost, nothing duplicated |
| Adapters.PartitionKeepsOrder | src/tools.js:98-105 | each group is a subsequence of the declared arguments, so declaration order is kept inside a group |
| Adapters.OrderIsPermutation | lib/resolver.js:135 | the walking order is a permutation of the declared arguments; with `depthFirst` every nested argument comes before every plain one, otherwise after |
| Adapters.WithDefaults | lib/resolver.js:10-42 | an adapter that defines `init` is used unchanged; otherwise it gains the default callbacks, and the ones the caller defined still answer |
| Adapters.DefaultsBuildMap | lib/resolver.js:12-36 | the defaults build the plain request object: `{op, value}` under a filtered field, the value under an input, other or nested field, the pagination merged in, and `{}` from `init` |
| Adapters.CallerOverrides | lib/resolver.js:37 | a callback the caller supplies wins over the default of the same name |
| AuthGate.CheckAuth | lib/utils.js:9-38 | allows (returns nothing) exactly when the verdict is not a denial; a denial without identity is `authentication failed: …` (returned when silent, an authentication error otherwise); with identity it is the field- or type-prefixed message, as a forbidden error unless silent; a field without its type is a TypeError |
| AuthGate.NoCallbackAllows | lib/utils.js:11-15 | with no `auth` callback every check allows |
| AuthGate.BooleanVerdicts | lib/utils.js:16-18 | `true` allows; `false` denies with the one-space message |
| AuthGate.SilentNeverRaises | lib/utils.js:32-36 | a silent check never raises, whatever the verdict and identity, unless a field is named without its type |
| AuthGate.Guess | lib/utils.js:43-51 | a non-object is left as it is, and a truthy starting value never guesses down to a falsy one |
| AuthGate.GuessFollowsSubsequence | lib/utils.js:43-51 | the guessed value is the value reached by following some of the keys, taken in their order |
| AuthGate.FalsyKeySkipped | lib/utils.js:45-47 | a key whose value is falsy is not descended into |
| AuthGate.StripBearer | lib/utils.js:65-67 | a token starting with `Bearer ` loses exactly that prefix; any other string is kept |
| AuthGate.StripOnce | lib/utils.js:65-67 | only one `Bearer ` prefix is removed |
| AuthGate.GetJwtPayload | lib/utils.js:41-86 | the payload is undefined unless the guessed credential is a string and the guessed auth object has a secret; the only failure is an authentication error when not silent |
| AuthGate.VerifyGetsStrippedToken | lib/utils.js:64-78 | verification is handed the credential without `Bearer ` and the auth object's `secret` and `options`; a verified payload is returned, a rejection is undefined when silent and an error otherwise |
| AuthGate.HeaderFound | lib/utils.js:43-67 | a bearer token under `req.headers.authorization` is found and stripped |
| Deferral.Flush | lib/utils.js:210-227 | the entries that stay are a subsequence of the queue, in queue order |
| Deferral.Store | lib/utils.js:223-226 | an empty remainder deletes the queue; a non-empty one is stored as it is |
| Deferral.StoreQueue | lib/utils.js:212 | storing a remainder and reading it back gives the remainder |
| Deferral.FlushNothingReady | lib/utils.js:212-222 | when no entry's `argsFn` answers, the flush changes nothing and keeps the whole queue |
| Deferral.FlushKeepAll | lib/utils.js:214-221 | entries whose `fn` always answers "keep" are never dropped |
| Deferral.FlushDropAll | lib/utils.js:214-222 | entries that are all ready and all answer "done" all leave the queue |
| Deferral.Positions | lib/utils.js:212-222 | the positions it lists are increasing, below the bound, and are exactly the positions whose entry was not ready in its turn or whose `fn` asked to stay |
| Deferral.StateBeforePrefix | lib/utils.js:212-222 | an entry's turn sees the same state whether or not later entries are queued behind it |
| Deferral.PositionsPrefix | lib/utils.js:212-222 | later entries do not change which earlier entries stay |
| Deferral.FlushSnoc | lib/utils.js:212-222 | flushing a queue with one more entry is flushing the shorter queue, then giving the last entry its turn and keeping it when it stays |
| Deferral.FlushSurvivors | lib/utils.js:210-227 | a flush ends in the state after every entry's turn and leaves exactly the entries that stayed, in queue order: an entry survives if and only if it was not ready or its `fn` answered "keep" |
| GqlType.WrapLike | lib/utils.js:177-185 | the result has the reference's List / Non-Null layers in front of the target's own, and the target's named type |
| GqlType.WrapLikeIsRebuild | lib/utils.js:177-185 | with a named target, the result is the reference's layers rebuilt around it |
| GqlType.WrapLikeIdempotent | lib/utils.js:177-185 | re-wrapping an already wrapped type like the same reference replaces only the named type |
| GqlType.WrapLikeValid | lib/utils.js:177-185 | wrapping a named target like a valid reference never puts Non-Null inside Non-Null |
| GqlType.TypeToStringRoundTrip | lib/utils.js:134-142 | the notation can be parsed back to the same type, given the kind of the named type |
| GqlType.TypeToStringInjective | lib/utils.js:134-142 | two types of the same named kind with the same notation are the same type |
| GqlType.Capitalize | lib/utils.js:129-131 | the length is kept, the first character is upper-cased and the rest is unchanged |
| GqlType.CapitalizeIdempotent | lib/utils.js:129-131 | capitalizing twice is capitalizing once |
| LibCommon.FirstUnknown | lib/directives/common.js:243-247 | nothing is reported exactly when every argument name is in one of the two whitelists; a name it reports is one of the arguments and in neither list |
| LibCommon.ValidateDirectiveArgs | lib/directives/common.js:241-248 | passes exactly when every directive argument is whitelisted; otherwise it fails with a schema-building error |
| LibCommon.EnsureInputType | lib/directives/common.js:259-272 | the type `T + Cap(mode) + Input` is stored and always re-stamped `type.input` with base type and mode; an existing one keeps its kind and fields, a new one is an empty input object; no other type changes |
| LibCommon.EnsureInputTypeKeepsFields | lib/directives/common.js:259-272 | re-stamping changes metadata only: every type keeps its field list |
| LibCommon.EnsureResultType | lib/directives/common.js:274-288 | the type `T + Cap(mode) + Result` is stored and always re-stamped `type.result`; an existing one keeps its kind and fields, a new one is an empty object type; no other type changes |
| LibCommon.EnsureResultTypeKeepsFields | lib/directives/common.js:274-288 | every type keeps its field list |
| LibCommon.EnsureInputTypeIdempotent | lib/directives/common.js:259-272 | a second call returns the same type and leaves the schema as the first left it |
| LibCommon.EnsureResultTypeIdempotent | lib/directives/common.js:274-288 | a second call returns the same type and leaves the schema as the first left it |
| LibCommon.ResponseTypeName | lib/directives/common.js:294 | the name starts with the type name and ends in `Response`, preceded by `Tailable` exactly when a cursor is asked for |
| LibCommon.EnsureResponseType | lib/directives/common.js:290-350 | get-or-create: an existing type is returned unchanged; a new one is a `result.response` object type whose `results` field has the field's own type; no other type changes |
| LibCommon.SortAugment | lib/directives/common.js:366-385 | the argument is named `sort`; `SortInput` exists afterwards, an existing one kept as is, and no other type changes |
| LibCommon.AugmentSort | lib/directives/common.js:366-389 | `SortInput` exists afterwards (an existing one is kept as is) and the arguments gain the name `sort`, appended at most once after the old ones |
| LibCommon.PageArgs | lib/directives/common.js:391-412 | `page` defaults to 1; the page size has a default exactly when the configured size is positive, and then it is that size |
| LibUtils.InputTypeName | lib/utils.js:146 | the name starts with the type name and ends in `Input` |
| LibUtils.ResultTypeName | lib/utils.js:162 | the name starts with the type name, followed by the capitalized mode and `Result` |
| LibUtils.EnsureInputType | lib/utils.js:145-159 | get-or-create: an existing type is returned with the schema unchanged; a new one is an empty input type tagged with base type and mode; no other type changes |
| LibUtils.EnsureResultType | lib/utils.js:161-175 | the same for the result object type |
| LibUtils.EnsureInputTypeIdempotent | lib/utils.js:145-159 | a second call returns the same type and schema |
| LibUtils.EnsureResultTypeIdempotent | lib/utils.js:161-175 | a second call returns the same type and schema |
| LibUtils.EnsureInputTypeKeepsForeignMeta | lib/utils.js:147-157 | unlike the directive helper, an existing type keeps the metadata it had |
| LibUtils.TargetsIn | lib/utils.js:195-199 | exactly the fields of the list whose recorded target is (type, mode) are returned, all under the given owner |
| LibUtils.FindRootTargets | lib/utils.js:191-200 | every field found belongs to the query type or the mutation type |
| LibUtils.FindsQueryTarget | lib/utils.js:193 | a query field targeting (type, mode) is found |
| LibUtils.FindsRootTarget | lib/utils.js:192-199 | a query or mutation field targeting (type, mode) is found |
| LibUtils.FoundTargetsExist | lib/utils.js:192-199 | every field found exists in the schema |
| LibUtils.FindRootTargetsSame | lib/utils.js:191-200 | the result depends only on the root types and their field lists |
| LibUtils.FindRootTargetsKept | lib/utils.js:191-200 | a schema that keeps every field list still finds every field found before |
| LibMutation.BaseAugment | lib/directives/mutation.js:48-79 | an input-typed field gives its nullable type and an `input.field` tag without touching the schema; a field neither input-typed nor an object is a schema-building error |
| LibMutation.OperatorAugments | lib/directives/mutation.js:39-91 | one argument per operator, in operator order, named `field` for `is` and `field_op` otherwise, Non-Null whenever the required rule says so; no operators, no arguments |
| LibMutation.DefaultIsOnly | lib/directives/mutation.js:32 | without `op`, `opInclude` or `opExclude` exactly one argument is made, named after the field |
| LibMutation.BaseNotNonNull | lib/directives/mutation.js:50-69 | before the required rule the argument type is never Non-Null, given valid field types |
| LibMutation.NonNullRule | lib/directives/mutation.js:80-83 | the argument is Non-Null exactly when `required` says so, or when `required` is absent, the mode is insert, the field is Non-Null and the operator is `is` |
| LibMutation.NameDiffers | lib/directives/mutation.js:53 | the input type name never equals the object type it is derived from |
| LibMutation.InputFieldAugment | lib/directives/mutation.js:49-51 | an input-typed field's argument has the field's nullable type, Non-Null exactly under the required rule, and the schema is unchanged |
| LibMutation.NestedAugment | lib/directives/mutation.js:52-59 | an object field without `key` gives an `input.nested` argument over the field type's input type, named by `as`, `argsAs` or the mode, which now exists tagged `type.input` |
| LibMutation.KeyAugment | lib/directives/mutation.js:60-76 | with `key`: a missing key field is an error, a list or non-input key field is an error, and otherwise the argument is `input.nestedKey`, typed by the key field's nullable type and recording key and input type |
| LibQuery.EligibleOperators | lib/directives/query.js:12-16 | an enum reads the `Enum` entry, any other named type its own entry, and a type without an entry gets no operators |
| LibQuery.Without | lib/directives/query.js:45 | keeps exactly the operators not excluded, in their order, each as many times as it was listed |
| LibQuery.SelectOperators | lib/directives/query.js:40-46 | an operator is selected exactly when it comes from `op` (or the defaults) or `opInclude` and is not in `opExclude`; the selection is a subsequence of that concatenation and lists each operator not excluded as often as the concatenation does; without `opExclude` it is the plain concatenation |
| LibQuery.OperatorNamesDistinct | lib/directives/query.js:48-49 | distinct operators give distinct argument names |
| LibQuery.FieldAugments | lib/directives/query.js:35-85 | an input-typed field succeeds without touching the schema; an object field gives exactly one argument; anything else is a schema-building error |
| LibQuery.OperatorAugments | lib/directives/query.js:47-65 | one `filter.operator` argument per selected operator, in order, named `field` or `field_op`, a list for `in` / `not_in`, Non-Null exactly when `required` |
| LibQuery.NestedAugment | lib/directives/query.js:66-80 | an object field gives one `filter.nested` argument named after the field over the input type named by `as`, `argsAs` or the mode, which now exists tagged `type.input`, Non-Null exactly when `required` |
| LibDeferred.ResultArgModes | lib/directives/common.js:221-226 | a mode is listed exactly when the field filed it with `resultArgs` and its result mode (`resultAs`, `as` or the mode itself) is the directive's mode |
| LibDeferred.Ready | lib/utils.js:233-236 | a root-field entry is ready exactly when some root field targets its (type, mode), and then it receives exactly those fields; a result-argument entry is ready only with at least one mode |
| LibDeferred.Run | lib/utils.js:232 | the root-field actions ask to leave the queue (their `fn` returns nothing); the result-argument action asks to stay (it returns `true`) |
| LibDeferred.AppendArgsEffect | lib/utils.js:240-250 | appending keeps every argument any field had; the target field, and every field holding the same `args` array, gains every appended name; a field holding another array reads the same, and no field changes anything but its arguments |
| LibDeferred.GrowsHolds | lib/directives/common.js:124-128 | a field still holds the argument array it held after any step that only grows the schema, so later appends still reach it |
| LibDeferred.AppendArgsAllEffect | lib/directives/common.js:193-196 | every root field found gains the appended names, and no field loses an argument |
| LibDeferred.ReplaceOnePlain | lib/directives/common.js:113-121 | a root field not yet returning a result or response type gets the result type under its own List / Non-Null layers and keeps its arguments |
| LibDeferred.ReplaceOneIdempotent | lib/directives/common.js:113 | once the result type is tagged, replacing twice is replacing once |
| LibDeferred.ResultArgsAllEffect | lib/directives/common.js:204-217 | the field of each listed mode's result type gains the appended names when it exists, and so does every field holding its array: the type field it was built from and that field's result-type fields in the other modes; no field loses an argument |
| LibDeferred.RunGrows | lib/directives/common.js:105-229 | no deferred action removes a field, an argument or a recorded target, and the root types stay |
| LibDeferred.FlushGrows | lib/utils.js:210-227 | a flush of any queue loses no field, argument or target |
| LibDeferred.FlushSchema | lib/utils.js:210-227 | the queue left on the schema is a subsequence of the one before |
| LibDeferred.FlushSchemaGrows | lib/directives/common.js:94 | the final flush of a root visit loses nothing |
| LibDeferred.ApplyOnSchemaGrows | lib/utils.js:202-208 | queueing and flushing an entry on the schema loses nothing |
| LibDeferred.FlushFieldGrows | lib/directives/common.js:235 | the final flush of a type-field visit loses nothing |
| LibDeferred.ApplyOnFieldGrows | lib/directives/common.js:202-229 | queueing a result-argument entry on a field loses nothing |
| LibDeferred.ResultArgEntriesStay | lib/directives/common.js:218 | result-argument entries never leave their field's queue, ready or not |
| LibDeferred.FlushSingle | lib/utils.js:210-227 | a queue of one entry is flushed by running that entry once and keeping it exactly when it asks to stay |
| LibDeferred.ApplyAloneIsStep | lib/utils.js:202-208 | queueing an entry on an empty queue runs it once at once |
| LibDeferred.ApplyRootArgsReady | lib/directives/common.js:193-196 | when root fields already target (type, mode), queued root arguments reach all of them at once and the queue is empty again |
| LibDeferred.ApplyRootArgsWaits | lib/directives/common.js:193-196 | when no root field targets (type, mode) yet, the entry waits in the queue and nothing else changes |
| LibVisit.SetMode | lib/directives/common.js:170-173 | the field's `_augmentedTargetsByMode` maps the mode to the directive arguments and every other mode as before; a new mode adds one entry |
| LibVisit.BatchAugment | lib/directives/common.js:352-363 | the batch argument is named `filters` (query directives) or `inputs` (mutation directives), its input type exists afterwards, and no field list changes |
| LibVisit.AddBatch | lib/directives/common.js:352-364 | the target gains `filters` (query directives) or `inputs` (mutation directives), the batch input type exists, and no field list changes |
| LibVisit.AddPage | lib/directives/common.js:391-412 | the target gains `page` and the page size |
| LibVisit.Extras | lib/directives/common.js:84-92 | the target keeps name, type and its arguments, and gains the batch, `sort` and page arguments exactly for the flags set; with none set nothing changes |
| LibVisit.RootResponse | lib/directives/common.js:67-82 | with `response` on a field not yet returning a response type, the field returns the Non-Null response type (Tailable with `cursor`, which also adds the `cursor` argument); otherwise nothing changes |
| LibVisit.VisitRoot | lib/directives/common.js:56-65 | a field that already has a target, or a directive without `type`, is a schema-building error; otherwise the visit succeeds |
| LibVisit.RootBeforeFlush | lib/directives/common.js:65-94 | a root visit records the target, applies the response, batch, sort and page steps, writes the field back, then flushes the schema queue |
| LibVisit.RootVisitRecordsTarget | lib/directives/common.js:65 | after a successful root visit the field records the directive's mode and arguments and keeps all its arguments |
| LibVisit.ResultFieldType | lib/directives/common.js:129-148 | an input-typed field keeps its type; an object field gets the result type of its type under its own layers; anything else is an error naming the directive |
| LibVisit.ResultTyped | lib/directives/common.js:98-148 | the owner's result type exists, and the result-type field's type is the field's own or the wrapped result type of its object type; otherwise an error |
| LibVisit.ResultTypedGrows | lib/directives/common.js:98-123 | the first steps of the result branch lose nothing |
| LibVisit.ResultPart | lib/directives/common.js:98-168 | the result branch fails exactly when the field is neither input-typed nor an object |
| LibVisit.ResultTypeField | lib/directives/common.js:124-128 | the result-type field has the field's name, the computed type and the field's own `args` array, recorded as shared with the field |
| LibVisit.ResultPartEffect | lib/directives/common.js:124-166 | every field outside the result type is kept, grown; the result type has the field, with all its arguments, sharing its array, with the type the field type rule gives; the batch / sort / page arguments asked for land on the result-type field, on the visited field itself and on every other field holding the same array |
| LibVisit.PushOnList | lib/utils.js:240-250 | one append onto a shared array reaches every field holding it and changes no other field |
| LibVisit.PushBatchOnList | lib/directives/common.js:352-364 | the batch argument reaches every field holding the target's array |
| LibVisit.PushSortOnList | lib/directives/common.js:366-389 | the `sort` argument reaches every field holding the target's array |
| LibVisit.PushPageOnList | lib/directives/common.js:391-412 | `page` and the page size reach every field holding the target's array |
| LibVisit.SharedExtrasEffect | lib/directives/common.js:157-166 | the batch, `sort` and page arguments asked for reach every field holding the result-type field's array; every field holding another array reads the same, and the others change only their arguments |
| LibVisit.WriteResultField | lib/utils.js:252-267 | writing the result-type field keeps every type; a field of another type holding the same array grows and carries the extras, every other field of another type reads the same; the written field has the given type, its arguments, its shared array and the extras |
| LibVisit.ResultExtrasReachField | lib/directives/common.js:124-166 | after a successful `result: true` visit, the visited field itself carries the batch, `sort` and page arguments asked for, since its result-type field shares its `args` array |
| LibVisit.DirectiveAugmentsKeep | lib/directives/common.js:176 | deriving the arguments only creates input types: no field list and no root type changes |
| LibVisit.MutationAugmentsKeep | lib/directives/mutation.js:39-91 | the mutation operator loop keeps every field list |
| LibVisit.OperatorAugmentKeeps | lib/directives/mutation.js:42-90 | one mutation operator keeps every field list |
| LibVisit.FieldsNamed | lib/directives/common.js:200-201 | only fields whose named type is the annotated type are picked |
| LibVisit.QueueResultArgsGrows | lib/directives/common.js:197-231 | queueing result arguments on every such field loses nothing |
| LibVisit.ArgsPart | lib/directives/common.js:175-233 | the args branch fails exactly when deriving the arguments fails |
| LibVisit.ArgsBeforeApply | lib/directives/common.js:178-192 | the owner's input type exists and holds every derived argument name, and no field list changes |
| LibVisit.ArgsPartEffect | lib/directives/common.js:175-233 | the args branch loses nothing, and leaves the owner's input type present when any argument was derived |
| LibVisit.VisitTypeField | lib/directives/common.js:96-237 | `result` on a field neither input-typed nor an object is a schema-building error |
| LibVisit.TypeFieldTailKeeps | lib/directives/common.js:175-235 | the args branch and the final flush keep the field and what it has filed by mode |
| LibVisit.TypeFieldRecordsMode | lib/directives/common.js:170-173 | after a successful type-field visit the field files the directive's arguments under its mode |
| LibVisit.ResultNameDiffers | lib/directives/common.js:277 | the result type name never equals the type it is derived from |
| LibVisit.Visit | lib/directives/common.js:49-248 | unknown directive arguments are an error; otherwise a root type takes the root branch and any other type the type-field branch |
| LibVisit.SecondRootVisitConflicts | lib/directives/common.js:56-61 | a second augment directive on a root field is a schema-building error |
| LibVisit.QueuedArgsReachLaterRoot | lib/directives/common.js:94 | arguments queued by a type field before the root field existed reach it when the root field is visited, and the queue empties |
| LibVisit.FlushReachesRoot | lib/utils.js:229-238 | flushing queued root arguments reaches a root field that targets (type, mode) and empties the queue |
| LibVisit.FlushRootArgs | lib/utils.js:210-238 | once a target exists, the flush is exactly the append to every root field found, with the queue deleted |
| LibVisit.RootArgsApplied | lib/utils.js:229-238 | arguments queued on an empty queue reach every root field found |
| LibVisit.ArgsReachExistingRoot | lib/directives/common.js:193-196 | when a root field already targets the owner, the args branch gives it every derived argument |
| LibResolver.GuardedConcat | lib/resolver.js:136-301 | joining two traces in which every direct effect follows a gate on its context keeps that property |
| LibResolver.GuardedEffect | lib/resolver.js:146-150 | a callback behind its gate on the same context gives a guarded trace |
| LibResolver.GuardedNested | lib/resolver.js:165-167 | a `nested` call may end a guarded trace |
| LibResolver.Prepare | lib/resolver.js:97-109 | with a field, its declared arguments and the given type and mode; without, an unknown type is a user-input error, and a known one supplies its base type name and mode |
| LibResolver.WalkGate | lib/resolver.js:122-125 | without `auth` nothing happens; with it exactly one gate call on the context at hand is recorded |
| LibResolver.PlainStep | lib/resolver.js:141-211 | an argument not given does nothing; pagination arguments are collected unseen by any callback; any other argument calls its callback, when defined, right after its gate, and the truthy answer becomes the context; a denial stops the walk |
| LibResolver.ResolveArgs | lib/resolver.js:91-334 | every call the walk makes is to a callback the adapter has and every direct effect is gated on its context; `init` comes first, then the type gate; a failing preparation is reported before any call; a batch element returns a plain context |
| LibResolver.Initialised | lib/resolver.js:122-125 | once `init` has answered, the type gate is the first call when `auth` exists |
| LibResolver.Body | lib/resolver.js:126-334 | the loop, pagination and end of a walk keep the trace guarded |
| LibResolver.Loop | lib/resolver.js:136-301 | the trace stays guarded and batch contexts are only appended, never reordered or dropped |
| LibResolver.Step | lib/resolver.js:141-300 | one argument keeps the trace guarded; a batch argument leaves the context alone and adds one context per array element; `filter.nested` / `input.nested` fire exactly on an object-typed value (null included) when `nested` exists, `input.nestedKey` exactly when the argument is given and `nested` exists, and otherwise do nothing |
| LibResolver.Batch | lib/resolver.js:170-182 | `filters` / `inputs` add one context per element of an array value (none for anything else), after the ones already collected; which context comes from which element is `LibResolver.BatchElements` |
| LibResolver.NestedStep | lib/resolver.js:153-279 | the gate on the current context runs first and a denial stops before any sub-walk; a failing sub-walk stops before `nested`; on success the trace is gate, sub-walks, then `nested` on the same context, and the new context is `nested`'s answer when truthy, else the old one; the batch contexts and pagination are untouched |
| LibResolver.NestedValue | lib/resolver.js:153-279 | outside a keyed input, a null or undefined nested value is handed on as it is; an array gives one sub-result per element, element by element as `LibResolver.NestedArrayElements` states |
| LibResolver.Each | lib/resolver.js:217-229 | one result per element, null elements passed through unwalked where the source does so |
| LibResolver.ElementRun | lib/resolver.js:217-229 | one element's walk: a null element outside a keyed input is handed on unwalked; any other is walked, wrapped under the key when there is one, on the given type and parent |
| LibResolver.EachValues | lib/resolver.js:217-229 | after a successful loop, result `i` is the value of element `i`'s own walk |
| LibResolver.EachTrace | lib/resolver.js:217-229 | a successful loop's trace is the element walks' traces one after another, in array order |
| LibResolver.EachFirstFailure | lib/resolver.js:217-229 | a failing loop fails with the error of the first element whose walk fails; every earlier element succeeded |
| LibResolver.BatchElements | lib/resolver.js:170-182 | with an array value, context number `k + i` (after the `k` already collected) is the result of walking element `i` on the argument's named type with the caller's parent |
| LibResolver.NestedArrayElements | lib/resolver.js:252-267 | an array handed to `nested` / `nestedKey` gives an array of the same length whose element `i` is element `i` walked (wrapped under the key for `nestedKey`) under the current context, or the null element itself where it is not walked |
| LibResolver.PaginateStep | lib/resolver.js:302-306 | `paginate` is called exactly when a page or page-size argument was given and the callback exists, last, behind the gate, with the collected pagination |
| LibResolver.Finish | lib/resolver.js:308-333 | a batch element returns its context; a nested walk ends with `resolve`; a root walk passes the before-return gate and hands back a fresh response over the root context and the batch contexts, or its results |
| LibResolver.ResultsGuarded | lib/utils.js:318-326 | asking a fresh response for its results calls only `return` and `results`, no context-changing callback |
| LibResolver.RootLookup | lib/resolver.js:56-78 | the mutation type is asked first, then the query type; mode defaults to `mutate` / `query`; a name in neither is a user-input error naming it |
| LibResolver.ResolveCall | lib/resolver.js:44-47 | the credential is read before anything else: a rejected one is an authentication error with no resolver call; otherwise the walk runs with the payload as identity |
| LibResolver.ResolveCallRejects | lib/resolver.js:44-47 | a call is refused exactly when a credential is present, the schema has a secret and verification rejects, with the verifier's reason in the message; without a credential the identity is `undefined` |
| LibResolver.Top | lib/resolver.js:44-89 | with a parent, an unknown field of the parent type is a user-input error and a known one is walked in query mode; without, the root lookup decides field, mode, target type and whether a response type is used |
| LibResolver.NullNestedPassesThrough | lib/resolver.js:153-168 | a `null` nested filter is gated and then handed to `nested` as `null` without a sub-walk |
| Responses.SetFacet | lib/utils.js:307-310 | setting one facet of the memo changes that facet only |
| Responses.Fetch | lib/utils.js:304-316 | the combined `return` is called once, only if defined and not yet started, and every facet is read off its answer |
| Responses.Get | lib/utils.js:318-353 | a facet already known is answered from the memo with no call; the answer is always what the memo holds afterwards |
| Responses.FallbackRule | lib/utils.js:318-353 | after `return`, a facet's own callback is called exactly when the facet is still undefined and the callback exists; `cursor` has none |
| Responses.ReturnsConcat | lib/utils.js:304-316 | the `return` calls of two traces add up |
| Responses.GetReturns | lib/utils.js:304-316 | one getter calls `return` at most once, and never once it has started |
| Responses.ReturnAtMostOnce | lib/utils.js:304-316 | whatever getters are called, in whatever order, `return` runs at most once per response |
| Responses.CompoundGet | lib/utils.js:356-389 | a compound keeps one sub-response per sub-response |
| Responses.Answers | lib/utils.js:364 | each entry is what that sub-response's getter answers on its own |
| Responses.CompoundFirstDefined | lib/utils.js:362-367 | a compound answers the first defined answer of its sub-responses in order, undefined when none has one |
| Responses.CompoundStopsAtFirst | lib/utils.js:365 | every sub-response after one with a defined answer is left untouched |
| Responses.GetResults | src/directives/result.js:64-74 | `return(ctxs, extra)` is called only while the results are undefined and the callback exists, and its answer is kept |
| Responses.GetCount | src/directives/result.js:85-91 | `count(ctxs, extra)` likewise, for the count |
| Responses.ResultsMemoized | src/directives/result.js:64-74 | asking twice gives the same results with at most one `return` call, and the count is unaffected |
| SchemaModel.AppendOne | lib/utils.js:240-250 | an argument is appended only when no argument of that name exists; otherwise the list is unchanged; unique names stay unique |
| SchemaModel.AppendAbsent | lib/utils.js:240-250 | the existing arguments stay in front, in order; every added one comes from the augments; the names are the union; unique names stay unique |
| SchemaModel.AppendAbsentIdempotent | lib/utils.js:240-250 | augmenting twice with the same augments adds nothing the second time |
| SchemaModel.AppendAbsentNoop | lib/utils.js:243-247 | augments whose names are all present change nothing |
| SchemaModel.PutOverwrite | lib/utils.js:269-273 | an input field of a new name is appended; one of an existing name replaces it in place; the list length is kept; other fields stay where they were |
| SchemaModel.PutType | lib/directives/common.js:250-257 | registering a type makes its name look up that type and leaves every other name and the root names as they were |
| SchemaModel.EnsureType | lib/directives/common.js:250-257 | get-or-create: an existing type is returned with the schema unchanged; otherwise the made type, under the asked name, is registered and nothing else changes |
| SchemaModel.EnsureTypeIdempotent | lib/directives/common.js:250-257 | a second ensure of the same name returns the first result, whatever it would make |
| SchemaModel.PutInputFields | lib/utils.js:269-273 | replacing one type's input fields leaves its other parts, every other type and every output field untouched |
| SchemaModel.PutFieldIn | lib/utils.js:252-267 | after the write the name finds the written field; every other name finds what it found before |
| SchemaModel.GetFieldAfterPut | lib/utils.js:252-267 | writing a field of a known type changes exactly that field's lookup |
| SchemaModel.ArgsHome | lib/utils.js:252-267 | a field holds either its own argument array or the one it was built over; the field it names is one the given field shares its array with |
| SchemaModel.AppendShared | lib/utils.js:240-250 | appending to a shared array leaves the root names and the queues as they were |
| SchemaModel.AppendSharedGet | lib/utils.js:240-250 | after appending to a shared array, every field holding it reads as before with the augments appended to its arguments, and every other field reads exactly as before |
| SchemaModel.AppendSharedTypes | lib/utils.js:240-250 | appending to a shared array keeps every type, its kind, its metadata and its input fields |
| SrcConfig.DefaultOperatorsDomain | src/config.js:23-32 | the operator table has an entry exactly for Boolean, Float, Int, String, ID, Enum, JSONObject and DateTime |
| SrcConfig.IsFirst | src/config.js:23-32 | every entry starts with `is` |
| SrcConfig.OperatorPolicy | src/config.js:23-32 | range operators only for ordered types, regex only for String and ID, Boolean and JSONObject only `is`, Enum neither range nor regex |
| SrcConfig.PageSizeIsLimit | src/config.js:6-9 | the page-size argument and the limit argument share one name, `limit` |
| SrcConfig.Prefixes | src/config.js:11-14 | the query prefix is empty; the three mutation prefixes are non-empty and none is a prefix of another |
| SrcConfig.MutationPrefix | src/tools.js:28-34 | the prefix found starts the name and pairs with its own mode; none exactly when the name starts with no mutation prefix |
| SrcInput.EnsureInputType | src/directives/input.js:11-25 | get-or-create `<type><Mode>Input`: an existing type is returned as is; a new one is empty and remembers the type and mode; nothing else changes |
| SrcInput.EnsureInputTypeIdempotent | src/directives/input.js:11-25 | a second ensure changes nothing and returns the same type |
| SrcInput.FindTarget | src/directives/input.js:39-44 | the mutation field found is the first one targeted at that type in that mode; none when no field is |
| SrcInput.VisitRoot | src/directives/input.js:32-58 | on the root mutation type a missing `type`, an existing target on the field or another field already targeting the type in the mode is a configuration error; otherwise the visit succeeds and the queue is kept |
| SrcInput.VisitRootRegisters | src/directives/input.js:48-56 | a successful root visit records the target on the field and gives it the queued arguments for that mode and type, after its own |
| SrcInput.VisitRootKeepsOneTarget | src/directives/input.js:39-48 | at most one mutation field per type and mode stays the rule after a root visit |
| SrcInput.ListLike | src/directives/input.js:89-95 | a list field gives a list of the input type, Non-Null inside exactly when the field's items are; any other field gives the input type itself |
| SrcInput.NestedBase | src/directives/input.js:69-88 | without `key` the nested input type of the object type; with it, the key field's nullable type, which must be a scalar input type; a missing type or key field is a configuration error |
| SrcInput.FieldAugment | src/directives/input.js:59-102 | an input-typed field becomes an `input.field` of its nullable type; an object field becomes nested; anything else is a configuration error; the name is the field's |
| SrcInput.RequiredRule | src/directives/input.js:100-102 | the input field is Non-Null exactly when `required` is set, or is absent and the field is Non-Null |
| SrcInput.ListFieldWrapsOnce | src/directives/input.js:89-95 | a list object field wraps the nested type in one list, Non-Null inside exactly when the field's items are |
| SrcInput.KeepsMutationFields | src/directives/input.js:59-103 | a step that keeps every output field keeps the mutation fields |
| SrcInput.Stored | src/directives/input.js:59-103 | the input type of the owner holds an input field of the field's name, the one its augment describes, and no output field changes |
| SrcInput.VisitTypeField | src/directives/input.js:59-130 | a non-root visit succeeds exactly when the input field can be stored, and leaves the roots alone |
| SrcInput.Visit | src/directives/input.js:28-130 | a root query field is an error, a root mutation field is registered, any other field adds an input field; corrected: a keyed nested field records the nested input type's name (see ## Findings, input.js:76-81) |
| SrcInput.NestedKeyAsWrittenBreaksWalk | src/directives/input.js:76-81 | as written, a keyed nested field records the key's scalar type name, and a walk started from that name is refused |
| SrcInput.NestedKeyIntendedWalks | src/directives/input.js:70-84 | recording the nested input type's name instead lets the walk prepare with the object type and the mode |
| SrcInput.TypeFieldQueues | src/directives/input.js:116-128 | without a target mutation field the nullable augment joins the end of the queue of that mode and type, and nothing else in the queue or among the output fields changes |
| SrcInput.TypeFieldReachesTarget | src/directives/input.js:108-115 | with a target mutation field the nullable augment is pushed onto its arguments and the queue is left alone |
| SrcQuery.EligibleOperators | src/directives/query.js:13-25 | `is` first; `not`/`in`/`not_in` except for Boolean and JSONObject; range operators exactly for Float, Int, String, ID and DateTime; regex exactly for String and ID |
| SrcQuery.EligibleMatchesTable | src/config.js:23-32 | the computed operators equal the configured table, a type outside it getting the Enum entry |
| SrcQuery.SmallTable | src/directives/query.js:13-25 | for Boolean and JSONObject the computed list is the table's |
| SrcQuery.RangeTable | src/directives/query.js:13-25 | for the ordered types the computed list is the table's |
| SrcQuery.EnsureQueryInputType | src/directives/query.js:28-42 | get-or-create `<type>Input`, always re-tagged as a filter type of that type with the empty mode; a new one is empty; nothing else changes |
| SrcQuery.EnsureQueryInputTypeIdempotent | src/directives/query.js:28-42 | a second ensure changes nothing |
| SrcQuery.FieldAugments | src/directives/query.js:56-77 | a field neither input-typed nor an object adds no filter field and changes nothing |
| SrcQuery.OperatorAugments | src/directives/query.js:58-70 | one filter field per operator (the `op` argument or the eligible list), named after the field and operator, list-typed for `in` / `not_in` |
| SrcQuery.NestedAugment | src/directives/query.js:71-76 | an object field adds one nested filter over the object type's filter type, which then exists |
| SrcQuery.Written | src/directives/query.js:78-82 | the filter fields are added first-writer-wins to the owner's filter type |
| SrcQuery.Visit | src/directives/query.js:47-90 | root query and root mutation fields are errors; any other field succeeds |
| SrcQuery.VisitFilterType | src/directives/query.js:54-82 | after the visit the owner's filter type holds the written filter fields |
| SrcQuery.VisitQueryField | src/directives/query.js:83-89 | the root query field named after the owner, when there is one, gets every augment appended unconditionally; every other field is unchanged |
| SchemaModel.FieldsAsArgs | src/tools.js:84 | the fields of an object type, walked as arguments, keep their names, types and order and carry no tag, so each reaches the default callback; lib/resolver.js:108 reads them the same way |
| SrcResolver.Prepare | src/tools.js:72-88 | with a field, its arguments, the given mode and the given type name or else the field's named type; without, an unknown type is a user-input error |
| SrcResolver.Start | src/tools.js:92 | an existing context is used as is with no call; otherwise `init(parent)` is called once and its answer is the context, and a missing `init` fails with a type error |
| SrcResolver.FieldGate | src/tools.js:113-116 | the gate is asked about the context, the type and the target field, and the step goes on exactly when the field exists and the gate does not deny |
| SrcResolver.GatedCall | src/tools.js:111-123 | a callback behind its field gate: on success the answer, or the old context when falsy, becomes the context and the walk counts as processed |
| SrcResolver.PlainStep | src/tools.js:111-174 | an argument not given does nothing; page, page size and sort go to `extra` unseen by any callback; every other step keeps `extra` and the batch contexts, and only a field-targeted step is gated |
| SrcResolver.OperatorStepTrace | src/tools.js:111-123 | a given operator or input field with its callback present gives exactly the field gate followed by the callback, and succeeds exactly when the gate lets it through; with no callback nothing happens |
| SrcResolver.ResolveArgs | src/tools.js:67-291 | every call is to a callback the adapter has; a failing preparation is reported before any call; `init` is the first call of a fresh walk and its absence is a type error; a batch element returns a plain context |
| SrcResolver.Started | src/tools.js:93-291 | the walk after `init` records only existing callbacks, and a batch element returns a plain context |
| SrcResolver.Loop | src/tools.js:107-261 | batch contexts are only appended, never reordered or dropped, and a processed walk stays processed |
| SrcResolver.Step | src/tools.js:110-260 | one argument only appends batch contexts; `filters` / `inputs` leave the context and `extra` alone and add one context per array element; `filter.nested` / `input.nested` fire exactly on an object-typed value (null included) when `nested` exists, `input.nestedKey` exactly when the argument is given and `nested` exists, and otherwise do nothing |
| SrcResolver.Batch | src/tools.js:141-152 | one batch context per element of an array value, none for anything else, after the ones already collected; which context comes from which element is `SrcResolver.BatchElements` |
| SrcResolver.NestedStep | src/tools.js:124-241 | the field gate on the current context runs first and a refusal stops before any sub-walk; a failing sub-walk stops before `nested`; on success the trace is gate, sub-walks, then `nested` on the same context, the new context is `nested`'s answer when truthy, else the old one, and the walk is marked processed |
| SrcResolver.NestedValue | src/tools.js:181-205 | an array value gives one sub-result per element, element by element as `SrcResolver.NestedArrayElements` states |
| SrcResolver.Each | src/tools.js:183-190 | one result per element; a non-empty loop starts with `init` of the walk's own parent, and a missing `init` fails before any call |
| SrcResolver.ElementRun | src/tools.js:183-190 | one element's walk: `init(parent)` first, then the walk of the element on the context `init` answered; a missing `init` is a TypeError with no call |
| SrcResolver.EachValues | src/tools.js:183-190 | after a successful loop, result `i` is the value of element `i`'s own walk on its own fresh `init` context |
| SrcResolver.EachTrace | src/tools.js:183-190 | a successful loop's trace is the element walks' traces one after another, and every element's walk starts with its own `init(parent)` |
| SrcResolver.EachFirstFailure | src/tools.js:183-190 | a failing loop fails with the error of the first element whose walk fails; every earlier element succeeded |
| SrcResolver.BatchElements | src/tools.js:141-152 | with an array value, context number `k + i` (after the `k` already collected) is the result of walking element `i` on the argument's named type, on a fresh `init` context, with the caller's parent |
| SrcResolver.NestedArrayElements | src/tools.js:181-190 | an array handed to `nested` / `nestedKey` gives an array of the same length whose element `i` is element `i` walked (wrapped under the key for `nestedKey`) on its own `init` context under the current one |
| SrcResolver.RootContextsRule | src/tools.js:268-270 | the root context is put in front of the batch contexts exactly when the walk was processed or there are none; the batch contexts stay last, in order |
| SrcResolver.Normalise | src/tools.js:271-282 | `page` is removed and, when a limit is set, turned into `offset = limit * (page - 1)` under JavaScript's number conversion (`null` counts as 0, booleans as 0 and 1); every other key is kept |
| SrcResolver.NormaliseNulls | src/tools.js:276-280 | a `null` page gives offset `-limit`, a `null` limit gives offset 0 |
| SrcResolver.NormaliseIdempotent | src/tools.js:271-282 | normalising twice is normalising once |
| SrcResolver.OffsetOfPages | src/tools.js:276-282 | page 1 starts at offset 0 and each further page moves the offset by one limit |
| SrcResolver.Finish | src/tools.js:262-291 | a batch element returns its context; a nested walk ends with exactly one `resolve` call, failing when it is missing; a root walk is handed to the result |
| SrcResolver.FinishRoot | src/tools.js:268-290 | with a result type, a lazy result over the root contexts and the normalised `extra`, with no call; otherwise `return` is called once, when present, and its answer is returned |
| SrcResolver.RootLookup | src/tools.js:28-57 | a name that cannot be resolved is a user-input error |
| SrcResolver.RootLookupRule | src/tools.js:28-57 | a name with a mutation prefix is looked up on the mutation type in that prefix's mode, with the rest of the name as its type; any other name on the query type in query mode |
| SrcResolver.ResolveCall | src/tools.js:16-19 | the credential is read before anything else: a rejected one is an authentication error with no resolver call; otherwise the walk runs with the payload as identity |
| SrcResolver.ResolveCallRejects | src/tools.js:16-19 | a call is refused exactly when a credential is present, the schema has a secret and verification rejects, with the verifier's reason in the message; without a credential the identity is `undefined` |
| SrcResolver.Top | src/tools.js:16-65 | with a parent, an unknown field is a user-input error; without, a failing lookup is reported, and a found field is walked with its mode, type name and result-type flag |
| SrcResolver.GateAsWritten | src/tools.js:93-96 | as written, a gate makes no call and fails exactly when the `@auth` entry for the mode is truthy |
| SrcResolver.GateAsWrittenIgnoresAdapter | src/tools.js:93-96 | two adapters with opposite verdicts get the same outcome; a type the adapter allows is refused and one it denies is let through |
| SrcResolver.IntendedGateConsultsAdapter | src/utils.js:6-35 | passing the entry and the callback in their own places asks the adapter once and refuses exactly when it denies |
| SrcBatch.PutOverwriteUnique | src/directives/batch.js:53-59 | overwriting an input field by name keeps names unique and the written field is the only one of its name |
| SrcBatch.Customize | src/directives/batch.js:50-62 | every untagged argument becomes a customised input field, overwriting one of the same name; other fields are kept in place; names stay unique |
| SrcBatch.FilterTypeFor | src/directives/batch.js:11-24 | the filter type of the type, re-tagged and with the customised fields, is registered; nothing else changes |
| SrcBatch.AugmentField | src/directives/batch.js:9-31 | a field that already has `filters` is left alone; the roots never change |
| SrcBatch.AugmentFieldAppends | src/directives/batch.js:25-29 | otherwise `filters` over the filter type is appended after the existing arguments |
| SrcBatch.AugmentFieldKeepsUnique | src/directives/batch.js:9-31 | input field names stay unique in every type |
| SrcBatch.MutationInputs | src/directives/batch.js:48-67 | the roots never change |
| SrcBatch.PrefixAndModeShareInputType | src/directives/batch.js:49 | a mutation prefix and its mode name the same input type, since only the first letter differs in case |
| SrcBatch.MutationInputsCreates | src/directives/batch.js:48-67 | with no `inputs` yet and no input type, a fresh input type of the customised fields is registered, remembering the recorded mode, and `inputs` over it is appended |
| SrcBatch.VisitMutation | src/directives/batch.js:38-68 | a mutation field without a known prefix, or whose type after the prefix does not exist, is a configuration error |
| SrcBatch.Mark | src/directives/batch.js:37 | the field remembers `includeCustomized` and nothing else changes |
| SrcBatch.VisitWith | src/directives/batch.js:36-83 | the mutation errors come first; a non-mutation field always succeeds |
| SrcBatch.VisitAsWritten | src/directives/batch.js:36-83 | as written, the input type records the prefix as its mode |
| SrcBatch.Visit | src/directives/batch.js:36-83 | corrected, the input type records the mode |
| SrcBatch.VisitMutationCreates | src/directives/batch.js:38-68 | a batch mutation field gets a fresh input type and an `inputs` argument over it; all other types keep their tags |
| SrcBatch.ElementWalkPrepares | src/tools.js:76-85 | a walk over a registered input type prepares with its fields, its base type name and its recorded mode |
| SrcBatch.BatchModeAsWrittenSkipsAuth | src/directives/batch.js:49 | as written, an element walk runs in the prefix as its mode, so a type whose `@auth` entry for `insert` is truthy gets no entry at all |
| SrcBatch.UnkeyedPrefix | src/directives/auth.js:117-124 | `@auth` entries are keyed by mode, never by prefix |
| SrcBatch.BatchModeIntendedKeepsAuth | src/directives/batch.js:49 | corrected, the element walk runs in the mode and sees the type's own `@auth` entry |
| SrcBatch.VisitQueryAppendsFilters | src/directives/batch.js:69-81 | a root query field without `filters` gets it over its filter type |
| SrcBatch.VisitIdempotentOnQuery | src/directives/batch.js:69-81 | visiting a root query field twice is visiting it once |
| SrcAuthDirective.AddAuth | src/directives/auth.js:117-124 | with a truthy `all` every mode key takes its value; every other key stays; no other key appears |
| SrcAuthDirective.AddAuthIdempotent | src/directives/auth.js:117-124 | expanding `all` twice is expanding it once |
| SrcAuthDirective.AddAuthAsRead | src/directives/auth.js:117-124 | the entry a mode reads back is `all` for a mode key when `all` is truthy, else its own entry, else undefined |
| SrcAuthDirective.VisitObject | src/directives/auth.js:97-108 | the root query and root mutation types are errors; any other type gets the expanded arguments as its `@auth` and nothing else changes |
| SrcAuthDirective.VisitField | src/directives/auth.js:110-115 | the field gets the expanded arguments as its `@auth`; every other field is unchanged |
| SrcAuthDirective.VisitObjectGates | src/directives/auth.js:97-124 | after the visit every mode reads back the entry the expansion promises |
| SrcAuthDirective.LeafDefault | src/directives/auth.js:43-55 | a leaf default is blank, and only JSONObject gets an object |
| SrcAuthDirective.DefaultValue | src/directives/auth.js:23-56 | a nullable type has no default; a Non-Null list defaults to `[]`; every default is blank; objects only for Non-Null object types or JSONObject |
| SrcAuthDirective.ObjectDefault | src/directives/auth.js:31-42 | an object type's default is an object |
| SrcAuthDirective.FieldDefaults | src/directives/auth.js:34-39 | exactly the fields with a defined default get an entry, holding that default |
| SrcAuthDirective.Collect | src/directives/auth.js:34-39 | keys only from the fields; a defined result is kept under its field's name and an undefined one is skipped |
| SrcAuthDirective.ObjectDefaultFields | src/directives/auth.js:31-42 | a Non-Null object type's default holds, for each field, its default exactly when that is defined |
| SrcPage.SizeArg | src/directives/page.js:19-31 | the page-size default is `size` when it is at least 0, else 1 |
| SrcPage.PageArgs | src/directives/page.js:19-31 | `page` and the page size are appended only when absent, after the existing arguments |
| SrcPage.PageArgsAreAppendAbsent | src/directives/page.js:19-31 | the two pushes agree with a first-writer-wins append of both |
| SrcPage.PageArgsIdempotent | src/directives/page.js:19-31 | a second application adds nothing |
| SrcPage.Visit | src/directives/page.js:9-32 | a non-root field or one whose name is no type is a configuration error; otherwise the field gains the page arguments |
| SrcResult.EnsureResultType | src/directives/result.js:8-35 | get-or-create `<type>Result` with `results` of the field's type and `count: Int`; nothing else changes |
| SrcResult.Visit | src/directives/result.js:40-46 | only a root query field not yet result-typed changes; the roots never change |
| SrcResult.VisitWraps | src/directives/result.js:40-46 | such a field is retyped to a new result type whose `results` keeps the original type |
| SrcResult.VisitIdempotent | src/directives/result.js:40-46 | never wrapped twice |
| SrcSort.Visit | src/directives/sort.js:11-45 | a non-root field or one whose name is no type is an error; an untagged `sortInput` stops the visit with no change |
| SrcSort.VisitAddsSort | src/directives/sort.js:19-39 | otherwise `sortInput` exists, tagged, and the field gains `sort` over it, only if it had none |
| SrcSort.VisitIdempotent | src/directives/sort.js:11-45 | visiting twice is visiting once |

## Left out

- JWT signature checking: `jwt.verify` is a parameter of `AuthGate.GetJwtPayload`, so no cryptography is modelled.
- Promise scheduling: every `await` is taken in program order, and concurrent calls on one response are not modelled. `Responses.ReturnAtMostOnce` covers sequential calls only.
- Debug logging (`debug(...)`) and descriptions, because neither affects any outcome.
- `isDeprecated`: this flag, which `augmentTypeField` copies, is not modelled.
- `ensureAuthFieldResolvers` (src/directives/auth.js:59-92): it wraps field resolvers at run time and calls `checkAuth` with a signature the shown `checkAuth` does not have. Only the placeholder values it returns are modelled, in `SrcAuthDirective.DefaultValue`.
- `sideCar` (src/utils.js:86-105): it attaches the auth callback to returned objects by mutation, so `Responses.GetResults` keeps the answer of `return` as it is.
- The `ResultResolver` argument order: src/tools.js:283-285 passes the JWT payload and options in the opposite order to the one the constructor names. Only `ctxs` and `extra` are modelled as arguments of `return` and `count`.
- The option bags passed to callbacks: `{type, mode, args, env, parent, parentType, field}` in src, and the lib `options` with `returnFields`. Callbacks see only the positional arguments the events record.
- `parseReturnFields` and the GraphQL `info` object: there is no selection-set analysis.
- The resolve wrapper of `augmentTypeField` on result types (lib/utils.js:256-262): it is a run-time delegation, not a schema change.
- Non-object argument values: arrays and dates are read as objects without properties. A `null` argument object is a TypeError at the first property read; a primitive one reads `undefined` for every name and is a TypeError at the first `in` test (lib/resolver.js:143, src/tools.js:112).
- `LibResolver.Initialised`, `SrcResolver.Started`: for a primitive argument object with at least one augment, the model raises the TypeError before the loop; the source raises it only at the first `in` test and succeeds when every augment is a `filters`, `inputs` or `nested` entry, which read without `in`.
- `LibResolver.ResolveArgs`, `SrcResolver.ResolveArgs`: a `fuel` bound ends recursion with `RecursionLimit`. The source recurses without a bound, and a self-nesting `nestedKey` input would never end there.
- `SrcAuthDirective.DefaultValue`: a `fuel` bound stops a cyclic object type with `RecursionLimit` where the source overflows the stack.
- Numbers are integers; floating point is not modelled. A `Date` value is its epoch milliseconds.
- SrcResolver.Normalise: a string, array or object page or limit, which JavaScript parses or turns into `NaN`, gives an `undefined` offset in the model.
- `GqlType.Capitalize` upper-cases ASCII letters only, and returns `""` for the empty string where the source throws; no type or field name is empty, so that case is not reached.
- lib/config.js is not part of this model. `LibConfig` holds stand-in constants, and the model uses only their distinctness. The lib operator table is a parameter of `LibQuery.EligibleOperators`.
- `field._augmentDelayed` (src/directives/input.js:54-56) is never set by any shown source, so its queue is empty in the model.
- `field._augmentResult` (src/directives/batch.js:77-80) is never set by any src directive, so a non-root, non-mutation `@batch` field is left unchanged.
- A failed visit is `Err` and discards the whole schema. The source throws after partial in-place changes, but the server then fails to start, so those changes are never observed.
- The SDL of the directives (`directive @auth(...) on ...`), the directive registry of index.js, and src/directives/jwt.js: these are definitions, not behaviour.
- `SrcBatch.AugmentField` and the other `@batch` members require unique input-field names in every type, a representation invariant that every directive preserves (`SrcBatch.AugmentFieldKeepsUnique`).
- `SrcResult.Visit`: it does not state the new field type in its own contract; `SrcResult.VisitWraps` states it, for a result type that does not exist yet.
- `SrcQuery.FieldAugments`: for input-typed and object fields, the contents are stated by `SrcQuery.OperatorAugments` and `SrcQuery.NestedAugment`.
- `SrcResolver.Started`, `SrcResolver.NestedValue`: these state only trace bookkeeping and lengths; the per-step behaviour is stated by `SrcResolver.PlainStep`, `SrcResolver.Batch`, `SrcResolver.NestedArrayElements` and `SrcResolver.Finish`.

## Findings

| source | as written | input that shows it | evidently intended | confidence | as-written member | corrected member |
|---|---|---|---|---|---|---|
| src/tools.js:93-96 | every `checkAuth` call (the type gate here, each field gate such as 113-116 likewise) passes the `@auth` entry for the mode where src/utils.js:6 expects the `auth` callback, and the callback where it expects the options | a type whose `@auth` entry for the mode is `"admin"`, and an adapter whose `auth` allows: the request fails with a TypeError without asking the adapter; with no entry, an adapter that denies is never asked and the request goes through | call the adapter's `auth` with the context, the identity and the entry, and refuse exactly when it denies; the model's gates (`SrcResolver.FieldGate`, the type gate) do this | not executed | SrcResolver.GateAsWrittenIgnoresAdapter | SrcResolver.IntendedGateConsultsAdapter |
| src/directives/input.js:76-81 | `augType` is reassigned to the key field's scalar type before `_augmentedObjectTypeName = augType.name` is read | `@insert(key: "id")` on a field of object type `User` with `id: ID`: the tag records `ID`, and the nested walk from it is refused | record the nested input type `UserInsertInput`, as lib/directives/mutation.js does | not executed | SrcInput.NestedKeyAsWrittenBreaksWalk | SrcInput.NestedKeyIntendedWalks |
| src/directives/batch.js:49 | `ensureInputType(schema, typeName, prefix)` passes the field prefix (`Insert`) as the mode | `@batch` on `InsertUser` where `User` has `@auth(insert: "admin")`: the element walks run in mode `Insert`, and `_auth["Insert"]` is undefined | pass the mode (`insert`), which names the same input type and keys the `@auth` entries | not executed | SrcBatch.BatchModeAsWrittenSkipsAuth | SrcBatch.BatchModeIntendedKeepsAuth |

=== FILE: adapters.dfy ===
/** What the argument walkers of both generations (src/tools.js and
    lib/resolver.js) see of a data adapter: a set of optional callbacks,
    each call recorded as an event of a trace, with the adapter's answer to
    an event given as a function of that event. The context a walker
    threads through the callbacks is an opaque value. */
module Adapters {
  import opened Outcomes
  import opened JsValue
  import opened SchemaModel
  import AuthGate

  /** The callbacks an adapter may define. */
  datatype Callback =
    | CInit | CAuth | CFilter | CNested | CInput | COthers | CSort | CCursor | CPaginate | CResolve
    | CReturn | CResults | CCount | CDebug

  /** One adapter call and the arguments the model keeps of it. */
  datatype Event =
    | Init(parent: Value, initType: string)
    /** The gate, on the context at hand; `config` is the mode's entry of the
        type's or field's recorded `@auth` arguments where the walker has one. */
    | Auth(ctx: Value, authType: Option<string>, authField: Option<string>, config: Value)
    | Filter(ctx: Value, field: string, op: string, value: Value)
    | Nested(ctx: Value, field: string, sub: Value)
    | Input(ctx: Value, field: string, value: Value)
    | Others(ctx: Value, arg: string, value: Value)
    | Sort(ctx: Value, value: Value)
    | Cursor(ctx: Value, value: Value)
    | Paginate(ctx: Value, pagination: map<string, Value>)
    | Resolve(ctx: Value)
    /** The combined fetch over all contexts; src also hands over its `extra` bag. */
    | Return(ctxs: seq<Value>, extra: Option<map<string, Value>>)
    | Results(ctxs: seq<Value>)
    | Count(ctxs: seq<Value>, extra: Option<map<string, Value>>)
    | Debug(ctxs: seq<Value>)

  function KindOf(e: Event): Callback {
    match e
    case Init(_, _) => CInit
    case Auth(_, _, _, _) => CAuth
    case Filter(_, _, _, _) => CFilter
    case Nested(_, _, _) => CNested
    case Input(_, _, _) => CInput
    case Others(_, _, _) => COthers
    case Sort(_, _) => CSort
    case Cursor(_, _) => CCursor
    case Paginate(_, _) => CPaginate
    case Resolve(_) => CResolve
    case Return(_, _) => CReturn
    case Results(_) => CResults
    case Count(_, _) => CCount
    case Debug(_) => CDebug
  }

  /** An adapter: which callbacks exist, what each call answers, and what
      the `auth` callback decides. */
  datatype Adapter = Adapter(has: set<Callback>, answer: Event -> Value, verdict: Event -> AuthGate.Verdict)

  /** The events a computation emitted and how it ended; a failure keeps the
      events emitted before the error. */
  datatype Run<T> = Run(events: seq<Event>, out: Result<T>)

  /** The traces of several runs, in order. */
  function Traces<T>(runs: seq<Run<T>>): seq<seq<Event>> {
    seq(|runs|, i requires 0 <= i < |runs| => runs[i].events)
  }

  /** Every recorded call is to a callback the adapter has: a walker never
      calls an absent one (it raises instead, or skips). */
  predicate Recorded(a: Adapter, evs: seq<Event>) {
    forall i :: 0 <= i < |evs| ==> KindOf(evs[i]) in a.has
  }

  lemma RecordedConcat(a: Adapter, x: seq<Event>, y: seq<Event>)
    requires Recorded(a, x) && Recorded(a, y)
    ensures Recorded(a, x + y)
  {
    var z := x + y;
    forall i | 0 <= i < |z| ensures KindOf(z[i]) in a.has {
      if i < |x| { assert z[i] == x[i]; } else { assert z[i] == y[i - |x|]; }
    }
  }

  /** The argument value a sub-walk of `input.nestedKey` reads: `{[key]: v}`. */
  function Wrap(key: Option<string>, v: Value): Value {
    if key.Some? then Obj(map[key.value := v]) else v
  }

  /** `await cb(ctx, ...) || ctx`: a falsy answer keeps the context. */
  function Effect(a: Adapter, e: Event, ctx: Value): (r: Value)
    ensures Truthy(a.answer(e)) ==> r == a.answer(e)
    ensures !Truthy(a.answer(e)) ==> r == ctx
  {
    Or(a.answer(e), ctx)
  }

  /** One `checkAuth` point: the gate is consulted (and recorded) only when
      the adapter has an `auth` callback; a denial raises. */
  function Gate(a: Adapter, e: Event, identity: Value): (r: Run<()>)
    requires e.Auth?
    ensures CAuth !in a.has ==> r == Run([], Ok(()))
    ensures CAuth in a.has ==> r.events == [e]
    ensures r.out.Err? <==> CAuth in a.has && AuthGate.Denies(Some(a.verdict(e)))
  {
    if CAuth !in a.has then Run([], Ok(()))
    else
      match AuthGate.CheckAuth(Some(a.verdict(e)), identity, e.authField, e.authType, false)
      case Ok(_) => Run([e], Ok(()))
      case Err(err) => Run([e], Err(err))
  }

  /** The caller's argument object as a map: arrays and dates have none of
      the argument names; `null`, `undefined` and primitives cannot be read. */
  function ArgMap(args: Value): Option<map<string, Value>> {
    match args
    case Obj(p) => Some(p)
    case Arr(_) => Some(map[])
    case Date(_) => Some(map[])
    case _ => None
  }

  function ArgValue(m: map<string, Value>, k: string): Value {
    if k in m then m[k] else Undef
  }

  // ---- the plain / nested partition ------------------------------------------

  /** `filter.nested` and `input.nested` arguments are walked as a group. */
  predicate IsNestedTag(t: Tag) {
    t.FilterNested? || t.InputNested?
  }

  function NestedOf(xs: seq<Augment>): (r: seq<Augment>)
    ensures forall i :: 0 <= i < |r| ==> IsNestedTag(r[i].tag)
    ensures |r| <= |xs|
    decreases |xs|
  {
    if |xs| == 0 then [] else (if IsNestedTag(xs[0].tag) then [xs[0]] else []) + NestedOf(xs[1..])
  }

  function PlainOf(xs: seq<Augment>): (r: seq<Augment>)
    ensures forall i :: 0 <= i < |r| ==> !IsNestedTag(r[i].tag)
    ensures |r| <= |xs|
    decreases |xs|
  {
    if |xs| == 0 then [] else (if IsNestedTag(xs[0].tag) then [] else [xs[0]]) + PlainOf(xs[1..])
  }

  /** The walking order: nested first with `depthFirst`, plain first otherwise. */
  function Order(xs: seq<Augment>, depthFirst: bool): seq<Augment> {
    if depthFirst then NestedOf(xs) + PlainOf(xs) else PlainOf(xs) + NestedOf(xs)
  }

  /** The two groups split the arguments: nothing lost, nothing added. */
  lemma {:induction false} PartitionSplits(xs: seq<Augment>)
    ensures multiset(NestedOf(xs)) + multiset(PlainOf(xs)) == multiset(xs)
    ensures |NestedOf(xs)| + |PlainOf(xs)| == |xs|
    decreases |xs|
  {
    if |xs| > 0 {
      PartitionSplits(xs[1..]);
      assert xs == [xs[0]] + xs[1..];
    }
  }

  /** Each group keeps the declaration order. */
  lemma {:induction false} PartitionKeepsOrder(xs: seq<Augment>)
    ensures SubseqOf(NestedOf(xs), xs) && SubseqOf(PlainOf(xs), xs)
    decreases |xs|
  {
    if |xs| > 0 {
      PartitionKeepsOrder(xs[1..]);
      SubseqSkip(NestedOf(xs[1..]), xs);
      SubseqSkip(PlainOf(xs[1..]), xs);
      if IsNestedTag(xs[0].tag) {
        var n := NestedOf(xs);
        assert n[0] == xs[0] && n[1..] == NestedOf(xs[1..]);
        assert PlainOf(xs) == PlainOf(xs[1..]);
      } else {
        var p := PlainOf(xs);
        assert p[0] == xs[0] && p[1..] == PlainOf(xs[1..]);
        assert NestedOf(xs) == NestedOf(xs[1..]);
      }
    }
  }

  /** The walking order is a permutation of the declared arguments, every
      nested one before every plain one exactly when `depthFirst` is set. */
  lemma OrderIsPermutation(xs: seq<Augment>, depthFirst: bool)
    ensures multiset(Order(xs, depthFirst)) == multiset(xs)
    ensures var k := |NestedOf(xs)|; var o := Order(xs, depthFirst);
      (depthFirst ==> (forall i :: 0 <= i < k ==> IsNestedTag(o[i].tag)) && (forall i :: k <= i < |o| ==> !IsNestedTag(o[i].tag))) &&
      (!depthFirst ==> (forall i :: 0 <= i < |o| - k ==> !IsNestedTag(o[i].tag)) && (forall i :: |o| - k <= i < |o| ==> IsNestedTag(o[i].tag)))
  {
    var n := NestedOf(xs);
    var p := PlainOf(xs);
    var o := Order(xs, depthFirst);
    assert multiset(o) == multiset(xs) by {
      PartitionSplits(xs);
      assert multiset(o) == multiset(n) + multiset(p);
    }
    if depthFirst {
      assert o == n + p;
      forall i | 0 <= i < |n| ensures IsNestedTag(o[i].tag) { assert o[i] == n[i]; }
      forall i | |n| <= i < |o| ensures !IsNestedTag(o[i].tag) { assert o[i] == p[i - |n|]; }
    } else {
      assert o == p + n;
      forall i | 0 <= i < |p| ensures !IsNestedTag(o[i].tag) { assert o[i] == p[i]; }
      forall i | |p| <= i < |o| ensures IsNestedTag(o[i].tag) { assert o[i] == n[i - |p|]; }
    }
  }

  // ---- lib's default adapter ----------------------------------------------

  const DefaultCallbacks: set<Callback> := {CInit, CFilter, CInput, COthers, CPaginate, CSort, CNested, CResolve}

  /** `ctx[k] = v` on an object context; other contexts take no property. */
  function SetProp(ctx: Value, k: string, v: Value): Value {
    if ctx.Obj? then Obj(ctx.props[k := v]) else ctx
  }

  /** `Object.assign(ctx, pagination)`. */
  function Merge(ctx: Value, m: map<string, Value>): Value {
    if ctx.Obj? then Obj(ctx.props + m) else ctx
  }

  /** The default callbacks of lib/resolver.js, as the context they leave:
      they update the context in place and answer `undefined`, which keeps it. */
  function DefaultAnswer(e: Event): Value {
    match e
    case Init(_, _) => Obj(map[])
    case Filter(ctx, f, op, v) => SetProp(ctx, f, Obj(map["op" := Str(op), "value" := v]))
    case Input(ctx, f, v) => SetProp(ctx, f, v)
    case Others(ctx, arg, v) => SetProp(ctx, arg, v)
    case Paginate(ctx, p) => Merge(ctx, p)
    case Sort(ctx, v) => SetProp(ctx, "sort", v)
    case Nested(ctx, f, sub) => SetProp(ctx, f, sub)
    case Resolve(ctx) => ctx
    case _ => Undef
  }

  /** The constructor of lib's `AugmentedArgResolver`: without `init` the
      adapter is the defaults overridden by whatever callbacks it has. */
  function WithDefaults(a: Adapter): (r: Adapter)
    ensures CInit in a.has ==> r == a
    ensures CInit !in a.has ==> r.has == a.has + DefaultCallbacks && r.verdict == a.verdict
    ensures CInit !in a.has ==> forall e :: r.answer(e) == (if KindOf(e) in a.has then a.answer(e) else DefaultAnswer(e))
  {
    if CInit in a.has then a
    else Adapter(a.has + DefaultCallbacks, e => if KindOf(e) in a.has then a.answer(e) else DefaultAnswer(e), a.verdict)
  }

  /** With the defaults, an object context collects `{op, value}` under the
      field for a filter, the value for an input, an other argument and a
      nested result, and the pagination keys merged in. */
  lemma DefaultsBuildMap(a: Adapter, ctx: map<string, Value>, f: string, op: string, v: Value, p: map<string, Value>)
    requires a.has == {}
    ensures var d := WithDefaults(a);
      Effect(d, Filter(Obj(ctx), f, op, v), Obj(ctx)) == Obj(ctx[f := Obj(map["op" := Str(op), "value" := v])]) &&
      Effect(d, Input(Obj(ctx), f, v), Obj(ctx)) == Obj(ctx[f := v]) &&
      Effect(d, Others(Obj(ctx), f, v), Obj(ctx)) == Obj(ctx[f := v]) &&
      Effect(d, Nested(Obj(ctx), f, v), Obj(ctx)) == Obj(ctx[f := v]) &&
      Effect(d, Paginate(Obj(ctx), p), Obj(ctx)) == Obj(ctx + p) &&
      d.answer(Init(Undef, f)) == Obj(map[])
  {
  }

  /** A callback the caller supplies overrides the default. */
  lemma CallerOverrides(a: Adapter, e: Event)
    requires CInit !in a.has && KindOf(e) in a.has
    ensures WithDefaults(a).answer(e) == a.answer(e)
  {
  }
}

=== FILE: auth.dfy ===
/** The authorization decision `checkAuth` and the credential lookup
    `getJwtPayload`. Both generations carry the same code (lib/utils.js and
    src/utils.js); this module models it once. */
module AuthGate {
  import opened Outcomes
  import opened JsValue

  /** What an adapter's `auth` callback answers: `undefined`/`null`, a
      boolean, or a message (the empty message allows). */
  datatype Verdict = NoAnswer | Allow(ok: bool) | Reason(text: string)

  /** The message the check works with: no callback counts as `true`, and a
      boolean becomes `''` (allow) or `' '` (deny). */
  function Message(gate: Option<Verdict>): string {
    match gate
    case None => ""
    case Some(NoAnswer) => ""
    case Some(Allow(b)) => if b then "" else " "
    case Some(Reason(m)) => m
  }

  /** A reference reading of the decision table: the gate denies exactly on
      `false` or a non-empty message. */
  predicate Denies(gate: Option<Verdict>) {
    gate == Some(Allow(false)) || (gate.Some? && gate.value.Reason? && gate.value.text != "")
  }

  function ForbiddenText(field: Option<string>, typeName: Option<string>, m: string): string {
    if field.Some? && typeName.Some? then
      "field \"" + field.value + "\" of type \"" + typeName.value + "\" is not authorized: " + m
    else if typeName.Some? then "type \"" + typeName.value + "\" is not authorized: " + m
    else m
  }

  /** `checkAuth(ctx, identity, gate, {silent, type, field})`. `Ok(None)` is
      an allow, `Ok(Some(m))` a silent denial returning its message; a loud
      denial raises Forbidden when an identity is present and
      Authentication otherwise. A field without a type cannot be named. */
  function CheckAuth(gate: Option<Verdict>, identity: Value, field: Option<string>, typeName: Option<string>, silent: bool): (r: Result<Option<string>>)
    ensures r == Ok(None) <==> !Denies(gate)
    ensures Denies(gate) && !Truthy(identity) ==>
      (var m := "authentication failed: " + Message(gate);
       if silent then r == Ok(Some(m)) else r == Err(AuthenticationError(m)))
    ensures Denies(gate) && Truthy(identity) && field.Some? && typeName.None? ==> r.Err? && r.error.TypeError?
    ensures Denies(gate) && Truthy(identity) && !(field.Some? && typeName.None?) ==>
      (var m := ForbiddenText(field, typeName, Message(gate));
       if silent then r == Ok(Some(m)) else r == Err(ForbiddenError(m)))
  {
    var m := Message(gate);
    if m == "" then Ok(None)
    else if Truthy(identity) then
      if field.Some? && typeName.None? then Err(TypeError("cannot read property 'name' of undefined"))
      else
        var text := ForbiddenText(field, typeName, m);
        if silent then Ok(Some(text)) else Err(ForbiddenError(text))
    else
      var text := "authentication failed: " + m;
      if silent then Ok(Some(text)) else Err(AuthenticationError(text))
  }

  /** With no callback the check allows and returns nothing. */
  lemma NoCallbackAllows(identity: Value, field: Option<string>, typeName: Option<string>, silent: bool)
    ensures CheckAuth(None, identity, field, typeName, silent) == Ok(None)
  {
  }

  /** Booleans map `true` to an allow and `false` to a denial with message `' '`. */
  lemma BooleanVerdicts(identity: Value, silent: bool)
    ensures CheckAuth(Some(Allow(true)), identity, None, None, silent) == Ok(None)
    ensures CheckAuth(Some(Allow(false)), identity, None, None, true).Ok?
    ensures !Truthy(identity) ==>
      CheckAuth(Some(Allow(false)), identity, None, None, false) == Err(AuthenticationError("authentication failed:  "))
  {
    assert "authentication failed: " + " " == "authentication failed:  ";
  }

  /** A silent check never raises, unless a field is named without its type. */
  lemma SilentNeverRaises(gate: Option<Verdict>, identity: Value, field: Option<string>, typeName: Option<string>)
    requires !(field.Some? && typeName.None?)
    ensures CheckAuth(gate, identity, field, typeName, true).Ok?
  {
  }

  // ---- credential lookup ------------------------------------------------

  const ContextPath: seq<string> := ["req", "jwt", "headers", "header", "authorization"]
  const AuthPath: seq<string> := ["schema", "_auth"]

  /** One `typeof v === 'object' && v` test of the lookup loops. */
  predicate IsObjectValue(v: Value) {
    IsObjectLike(v) && Truthy(v)
  }

  /** Follows `keys` from `v` one property at a time. */
  function Follow(v: Value, keys: seq<string>): Value
    decreases |keys|
  {
    if |keys| == 0 then v else Follow(Get(v, keys[0]), keys[1..])
  }

  /** The guessing loop: descends into `v[k]` for each key in turn when `v`
      is an object and `v[k]` is truthy, and stops at the first non-object. */
  function Guess(v: Value, keys: seq<string>): (r: Value)
    ensures !IsObjectValue(v) ==> r == v
    ensures Truthy(v) ==> Truthy(r)
    decreases |keys|
  {
    if |keys| == 0 || !IsObjectValue(v) then v
    else if Truthy(Get(v, keys[0])) then Guess(Get(v, keys[0]), keys[1..])
    else Guess(v, keys[1..])
  }

  /** The value found is the one at the end of some of the keys, taken in order. */
  lemma {:induction false} GuessFollowsSubsequence(v: Value, keys: seq<string>)
    ensures exists p :: SubseqOf(p, keys) && Follow(v, p) == Guess(v, keys)
    decreases |keys|
  {
    if |keys| == 0 || !IsObjectValue(v) {
      assert SubseqOf([], keys) && Follow(v, []) == Guess(v, keys);
    } else if Truthy(Get(v, keys[0])) {
      GuessFollowsSubsequence(Get(v, keys[0]), keys[1..]);
      var p :| SubseqOf(p, keys[1..]) && Follow(Get(v, keys[0]), p) == Guess(Get(v, keys[0]), keys[1..]);
      var q := [keys[0]] + p;
      assert q[1..] == p;
      assert SubseqOf(q, keys);
      assert Follow(v, q) == Guess(v, keys);
    } else {
      GuessFollowsSubsequence(v, keys[1..]);
      var p :| SubseqOf(p, keys[1..]) && Follow(v, p) == Guess(v, keys[1..]);
      SubseqSkip(p, keys);
    }
  }

  /** A key whose value is falsy is never taken: a credential set to `""` or
      `null` under `req` leaves the whole context in place. */
  lemma {:induction false} FalsyKeySkipped(v: Value, keys: seq<string>)
    requires |keys| > 0 && IsObjectValue(v) && !Truthy(Get(v, keys[0]))
    ensures Guess(v, keys) == Guess(v, keys[1..])
  {
  }

  const Bearer := "Bearer "

  /** Strips one leading `Bearer ` (the scheme of section 2.1 of RFC 6750). */
  function StripBearer(s: string): (r: string)
    ensures |s| >= 7 && s[..7] == Bearer ==> s == Bearer + r
    ensures !(|s| >= 7 && s[..7] == Bearer) ==> r == s
  {
    if |s| >= 7 && s[..7] == Bearer then s[7..] else s
  }

  /** Only one prefix is stripped. */
  lemma StripOnce(t: string)
    ensures StripBearer(Bearer + Bearer + t) == Bearer + t
  {
    assert (Bearer + Bearer + t)[..7] == Bearer;
    assert (Bearer + Bearer + t)[7..] == Bearer + t;
  }

  /** What `jwt.verify(token, secret, options)` does, abstracted: a payload
      or the text of the error it throws. */
  datatype Verification = Verified(payload: Value) | Rejected(reason: string)

  /** `getJwtPayload(context, auth, silent)` with `jwt.verify` as a parameter. */
  function GetJwtPayload(context: Value, auth: Value, silent: bool, verify: (string, Value, Value) -> Verification): (r: Result<Value>)
    ensures !Guess(context, ContextPath).Str? ==> r == Ok(Undef)
    ensures var a := Guess(auth, AuthPath);
      !(IsObjectValue(a) && !IsNullish(Get(a, "secret"))) ==> r == Ok(Undef)
    ensures r.Err? ==> !silent && r.error.AuthenticationError?
  {
    var token := Guess(context, ContextPath);
    var a := Guess(auth, AuthPath);
    if !token.Str? then Ok(Undef)
    else if !(IsObjectValue(a) && !IsNullish(Get(a, "secret"))) then Ok(Undef)
    else
      match verify(StripBearer(token.s), Get(a, "secret"), Get(a, "options"))
      case Verified(p) => Ok(p)
      case Rejected(e) => if silent then Ok(Undef) else Err(AuthenticationError("authentication failed: " + e))
  }

  /** The token handed to verification is the credential with `Bearer `
      stripped, and verification decides the payload. */
  lemma {:induction false} VerifyGetsStrippedToken(context: Value, auth: Value, silent: bool, verify: (string, Value, Value) -> Verification)
    requires Guess(context, ContextPath).Str?
    requires IsObjectValue(Guess(auth, AuthPath)) && !IsNullish(Get(Guess(auth, AuthPath), "secret"))
    ensures var a := Guess(auth, AuthPath);
      var v := verify(StripBearer(Guess(context, ContextPath).s), Get(a, "secret"), Get(a, "options"));
      (v.Verified? ==> GetJwtPayload(context, auth, silent, verify) == Ok(v.payload)) &&
      (v.Rejected? && silent ==> GetJwtPayload(context, auth, silent, verify) == Ok(Undef)) &&
      (v.Rejected? && !silent ==> GetJwtPayload(context, auth, silent, verify).Err?)
  {
  }

  /** A bearer header under `req.headers.authorization` is found and stripped. */
  lemma HeaderFound(t: string)
    ensures var ctx := Obj(map["req" := Obj(map["headers" := Obj(map["authorization" := Str(Bearer + t)])])]);
      Guess(ctx, ContextPath) == Str(Bearer + t) && StripBearer(Bearer + t) == t
  {
    var ctx := Obj(map["req" := Obj(map["headers" := Obj(map["authorization" := Str(Bearer + t)])])]);
    var req := Get(ctx, "req");
    var hs := Get(req, "headers");
    assert Guess(ctx, ContextPath) == Guess(req, ContextPath[1..]);
    assert ContextPath[1..][1..] == ["headers", "header", "authorization"];
    assert Guess(req, ContextPath[1..]) == Guess(req, ["headers", "header", "authorization"]);
    assert Guess(req, ["headers", "header", "authorization"]) == Guess(hs, ["header", "authorization"]);
    assert Guess(hs, ["header", "authorization"]) == Guess(hs, ["authorization"]);
    assert (Bearer + t)[..7] == Bearer;
  }
}

=== FILE: deferral.dfy ===
/** The deferred-action queue of lib/utils.js (`applyOnTarget` /
    `ensureApplyOnTarget`), over any state `S` and any entry type `E`. An
    entry is consulted through `ready` (the entry's `argsFn`) and, when that
    yields arguments, run through `run` (its `fn`), which returns the new
    state and whether the entry stays queued. */
module Deferral {
  import opened Outcomes

  /** One pass of `ensureApplyOnTarget` over the queue `q`: returns the state
      after every ready entry ran, in queue order, and the survivors. */
  function Flush<S, E(==), A>(s: S, q: seq<E>, ready: (S, E) -> Option<A>, run: (S, E, A) -> (S, bool)): (r: (S, seq<E>))
    ensures SubseqOf(r.1, q)
    ensures |r.1| <= |q|
    decreases |q|
  {
    if |q| == 0 then (s, [])
    else
      var (s1, keep) := Step(s, q[0], ready, run);
      var (t, rest) := Flush(s1, q[1..], ready, run);
      assert keep ==> ([q[0]] + rest)[1..] == rest;
      (t, if keep then [q[0]] + rest else rest)
  }

  /** One entry: not ready stays and changes nothing; ready runs. */
  function Step<S, E, A>(s: S, e: E, ready: (S, E) -> Option<A>, run: (S, E, A) -> (S, bool)): (S, bool) {
    match ready(s, e)
    case None => (s, true)
    case Some(a) => run(s, e, a)
  }

  /** `delete field._augmentDelayed` followed by re-storing a non-empty
      remainder: the stored queue is never empty. */
  function Store<E>(remains: seq<E>): (r: Option<seq<E>>)
    ensures r.None? <==> |remains| == 0
    ensures r.Some? ==> r.value == remains && |r.value| > 0
  {
    if |remains| == 0 then None else Some(remains)
  }

  /** A missing queue reads as empty (`field._augmentDelayed || []`). */
  function Queue<E>(q: Option<seq<E>>): seq<E> {
    if q.Some? then q.value else []
  }

  /** Storing a queue and reading it back gives the queue. */
  lemma StoreQueue<E>(q: seq<E>)
    ensures Queue(Store(q)) == q
  {
  }

  /** `applyOnTarget`: appends the entry, then flushes the whole queue. */
  function Apply<S, E(==), A>(s: S, q: Option<seq<E>>, e: E, ready: (S, E) -> Option<A>, run: (S, E, A) -> (S, bool)): (r: (S, Option<seq<E>>))
  {
    var (t, rest) := Flush(s, Queue(q) + [e], ready, run);
    (t, Store(rest))
  }

  /** Entries that are not ready cost nothing: when no entry is ready in the
      state, the state and the queue are left as they were. */
  lemma {:induction false} FlushNothingReady<S, E, A>(s: S, q: seq<E>, ready: (S, E) -> Option<A>, run: (S, E, A) -> (S, bool))
    requires forall i :: 0 <= i < |q| ==> ready(s, q[i]).None?
    ensures Flush(s, q, ready, run) == (s, q)
    decreases |q|
  {
    if |q| > 0 {
      assert forall i :: 0 <= i < |q[1..]| ==> ready(s, q[1..][i]).None? by {
        forall i | 0 <= i < |q[1..]| ensures ready(s, q[1..][i]).None? { assert q[1..][i] == q[i + 1]; }
      }
      FlushNothingReady(s, q[1..], ready, run);
      assert [q[0]] + q[1..] == q;
    }
  }

  /** An entry whose action always asks to stay is never dropped. */
  lemma {:induction false} FlushKeepAll<S, E, A>(s: S, q: seq<E>, ready: (S, E) -> Option<A>, run: (S, E, A) -> (S, bool))
    requires forall t: S, e: E, a: A {:trigger run(t, e, a)} :: run(t, e, a).1
    ensures Flush(s, q, ready, run).1 == q
    decreases |q|
  {
    if |q| > 0 {
      assert Step(s, q[0], ready, run).1 by {
        match ready(s, q[0])
        case None =>
        case Some(a) => assert run(s, q[0], a).1;
      }
      FlushKeepAll(Step(s, q[0], ready, run).0, q[1..], ready, run);
      assert [q[0]] + q[1..] == q;
    }
  }

  /** An entry that is ready and whose action asks to go runs once and
      leaves the queue: with every entry ready and dropping, nothing survives. */
  lemma {:induction false} FlushDropAll<S, E, A>(s: S, q: seq<E>, ready: (S, E) -> Option<A>, run: (S, E, A) -> (S, bool))
    requires forall t: S, e: E :: ready(t, e).Some?
    requires forall t: S, e: E, a: A {:trigger run(t, e, a)} :: !run(t, e, a).1
    ensures Flush(s, q, ready, run).1 == []
    decreases |q|
  {
    if |q| > 0 {
      assert !Step(s, q[0], ready, run).1 by {
        match ready(s, q[0])
        case None => assert false;
        case Some(a) => assert !run(s, q[0], a).1;
      }
      FlushDropAll(Step(s, q[0], ready, run).0, q[1..], ready, run);
    }
  }

  // ---- which entries survive a flush -----------------------------------------

  /** The state the entry at position `i` of `q` is consulted in: the state
      after every entry before it had its turn. */
  function StateBefore<S, E, A>(s: S, q: seq<E>, i: nat, ready: (S, E) -> Option<A>, run: (S, E, A) -> (S, bool)): S
    requires i <= |q|
    decreases i
  {
    if i == 0 then s else Step(StateBefore(s, q, i - 1, ready, run), q[i - 1], ready, run).0
  }

  /** The entry at position `i` stays: it was not ready in its turn, or its
      `fn` asked to stay. */
  predicate Stays<S, E, A>(s: S, q: seq<E>, i: nat, ready: (S, E) -> Option<A>, run: (S, E, A) -> (S, bool))
    requires i < |q|
  {
    Step(StateBefore(s, q, i, ready, run), q[i], ready, run).1
  }

  /** The positions below `n` whose entry stays, in increasing order. */
  function Positions<S, E, A>(s: S, q: seq<E>, n: nat, ready: (S, E) -> Option<A>, run: (S, E, A) -> (S, bool)): (r: seq<nat>)
    requires n <= |q|
    ensures forall j :: 0 <= j < |r| ==> r[j] < n
    ensures forall j, k :: 0 <= j < k < |r| ==> r[j] < r[k]
    ensures forall i :: 0 <= i < n ==> (i in r <==> Stays(s, q, i, ready, run))
    decreases n
  {
    if n == 0 then []
    else Positions(s, q, n - 1, ready, run) + (if Stays(s, q, n - 1, ready, run) then [n - 1] else [])
  }

  /** A prefix of the queue sees the same states as the whole queue. */
  lemma {:induction false} StateBeforePrefix<S, E, A>(s: S, q: seq<E>, m: nat, i: nat, ready: (S, E) -> Option<A>, run: (S, E, A) -> (S, bool))
    requires i <= m <= |q|
    ensures StateBefore(s, q[..m], i, ready, run) == StateBefore(s, q, i, ready, run)
    decreases i
  {
    if i > 0 {
      StateBeforePrefix(s, q, m, i - 1, ready, run);
      assert q[..m][i - 1] == q[i - 1];
    }
  }

  /** A prefix of the queue keeps the same entries below its length. */
  lemma {:induction false} PositionsPrefix<S, E, A>(s: S, q: seq<E>, m: nat, n: nat, ready: (S, E) -> Option<A>, run: (S, E, A) -> (S, bool))
    requires n <= m <= |q|
    ensures Positions(s, q[..m], n, ready, run) == Positions(s, q, n, ready, run)
    decreases n
  {
    if n > 0 {
      PositionsPrefix(s, q, m, n - 1, ready, run);
      StateBeforePrefix(s, q, m, n - 1, ready, run);
      assert q[..m][n - 1] == q[n - 1];
      var stays := Stays(s, q, n - 1, ready, run);
      assert Stays(s, q[..m], n - 1, ready, run) == stays;
      calc {
        Positions(s, q[..m], n, ready, run);
        Positions(s, q[..m], n - 1, ready, run) + (if stays then [n - 1] else []);
        Positions(s, q, n - 1, ready, run) + (if stays then [n - 1] else []);
        Positions(s, q, n, ready, run);
      }
    }
  }

  /** Flushing a queue with one more entry at the end: the shorter queue is
      flushed first, then the last entry takes its turn. */
  lemma {:induction false} FlushSnoc<S, E, A>(s: S, q: seq<E>, e: E, ready: (S, E) -> Option<A>, run: (S, E, A) -> (S, bool))
    ensures var (t, rest) := Flush(s, q, ready, run);
      var (u, keep) := Step(t, e, ready, run);
      Flush(s, q + [e], ready, run) == (u, if keep then rest + [e] else rest)
    decreases |q|
  {
    if |q| == 0 {
      assert q + [e] == [e] && [e][0] == e && [e][1..] == [];
      var (u, keep) := Step(s, e, ready, run);
      assert Flush(u, [], ready, run) == (u, []);
      assert [e] + [] == [e] && [] + [e] == [e];
      assert Flush(s, [e], ready, run) == (u, if keep then [e] else []);
    } else {
      assert (q + [e])[0] == q[0];
      assert (q + [e])[1..] == q[1..] + [e];
      var s1 := Step(s, q[0], ready, run).0;
      FlushSnoc(s1, q[1..], e, ready, run);
      var (t, rest) := Flush(s1, q[1..], ready, run);
      assert ([q[0]] + rest) + [e] == [q[0]] + (rest + [e]);
    }
  }

  /** What a flush leaves: the state after every entry had its turn, and
      exactly the entries that stayed in theirs, in queue order. An entry
      survives if and only if it was not ready or its `fn` asked to stay. */
  lemma {:induction false} FlushSurvivors<S, E, A>(s: S, q: seq<E>, ready: (S, E) -> Option<A>, run: (S, E, A) -> (S, bool))
    ensures var r := Flush(s, q, ready, run);
      var p := Positions(s, q, |q|, ready, run);
      r.0 == StateBefore(s, q, |q|, ready, run) &&
      |r.1| == |p| && forall j :: 0 <= j < |p| ==> r.1[j] == q[p[j]]
    decreases |q|
  {
    var n := |q|;
    if n > 0 {
      var q' := q[..n - 1];
      assert q == q' + [q[n - 1]];
      FlushSurvivors(s, q', ready, run);
      FlushSnoc(s, q', q[n - 1], ready, run);
      StateBeforePrefix(s, q, n - 1, n - 1, ready, run);
      PositionsPrefix(s, q, n - 1, n - 1, ready, run);
      var p' := Positions(s, q', n - 1, ready, run);
      forall j | 0 <= j < |p'| ensures q'[p'[j]] == q[p'[j]] { }
    }
  }
}

=== FILE: gqltype.dfy ===
/** GraphQL type references (the graphql-js type objects, reduced to what the
    augmenter inspects) and the wrapper utilities of lib/utils.js. The List
    and Non-Null wrappers follow sections 3.11 and 3.12 of the GraphQL
    specification (October 2021). */
module GqlType {

  /** What `instanceof` distinguishes on a named type. `AbstractKind` stands for
      interfaces and unions, which are neither input types nor object types. */
  datatype Kind = ScalarKind | EnumKind | ObjectKind | InputObjectKind | AbstractKind

  datatype GType =
    | Named(name: string, kind: Kind)
    | List(ofType: GType)
    | NonNull(ofType: GType)

  /** One wrapper layer, outermost first. */
  datatype Wrapper = ListW | NonNullW

  /** graphql-js `getNamedType`. */
  function NamedOf(t: GType): (r: GType)
    ensures r.Named?
  {
    match t
    case Named(_, _) => t
    case List(u) => NamedOf(u)
    case NonNull(u) => NamedOf(u)
  }

  /** graphql-js `getNullableType`: strips one Non-Null layer. */
  function Nullable(t: GType): GType {
    if t.NonNull? then t.ofType else t
  }

  /** graphql-js `isInputType` on a named type: scalars, enums and input objects. */
  predicate IsInputKind(k: Kind) {
    k == ScalarKind || k == EnumKind || k == InputObjectKind
  }

  /** `isInputType(t)`: the named type underneath is an input kind. */
  predicate IsInputType(t: GType) {
    IsInputKind(NamedOf(t).kind)
  }

  /** Section 3.12 of the GraphQL specification: a Non-Null type may not wrap another Non-Null type. */
  predicate Valid(t: GType) {
    match t
    case Named(_, _) => true
    case List(u) => Valid(u)
    case NonNull(u) => !u.NonNull? && Valid(u)
  }

  /** The wrapper layers of a type, outermost first. */
  function Wrappers(t: GType): seq<Wrapper> {
    match t
    case Named(_, _) => []
    case List(u) => [ListW] + Wrappers(u)
    case NonNull(u) => [NonNullW] + Wrappers(u)
  }

  /** Applies wrapper layers, outermost first, around a type. */
  function Rebuild(ws: seq<Wrapper>, inner: GType): GType
    decreases |ws|
  {
    if |ws| == 0 then inner
    else if ws[0] == ListW then List(Rebuild(ws[1..], inner))
    else NonNull(Rebuild(ws[1..], inner))
  }

  /** A type is its wrapper layers around its named type. */
  lemma {:induction false} RebuildWrappers(t: GType)
    ensures Rebuild(Wrappers(t), NamedOf(t)) == t
  {
    match t
    case Named(_, _) =>
    case List(u) =>
      RebuildWrappers(u);
      assert Wrappers(t)[1..] == Wrappers(u);
    case NonNull(u) =>
      RebuildWrappers(u);
      assert Wrappers(t)[1..] == Wrappers(u);
  }

  /** lib/utils.js `wrapNonNullAndListType`: puts `target` under the same
      List / Non-Null layers as `reference`. */
  function WrapLike(target: GType, reference: GType): (r: GType)
    ensures Wrappers(r) == Wrappers(reference) + Wrappers(target)
    ensures NamedOf(r) == NamedOf(target)
  {
    match reference
    case List(u) =>
      var r := List(WrapLike(target, u));
      var a, b := Wrappers(u), Wrappers(target);
      assert Wrappers(r) == [ListW] + (a + b);
      assert [ListW] + (a + b) == ([ListW] + a) + b;
      r
    case NonNull(u) =>
      var r := NonNull(WrapLike(target, u));
      var a, b := Wrappers(u), Wrappers(target);
      assert Wrappers(r) == [NonNullW] + (a + b);
      assert [NonNullW] + (a + b) == ([NonNullW] + a) + b;
      r
    case Named(_, _) => target
  }

  /** With a named target the result is the reference's wrapper sequence
      around the target, and nothing else. */
  lemma {:induction false} WrapLikeIsRebuild(target: GType, reference: GType)
    requires target.Named?
    ensures WrapLike(target, reference) == Rebuild(Wrappers(reference), target)
  {
    var r := WrapLike(target, reference);
    RebuildWrappers(r);
    assert Wrappers(target) == [];
    assert Wrappers(r) == Wrappers(reference);
    assert NamedOf(r) == target;
  }

  /** Re-wrapping with a named target is idempotent, whatever named type the
      first wrapping used. */
  lemma WrapLikeIdempotent(target: GType, other: GType, reference: GType)
    requires target.Named? && other.Named?
    ensures WrapLike(target, WrapLike(other, reference)) == WrapLike(target, reference)
  {
    WrapLikeIsRebuild(target, WrapLike(other, reference));
    WrapLikeIsRebuild(target, reference);
    assert Wrappers(WrapLike(other, reference)) == Wrappers(reference) + [];
  }

  /** Wrapping a named target like a valid reference gives a valid type. */
  lemma {:induction false} WrapLikeValid(target: GType, reference: GType)
    requires target.Named? && Valid(reference)
    ensures Valid(WrapLike(target, reference))
  {
    match reference
    case Named(_, _) =>
    case List(u) => WrapLikeValid(target, u);
    case NonNull(u) => WrapLikeValid(target, u);
  }

  /** lib/utils.js `typeToString`. */
  function TypeToString(t: GType): string {
    match t
    case List(u) => "[" + TypeToString(u) + "]"
    case NonNull(u) => TypeToString(u) + "!"
    case Named(n, _) => n
  }

  /** A GraphQL name never contains the characters the type notation uses. */
  predicate PlainName(n: string) {
    forall i :: 0 <= i < |n| ==> n[i] != '[' && n[i] != ']' && n[i] != '!'
  }

  /** Reads the notation `typeToString` writes back into a type whose named
      type has kind `k`. */
  function ParseType(s: string, k: Kind): GType
    decreases |s|
  {
    if |s| > 0 && s[|s| - 1] == '!' then NonNull(ParseType(s[..|s| - 1], k))
    else if |s| >= 2 && s[0] == '[' && s[|s| - 1] == ']' then List(ParseType(s[1..|s| - 1], k))
    else Named(s, k)
  }

  /** `typeToString` loses nothing but the kind of the named type: renders
      List as `[..]`, Non-Null as `..!` and named types by name. */
  lemma {:induction false} TypeToStringRoundTrip(t: GType)
    requires PlainName(NamedOf(t).name)
    ensures ParseType(TypeToString(t), NamedOf(t).kind) == t
  {
    match t
    case Named(n, k) =>
      if |n| > 0 {
        assert n[|n| - 1] != '!';
        assert n[0] != '[';
      }
    case List(u) =>
      TypeToStringRoundTrip(u);
      var s := TypeToString(t);
      assert s[1..|s| - 1] == TypeToString(u);
    case NonNull(u) =>
      TypeToStringRoundTrip(u);
      var s := TypeToString(t);
      assert s[..|s| - 1] == TypeToString(u);
  }

  /** Two types with plain names and the same named kind render alike only
      if they are equal. */
  lemma TypeToStringInjective(a: GType, b: GType)
    requires PlainName(NamedOf(a).name) && PlainName(NamedOf(b).name)
    requires NamedOf(a).kind == NamedOf(b).kind
    requires TypeToString(a) == TypeToString(b)
    ensures a == b
  {
    TypeToStringRoundTrip(a);
    TypeToStringRoundTrip(b);
  }

  /** ASCII upper-casing of one character. */
  function Upper(c: char): char {
    if 'a' <= c <= 'z' then (c as int - 32) as char else c
  }

  /** lib/utils.js `capitalize`: upper-cases the first character only. The
      source throws on the empty string; here it is returned unchanged. */
  function Capitalize(s: string): (r: string)
    ensures |r| == |s|
    ensures |s| > 0 ==> r[0] == Upper(s[0]) && r[1..] == s[1..]
  {
    if |s| == 0 then s else [Upper(s[0])] + s[1..]
  }

  /** Capitalizing twice is capitalizing once. */
  lemma CapitalizeIdempotent(s: string)
    ensures Capitalize(Capitalize(s)) == Capitalize(s)
  {
    if |s| > 0 { assert Upper(Upper(s[0])) == Upper(s[0]); }
  }

  /** The built-in scalars the augmenter names. */
  const StringType := Named("String", ScalarKind)
  const IntType := Named("Int", ScalarKind)
  const BooleanType := Named("Boolean", ScalarKind)
  const JSONObjectType := Named("JSONObject", ScalarKind)
}

=== FILE: libcommon.dfy ===
/** The helpers of `SchemaAugmenter` in lib/directives/common.js: the
    directive-argument whitelist, the get-or-create type helpers (which,
    unlike those of lib/utils.js, re-stamp their metadata on every call),
    the response type, and the batch / sort / page argument sets. */
module LibCommon {
  import opened Outcomes
  import opened GqlType
  import opened JsValue
  import opened SchemaModel
  import LibConfig
  import LibUtils

  const RootDirectiveArgs: set<string> := {"type", "response", "cursor", "batchArgs", "sort", "page", "pageSize"}
  const TypeDirectiveArgs: set<string> := {"as", "args", "argsAs", "op", "opInclude", "opExclude", "key",
    "required", "result", "resultAs", "resultArgs", "batchArgs", "sort", "page", "pageSize"}

  /** The first argument name outside both whitelists, if any. */
  function FirstUnknown(keys: seq<string>): (r: Option<string>)
    ensures r.None? <==> forall i :: 0 <= i < |keys| ==> keys[i] in RootDirectiveArgs + TypeDirectiveArgs
    ensures r.Some? ==> r.value in keys && r.value !in RootDirectiveArgs + TypeDirectiveArgs
    decreases |keys|
  {
    if |keys| == 0 then None
    else if keys[0] !in RootDirectiveArgs && keys[0] !in TypeDirectiveArgs then Some(keys[0])
    else
      var r := FirstUnknown(keys[1..]);
      assert forall i :: 1 <= i < |keys| ==> keys[i] == keys[1..][i - 1];
      r
  }

  /** `validateDirectiveArgs`: passes iff every argument is in one of the two whitelists. */
  function ValidateDirectiveArgs(mode: string, keys: seq<string>): (r: Check)
    ensures r.Pass? <==> forall i :: 0 <= i < |keys| ==> keys[i] in RootDirectiveArgs + TypeDirectiveArgs
    ensures r.Fail? ==> r.error.ConfigError?
  {
    match FirstUnknown(keys)
    case None => Pass
    case Some(k) => Fail(ConfigError("@" + mode + "(" + k + ": ...) is unknown"))
  }

  /** common.js `ensureInputType(typeName, mode)`: get-or-create of
      `T + Cap(mode) + Input`, then the input tag, base name and mode are
      written whether or not the type was new. */
  function EnsureInputType(s: Schema, typeName: string, mode: string): (r: (Schema, TypeDef))
    ensures r.1.name == LibUtils.InputTypeName(typeName, mode)
    ensures r.1.meta.tag == TypeInputTag && r.1.meta.baseName == Some(typeName) && r.1.meta.mode == Some(mode)
    ensures LookupType(r.0, r.1.name) == Some(r.1)
    ensures LookupType(s, r.1.name).Some? ==>
      var old_ := LookupType(s, r.1.name).value;
      r.1.kind == old_.kind && r.1.fields == old_.fields && r.1.inputFields == old_.inputFields
    ensures LookupType(s, r.1.name).None? ==> r.1.kind == InputObjectKind && r.1.inputFields == [] && r.1.fields == []
    ensures forall n :: n != r.1.name ==> LookupType(r.0, n) == LookupType(s, n)
    ensures r.0.query == s.query && r.0.mutation == s.mutation && r.0.delayed == s.delayed
  {
    var name := LibUtils.InputTypeName(typeName, mode);
    var (s1, t) := EnsureType(s, name, n => NewInputType(n, [], NoTypeMeta));
    var t2 := t.(meta := t.meta.(tag := TypeInputTag, baseName := Some(typeName), mode := Some(mode)));
    (PutType(s1, t2), t2)
  }

  /** Re-stamping changes metadata only: every field list is kept. */
  lemma EnsureInputTypeKeepsFields(s: Schema, typeName: string, mode: string)
    ensures KeepsFields(s, EnsureInputType(s, typeName, mode).0)
  {
  }

  /** common.js `ensureResultType(type, mode)`, the object-type counterpart. */
  function EnsureResultType(s: Schema, typeName: string, mode: string): (r: (Schema, TypeDef))
    ensures r.1.name == LibUtils.ResultTypeName(typeName, mode)
    ensures r.1.meta.tag == TypeResultTag && r.1.meta.baseName == Some(typeName) && r.1.meta.mode == Some(mode)
    ensures LookupType(r.0, r.1.name) == Some(r.1)
    ensures LookupType(s, r.1.name).Some? ==>
      var old_ := LookupType(s, r.1.name).value;
      r.1.kind == old_.kind && r.1.fields == old_.fields && r.1.inputFields == old_.inputFields
    ensures LookupType(s, r.1.name).None? ==> r.1.kind == ObjectKind && r.1.fields == [] && r.1.inputFields == []
    ensures forall n :: n != r.1.name ==> LookupType(r.0, n) == LookupType(s, n)
    ensures r.0.query == s.query && r.0.mutation == s.mutation && r.0.delayed == s.delayed
  {
    var name := LibUtils.ResultTypeName(typeName, mode);
    var (s1, t) := EnsureType(s, name, n => NewObjectType(n, [], NoTypeMeta));
    var t2 := t.(meta := t.meta.(tag := TypeResultTag, baseName := Some(typeName), mode := Some(mode)));
    (PutType(s1, t2), t2)
  }

  lemma EnsureResultTypeKeepsFields(s: Schema, typeName: string, mode: string)
    ensures KeepsFields(s, EnsureResultType(s, typeName, mode).0)
  {
  }

  /** Re-stamping makes the helpers idempotent as a whole. */
  lemma EnsureInputTypeIdempotent(s: Schema, typeName: string, mode: string)
    ensures var (s1, t1) := EnsureInputType(s, typeName, mode);
      EnsureInputType(s1, typeName, mode) == (s1, t1)
  {
    var (s1, t1) := EnsureInputType(s, typeName, mode);
    var (s2, t) := EnsureType(s1, t1.name, n => NewInputType(n, [], NoTypeMeta));
    assert t == t1;
    PutTypeSame(s2, t1);
  }

  lemma EnsureResultTypeIdempotent(s: Schema, typeName: string, mode: string)
    ensures var (s1, t1) := EnsureResultType(s, typeName, mode);
      EnsureResultType(s1, typeName, mode) == (s1, t1)
  {
    var (s1, t1) := EnsureResultType(s, typeName, mode);
    var (s2, t) := EnsureType(s1, t1.name, n => NewObjectType(n, [], NoTypeMeta));
    assert t == t1;
    PutTypeSame(s2, t1);
  }

  /** `T + Cap(mode) + [Tailable] + Response`. */
  function ResponseTypeName(typeName: string, mode: string, cursor: bool): (r: string)
    ensures |r| == |typeName| + |mode| + (if cursor then 8 else 0) + 8
    ensures r[..|typeName|] == typeName && r[|r| - 8..] == "Response"
    ensures cursor ==> r[|r| - 16..] == "TailableResponse"
  {
    var r := typeName + Capitalize(mode) + (if cursor then "Tailable" else "") + "Response";
    assert r[..|typeName|] == typeName;
    r
  }

  function ResponseFields(fieldType: GType, cursor: bool): seq<Field> {
    [Field(LibConfig.FieldResults, fieldType, [], NoFieldMeta)]
    + (if cursor then [Field(LibConfig.FieldCursor, StringType, [], NoFieldMeta)] else [])
    + [Field(LibConfig.FieldCount, IntType, [], NoFieldMeta),
       Field(LibConfig.FieldDebug, JSONObjectType, [], NoFieldMeta)]
  }

  /** `ensureResponseType(fieldType, mode)`: a response object type carrying
      `results` of the field's type, `cursor` when asked for, `count` and
      `debug`; tagged when it is created. */
  function EnsureResponseType(s: Schema, fieldType: GType, mode: string, cursor: bool): (r: (Schema, TypeDef))
    ensures r.1.name == ResponseTypeName(NamedOf(fieldType).name, mode, cursor)
    ensures LookupType(r.0, r.1.name) == Some(r.1)
    ensures LookupType(s, r.1.name).None? ==>
      r.1.kind == ObjectKind && r.1.meta.tag == ResponseTag && r.1.meta.baseName == Some(NamedOf(fieldType).name)
      && FindField(r.1, LibConfig.FieldResults) == Some(Field(LibConfig.FieldResults, fieldType, [], NoFieldMeta))
    ensures LookupType(s, r.1.name).Some? ==> r == (s, LookupType(s, r.1.name).value)
    ensures forall n :: n != r.1.name ==> LookupType(r.0, n) == LookupType(s, n)
    ensures r.0.query == s.query && r.0.mutation == s.mutation && r.0.delayed == s.delayed
  {
    var typeName := NamedOf(fieldType).name;
    EnsureType(s, ResponseTypeName(typeName, mode, cursor),
      n => NewObjectType(n, ResponseFields(fieldType, cursor), TypeMeta(ResponseTag, Some(typeName), Some(mode), None)))
  }

  /** The batch argument: `filters` for the query directives, `inputs` for the mutation ones. */
  function BatchArg(isQuery: bool, inputType: string): Augment {
    if isQuery then Augment(LibConfig.ArgFilters, List(NonNull(Named(inputType, InputObjectKind))), FilterFilters, None)
    else Augment(LibConfig.ArgInputs, List(NonNull(Named(inputType, InputObjectKind))), InputInputs, None)
  }

  const SortInputName := Capitalize(LibConfig.ArgSort) + "Input"

  function SortInputDef(): TypeDef {
    NewInputType(SortInputName,
      [Augment("by", NonNull(StringType), Untagged, None), Augment("desc", BooleanType, Untagged, Some(Bool(false)))],
      TypeMeta(SortInputTag, None, None, None))
  }

  /** The `sort: [SortInput!]` argument of `augmentSortForField`, with the
      `SortInput` type get-or-created (an existing one is kept as is). */
  function SortAugment(s: Schema): (r: (Schema, Augment))
    ensures r.1.name == LibConfig.ArgSort
    ensures LookupType(r.0, SortInputName).Some?
    ensures LookupType(s, SortInputName).Some? ==> r.0 == s
    ensures forall n :: n != SortInputName ==> LookupType(r.0, n) == LookupType(s, n)
    ensures r.0.query == s.query && r.0.mutation == s.mutation && r.0.delayed == s.delayed
  {
    var (s1, t) := EnsureType(s, SortInputName, n => SortInputDef());
    (s1, Augment(LibConfig.ArgSort, List(NonNull(Named(t.name, t.kind))), SortSort, None))
  }

  /** `augmentSortForField` on an argument list: the `sort` argument appended
      at most once, after the old ones. */
  function AugmentSort(s: Schema, args: seq<Augment>): (r: (Schema, seq<Augment>))
    ensures LookupType(r.0, SortInputName).Some?
    ensures LookupType(s, SortInputName).Some? ==> r.0 == s
    ensures Names(r.1) == Names(args) + {LibConfig.ArgSort}
    ensures forall n :: n != SortInputName ==> LookupType(r.0, n) == LookupType(s, n)
    ensures r.0.query == s.query && r.0.mutation == s.mutation && r.0.delayed == s.delayed
    ensures HasName(r.1, LibConfig.ArgSort)
    ensures |args| <= |r.1| <= |args| + 1 && r.1[..|args|] == args
  {
    var (s1, a) := SortAugment(s);
    var r := AppendAbsent(args, [a]);
    assert a.name in Names([a]);
    assert Names([a]) == {a.name};
    HasNameIffInNames(r, a.name);
    (s1, r)
  }

  /** The two arguments of `augmentPageForField`: `page` with default 1 and
      the page size, with a default only when the configured size is positive. */
  function PageArgs(pageSize: Option<int>): (r: seq<Augment>)
    ensures |r| == 2 && r[0].name == LibConfig.ArgPage && r[1].name == LibConfig.ArgPageSize
    ensures r[0].defaultValue == Some(Num(1)) && r[0].tag == FilterPagination && r[1].tag == FilterPagination
    ensures r[1].defaultValue.Some? <==> pageSize.Some? && pageSize.value > 0
    ensures r[1].defaultValue.Some? ==> r[1].defaultValue.value == Num(pageSize.value)
  {
    [Augment(LibConfig.ArgPage, IntType, FilterPagination, Some(Num(1))),
     Augment(LibConfig.ArgPageSize, IntType, FilterPagination,
       if pageSize.Some? && pageSize.value > 0 then Some(Num(pageSize.value)) else None)]
  }
}

=== FILE: libconfig.dfy ===
/** The constants the newer generation reads from lib/config.js. That file is
    not part of this model: the values below are stand-ins, and the model
    relies only on the facts proved in `Distinct` (the lib default operator
    table is a parameter of `LibQuery.EligibleOperators` instead). */
module LibConfig {

  const ModeQuery := "query"
  const ModeInsert := "insert"
  const ModeUpdate := "update"
  const ModeUpsert := "upsert"
  const ModeRemove := "remove"
  const ModeMutate := "mutate"
  const ModeResult := "result"

  const ArgFilters := "filters"
  const ArgInputs := "inputs"
  const ArgSort := "sort"
  const ArgCursor := "cursor"
  const ArgPage := "page"
  const ArgPageSize := "pageSize"

  const FieldResults := "results"
  const FieldCursor := "cursor"
  const FieldCount := "count"
  const FieldDebug := "debug"

  /** What the model uses of the constants: the modes are non-empty, and the
      argument names the resolver tells apart are distinct. */
  lemma Distinct()
    ensures |ModeQuery| > 0 && |ModeInsert| > 0 && |ModeMutate| > 0 && |ModeResult| > 0
    ensures |ArgSort| > 0
    ensures ArgPage != ArgPageSize
    ensures ModeInsert != ModeQuery && ModeInsert != ModeMutate
  {
  }
}

=== FILE: libdeferred.dfy ===
/** The deferred actions the lib visitor queues (lib/directives/common.js),
    run through the queue of `Deferral`: what makes each entry ready
    (its `argsFn`) and what it does once ready (its `fn`). */
module LibDeferred {
  import opened Outcomes
  import opened GqlType
  import opened SchemaModel
  import LibConfig
  import LibUtils
  import LibCommon
  import LibQuery
  import Deferral

  /** The arguments an `argsFn` hands to its `fn`: the root fields found, or
      the modes of a type field whose result type wants the arguments. */
  datatype Readiness = Roots(refs: seq<LibUtils.FieldRef>) | Modes(modes: seq<string>)

  /** `_augmentType` of the named type stored under `name` (untagged when absent). */
  function TagOf(s: Schema, name: string): TypeTag {
    match LookupType(s, name)
    case None => NoTag
    case Some(t) => t.meta.tag
  }

  /** The mode a type-field directive files its result arguments under:
      `resultAs || as || mode`. */
  function ResultModeOf(m: string, a: DirArgs): string {
    LibQuery.Pick(a.resultAs, LibQuery.Pick(a.asMode, m))
  }

  /** The modes of `_augmentedTargetsByMode` asking for `resultArgs` whose
      result mode is `mode`, in insertion order. */
  function ResultArgModes(targets: seq<(string, DirArgs)>, mode: string): (r: seq<string>)
    ensures forall m :: m in r <==> exists i :: 0 <= i < |targets| && targets[i].0 == m && targets[i].1.resultArgs && ResultModeOf(targets[i].0, targets[i].1) == mode
    decreases |targets|
  {
    if |targets| == 0 then []
    else
      var rest := ResultArgModes(targets[1..], mode);
      assert forall i :: 1 <= i < |targets| ==> targets[i] == targets[1..][i - 1];
      var (m, a) := targets[0];
      if a.resultArgs && ResultModeOf(m, a) == mode then [m] + rest else rest
  }

  /** The `argsFn` of each entry. */
  function Ready(s: Schema, e: Deferred): (r: Option<Readiness>)
    ensures (e.ReplaceResultType? || e.AugmentRootArgs?) ==>
      (r.Some? <==> |LibUtils.FindRootTargets(s, e.typeName, e.mode)| > 0) &&
      (r.Some? ==> r.value == Roots(LibUtils.FindRootTargets(s, e.typeName, e.mode)))
    ensures e.AugmentResultArgs? && r.Some? ==> r.value.Modes? && |r.value.modes| > 0
  {
    match e
    case ReplaceResultType(t, m, _) =>
      var refs := LibUtils.FindRootTargets(s, t, m);
      if |refs| > 0 then Some(Roots(refs)) else None
    case AugmentRootArgs(t, m, _) =>
      var refs := LibUtils.FindRootTargets(s, t, m);
      if |refs| > 0 then Some(Roots(refs)) else None
    case AugmentResultArgs(o, n, m, _) =>
      match GetField(s, o, n)
      case None => None
      case Some(f) =>
        var ms := ResultArgModes(f.meta.targetsByMode, m);
        if |ms| > 0 then Some(Modes(ms)) else None
  }

  /** The `fn` of each entry, with whether it stays queued: the root-field
      actions return `undefined` (leave), the result-argument action `true` (stay). */
  function Run(s: Schema, e: Deferred, a: Readiness): (r: (Schema, bool))
    ensures r.1 <==> e.AugmentResultArgs?
  {
    match e
    case ReplaceResultType(_, _, rt) => (if a.Roots? then ReplaceAll(s, a.refs, rt) else s, false)
    case AugmentRootArgs(_, _, augs) => (if a.Roots? then AppendArgsAll(s, a.refs, augs) else s, false)
    case AugmentResultArgs(o, n, _, augs) => (if a.Modes? then ResultArgsAll(s, o, n, a.modes, augs) else s, true)
  }

  // ---- appending arguments to fields ---------------------------------------

  /** `augmentFieldArgs` on field `name` of `owner`: the augments go on the
      argument list that field holds, so every field holding the same list
      gets them too; a missing field is left alone. */
  function AppendArgs(s: Schema, owner: string, name: string, augs: seq<Augment>): Schema {
    match GetField(s, owner, name)
    case None => s
    case Some(f) =>
      var (o, n) := ArgsHome(owner, f);
      AppendShared(s, o, n, augs)
  }

  /** The field exists and its arguments include every name of `names`. */
  predicate HasArgs(s: Schema, owner: string, name: string, names: set<string>) {
    GetField(s, owner, name).Some? && names <= Names(GetField(s, owner, name).value.args)
  }

  /** Appending arguments to one field: that field, and every field holding
      the same list, gains the names; every field keeps what it had, and a
      field holding another list is untouched. */
  lemma AppendArgsEffect(s: Schema, owner: string, name: string, augs: seq<Augment>, o: string, n: string, names: set<string>)
    ensures HasArgs(s, o, n, names) ==> HasArgs(AppendArgs(s, owner, name, augs), o, n, names)
    ensures GetField(s, owner, name).Some? ==> HasArgs(AppendArgs(s, owner, name, augs), owner, name, Names(augs))
    ensures GetField(s, owner, name).Some? ==>
      var h := ArgsHome(owner, GetField(s, owner, name).value);
      (Holds(s, o, n, h.0, h.1) ==> HasArgs(AppendArgs(s, owner, name, augs), o, n, Names(augs))) &&
      (!Holds(s, o, n, h.0, h.1) ==> GetField(AppendArgs(s, owner, name, augs), o, n) == GetField(s, o, n))
    ensures GetField(s, o, n).Some? ==>
      GetField(AppendArgs(s, owner, name, augs), o, n).Some? &&
      GetField(AppendArgs(s, owner, name, augs), o, n).value.(args := GetField(s, o, n).value.args) == GetField(s, o, n).value
    ensures GetField(s, owner, name).None? ==> AppendArgs(s, owner, name, augs) == s
  {
    match GetField(s, owner, name)
    case None =>
    case Some(f) =>
      FieldNamed(s, owner, name);
      var (ho, hn) := ArgsHome(owner, f);
      AppendSharedGet(s, ho, hn, augs, o, n);
      AppendSharedGet(s, ho, hn, augs, owner, name);
  }

  /** The field found under a name carries that name. */
  lemma FieldNamed(s: Schema, owner: string, name: string)
    ensures GetField(s, owner, name).Some? ==> GetField(s, owner, name).value.name == name
  {
  }

  /** The `fn` of `applyOnRootTypeFieldByTypeMode(..., augmentFieldArgs)`. */
  function AppendArgsAll(s: Schema, refs: seq<LibUtils.FieldRef>, augs: seq<Augment>): Schema
    decreases |refs|
  {
    if |refs| == 0 then s
    else AppendArgsAll(AppendArgs(s, refs[0].owner, refs[0].name, augs), refs[1..], augs)
  }

  /** Every root field found receives the arguments, and nothing is lost elsewhere. */
  lemma {:induction false} AppendArgsAllEffect(s: Schema, refs: seq<LibUtils.FieldRef>, augs: seq<Augment>)
    ensures forall o, n, names :: HasArgs(s, o, n, names) ==> HasArgs(AppendArgsAll(s, refs, augs), o, n, names)
    ensures forall i :: 0 <= i < |refs| && GetField(s, refs[i].owner, refs[i].name).Some? ==>
      HasArgs(AppendArgsAll(s, refs, augs), refs[i].owner, refs[i].name, Names(augs))
    decreases |refs|
  {
    if |refs| > 0 {
      var s1 := AppendArgs(s, refs[0].owner, refs[0].name, augs);
      forall o, n, names | HasArgs(s, o, n, names) ensures HasArgs(s1, o, n, names) {
        AppendArgsEffect(s, refs[0].owner, refs[0].name, augs, o, n, names);
      }
      AppendArgsEffect(s, refs[0].owner, refs[0].name, augs, refs[0].owner, refs[0].name, {});
      AppendArgsAllEffect(s1, refs[1..], augs);
      forall i | 0 <= i < |refs| && GetField(s, refs[i].owner, refs[i].name).Some?
        ensures HasArgs(AppendArgsAll(s, refs, augs), refs[i].owner, refs[i].name, Names(augs))
      {
        if i == 0 {
          assert HasArgs(s1, refs[0].owner, refs[0].name, Names(augs));
        } else {
          assert refs[i] == refs[1..][i - 1];
          assert HasArgs(s, refs[i].owner, refs[i].name, {});
          assert HasArgs(s1, refs[i].owner, refs[i].name, {});
        }
      }
    }
  }

  // ---- replacing root return types -------------------------------------------

  /** Puts the result type under the wrappers of field `f` of `owner`, unless
      the field already returns a `type.result` type. */
  function ReplaceIn(s: Schema, owner: string, f: Field, rt: string): Schema {
    if TagOf(s, NamedOf(f.ty).name) != TypeResultTag then
      PutField(s, owner, f.(ty := WrapLike(Named(rt, ObjectKind), f.ty)))
    else s
  }

  /** The `fn` of the result-type replacement for one root field: a field
      returning a response type has its `results` field replaced instead. */
  function ReplaceOne(s: Schema, ref: LibUtils.FieldRef, rt: string): Schema {
    match GetField(s, ref.owner, ref.name)
    case None => s
    case Some(f) =>
      var qt := NamedOf(f.ty).name;
      if TagOf(s, qt) == ResponseTag then
        match GetField(s, qt, LibConfig.FieldResults)
        case None => s
        case Some(rf) => ReplaceIn(s, qt, rf, rt)
      else ReplaceIn(s, ref.owner, f, rt)
  }

  function ReplaceAll(s: Schema, refs: seq<LibUtils.FieldRef>, rt: string): Schema
    decreases |refs|
  {
    if |refs| == 0 then s else ReplaceAll(ReplaceOne(s, refs[0], rt), refs[1..], rt)
  }

  /** `PutField` never changes which types exist or their tags. */
  lemma PutFieldKeepsTags(s: Schema, owner: string, f: Field, n: string)
    ensures TagOf(PutField(s, owner, f), n) == TagOf(s, n)
  {
    PutFieldKeepsTypes(s, owner, f, n);
  }

  /** A replaced root field keeps its List / Non-Null layers around the result type. */
  lemma ReplaceOnePlain(s: Schema, ref: LibUtils.FieldRef, rt: string)
    requires GetField(s, ref.owner, ref.name).Some?
    requires var f := GetField(s, ref.owner, ref.name).value;
      TagOf(s, NamedOf(f.ty).name) != ResponseTag && TagOf(s, NamedOf(f.ty).name) != TypeResultTag
    ensures var f := GetField(s, ref.owner, ref.name).value;
      var f1 := GetField(ReplaceOne(s, ref, rt), ref.owner, ref.name);
      f1.Some? && NamedOf(f1.value.ty) == Named(rt, ObjectKind) && Wrappers(f1.value.ty) == Wrappers(f.ty)
      && f1.value.args == f.args
  {
    var f := GetField(s, ref.owner, ref.name).value;
    FieldNamed(s, ref.owner, ref.name);
    GetFieldAfterPut(s, ref.owner, f.(ty := WrapLike(Named(rt, ObjectKind), f.ty)), ref.owner, ref.name);
    assert Wrappers(Named(rt, ObjectKind)) == [];
    assert Wrappers(f.ty) + [] == Wrappers(f.ty);
  }

  /** Once the result type carries its tag, replacing twice is replacing once:
      the `type.result` guard stops a second wrap. */
  lemma ReplaceOneIdempotent(s: Schema, ref: LibUtils.FieldRef, rt: string)
    requires TagOf(s, rt) == TypeResultTag
    ensures ReplaceOne(ReplaceOne(s, ref, rt), ref, rt) == ReplaceOne(s, ref, rt)
  {
    var s1 := ReplaceOne(s, ref, rt);
    match GetField(s, ref.owner, ref.name)
    case None =>
    case Some(f) =>
      FieldNamed(s, ref.owner, ref.name);
      var qt := NamedOf(f.ty).name;
      if TagOf(s, qt) == ResponseTag {
        match GetField(s, qt, LibConfig.FieldResults)
        case None =>
        case Some(rf) =>
          if TagOf(s, NamedOf(rf.ty).name) != TypeResultTag {
            FieldNamed(s, qt, LibConfig.FieldResults);
            var rf1 := rf.(ty := WrapLike(Named(rt, ObjectKind), rf.ty));
            assert LookupType(s, qt).Some?;
            GetFieldAfterPut(s, qt, rf1, ref.owner, ref.name);
            GetFieldAfterPut(s, qt, rf1, qt, LibConfig.FieldResults);
            PutFieldKeepsTags(s, qt, rf1, qt);
            PutFieldKeepsTags(s, qt, rf1, rt);
            assert GetField(s1, qt, LibConfig.FieldResults) == Some(rf1);
            if ref.owner == qt && ref.name == LibConfig.FieldResults {
              assert f == rf;
            } else {
              assert GetField(s1, ref.owner, ref.name) == Some(f);
            }
          }
      } else {
        if TagOf(s, qt) != TypeResultTag {
          var f1 := f.(ty := WrapLike(Named(rt, ObjectKind), f.ty));
          assert LookupType(s, ref.owner).Some?;
          GetFieldAfterPut(s, ref.owner, f1, ref.owner, ref.name);
          PutFieldKeepsTags(s, ref.owner, f1, rt);
          assert NamedOf(f1.ty) == Named(rt, ObjectKind);
        }
      }
  }

  // ---- result-type arguments --------------------------------------------

  /** The `fn` of the result-argument action: for each mode, get-or-create the
      result type of `owner` in that mode and, if it has the field, append the
      arguments to it. */
  function ResultArgsAll(s: Schema, owner: string, fname: string, modes: seq<string>, augs: seq<Augment>): Schema
    decreases |modes|
  {
    if |modes| == 0 then s
    else
      var (s1, rt) := LibCommon.EnsureResultType(s, owner, modes[0]);
      ResultArgsAll(AppendArgs(s1, rt.name, fname, augs), owner, fname, modes[1..], augs)
  }

  /** `EnsureResultType` keeps every field of every type. */
  lemma EnsureResultTypeKeepsFields(s: Schema, owner: string, mode: string, o: string, n: string)
    ensures GetField(s, o, n).Some? ==> GetField(LibCommon.EnsureResultType(s, owner, mode).0, o, n) == GetField(s, o, n)
  {
  }

  /** Each mode's result type that has the field receives the arguments, and
      so does every field holding the same list: the field it was built from
      and that field's result-type fields in the other modes. */
  lemma {:induction false} ResultArgsAllEffect(s: Schema, owner: string, fname: string, modes: seq<string>, augs: seq<Augment>)
    ensures forall o, n, names :: HasArgs(s, o, n, names) ==> HasArgs(ResultArgsAll(s, owner, fname, modes, augs), o, n, names)
    ensures forall i :: 0 <= i < |modes| && GetField(s, LibUtils.ResultTypeName(owner, modes[i]), fname).Some? ==>
      HasArgs(ResultArgsAll(s, owner, fname, modes, augs), LibUtils.ResultTypeName(owner, modes[i]), fname, Names(augs))
    ensures forall i, o, n :: 0 <= i < |modes| && SameList(s, LibUtils.ResultTypeName(owner, modes[i]), fname, o, n) ==>
      HasArgs(ResultArgsAll(s, owner, fname, modes, augs), o, n, Names(augs))
    decreases |modes|
  {
    if |modes| > 0 {
      var (s1, rt) := LibCommon.EnsureResultType(s, owner, modes[0]);
      var s2 := AppendArgs(s1, rt.name, fname, augs);
      var r := ResultArgsAll(s2, owner, fname, modes[1..], augs);
      forall o, n, names | HasArgs(s, o, n, names) ensures HasArgs(s2, o, n, names) {
        EnsureResultTypeKeepsFields(s, owner, modes[0], o, n);
        AppendArgsEffect(s1, rt.name, fname, augs, o, n, names);
      }
      ResultArgsAllEffect(s2, owner, fname, modes[1..], augs);
      assert Grows(s, s2) by {
        KeepsFieldsGrows(s, s1);
        AppendArgsGrows(s1, rt.name, fname, augs);
        GrowsTrans(s, s1, s2);
      }
      forall i, o, n | 0 <= i < |modes| && SameList(s, LibUtils.ResultTypeName(owner, modes[i]), fname, o, n)
        ensures HasArgs(r, o, n, Names(augs))
      {
        var rn := LibUtils.ResultTypeName(owner, modes[i]);
        var h := ArgsHome(rn, GetField(s, rn, fname).value);
        EnsureResultTypeKeepsFields(s, owner, modes[0], rn, fname);
        EnsureResultTypeKeepsFields(s, owner, modes[0], o, n);
        if i == 0 {
          AppendArgsEffect(s1, rt.name, fname, augs, o, n, Names(augs));
        } else {
          assert modes[i] == modes[1..][i - 1];
          GrowsHolds(s, s2, rn, fname, h.0, h.1);
          GrowsHolds(s, s2, o, n, h.0, h.1);
          assert SameList(s2, LibUtils.ResultTypeName(owner, modes[1..][i - 1]), fname, o, n);
        }
      }
      forall i | 0 <= i < |modes| && GetField(s, LibUtils.ResultTypeName(owner, modes[i]), fname).Some?
        ensures HasArgs(r, LibUtils.ResultTypeName(owner, modes[i]), fname, Names(augs))
      {
        var n := LibUtils.ResultTypeName(owner, modes[i]);
        EnsureResultTypeKeepsFields(s, owner, modes[0], n, fname);
        if i == 0 {
          AppendArgsEffect(s1, rt.name, fname, augs, n, fname, Names(augs));
        } else {
          assert modes[i] == modes[1..][i - 1];
          AppendArgsEffect(s1, rt.name, fname, augs, n, fname, {});
        }
      }
    }
  }

  // ---- what the deferred actions preserve -----------------------------------

  /** `g` is `f` after argument appends and type rewrites: the directive
      bookkeeping is the same and no argument name is lost. */
  predicate FieldGrows(f: Field, g: Field) {
    g.meta.target == f.meta.target && g.meta.targetsByMode == f.meta.targetsByMode && g.meta.argsOf == f.meta.argsOf &&
    Names(f.args) <= Names(g.args)
  }

  /** Every field of `s` is still in `t`, grown, and the root types are the same. */
  ghost predicate Grows(s: Schema, t: Schema) {
    t.query == s.query && t.mutation == s.mutation &&
    (forall n :: LookupType(s, n).Some? ==> LookupType(t, n).Some?) &&
    forall o, n :: GetField(s, o, n).Some? ==> GetField(t, o, n).Some? && FieldGrows(GetField(s, o, n).value, GetField(t, o, n).value)
  }

  /** Keeping every field list is growing. */
  lemma KeepsFieldsGrows(s: Schema, t: Schema)
    requires KeepsFields(s, t) && t.query == s.query && t.mutation == s.mutation
    ensures Grows(s, t)
  {
    forall o, n | GetField(s, o, n).Some? ensures GetField(t, o, n) == GetField(s, o, n) {
      KeepsFieldsGetField(s, t, o, n);
    }
  }

  lemma GrowsRefl(s: Schema)
    ensures Grows(s, s)
  {
  }

  lemma GrowsTrans(s: Schema, t: Schema, u: Schema)
    requires Grows(s, t) && Grows(t, u)
    ensures Grows(s, u)
  {
    forall o, n | GetField(s, o, n).Some?
      ensures GetField(u, o, n).Some? && FieldGrows(GetField(s, o, n).value, GetField(u, o, n).value)
    {
      assert GetField(t, o, n).Some?;
    }
  }

  /** Grown schemas keep every argument a field had. */
  lemma GrowsHasArgs(s: Schema, t: Schema, o: string, n: string, names: set<string>)
    requires Grows(s, t) && HasArgs(s, o, n, names)
    ensures HasArgs(t, o, n, names)
  {
    assert GetField(s, o, n).Some?;
  }

  /** Writing back a grown field grows the schema. */
  lemma PutFieldGrows(s: Schema, owner: string, f: Field)
    requires GetField(s, owner, f.name).Some? && FieldGrows(GetField(s, owner, f.name).value, f)
    ensures Grows(s, PutField(s, owner, f))
  {
    forall o, n | GetField(s, o, n).Some?
      ensures GetField(PutField(s, owner, f), o, n).Some? && FieldGrows(GetField(s, o, n).value, GetField(PutField(s, owner, f), o, n).value)
    {
      GetFieldAfterPut(s, owner, f, o, n);
    }
    forall n | LookupType(s, n).Some? ensures LookupType(PutField(s, owner, f), n).Some? {
      PutFieldKeepsTypes(s, owner, f, n);
    }
  }

  lemma AppendArgsGrows(s: Schema, owner: string, name: string, augs: seq<Augment>)
    ensures Grows(s, AppendArgs(s, owner, name, augs))
  {
    match GetField(s, owner, name)
    case None => GrowsRefl(s);
    case Some(f) =>
      var (ho, hn) := ArgsHome(owner, f);
      var r := AppendShared(s, ho, hn, augs);
      forall o, n | GetField(s, o, n).Some? ensures GetField(r, o, n).Some? && FieldGrows(GetField(s, o, n).value, GetField(r, o, n).value) {
        AppendSharedGet(s, ho, hn, augs, o, n);
      }
      forall n | LookupType(s, n).Some? ensures LookupType(r, n).Some? { AppendSharedTypes(s, ho, hn, augs, n); }
  }

  /** A field of a grown schema holds the list it held. */
  lemma GrowsHolds(s: Schema, t: Schema, o: string, n: string, ho: string, hn: string)
    requires Grows(s, t) && Holds(s, o, n, ho, hn)
    ensures Holds(t, o, n, ho, hn)
    ensures ArgsHome(o, GetField(t, o, n).value) == ArgsHome(o, GetField(s, o, n).value)
  {
    FieldNamed(s, o, n);
    FieldNamed(t, o, n);
  }

  lemma {:induction false} AppendArgsAllGrows(s: Schema, refs: seq<LibUtils.FieldRef>, augs: seq<Augment>)
    ensures Grows(s, AppendArgsAll(s, refs, augs))
    decreases |refs|
  {
    if |refs| == 0 { GrowsRefl(s); }
    else {
      var s1 := AppendArgs(s, refs[0].owner, refs[0].name, augs);
      AppendArgsGrows(s, refs[0].owner, refs[0].name, augs);
      AppendArgsAllGrows(s1, refs[1..], augs);
      GrowsTrans(s, s1, AppendArgsAll(s1, refs[1..], augs));
    }
  }

  lemma ReplaceOneGrows(s: Schema, ref: LibUtils.FieldRef, rt: string)
    ensures Grows(s, ReplaceOne(s, ref, rt))
  {
    GrowsRefl(s);
    match GetField(s, ref.owner, ref.name)
    case None =>
    case Some(f) =>
      FieldNamed(s, ref.owner, ref.name);
      var qt := NamedOf(f.ty).name;
      if TagOf(s, qt) == ResponseTag {
        match GetField(s, qt, LibConfig.FieldResults)
        case None =>
        case Some(rf) =>
          FieldNamed(s, qt, LibConfig.FieldResults);
          if TagOf(s, NamedOf(rf.ty).name) != TypeResultTag {
            PutFieldGrows(s, qt, rf.(ty := WrapLike(Named(rt, ObjectKind), rf.ty)));
          }
      } else if TagOf(s, qt) != TypeResultTag {
        PutFieldGrows(s, ref.owner, f.(ty := WrapLike(Named(rt, ObjectKind), f.ty)));
      }
  }

  lemma {:induction false} ReplaceAllGrows(s: Schema, refs: seq<LibUtils.FieldRef>, rt: string)
    ensures Grows(s, ReplaceAll(s, refs, rt))
    decreases |refs|
  {
    if |refs| == 0 { GrowsRefl(s); }
    else {
      var s1 := ReplaceOne(s, refs[0], rt);
      ReplaceOneGrows(s, refs[0], rt);
      ReplaceAllGrows(s1, refs[1..], rt);
      GrowsTrans(s, s1, ReplaceAll(s1, refs[1..], rt));
    }
  }

  lemma {:induction false} ResultArgsAllGrows(s: Schema, owner: string, fname: string, modes: seq<string>, augs: seq<Augment>)
    ensures Grows(s, ResultArgsAll(s, owner, fname, modes, augs))
    decreases |modes|
  {
    if |modes| == 0 { GrowsRefl(s); }
    else {
      var (s1, rt) := LibCommon.EnsureResultType(s, owner, modes[0]);
      KeepsFieldsGrows(s, s1);
      var s2 := AppendArgs(s1, rt.name, fname, augs);
      AppendArgsGrows(s1, rt.name, fname, augs);
      GrowsTrans(s, s1, s2);
      ResultArgsAllGrows(s2, owner, fname, modes[1..], augs);
      GrowsTrans(s, s2, ResultArgsAll(s2, owner, fname, modes[1..], augs));
    }
  }

  /** No deferred action removes a field, an argument, or a field's targets. */
  lemma RunGrows(s: Schema, e: Deferred, a: Readiness)
    ensures Grows(s, Run(s, e, a).0)
  {
    GrowsRefl(s);
    match e
    case ReplaceResultType(_, _, rt) => if a.Roots? { ReplaceAllGrows(s, a.refs, rt); }
    case AugmentRootArgs(_, _, augs) => if a.Roots? { AppendArgsAllGrows(s, a.refs, augs); }
    case AugmentResultArgs(o, n, _, augs) => if a.Modes? { ResultArgsAllGrows(s, o, n, a.modes, augs); }
  }

  lemma {:induction false} FlushGrows(s: Schema, q: seq<Deferred>)
    ensures Grows(s, Deferral.Flush(s, q, Ready, Run).0)
    decreases |q|
  {
    if |q| == 0 { GrowsRefl(s); }
    else {
      var s1 := Deferral.Step(s, q[0], Ready, Run).0;
      assert Grows(s, s1) by {
        match Ready(s, q[0])
        case None => GrowsRefl(s);
        case Some(a) => RunGrows(s, q[0], a);
      }
      FlushGrows(s1, q[1..]);
      GrowsTrans(s, s1, Deferral.Flush(s1, q[1..], Ready, Run).0);
    }
  }

  // ---- the two queues --------------------------------------------------

  /** `ensureApplyOnTarget(schema)`. */
  function FlushSchema(s: Schema): (r: Schema)
    ensures |Deferral.Queue(r.delayed)| <= |Deferral.Queue(s.delayed)|
    ensures SubseqOf(Deferral.Queue(r.delayed), Deferral.Queue(s.delayed))
  {
    var (t, rest) := Deferral.Flush(s, Deferral.Queue(s.delayed), Ready, Run);
    Deferral.StoreQueue(rest);
    t.(delayed := Deferral.Store(rest))
  }

  /** `applyOnTarget(schema, fn, argsFn)`: queue the entry, then flush. */
  function ApplyOnSchema(s: Schema, e: Deferred): Schema {
    FlushSchema(s.(delayed := Some(Deferral.Queue(s.delayed) + [e])))
  }

  /** `ensureApplyOnTarget(field)`: flushes the queue of field `fname` of `owner`. */
  function FlushField(s: Schema, owner: string, fname: string): Schema {
    match GetField(s, owner, fname)
    case None => s
    case Some(f) =>
      var (t, rest) := Deferral.Flush(s, Deferral.Queue(f.meta.delayed), Ready, Run);
      match GetField(t, owner, fname)
      case None => t
      case Some(g) => PutField(t, owner, g.(meta := g.meta.(delayed := Deferral.Store(rest))))
  }

  /** `applyOnTarget(typeField, fn, argsFn)`. */
  function ApplyOnField(s: Schema, owner: string, fname: string, e: Deferred): Schema {
    match GetField(s, owner, fname)
    case None => s
    case Some(g) => FlushField(PutField(s, owner, g.(meta := g.meta.(delayed := Some(Deferral.Queue(g.meta.delayed) + [e])))), owner, fname)
  }

  lemma FlushSchemaGrows(s: Schema)
    ensures Grows(s, FlushSchema(s))
  {
    FlushGrows(s, Deferral.Queue(s.delayed));
    var t := Deferral.Flush(s, Deferral.Queue(s.delayed), Ready, Run).0;
    assert forall o, n :: GetField(FlushSchema(s), o, n) == GetField(t, o, n);
    assert forall n :: LookupType(FlushSchema(s), n) == LookupType(t, n);
  }

  lemma ApplyOnSchemaGrows(s: Schema, e: Deferred)
    ensures Grows(s, ApplyOnSchema(s, e))
  {
    var s0 := s.(delayed := Some(Deferral.Queue(s.delayed) + [e]));
    assert forall o, n :: GetField(s0, o, n) == GetField(s, o, n);
    assert forall n :: LookupType(s0, n) == LookupType(s, n);
    FlushSchemaGrows(s0);
  }

  lemma FlushFieldGrows(s: Schema, owner: string, fname: string)
    ensures Grows(s, FlushField(s, owner, fname))
  {
    match GetField(s, owner, fname)
    case None => GrowsRefl(s);
    case Some(f) =>
      var t := Deferral.Flush(s, Deferral.Queue(f.meta.delayed), Ready, Run).0;
      FlushGrows(s, Deferral.Queue(f.meta.delayed));
      match GetField(t, owner, fname)
      case None =>
      case Some(g) =>
        FieldNamed(t, owner, fname);
        var rest := Deferral.Flush(s, Deferral.Queue(f.meta.delayed), Ready, Run).1;
        PutFieldGrows(t, owner, g.(meta := g.meta.(delayed := Deferral.Store(rest))));
        GrowsTrans(s, t, FlushField(s, owner, fname));
  }

  lemma ApplyOnFieldGrows(s: Schema, owner: string, fname: string, e: Deferred)
    ensures Grows(s, ApplyOnField(s, owner, fname, e))
  {
    match GetField(s, owner, fname)
    case None => GrowsRefl(s);
    case Some(g) =>
      FieldNamed(s, owner, fname);
      var s1 := PutField(s, owner, g.(meta := g.meta.(delayed := Some(Deferral.Queue(g.meta.delayed) + [e]))));
      PutFieldGrows(s, owner, g.(meta := g.meta.(delayed := Some(Deferral.Queue(g.meta.delayed) + [e]))));
      FlushFieldGrows(s1, owner, fname);
      GrowsTrans(s, s1, FlushField(s1, owner, fname));
  }

  /** A result-argument entry never leaves the queue of its field: whatever
      the queue holds, a queue of such entries survives every flush whole. */
  lemma {:induction false} ResultArgEntriesStay(s: Schema, q: seq<Deferred>)
    requires forall i :: 0 <= i < |q| ==> q[i].AugmentResultArgs?
    ensures Deferral.Flush(s, q, Ready, Run).1 == q
    decreases |q|
  {
    if |q| > 0 {
      assert Deferral.Step(s, q[0], Ready, Run).1 by {
        match Ready(s, q[0])
        case None =>
        case Some(a) => assert Run(s, q[0], a).1;
      }
      assert forall i :: 0 <= i < |q[1..]| ==> q[1..][i].AugmentResultArgs? by {
        forall i | 0 <= i < |q[1..]| ensures q[1..][i].AugmentResultArgs? { assert q[1..][i] == q[i + 1]; }
      }
      ResultArgEntriesStay(Deferral.Step(s, q[0], Ready, Run).0, q[1..]);
      assert [q[0]] + q[1..] == q;
    }
  }

  /** Flushing a schema queue of one entry is one `Step`. */
  lemma FlushSingle(s: Schema, e: Deferred)
    requires s.delayed == Some([e])
    ensures var (t, keep) := Deferral.Step(s, e, Ready, Run);
      FlushSchema(s) == t.(delayed := if keep then Some([e]) else None)
  {
    assert Deferral.Queue(s.delayed) == [e];
    assert [e][1..] == [];
    var (t, keep) := Deferral.Step(s, e, Ready, Run);
    assert Deferral.Flush(t, [], Ready, Run) == (t, []);
    assert [e] + [] == [e];
    assert Deferral.Flush(s, [e], Ready, Run) == (t, if keep then [e] else []);
  }

  /** Queueing one entry on an empty schema queue is one `Step`. */
  lemma ApplyAloneIsStep(s: Schema, e: Deferred)
    requires s.delayed.None?
    ensures var s0 := s.(delayed := Some([e]));
      var (t, keep) := Deferral.Step(s0, e, Ready, Run);
      ApplyOnSchema(s, e) == t.(delayed := if keep then Some([e]) else None)
  {
    var s0 := s.(delayed := Some([e]));
    assert Deferral.Queue(s.delayed) + [e] == [e];
    FlushSingle(s0, e);
    assert ApplyOnSchema(s, e) == FlushSchema(s0);
  }

  /** Root arguments queued on an otherwise empty schema queue, when a root
      field targets (typeName, mode): applied to every such field and dropped. */
  lemma ApplyRootArgsReady(s: Schema, typeName: string, mode: string, augs: seq<Augment>)
    requires s.delayed.None?
    requires |LibUtils.FindRootTargets(s, typeName, mode)| > 0
    ensures var refs := LibUtils.FindRootTargets(s, typeName, mode);
      var r := ApplyOnSchema(s, AugmentRootArgs(typeName, mode, augs));
      r.delayed.None? &&
      forall i :: 0 <= i < |refs| && GetField(s, refs[i].owner, refs[i].name).Some? ==>
        HasArgs(r, refs[i].owner, refs[i].name, Names(augs))
  {
    var e := AugmentRootArgs(typeName, mode, augs);
    var s0 := s.(delayed := Some([e]));
    var refs := LibUtils.FindRootTargets(s, typeName, mode);
    var t := AppendArgsAll(s0, refs, augs);
    assert ApplyOnSchema(s, e) == t.(delayed := None) by {
      ApplyAloneIsStep(s, e);
      assert s0.types == s.types && s0.query == s.query && s0.mutation == s.mutation;
      assert LibUtils.FindRootTargets(s0, typeName, mode) == refs;
      assert Ready(s0, e) == Some(Roots(refs));
      assert Deferral.Step(s0, e, Ready, Run) == (t, false);
    }
    AppendArgsAllEffect(s0, refs, augs);
    forall i | 0 <= i < |refs| && GetField(s, refs[i].owner, refs[i].name).Some?
      ensures HasArgs(t.(delayed := None), refs[i].owner, refs[i].name, Names(augs))
    {
      assert GetField(s0, refs[i].owner, refs[i].name) == GetField(s, refs[i].owner, refs[i].name);
      assert HasArgs(t, refs[i].owner, refs[i].name, Names(augs));
      assert GetField(t.(delayed := None), refs[i].owner, refs[i].name) == GetField(t, refs[i].owner, refs[i].name);
    }
  }

  /** Root arguments with no root field targeting (typeName, mode) yet wait in
      the queue and change nothing else. */
  lemma ApplyRootArgsWaits(s: Schema, typeName: string, mode: string, augs: seq<Augment>)
    requires s.delayed.None?
    requires |LibUtils.FindRootTargets(s, typeName, mode)| == 0
    ensures ApplyOnSchema(s, AugmentRootArgs(typeName, mode, augs)) == s.(delayed := Some([AugmentRootArgs(typeName, mode, augs)]))
  {
    var e := AugmentRootArgs(typeName, mode, augs);
    var s0 := s.(delayed := Some([e]));
    ApplyAloneIsStep(s, e);
    assert LibUtils.FindRootTargets(s0, typeName, mode) == LibUtils.FindRootTargets(s, typeName, mode);
  }
}

=== FILE: libmutation.dfy ===
/** `getFieldAugments` of the lib mutation directives `@insert`, `@update`,
    `@upsert` and `@mutate` (lib/directives/mutation.js). */
module LibMutation {
  import opened Outcomes
  import opened GqlType
  import opened SchemaModel
  import LibConfig
  import LibCommon
  import LibUtils
  import LibQuery

  /** Mutation directives default to the single operator `is`. */
  const DefaultOperators: seq<string> := ["is"]

  /** An explicit `required` decides; otherwise an `is` argument of `@insert`
      is Non-Null exactly when the field is. */
  predicate IsNonNull(required: Option<bool>, mode: string, fieldType: GType, op: string) {
    if required.Some? then required.value
    else mode == LibConfig.ModeInsert && fieldType.NonNull? && op == "is"
  }

  /** The argument type and tag of one operator before the Non-Null rule:
      the nullable field type for an input-typed field, the field's wrappers
      around the input type of the object type for a nested field, and the
      nullable type of the key field when `key` is set. */
  function BaseAugment(s: Schema, owner: string, field: Field, args: DirArgs, mode: string, op: string): (r: Result<(Schema, GType, Tag)>)
    ensures IsInputType(field.ty) ==> r == Ok((s, Nullable(field.ty), InputField(field.name, Some(op))))
    ensures !IsInputType(field.ty) && NamedOf(field.ty).kind != ObjectKind ==> r.Err? && r.error.ConfigError?
  {
    var named := NamedOf(field.ty);
    if IsInputKind(named.kind) then
      Ok((s, Nullable(field.ty), InputField(field.name, Some(op))))
    else if named.kind == ObjectKind then
      var (s1, t) := LibCommon.EnsureInputType(s, named.name, LibQuery.Pick(args.asMode, LibQuery.Pick(args.argsAs, mode)));
      if args.key.Some? && args.key.value != "" then
        var k := args.key.value;
        match GetField(s1, named.name, k)
        case None => Err(ConfigError("field " + named.name + "." + k + " does not exist"))
        case Some(sub) =>
          var ty := Nullable(sub.ty);
          if ty.List? || !IsInputType(ty) then
            Err(ConfigError("field " + named.name + "." + k + " as an input key needs to be of a scalar type"))
          else Ok((s1, ty, InputNestedKey(field.name, Some(op), k, t.name)))
      else Ok((s1, Nullable(WrapLike(TypeRef(t), field.ty)), InputNested(field.name, Some(op))))
    else
      Err(ConfigError("field " + owner + "." + field.name + " cannot be processed by @" + mode))
  }

  function OperatorAugment(s: Schema, owner: string, field: Field, args: DirArgs, mode: string, op: string): Result<(Schema, Augment)> {
    var (s1, ty, tag) :- BaseAugment(s, owner, field, args, mode, op);
    var ty1 := if IsNonNull(args.required, mode, field.ty, op) then NonNull(ty) else ty;
    Ok((s1, Augment(LibQuery.OperatorFieldName(field.name, op), ty1, tag, None)))
  }

  /** The loop over the operators: each iteration may create the input type
      and may throw, so the schema is threaded through in operator order. */
  function OperatorAugments(s: Schema, owner: string, field: Field, args: DirArgs, mode: string, ops: seq<string>): (r: Result<(Schema, seq<Augment>)>)
    ensures r.Ok? ==> |r.value.1| == |ops|
    ensures r.Ok? ==> forall i :: 0 <= i < |ops| ==>
      r.value.1[i].name == LibQuery.OperatorFieldName(field.name, ops[i]) &&
      (r.value.1[i].ty.NonNull? <== IsNonNull(args.required, mode, field.ty, ops[i]))
    ensures |ops| == 0 ==> r == Ok((s, []))
    decreases |ops|
  {
    if |ops| == 0 then Ok((s, []))
    else
      var (s1, a) :- OperatorAugment(s, owner, field, args, mode, ops[0]);
      var (s2, rest) :- OperatorAugments(s1, owner, field, args, mode, ops[1..]);
      Ok((s2, [a] + rest))
  }

  /** `getFieldAugments`: the selected operators, each turned into one argument. */
  function FieldAugments(s: Schema, owner: string, field: Field, args: DirArgs, mode: string): Result<(Schema, seq<Augment>)> {
    OperatorAugments(s, owner, field, args, mode, LibQuery.SelectOperators(DefaultOperators, args.op, args.opInclude, args.opExclude))
  }

  /** Without `op`/`opInclude`/`opExclude` exactly one argument, named after
      the field, is produced. */
  lemma DefaultIsOnly(s: Schema, owner: string, field: Field, args: DirArgs, mode: string)
    requires args.op.None? && args.opInclude.None? && args.opExclude.None?
    requires FieldAugments(s, owner, field, args, mode).Ok?
    ensures var augs := FieldAugments(s, owner, field, args, mode).value.1;
      |augs| == 1 && augs[0].name == field.name
  {
    assert LibQuery.SelectOperators(DefaultOperators, args.op, args.opInclude, args.opExclude) == ["is"];
  }

  /** Before the rule the argument type is never Non-Null, given valid types. */
  lemma BaseNotNonNull(s: Schema, owner: string, field: Field, args: DirArgs, mode: string, op: string)
    requires Valid(field.ty)
    requires args.key.Some? && args.key.value != "" && NamedOf(field.ty).kind == ObjectKind ==>
      forall f :: GetField(s, NamedOf(field.ty).name, args.key.value) == Some(f) ==> Valid(f.ty)
    requires BaseAugment(s, owner, field, args, mode, op).Ok?
    ensures !BaseAugment(s, owner, field, args, mode, op).value.1.NonNull?
  {
    var named := NamedOf(field.ty);
    if named.kind == ObjectKind {
      var m := LibQuery.Pick(args.asMode, LibQuery.Pick(args.argsAs, mode));
      var (s2, t) := LibCommon.EnsureInputType(s, named.name, m);
      if args.key.Some? && args.key.value != "" {
        NameDiffers(named.name, m);
        assert GetField(s2, named.name, args.key.value) == GetField(s, named.name, args.key.value);
      } else {
        WrapLikeValid(TypeRef(t), field.ty);
      }
    }
  }

  /** The Non-Null rule, both directions: when the field type is valid (and,
      for a key, the key field's type is), an argument is Non-Null exactly
      when `IsNonNull` says so. */
  lemma NonNullRule(s: Schema, owner: string, field: Field, args: DirArgs, mode: string, op: string)
    requires Valid(field.ty)
    requires args.key.Some? && args.key.value != "" && NamedOf(field.ty).kind == ObjectKind ==>
      forall f :: GetField(s, NamedOf(field.ty).name, args.key.value) == Some(f) ==> Valid(f.ty)
    requires OperatorAugment(s, owner, field, args, mode, op).Ok?
    ensures OperatorAugment(s, owner, field, args, mode, op).value.1.ty.NonNull? <==> IsNonNull(args.required, mode, field.ty, op)
  {
    BaseNotNonNull(s, owner, field, args, mode, op);
  }

  /** The synthesized input type never shadows the object type it is derived from. */
  lemma NameDiffers(typeName: string, mode: string)
    ensures LibUtils.InputTypeName(typeName, mode) != typeName
  {
  }

  /** An argument of an input-typed field has the field's nullable type,
      made Non-Null by the rule, and is tagged `input.field` with its operator. */
  lemma InputFieldAugment(s: Schema, owner: string, field: Field, args: DirArgs, mode: string, op: string)
    requires IsInputType(field.ty)
    ensures var r := OperatorAugment(s, owner, field, args, mode, op);
      r.Ok? && r.value.0 == s && r.value.1.tag == InputField(field.name, Some(op)) &&
      r.value.1.ty == (if IsNonNull(args.required, mode, field.ty, op) then NonNull(Nullable(field.ty)) else Nullable(field.ty))
  {
  }

  /** A nested argument (no key) carries the field's List layers around the
      input type `NamedType + Cap(as || argsAs || mode) + Input`. */
  lemma NestedAugment(s: Schema, owner: string, field: Field, args: DirArgs, mode: string, op: string)
    requires NamedOf(field.ty).kind == ObjectKind && !(args.key.Some? && args.key.value != "")
    ensures var r := OperatorAugment(s, owner, field, args, mode, op);
      var inputName := LibUtils.InputTypeName(NamedOf(field.ty).name, LibQuery.Pick(args.asMode, LibQuery.Pick(args.argsAs, mode)));
      r.Ok? && r.value.1.tag == InputNested(field.name, Some(op)) &&
      NamedOf(r.value.1.ty).name == inputName &&
      LookupType(r.value.0, inputName).Some? && LookupType(r.value.0, inputName).value.meta.tag == TypeInputTag
  {
    var (s1, t) := LibCommon.EnsureInputType(s, NamedOf(field.ty).name, LibQuery.Pick(args.asMode, LibQuery.Pick(args.argsAs, mode)));
    assert NamedOf(WrapLike(TypeRef(t), field.ty)) == TypeRef(t);
  }

  /** With `key`, the argument is typed by the key field and records the
      name of the synthesized input type; a missing key, or a key of list or
      non-input type, is an error. */
  lemma KeyAugment(s: Schema, owner: string, field: Field, args: DirArgs, mode: string, op: string)
    requires NamedOf(field.ty).kind == ObjectKind && args.key.Some? && args.key.value != ""
    ensures var named := NamedOf(field.ty);
      var sub := GetField(s, named.name, args.key.value);
      var r := OperatorAugment(s, owner, field, args, mode, op);
      var inputName := LibUtils.InputTypeName(named.name, LibQuery.Pick(args.asMode, LibQuery.Pick(args.argsAs, mode)));
      (sub.None? ==> r.Err?) &&
      (sub.Some? && (Nullable(sub.value.ty).List? || !IsInputType(sub.value.ty)) ==> r.Err?) &&
      (sub.Some? && !Nullable(sub.value.ty).List? && IsInputType(sub.value.ty) ==>
        r.Ok? && r.value.1.tag == InputNestedKey(field.name, Some(op), args.key.value, inputName) &&
        r.value.1.ty == (if IsNonNull(args.required, mode, field.ty, op) then NonNull(Nullable(sub.value.ty)) else Nullable(sub.value.ty)))
  {
    var named := NamedOf(field.ty);
    var m := LibQuery.Pick(args.asMode, LibQuery.Pick(args.argsAs, mode));
    NameDiffers(named.name, m);
    var (s1, t) := LibCommon.EnsureInputType(s, named.name, m);
    assert GetField(s1, named.name, args.key.value) == GetField(s, named.name, args.key.value);
    match GetField(s, named.name, args.key.value)
    case None =>
    case Some(sub) => NullableSameNamed(sub.ty);
  }

  lemma NullableSameNamed(t: GType)
    ensures NamedOf(Nullable(t)) == NamedOf(t)
  {
  }
}

=== FILE: libquery.dfy ===
/** `getFieldAugments` of the lib query directives (lib/directives/query.js)
    and the operator selection it shares with the mutation directives. */
module LibQuery {
  import opened Outcomes
  import opened GqlType
  import opened SchemaModel
  import LibCommon
  import LibUtils

  /** `getEligibleOperators`: the configured list for the scalar's name, the
      `Enum` entry for enums, nothing for a name the table lacks. The table
      (lib's `DEFAULT_OPERATORS`) is a parameter. */
  function EligibleOperators(table: map<string, seq<string>>, t: GType): (r: seq<string>)
    ensures t.Named? && t.kind == EnumKind ==> r == (if "Enum" in table then table["Enum"] else [])
    ensures t.Named? && t.kind != EnumKind && t.name in table ==> r == table[t.name]
    ensures t.Named? && t.kind != EnumKind && t.name !in table ==> r == []
  {
    var key := if t.Named? && t.kind == EnumKind then "Enum" else NamedOf(t).name;
    if key in table then table[key] else []
  }

  /** `xs.filter(x => !ex.includes(x))`: the kept entries in their order,
      each as often as in `xs`. */
  function Without(xs: seq<string>, ex: seq<string>): (r: seq<string>)
    ensures forall x :: x in r <==> x in xs && x !in ex
    ensures SubseqOf(r, xs)
    ensures forall x :: multiset(r)[x] == (if x in ex then 0 else multiset(xs)[x])
    ensures |r| <= |xs|
    decreases |xs|
  {
    if |xs| == 0 then []
    else
      var rest := Without(xs[1..], ex);
      assert forall x :: x in xs <==> x == xs[0] || x in xs[1..];
      assert xs == [xs[0]] + xs[1..];
      assert multiset(xs) == multiset([xs[0]]) + multiset(xs[1..]);
      if xs[0] in ex then
        SubseqSkip(rest, xs);
        rest
      else
        var r := [xs[0]] + rest;
        assert r[0] == xs[0] && r[1..] == rest;
        r
  }

  /** Removing nothing keeps the list. */
  lemma {:induction false} WithoutNothing(xs: seq<string>)
    ensures Without(xs, []) == xs
    decreases |xs|
  {
    if |xs| > 0 {
      WithoutNothing(xs[1..]);
      assert [xs[0]] + xs[1..] == xs;
    }
  }

  /** The operator list: `op` replaces the defaults, `opInclude` is appended,
      then every occurrence of an `opExclude` entry is removed. */
  function SelectOperators(defaults: seq<string>, op: Option<seq<string>>, opInclude: Option<seq<string>>, opExclude: Option<seq<string>>): (r: seq<string>)
    ensures var base := (if op.Some? then op.value else defaults) + (if opInclude.Some? then opInclude.value else []);
      (forall x :: x in r <==> x in base && !(opExclude.Some? && x in opExclude.value)) &&
      SubseqOf(r, base) &&
      forall x :: multiset(r)[x] == (if opExclude.Some? && x in opExclude.value then 0 else multiset(base)[x])
    ensures opExclude.None? ==> r == (if op.Some? then op.value else defaults) + (if opInclude.Some? then opInclude.value else [])
  {
    var base := if op.Some? then op.value else defaults;
    var withInc := if opInclude.Some? then base + opInclude.value else base;
    assert withInc == base + (if opInclude.Some? then opInclude.value else []);
    if opExclude.Some? then Without(withInc, opExclude.value)
    else
      SubseqRefl(withInc);
      withInc
  }

  /** The argument name of an operator: the field itself for `is`, `field_op` otherwise. */
  function OperatorFieldName(field: string, op: string): string {
    if op == "is" then field else field + "_" + op
  }

  /** Distinct operators give distinct argument names. */
  lemma OperatorNamesDistinct(field: string, o1: string, o2: string)
    requires o1 != o2
    ensures OperatorFieldName(field, o1) != OperatorFieldName(field, o2)
  {
    if o1 != "is" && o2 != "is" {
      var n1 := OperatorFieldName(field, o1);
      var n2 := OperatorFieldName(field, o2);
      assert n1[|field| + 1..] == o1;
      assert n2[|field| + 1..] == o2;
    }
  }

  /** `a || b` on optional directive strings: the empty string is falsy. */
  function Pick(a: Option<string>, b: string): string {
    if a.Some? && a.value != "" then a.value else b
  }

  function OperatorType(named: GType, op: string, required: bool): GType {
    var t := if op == "in" || op == "not_in" then List(named) else named;
    if required then NonNull(t) else t
  }

  function OperatorAugment(field: string, named: GType, op: string, required: bool): Augment {
    Augment(OperatorFieldName(field, op), OperatorType(named, op, required), FilterOperator(field, op), None)
  }

  /** `getFieldAugments` of `@query` and its kin on field `field` of type
      `owner`: one `filter.operator` augment per selected operator for an
      input-typed field, one `filter.nested` augment typed by the input type
      of `as || argsAs || mode` for an object field, an error otherwise. */
  function FieldAugments(s: Schema, owner: string, field: Field, args: DirArgs, mode: string, table: map<string, seq<string>>): (r: Result<(Schema, seq<Augment>)>)
    ensures IsInputType(field.ty) ==> r.Ok? && r.value.0 == s
    ensures NamedOf(field.ty).kind == ObjectKind ==> r.Ok? && |r.value.1| == 1
    ensures !IsInputType(field.ty) && NamedOf(field.ty).kind != ObjectKind ==> r.Err? && r.error.ConfigError?
  {
    var named := NamedOf(field.ty);
    var required := args.required == Some(true);
    if IsInputKind(named.kind) then
      var ops := SelectOperators(EligibleOperators(table, named), args.op, args.opInclude, args.opExclude);
      Ok((s, seq(|ops|, i requires 0 <= i < |ops| => OperatorAugment(field.name, named, ops[i], required))))
    else if named.kind == ObjectKind then
      var (s1, t) := LibCommon.EnsureInputType(s, named.name, Pick(args.asMode, Pick(args.argsAs, mode)));
      var ty := if required then NonNull(TypeRef(t)) else TypeRef(t);
      Ok((s1, [Augment(field.name, ty, FilterNested(field.name), None)]))
    else
      Err(ConfigError("field " + owner + "." + field.name + " cannot be processed by @" + mode))
  }

  /** For an input-typed field: one augment per operator, in operator order,
      named by the naming rule, recording field and operator; `in`/`not_in`
      take a list of the named type, and `required` adds Non-Null. */
  lemma OperatorAugments(s: Schema, owner: string, field: Field, args: DirArgs, mode: string, table: map<string, seq<string>>)
    requires IsInputType(field.ty)
    ensures var named := NamedOf(field.ty);
      var ops := SelectOperators(EligibleOperators(table, named), args.op, args.opInclude, args.opExclude);
      var augs := FieldAugments(s, owner, field, args, mode, table).value.1;
      |augs| == |ops| &&
      forall i :: 0 <= i < |ops| ==>
        augs[i].name == OperatorFieldName(field.name, ops[i]) &&
        augs[i].tag == FilterOperator(field.name, ops[i]) &&
        (augs[i].ty.NonNull? <==> args.required == Some(true)) &&
        Nullable(augs[i].ty) == (if ops[i] in ["in", "not_in"] then List(named) else named)
  {
  }

  /** For an object field: one `filter.nested` augment named after the field,
      typed by `NamedType + Cap(as || argsAs || mode) + Input`. */
  lemma NestedAugment(s: Schema, owner: string, field: Field, args: DirArgs, mode: string, table: map<string, seq<string>>)
    requires NamedOf(field.ty).kind == ObjectKind
    ensures var r := FieldAugments(s, owner, field, args, mode, table).value;
      var a := r.1[0];
      a.name == field.name && a.tag == FilterNested(field.name) &&
      NamedOf(a.ty) == Named(LibUtils.InputTypeName(NamedOf(field.ty).name, Pick(args.asMode, Pick(args.argsAs, mode))), NamedOf(a.ty).kind) &&
      (a.ty.NonNull? <==> args.required == Some(true)) &&
      LookupType(r.0, NamedOf(a.ty).name).Some? && LookupType(r.0, NamedOf(a.ty).name).value.meta.tag == TypeInputTag
  {
  }
}

=== FILE: libresolver.dfy ===
/** lib's `AugmentedArgResolver` (lib/resolver.js): the root lookup through
    the recorded targets, the recursive walk of the declared arguments with
    the gate before every effect, and the hand-over of the root and batch
    contexts to a `SimpleResponse`. The walk is fuel-bounded; running out
    stands for a stack overflow. */
module LibResolver {
  import opened Outcomes
  import opened JsValue
  import opened GqlType
  import opened SchemaModel
  import LibConfig
  import AuthGate
  import opened Adapters
  import Responses

  /** What the walk reads but never changes. The adapter is the one the
      constructor kept, `WithDefaults` already applied. */
  datatype Env = Env(s: Schema, a: Adapter, identity: Value, depthFirst: bool)

  /** The options of one `_resolve` call. */
  datatype Req = Req(field: Option<Field>, typeName: Option<string>, mode: Option<string>,
                     parent: Value, returnCtx: bool, useResponseType: bool)

  /** What a walk hands back: a value, or the lazy `SimpleResponse`. */
  datatype Answer = Plain(v: Value) | Later(response: Responses.Simple)

  /** The accumulators of the argument loop. */
  datatype St = St(ctx: Value, ctxs: seq<Value>, pagination: map<string, Value>)

  /** What every step of one walk shares: the augmented type (if its name is
      known and stored), the mode, the caller's parent and the argument values. */
  datatype Walk = Walk(t: Option<TypeDef>, mode: Option<string>, parent: Value, args: map<string, Value>)

  function ValueOf(r: Answer): Value {
    if r.Plain? then r.v else Undef
  }

  /** The calls that act on a context without walking a sub-argument. */
  predicate Direct(e: Event) {
    e.Filter? || e.Input? || e.Others? || e.Sort? || e.Cursor? || e.Paginate? || e.Resolve?
  }

  /** Every direct effect comes right after a gate on the same context. */
  predicate Guarded(evs: seq<Event>) {
    forall i :: 0 <= i < |evs| && Direct(evs[i]) ==> 0 < i && evs[i - 1].Auth? && evs[i - 1].ctx == evs[i].ctx
  }

  lemma GuardedConcat(a: Adapter, x: seq<Event>, y: seq<Event>)
    requires Recorded(a, x) && Recorded(a, y)
    requires CAuth in a.has ==> Guarded(x) && Guarded(y)
    ensures Recorded(a, x + y) && (CAuth in a.has ==> Guarded(x + y))
  {
    var z := x + y;
    forall i | 0 <= i < |z| ensures KindOf(z[i]) in a.has {
      if i < |x| { assert z[i] == x[i]; } else { assert z[i] == y[i - |x|]; }
    }
    if CAuth in a.has {
      forall i | 0 <= i < |z| && Direct(z[i]) ensures 0 < i && z[i - 1].Auth? && z[i - 1].ctx == z[i].ctx {
        if i < |x| {
          assert z[i] == x[i] && z[i - 1] == x[i - 1];
        } else {
          assert z[i] == y[i - |x|];
          assert i - |x| > 0;
          assert z[i - 1] == y[i - 1 - |x|];
        }
      }
    }
  }

  /** A nested call ends a trace without needing a gate right before it. */
  lemma GuardedNested(a: Adapter, x: seq<Event>, e: Event)
    requires Recorded(a, x) && (CAuth in a.has ==> Guarded(x)) && e.Nested? && KindOf(e) in a.has
    ensures Recorded(a, x + [e]) && (CAuth in a.has ==> Guarded(x + [e]))
  {
    GuardedConcat(a, x, [e]);
  }

  /** A direct effect right after a gate on its context. */
  lemma GuardedEffect(a: Adapter, g: seq<Event>, e: Event)
    requires Recorded(a, g) && KindOf(e) in a.has && Direct(e)
    requires CAuth in a.has ==> |g| == 1 && g[0].Auth? && g[0].ctx == e.ctx
    requires CAuth !in a.has ==> g == []
    ensures Recorded(a, g + [e]) && (CAuth in a.has ==> Guarded(g + [e]))
  {
    var z := g + [e];
    assert forall i :: 0 <= i < |z| ==> z[i] == (if i < |g| then g[i] else e);
  }

  // ---- the argument list of one walk -------------------------------------

  /** The first part of `_resolve`: the declared arguments, the augmented
      type name and the mode. Without a field the walked type names them. */
  function Prepare(s: Schema, q: Req): (r: Result<(seq<Augment>, Option<string>, Option<string>)>)
    ensures q.field.Some? ==> r == Ok((q.field.value.args, q.typeName, q.mode))
    ensures q.field.None? && (q.typeName.None? || LookupType(s, q.typeName.value).None?) ==>
      r.Err? && r.error.UserInputError?
    ensures q.field.None? && q.typeName.Some? && LookupType(s, q.typeName.value).Some? && r.Ok? ==>
      var t := LookupType(s, q.typeName.value).value;
      r.value.1 == t.meta.baseName && r.value.2 == t.meta.mode
  {
    if q.field.Some? then Ok((q.field.value.args, q.typeName, q.mode))
    else
      var n := if q.typeName.Some? then q.typeName.value else "undefined";
      match (if q.typeName.None? then None else LookupType(s, n))
      case None => Err(UserInputError("type \"" + n + "\" is not valid"))
      case Some(t) =>
        var augs :- ArgsOfType(t);
        Ok((augs, t.meta.baseName, t.meta.mode))
  }

  /** `augmentedTypeName && schema.getType(augmentedTypeName)`. */
  function WalkedType(s: Schema, name: Option<string>): Option<TypeDef> {
    if name.Some? && name.value != "" then LookupType(s, name.value) else None
  }

  function TypeNameOf(t: Option<TypeDef>): Option<string> {
    if t.Some? then Some(t.value.name) else None
  }

  /** The gate on the walk's type, or on one of its fields when the argument
      targets a field the type has. */
  function WalkGate(env: Env, w: Walk, ctx: Value, f: Option<string>): (r: Run<()>)
    ensures Recorded(env.a, r.events) && Guarded(r.events)
    ensures CAuth !in env.a.has ==> r == Run([], Ok(()))
    ensures CAuth in env.a.has ==> |r.events| == 1 && r.events[0].Auth? && r.events[0].ctx == ctx
  {
    var field := if f.Some? && w.t.Some? && FindField(w.t.value, f.value).Some? then f else None;
    Gate(env.a, Auth(ctx, TypeNameOf(w.t), field, Undef), env.identity)
  }

  // ---- the steps that do not recurse ---------------------------------------

  predicate Recursive(t: Tag) {
    t.FilterNested? || t.FilterFilters? || t.InputNested? || t.InputNestedKey? || t.InputInputs?
  }

  /** The callback a non-recursive tag calls, and the event it records. */
  function PlainCall(aug: Augment, ctx: Value, v: Value): (Callback, Event) {
    match aug.tag
    case FilterOperator(f, op) => (CFilter, Filter(ctx, f, op, v))
    case InputField(f, _) => (CInput, Input(ctx, f, v))
    case SortSort => (CSort, Sort(ctx, v))
    case CursorCursor => (CCursor, Cursor(ctx, v))
    case _ => (COthers, Others(ctx, aug.name, v))
  }

  function TargetOf(t: Tag): Option<string> {
    match t
    case FilterOperator(f, _) => Some(f)
    case FilterNested(f) => Some(f)
    case InputField(f, _) => Some(f)
    case InputNested(f, _) => Some(f)
    case InputNestedKey(f, _, _, _) => Some(f)
    case _ => None
  }

  /** One step for a tag that calls at most one callback: `filter.operator`,
      `input.field`, `sort.sort`, `cursor.cursor` and the default go through
      the gate and their callback; `filter.pagination` only collects. */
  function PlainStep(env: Env, w: Walk, aug: Augment, st: St): (r: Run<St>)
    requires !Recursive(aug.tag)
    ensures Recorded(env.a, r.events) && (CAuth in env.a.has ==> Guarded(r.events))
    ensures aug.name !in w.args ==> r == Run([], Ok(st))
    ensures r.out.Ok? ==> r.out.value.ctxs == st.ctxs
    ensures aug.tag.FilterPagination? ==>
      r == Run([], Ok(if aug.name in w.args then st.(pagination := st.pagination[aug.name := w.args[aug.name]]) else st))
    ensures !aug.tag.FilterPagination? && aug.name in w.args ==>
      var (cb, e) := PlainCall(aug, st.ctx, w.args[aug.name]);
      (cb !in env.a.has ==> r == Run([], Ok(st))) &&
      (cb in env.a.has && r.out.Ok? ==>
        r.events == WalkGate(env, w, st.ctx, TargetOf(aug.tag)).events + [e] &&
        r.out.value == st.(ctx := Or(env.a.answer(e), st.ctx))) &&
      (cb in env.a.has ==> (r.out.Ok? <==> WalkGate(env, w, st.ctx, TargetOf(aug.tag)).out.Ok?))
  {
    if aug.name !in w.args then Run([], Ok(st))
    else if aug.tag.FilterPagination? then Run([], Ok(st.(pagination := st.pagination[aug.name := w.args[aug.name]])))
    else
      var (cb, e) := PlainCall(aug, st.ctx, w.args[aug.name]);
      if cb !in env.a.has then Run([], Ok(st))
      else
        var g := WalkGate(env, w, st.ctx, TargetOf(aug.tag));
        if g.out.Err? then Run(g.events, Err(g.out.error))
        else
          GuardedEffect(env.a, g.events, e);
          Run(g.events + [e], Ok(st.(ctx := Effect(env.a, e, st.ctx))))
  }

  // ---- the walk --------------------------------------------------------------

  /** `_resolve`: at most `fuel` nested walks deep. */
  function ResolveArgs(env: Env, args: Value, q: Req, fuel: nat): (r: Run<Answer>)
    ensures Recorded(env.a, r.events) && (CAuth in env.a.has ==> Guarded(r.events))
    ensures fuel == 0 ==> r == Run([], Err(RecursionLimit))
    ensures fuel > 0 && Prepare(env.s, q).Err? ==> r == Run([], Err(Prepare(env.s, q).error))
    ensures fuel > 0 && Prepare(env.s, q).Ok? && CInit in env.a.has ==>
      |r.events| > 0 && r.events[0] == Init(q.parent, TypeNameOr(Prepare(env.s, q).value.1))
    ensures fuel > 0 && Prepare(env.s, q).Ok? && CInit in env.a.has && CAuth in env.a.has ==>
      |r.events| > 1 && r.events[1].Auth? && r.events[1].authField.None?
    ensures q.returnCtx && r.out.Ok? ==> r.out.value.Plain?
    decreases fuel, 6, 0
  {
    if fuel == 0 then Run([], Err(RecursionLimit))
    else match Prepare(env.s, q)
    case Err(e) => Run([], Err(e))
    case Ok((augs, typeName, mode)) =>
      if CInit !in env.a.has then Run([], Err(TypeError("resolvers.init is not a function")))
      else
        var init := Init(q.parent, TypeNameOr(typeName));
        var rest := Initialised(env, args, q, augs, typeName, mode, env.a.answer(init), fuel);
        assert Recorded(env.a, [init]) && Guarded([init]);
        GuardedConcat(env.a, [init], rest.events);
        var evs := [init] + rest.events;
        assert evs[0] == init && (CAuth in env.a.has ==> evs[1] == rest.events[0]);
        Run(evs, rest.out)
  }

  /** The walk once `init` has given the context: the type gate, then the
      loop, `paginate` and the end of the walk. */
  function Initialised(env: Env, args: Value, q: Req, augs: seq<Augment>, typeName: Option<string>, mode: Option<string>, ctx: Value, fuel: nat): (r: Run<Answer>)
    ensures Recorded(env.a, r.events) && (CAuth in env.a.has ==> Guarded(r.events))
    ensures CAuth in env.a.has ==> |r.events| > 0 && r.events[0].Auth? && r.events[0].authField.None?
    ensures q.returnCtx && r.out.Ok? ==> r.out.value.Plain?
    decreases fuel, 5, 1
  {
    var t := WalkedType(env.s, typeName);
    var w := Walk(t, mode, q.parent, ArgsOrEmpty(args));
    var g := WalkGate(env, w, ctx, None);
    assert CAuth in env.a.has ==> g.events[0].authField.None?;
    if g.out.Err? then Run(g.events, Err(g.out.error))
    else if ArgMap(args).None? && |augs| > 0 then
      Run(g.events, Err(TypeError("Cannot read properties of a non-object argument")))
    else
      var b := Body(env, w, q, augs, ctx, fuel);
      GuardedConcat(env.a, g.events, b.events);
      Run(g.events + b.events, b.out)
  }

  /** The loop, `paginate` and the end of a walk on the context `init` gave. */
  function Body(env: Env, w: Walk, q: Req, augs: seq<Augment>, ctx: Value, fuel: nat): (r: Run<Answer>)
    ensures Recorded(env.a, r.events) && (CAuth in env.a.has ==> Guarded(r.events))
    ensures q.returnCtx && r.out.Ok? ==> r.out.value.Plain?
    decreases fuel, 5, 0
  {
    var l := Loop(env, w, Order(augs, env.depthFirst), St(ctx, [], map[]), fuel);
    if l.out.Err? then Run(l.events, Err(l.out.error))
    else
      var p := PaginateStep(env, w, l.out.value);
      GuardedConcat(env.a, l.events, p.events);
      var paged := l.events + p.events;
      if p.out.Err? then Run(paged, Err(p.out.error))
      else
        var fin := Finish(env, w, q, p.out.value);
        GuardedConcat(env.a, paged, fin.events);
        Run(paged + fin.events, fin.out)
  }

  /** The type name `init` is told about (`undefined` when there is none). */
  function TypeNameOr(n: Option<string>): string {
    if n.Some? then n.value else "undefined"
  }

  function ArgsOrEmpty(args: Value): map<string, Value> {
    if ArgMap(args).Some? then ArgMap(args).value else map[]
  }

  function Loop(env: Env, w: Walk, items: seq<Augment>, st: St, fuel: nat): (r: Run<St>)
    ensures Recorded(env.a, r.events) && (CAuth in env.a.has ==> Guarded(r.events))
    ensures r.out.Ok? ==> |st.ctxs| <= |r.out.value.ctxs| && r.out.value.ctxs[..|st.ctxs|] == st.ctxs
    decreases fuel, 4, |items|
  {
    if |items| == 0 then Run([], Ok(st))
    else
      var s1 := Step(env, w, items[0], st, fuel);
      if s1.out.Err? then s1
      else
        var rest := Loop(env, w, items[1..], s1.out.value, fuel);
        GuardedConcat(env.a, s1.events, rest.events);
        Run(s1.events + rest.events, rest.out)
  }

  function Step(env: Env, w: Walk, aug: Augment, st: St, fuel: nat): (r: Run<St>)
    ensures Recorded(env.a, r.events) && (CAuth in env.a.has ==> Guarded(r.events))
    ensures r.out.Ok? ==> |st.ctxs| <= |r.out.value.ctxs| && r.out.value.ctxs[..|st.ctxs|] == st.ctxs
    ensures r.out.Ok? && (aug.tag.FilterFilters? || aug.tag.InputInputs?) ==>
      r.out.value.ctx == st.ctx &&
      |r.out.value.ctxs| == |st.ctxs| + (if ArgValue(w.args, aug.name).Arr? then |ArgValue(w.args, aug.name).elems| else 0)
    // `filter.nested` / `input.nested` fire on an object-typed value (null
    // included) when `nested` exists, and otherwise do nothing
    ensures aug.tag.FilterNested? || aug.tag.InputNested? ==>
      var v := ArgValue(w.args, aug.name);
      (IsObjectLike(v) && CNested in env.a.has ==>
        r == NestedStep(env, w, aug, aug.tag.field, None, NamedOf(aug.ty).name, false, v, st, fuel)) &&
      (!(IsObjectLike(v) && CNested in env.a.has) ==> r == Run([], Ok(st)))
    // `input.nestedKey` fires when the argument is given and `nested` exists
    ensures aug.tag.InputNestedKey? ==>
      (aug.name in w.args && CNested in env.a.has ==>
        r == NestedStep(env, w, aug, aug.tag.field, Some(aug.tag.key), aug.tag.objectTypeName, true,
                        ArgValue(w.args, aug.name), st, fuel)) &&
      (!(aug.name in w.args && CNested in env.a.has) ==> r == Run([], Ok(st)))
    decreases fuel, 3, 0
  {
    var v := ArgValue(w.args, aug.name);
    match aug.tag
    case FilterFilters => Batch(env, w, aug, st, fuel)
    case InputInputs => Batch(env, w, aug, st, fuel)
    case FilterNested(f) =>
      if IsObjectLike(v) && CNested in env.a.has then NestedStep(env, w, aug, f, None, NamedOf(aug.ty).name, false, v, st, fuel)
      else Run([], Ok(st))
    case InputNested(f, _) =>
      if IsObjectLike(v) && CNested in env.a.has then NestedStep(env, w, aug, f, None, NamedOf(aug.ty).name, false, v, st, fuel)
      else Run([], Ok(st))
    case InputNestedKey(f, _, key, objectTypeName) =>
      if aug.name in w.args && CNested in env.a.has then NestedStep(env, w, aug, f, Some(key), objectTypeName, true, v, st, fuel)
      else Run([], Ok(st))
    case _ => PlainStep(env, w, aug, st)
  }

  /** `filter.filters` / `input.inputs`: each element of an array value is
      walked on its own fresh context, with the caller's parent, and that
      context joins the batch list. */
  function Batch(env: Env, w: Walk, aug: Augment, st: St, fuel: nat): (r: Run<St>)
    requires aug.tag.FilterFilters? || aug.tag.InputInputs?
    ensures Recorded(env.a, r.events) && (CAuth in env.a.has ==> Guarded(r.events))
    ensures r.out.Ok? ==> r.out.value.ctx == st.ctx && r.out.value.pagination == st.pagination
    ensures r.out.Ok? ==>
      var v := ArgValue(w.args, aug.name);
      |r.out.value.ctxs| == |st.ctxs| + (if v.Arr? then |v.elems| else 0) && r.out.value.ctxs[..|st.ctxs|] == st.ctxs
    decreases fuel, 1, 0
  {
    var v := ArgValue(w.args, aug.name);
    if v.Arr? then
      var each := Each(env, w, v.elems, None, NamedOf(aug.ty).name, w.parent, true, false, fuel);
      if each.out.Err? then Run(each.events, Err(each.out.error))
      else
        var r := st.(ctxs := st.ctxs + each.out.value);
        assert r.ctxs[..|st.ctxs|] == st.ctxs;
        Run(each.events, Ok(r))
    else Run([], Ok(st))
  }

  /** `filter.nested`, `input.nested` and `input.nestedKey` once the value
      passed the condition: the gate, the sub-walk(s) with this context as
      parent, then `nested`. A `null` or `undefined` value (or element) of
      the nested tags is handed over as it is; `filter.nested` walks an array
      value as a whole. */
  function NestedStep(env: Env, w: Walk, aug: Augment, f: string, key: Option<string>, subType: string,
                      byKey: bool, v: Value, st: St, fuel: nat): (r: Run<St>)
    requires CNested in env.a.has
    ensures Recorded(env.a, r.events) && (CAuth in env.a.has ==> Guarded(r.events))
    ensures r.out.Ok? ==> r.out.value.ctxs == st.ctxs && r.out.value.pagination == st.pagination
    // the gate on the current context decides first: a denial stops before any sub-walk
    ensures var g := WalkGate(env, w, st.ctx, Some(f));
      g.out.Err? ==> r == Run(g.events, Err(g.out.error))
    // then the sub-walks, whose failure stops before `nested`
    ensures var g := WalkGate(env, w, st.ctx, Some(f));
      var sub := NestedValue(env, w, aug, key, subType, byKey, v, st.ctx, fuel);
      g.out.Ok? && sub.out.Err? ==> r == Run(g.events + sub.events, Err(sub.out.error))
    // and last `nested` on the same context, whose truthy answer replaces it
    ensures var g := WalkGate(env, w, st.ctx, Some(f));
      var sub := NestedValue(env, w, aug, key, subType, byKey, v, st.ctx, fuel);
      r.out.Ok? ==>
        g.out.Ok? && sub.out.Ok? &&
        r.events == g.events + sub.events + [Nested(st.ctx, f, sub.out.value)] &&
        r.out.value.ctx == Or(env.a.answer(Nested(st.ctx, f, sub.out.value)), st.ctx)
    ensures CAuth in env.a.has && r.out.Ok? ==>
      r.events[0].Auth? && r.events[0].ctx == st.ctx &&
      r.events[|r.events| - 1].Nested? && r.events[|r.events| - 1].ctx == st.ctx
    decreases fuel, 2, 0
  {
    var g := WalkGate(env, w, st.ctx, Some(f));
    if g.out.Err? then Run(g.events, Err(g.out.error))
    else
      var sub := NestedValue(env, w, aug, key, subType, byKey, v, st.ctx, fuel);
      GuardedConcat(env.a, g.events, sub.events);
      if sub.out.Err? then Run(g.events + sub.events, Err(sub.out.error))
      else
        var e := Nested(st.ctx, f, sub.out.value);
        GuardedNested(env.a, g.events + sub.events, e);
        Run(g.events + sub.events + [e], Ok(st.(ctx := Effect(env.a, e, st.ctx))))
  }

  /** The value handed to `nested`: the contexts or results of the
      sub-walks, or the nullish value itself. */
  function NestedValue(env: Env, w: Walk, aug: Augment, key: Option<string>, subType: string,
                       byKey: bool, v: Value, ctx: Value, fuel: nat): (r: Run<Value>)
    ensures Recorded(env.a, r.events) && (CAuth in env.a.has ==> Guarded(r.events))
    ensures !byKey && IsNullish(v) ==> r == Run([], Ok(v))
    ensures v.Arr? && !aug.tag.FilterNested? && r.out.Ok? ==> r.out.value.Arr? && |r.out.value.elems| == |v.elems|
    decreases fuel, 1, 0
  {
    if v.Arr? && !aug.tag.FilterNested? then
      var each := Each(env, w, v.elems, key, subType, ctx, byKey, !byKey, fuel);
      if each.out.Err? then Run(each.events, Err(each.out.error))
      else Run(each.events, Ok(Arr(each.out.value)))
    else if !byKey && IsNullish(v) then Run([], Ok(v))
    else if fuel == 0 then Run([], Err(RecursionLimit))
    else
      var sub := ResolveArgs(env, Wrap(key, v), Req(None, Some(subType), w.mode, ctx, false, false), fuel - 1);
      if sub.out.Err? then Run(sub.events, Err(sub.out.error))
      else Run(sub.events, Ok(ValueOf(sub.out.value)))
  }

  /** The walk of one element of an array: kept as it is when `nullPass`
      and it is `null` or `undefined`, otherwise `_resolve` on the element
      (wrapped under `key` when given) with `subParent` as parent. */
  function ElementRun(env: Env, w: Walk, e: Value, key: Option<string>, subType: string,
                      subParent: Value, returnCtx: bool, nullPass: bool, fuel: nat): (r: Run<Answer>)
    ensures Recorded(env.a, r.events) && (CAuth in env.a.has ==> Guarded(r.events))
    ensures nullPass && IsNullish(e) ==> r == Run([], Ok(Plain(e)))
    ensures !(nullPass && IsNullish(e)) && fuel > 0 ==>
      r == ResolveArgs(env, Wrap(key, e), Req(None, Some(subType), w.mode, subParent, returnCtx, false), fuel - 1)
    ensures !(nullPass && IsNullish(e)) && fuel == 0 ==> r == Run([], Err(RecursionLimit))
    decreases fuel, 0, 0
  {
    if nullPass && IsNullish(e) then Run([], Ok(Plain(e)))
    else if fuel == 0 then Run([], Err(RecursionLimit))
    else ResolveArgs(env, Wrap(key, e), Req(None, Some(subType), w.mode, subParent, returnCtx, false), fuel - 1)
  }

  /** The element walks of `elems`, one per element, in array order. */
  function ElementRuns(env: Env, w: Walk, elems: seq<Value>, key: Option<string>, subType: string,
                       subParent: Value, returnCtx: bool, nullPass: bool, fuel: nat): seq<Run<Answer>>
    decreases fuel, 0, 1
  {
    seq(|elems|, i requires 0 <= i < |elems| => ElementRun(env, w, elems[i], key, subType, subParent, returnCtx, nullPass, fuel))
  }

  /** One sub-walk per element, in array order (see `EachElements`); with
      `nullPass` a `null` or `undefined` element is kept as it is. */
  function Each(env: Env, w: Walk, elems: seq<Value>, key: Option<string>, subType: string,
                subParent: Value, returnCtx: bool, nullPass: bool, fuel: nat): (r: Run<seq<Value>>)
    ensures Recorded(env.a, r.events) && (CAuth in env.a.has ==> Guarded(r.events))
    ensures r.out.Ok? ==> |r.out.value| == |elems|
    ensures r.out.Ok? && nullPass ==> forall i :: 0 <= i < |elems| && IsNullish(elems[i]) ==> r.out.value[i] == elems[i]
    decreases fuel, 0, |elems| + 2
  {
    if |elems| == 0 then Run([], Ok([]))
    else
      var head := ElementRun(env, w, elems[0], key, subType, subParent, returnCtx, nullPass, fuel);
      if head.out.Err? then Run(head.events, Err(head.out.error))
      else
        var rest := Each(env, w, elems[1..], key, subType, subParent, returnCtx, nullPass, fuel);
        GuardedConcat(env.a, head.events, rest.events);
        if rest.out.Err? then Run(head.events + rest.events, Err(rest.out.error))
        else
          var vs := [ValueOf(head.out.value)] + rest.out.value;
          assert forall i :: 1 <= i < |elems| ==> vs[i] == rest.out.value[i - 1] && elems[i] == elems[1..][i - 1];
          Run(head.events + rest.events, Ok(vs))
  }

  /** The loop over an array walks the elements in array order: result `i`
      is the value of the walk of element `i`. */
  lemma {:induction false} EachValues(env: Env, w: Walk, elems: seq<Value>, key: Option<string>, subType: string,
                                      subParent: Value, returnCtx: bool, nullPass: bool, fuel: nat)
    ensures var r := Each(env, w, elems, key, subType, subParent, returnCtx, nullPass, fuel);
      var runs := ElementRuns(env, w, elems, key, subType, subParent, returnCtx, nullPass, fuel);
      r.out.Ok? ==> forall i :: 0 <= i < |elems| ==> runs[i].out.Ok? && r.out.value[i] == ValueOf(runs[i].out.value)
    decreases |elems|
  {
    var r := Each(env, w, elems, key, subType, subParent, returnCtx, nullPass, fuel);
    var runs := ElementRuns(env, w, elems, key, subType, subParent, returnCtx, nullPass, fuel);
    if |elems| > 0 && r.out.Ok? {
      var head := ElementRun(env, w, elems[0], key, subType, subParent, returnCtx, nullPass, fuel);
      var rest := Each(env, w, elems[1..], key, subType, subParent, returnCtx, nullPass, fuel);
      var later := ElementRuns(env, w, elems[1..], key, subType, subParent, returnCtx, nullPass, fuel);
      EachValues(env, w, elems[1..], key, subType, subParent, returnCtx, nullPass, fuel);
      assert runs[0] == head && later == runs[1..];
      assert r.out.value == [ValueOf(head.out.value)] + rest.out.value;
      forall i | 0 <= i < |elems| ensures runs[i].out.Ok? && r.out.value[i] == ValueOf(runs[i].out.value) {
        if i > 0 { assert runs[i] == later[i - 1] && r.out.value[i] == rest.out.value[i - 1]; }
      }
    }
  }

  /** The trace of a successful loop is the elements' traces one after another. */
  lemma {:induction false} EachTrace(env: Env, w: Walk, elems: seq<Value>, key: Option<string>, subType: string,
                                     subParent: Value, returnCtx: bool, nullPass: bool, fuel: nat)
    ensures var r := Each(env, w, elems, key, subType, subParent, returnCtx, nullPass, fuel);
      r.out.Ok? ==> r.events == Flatten(Traces(ElementRuns(env, w, elems, key, subType, subParent, returnCtx, nullPass, fuel)))
    decreases |elems|
  {
    var r := Each(env, w, elems, key, subType, subParent, returnCtx, nullPass, fuel);
    var runs := ElementRuns(env, w, elems, key, subType, subParent, returnCtx, nullPass, fuel);
    if |elems| == 0 {
      assert Traces(runs) == [];
    } else if r.out.Ok? {
      var head := ElementRun(env, w, elems[0], key, subType, subParent, returnCtx, nullPass, fuel);
      var rest := Each(env, w, elems[1..], key, subType, subParent, returnCtx, nullPass, fuel);
      var later := ElementRuns(env, w, elems[1..], key, subType, subParent, returnCtx, nullPass, fuel);
      EachTrace(env, w, elems[1..], key, subType, subParent, returnCtx, nullPass, fuel);
      assert runs[0] == head && later == runs[1..];
      assert r.events == head.events + rest.events;
      assert Traces(runs)[1..] == Traces(later);
      assert Flatten(Traces(runs)) == head.events + Flatten(Traces(later));
    }
  }

  /** A failing loop fails with the failure of the first element whose walk fails. */
  lemma {:induction false} EachFirstFailure(env: Env, w: Walk, elems: seq<Value>, key: Option<string>, subType: string,
                                            subParent: Value, returnCtx: bool, nullPass: bool, fuel: nat)
    ensures var r := Each(env, w, elems, key, subType, subParent, returnCtx, nullPass, fuel);
      var runs := ElementRuns(env, w, elems, key, subType, subParent, returnCtx, nullPass, fuel);
      r.out.Err? ==> exists i :: 0 <= i < |elems| && runs[i].out == Err(r.out.error) && forall j :: 0 <= j < i ==> runs[j].out.Ok?
    decreases |elems|
  {
    var r := Each(env, w, elems, key, subType, subParent, returnCtx, nullPass, fuel);
    var runs := ElementRuns(env, w, elems, key, subType, subParent, returnCtx, nullPass, fuel);
    if |elems| > 0 && r.out.Err? {
      var head := ElementRun(env, w, elems[0], key, subType, subParent, returnCtx, nullPass, fuel);
      assert runs[0] == head;
      if head.out.Err? {
        assert r.out == Err(head.out.error);
        assert runs[0].out == Err(r.out.error);
      } else {
        var rest := Each(env, w, elems[1..], key, subType, subParent, returnCtx, nullPass, fuel);
        var later := ElementRuns(env, w, elems[1..], key, subType, subParent, returnCtx, nullPass, fuel);
        EachFirstFailure(env, w, elems[1..], key, subType, subParent, returnCtx, nullPass, fuel);
        assert later == runs[1..];
        assert rest.out.Err? && r.out == Err(rest.out.error);
        var i :| 0 <= i < |elems[1..]| && later[i].out == Err(rest.out.error) && forall j :: 0 <= j < i ==> later[j].out.Ok?;
        assert runs[i + 1] == later[i];
        forall j | 0 <= j < i + 1 ensures runs[j].out.Ok? {
          if j > 0 { assert runs[j] == later[j - 1]; }
        }
      }
    }
  }

  /** A batch argument with an array value appends, after the contexts
      already collected, the context of each element's own walk in array
      order: element `i` walked with the caller's parent, returning its
      context. */
  lemma BatchElements(env: Env, w: Walk, aug: Augment, st: St, fuel: nat)
    requires aug.tag.FilterFilters? || aug.tag.InputInputs?
    ensures var r := Batch(env, w, aug, st, fuel);
      var v := ArgValue(w.args, aug.name);
      r.out.Ok? && v.Arr? ==> forall i :: 0 <= i < |v.elems| ==>
        fuel > 0 &&
        ResolveArgs(env, v.elems[i], Req(None, Some(NamedOf(aug.ty).name), w.mode, w.parent, true, false), fuel - 1).out.Ok? &&
        r.out.value.ctxs[|st.ctxs| + i] ==
          ValueOf(ResolveArgs(env, v.elems[i], Req(None, Some(NamedOf(aug.ty).name), w.mode, w.parent, true, false), fuel - 1).out.value)
  {
    var v := ArgValue(w.args, aug.name);
    if v.Arr? {
      var each := Each(env, w, v.elems, None, NamedOf(aug.ty).name, w.parent, true, false, fuel);
      EachValues(env, w, v.elems, None, NamedOf(aug.ty).name, w.parent, true, false, fuel);
      var runs := ElementRuns(env, w, v.elems, None, NamedOf(aug.ty).name, w.parent, true, false, fuel);
      if each.out.Ok? {
        forall i | 0 <= i < |v.elems|
          ensures fuel > 0 && runs[i] == ResolveArgs(env, v.elems[i], Req(None, Some(NamedOf(aug.ty).name), w.mode, w.parent, true, false), fuel - 1)
        {
          assert runs[i].out.Ok?;
          assert Wrap(None, v.elems[i]) == v.elems[i];
        }
      }
    }
  }

  /** An array handed to `input.nested` or `input.nestedKey` is walked
      element by element in array order, each element under the current
      context (wrapped under the key for `nestedKey`); `nested` receives
      element `i`'s result, or the element itself when it is `null` or
      `undefined` and not keyed. */
  lemma NestedArrayElements(env: Env, w: Walk, aug: Augment, key: Option<string>, subType: string,
                            byKey: bool, v: Value, ctx: Value, fuel: nat)
    requires v.Arr? && !aug.tag.FilterNested?
    ensures var r := NestedValue(env, w, aug, key, subType, byKey, v, ctx, fuel);
      r.out.Ok? ==>
        r.out.value.Arr? && |r.out.value.elems| == |v.elems| &&
        forall i :: 0 <= i < |v.elems| ==>
          if !byKey && IsNullish(v.elems[i]) then r.out.value.elems[i] == v.elems[i]
          else
            fuel > 0 &&
            ResolveArgs(env, Wrap(key, v.elems[i]), Req(None, Some(subType), w.mode, ctx, byKey, false), fuel - 1).out.Ok? &&
            r.out.value.elems[i] == ValueOf(ResolveArgs(env, Wrap(key, v.elems[i]), Req(None, Some(subType), w.mode, ctx, byKey, false), fuel - 1).out.value)
  {
    var each := Each(env, w, v.elems, key, subType, ctx, byKey, !byKey, fuel);
    EachValues(env, w, v.elems, key, subType, ctx, byKey, !byKey, fuel);
    var runs := ElementRuns(env, w, v.elems, key, subType, ctx, byKey, !byKey, fuel);
    if each.out.Ok? {
      forall i | 0 <= i < |v.elems| && !(!byKey && IsNullish(v.elems[i]))
        ensures fuel > 0 && runs[i] == ResolveArgs(env, Wrap(key, v.elems[i]), Req(None, Some(subType), w.mode, ctx, byKey, false), fuel - 1)
      {
        assert runs[i].out.Ok?;
      }
    }
  }

  /** `paginate` runs once after the loop, behind the gate, exactly when a
      page or page size was given and the adapter has the callback. */
  function PaginateStep(env: Env, w: Walk, st: St): (r: Run<St>)
    ensures Recorded(env.a, r.events) && (CAuth in env.a.has ==> Guarded(r.events))
    ensures r.out.Ok? ==> r.out.value.ctxs == st.ctxs
    ensures !((LibConfig.ArgPageSize in st.pagination || LibConfig.ArgPage in st.pagination) && CPaginate in env.a.has) ==>
      r == Run([], Ok(st))
    ensures (LibConfig.ArgPageSize in st.pagination || LibConfig.ArgPage in st.pagination) && CPaginate in env.a.has && r.out.Ok? ==>
      |r.events| > 0 && r.events[|r.events| - 1] == Paginate(st.ctx, st.pagination) &&
      r.out.value.ctx == Or(env.a.answer(Paginate(st.ctx, st.pagination)), st.ctx)
  {
    if (LibConfig.ArgPageSize in st.pagination || LibConfig.ArgPage in st.pagination) && CPaginate in env.a.has then
      var g := WalkGate(env, w, st.ctx, None);
      if g.out.Err? then Run(g.events, Err(g.out.error))
      else
        var e := Paginate(st.ctx, st.pagination);
        GuardedEffect(env.a, g.events, e);
        Run(g.events + [e], Ok(st.(ctx := Effect(env.a, e, st.ctx))))
    else Run([], Ok(st))
  }

  /** The end of `_resolve`: a batch element returns its context; a walk
      under a parent passes the gate and ends with `resolve`; a root walk
      passes the gate and hands the root context followed by the batch
      contexts to a `SimpleResponse`, lazily or asked for its results. */
  function Finish(env: Env, w: Walk, q: Req, st: St): (r: Run<Answer>)
    ensures Recorded(env.a, r.events) && (CAuth in env.a.has ==> Guarded(r.events))
    ensures q.returnCtx ==> r == Run([], Ok(Plain(st.ctx)))
    ensures !q.returnCtx && Truthy(q.parent) && r.out.Ok? ==>
      |r.events| > 0 && r.events[|r.events| - 1] == Adapters.Resolve(st.ctx) &&
      r.out.value == Plain(env.a.answer(Adapters.Resolve(st.ctx)))
    ensures !q.returnCtx && !Truthy(q.parent) && q.useResponseType && r.out.Ok? ==>
      r.out.value == Later(Responses.Simple(env.a, [st.ctx] + st.ctxs, Responses.Fresh))
    ensures !q.returnCtx && !Truthy(q.parent) && !q.useResponseType && r.out.Ok? ==>
      var (_, v, evs) := Responses.Get(env.a, [st.ctx] + st.ctxs, Responses.Fresh, Responses.FResults);
      r.out.value == Plain(v) && r.events == WalkGate(env, w, st.ctx, None).events + evs
    ensures !q.returnCtx ==> (r.out.Ok? ==> WalkGate(env, w, st.ctx, None).out.Ok?)
  {
    if q.returnCtx then Run([], Ok(Plain(st.ctx)))
    else
      var g := WalkGate(env, w, st.ctx, None);
      if g.out.Err? then Run(g.events, Err(g.out.error))
      else if Truthy(q.parent) then
        if CResolve !in env.a.has then Run(g.events, Err(TypeError("resolvers.resolve is not a function")))
        else
          var e := Adapters.Resolve(st.ctx);
          GuardedEffect(env.a, g.events, e);
          Run(g.events + [e], Ok(Plain(env.a.answer(e))))
      else
        var ctxs := [st.ctx] + st.ctxs;
        if q.useResponseType then Run(g.events, Ok(Later(Responses.Simple(env.a, ctxs, Responses.Fresh))))
        else
          var (_, v, evs) := Responses.Get(env.a, ctxs, Responses.Fresh, Responses.FResults);
          ResultsGuarded(env.a, ctxs);
          GuardedConcat(env.a, g.events, evs);
          Run(g.events + evs, Ok(Plain(v)))
  }

  /** Asking a fresh response for its results calls only `return` and
      `results`, which are not direct effects. */
  lemma ResultsGuarded(a: Adapter, ctxs: seq<Value>)
    ensures var evs := Responses.Get(a, ctxs, Responses.Fresh, Responses.FResults).2;
      Recorded(a, evs) && forall i :: 0 <= i < |evs| ==> !Direct(evs[i])
  {
  }

  // ---- the root lookup ------------------------------------------------------

  /** The root field of that name: the mutation type is asked first, then the
      query type. The mode is the recorded target's, else the root's own
      (`mutate` or `query`); the type name is the target's `type`. */
  function RootLookup(s: Schema, name: string): (r: Result<(Field, string, Option<string>)>)
    ensures r.Err? <==>
      (s.mutation.None? || GetField(s, s.mutation.value, name).None?) && GetField(s, s.query, name).None?
    ensures r.Err? ==> r.error == UserInputError("unknown field name \"" + name + "\"")
    ensures s.mutation.Some? && GetField(s, s.mutation.value, name).Some? ==>
      r.Ok? && r.value.0 == GetField(s, s.mutation.value, name).value &&
      r.value.1 == ModeOr(r.value.0, LibConfig.ModeMutate)
    ensures (s.mutation.None? || GetField(s, s.mutation.value, name).None?) && GetField(s, s.query, name).Some? ==>
      r.Ok? && r.value.0 == GetField(s, s.query, name).value &&
      r.value.1 == ModeOr(r.value.0, LibConfig.ModeQuery)
    ensures r.Ok? ==> r.value.2 == TargetType(r.value.0)
  {
    var m := if s.mutation.Some? then GetField(s, s.mutation.value, name) else None;
    if m.Some? then Ok((m.value, ModeOr(m.value, LibConfig.ModeMutate), TargetType(m.value)))
    else match GetField(s, s.query, name)
      case None => Err(UserInputError("unknown field name \"" + name + "\""))
      case Some(f) => Ok((f, ModeOr(f, LibConfig.ModeQuery), TargetType(f)))
  }

  /** `_augmentedTarget.mode || fallback`. */
  function ModeOr(f: Field, fallback: string): string {
    if f.meta.target.Some? && f.meta.target.value.mode != "" then f.meta.target.value.mode else fallback
  }

  /** `_augmentedTarget.type`. */
  function TargetType(f: Field): Option<string> {
    if f.meta.target.Some? then f.meta.target.value.args.typeArg else None
  }

  /** `getNamedType(field.type)._augmentType === 'result.response'`. */
  predicate UsesResponseType(s: Schema, f: Field) {
    var n := NamedOf(f.ty).name;
    LookupType(s, n).Some? && LookupType(s, n).value.meta.tag == ResponseTag
  }

  /** `resolve(parent, args, context, info)`: a nested field of `parentType`
      under a truthy parent, walked as a query on its named type; or a root
      field. The walk itself gets no parent. */
  function Top(env: Env, parent: Value, parentType: string, fieldName: string, args: Value, fuel: nat): (r: Run<Answer>)
    ensures Recorded(env.a, r.events) && (CAuth in env.a.has ==> Guarded(r.events))
    ensures Truthy(parent) && GetField(env.s, parentType, fieldName).None? ==>
      r == Run([], Err(UserInputError("field \"" + fieldName + "\" from type \"" + parentType + "\" is not valid")))
    ensures Truthy(parent) && GetField(env.s, parentType, fieldName).Some? ==>
      var f := GetField(env.s, parentType, fieldName).value;
      r == ResolveArgs(env, args, Req(Some(f), Some(NamedOf(f.ty).name), Some(LibConfig.ModeQuery), Undef, false, false), fuel)
    ensures !Truthy(parent) && RootLookup(env.s, fieldName).Err? ==> r == Run([], Err(RootLookup(env.s, fieldName).error))
    ensures !Truthy(parent) && RootLookup(env.s, fieldName).Ok? ==>
      var (f, mode, typeName) := RootLookup(env.s, fieldName).value;
      r == ResolveArgs(env, args, Req(Some(f), typeName, Some(mode), Undef, false, UsesResponseType(env.s, f)), fuel)
  {
    if Truthy(parent) then
      match GetField(env.s, parentType, fieldName)
      case None => Run([], Err(UserInputError("field \"" + fieldName + "\" from type \"" + parentType + "\" is not valid")))
      case Some(f) =>
        ResolveArgs(env, args, Req(Some(f), Some(NamedOf(f.ty).name), Some(LibConfig.ModeQuery), Undef, false, false), fuel)
    else
      match RootLookup(env.s, fieldName)
      case Err(e) => Run([], Err(e))
      case Ok((f, mode, typeName)) =>
        ResolveArgs(env, args, Req(Some(f), typeName, Some(mode), Undef, false, UsesResponseType(env.s, f)), fuel)
  }

  /** The whole of `resolve(parent, args, context, info)`: the credential is
      read first with `getJwtPayload(context, info.schema)` (`schemaObj` is
      the schema object as a value, `verify` stands for `jwt.verify`). A
      credential that does not verify throws before any field lookup or
      resolver call; otherwise its payload, or `undefined` when there is
      none, is the identity of the walk. */
  function ResolveCall(s: Schema, a: Adapter, depthFirst: bool, context: Value, schemaObj: Value,
                       verify: (string, Value, Value) -> AuthGate.Verification,
                       parent: Value, parentType: string, fieldName: string, args: Value, fuel: nat): (r: Run<Answer>)
    ensures Recorded(a, r.events) && (CAuth in a.has ==> Guarded(r.events))
    ensures AuthGate.GetJwtPayload(context, schemaObj, false, verify).Err? ==>
      r.events == [] && r.out.Err? && r.out.error.AuthenticationError?
    ensures AuthGate.GetJwtPayload(context, schemaObj, false, verify).Ok? ==>
      r == Top(Env(s, a, AuthGate.GetJwtPayload(context, schemaObj, false, verify).value, depthFirst),
               parent, parentType, fieldName, args, fuel)
  {
    match AuthGate.GetJwtPayload(context, schemaObj, false, verify)
    case Err(e) => Run([], Err(e))
    case Ok(identity) => Top(Env(s, a, identity, depthFirst), parent, parentType, fieldName, args, fuel)
  }

  /** A call is refused before anything else exactly when a credential is
      present, the schema carries a secret, and verification rejects the
      token; the error carries the verifier's reason. Without a credential
      the walk runs with an `undefined` identity. */
  lemma {:induction false} ResolveCallRejects(s: Schema, a: Adapter, depthFirst: bool, context: Value, schemaObj: Value,
                                              verify: (string, Value, Value) -> AuthGate.Verification,
                                              parent: Value, parentType: string, fieldName: string, args: Value, fuel: nat)
    ensures var r := ResolveCall(s, a, depthFirst, context, schemaObj, verify, parent, parentType, fieldName, args, fuel);
      var token := AuthGate.Guess(context, AuthGate.ContextPath);
      var conf := AuthGate.Guess(schemaObj, AuthGate.AuthPath);
      var refused := token.Str? && AuthGate.IsObjectValue(conf) && !IsNullish(Get(conf, "secret")) &&
        verify(AuthGate.StripBearer(token.s), Get(conf, "secret"), Get(conf, "options")).Rejected?;
      (refused ==>
        r == Run([], Err(AuthenticationError("authentication failed: " +
          verify(AuthGate.StripBearer(token.s), Get(conf, "secret"), Get(conf, "options")).reason)))) &&
      (!refused ==> exists id :: r == Top(Env(s, a, id, depthFirst), parent, parentType, fieldName, args, fuel)) &&
      (!token.Str? ==> r == Top(Env(s, a, Undef, depthFirst), parent, parentType, fieldName, args, fuel))
  {
    var j := AuthGate.GetJwtPayload(context, schemaObj, false, verify);
    var token := AuthGate.Guess(context, AuthGate.ContextPath);
    var conf := AuthGate.Guess(schemaObj, AuthGate.AuthPath);
    if token.Str? && AuthGate.IsObjectValue(conf) && !IsNullish(Get(conf, "secret")) {
      AuthGate.VerifyGetsStrippedToken(context, schemaObj, false, verify);
    }
    if j.Ok? {
      assert ResolveCall(s, a, depthFirst, context, schemaObj, verify, parent, parentType, fieldName, args, fuel)
        == Top(Env(s, a, j.value, depthFirst), parent, parentType, fieldName, args, fuel);
    }
  }

  // ---- properties of whole walks ------------------------------------------

  /** A `null` nested filter is handed to `nested` as it is: after the gate
      the only call is `nested` itself, with no sub-walk. */
  lemma NullNestedPassesThrough(env: Env, w: Walk, aug: Augment, st: St, fuel: nat)
    requires aug.tag.FilterNested? && aug.name in w.args && w.args[aug.name] == Null && CNested in env.a.has
    ensures var r := Step(env, w, aug, st, fuel);
      var g := WalkGate(env, w, st.ctx, Some(aug.tag.field));
      (g.out.Ok? ==>
        r.events == g.events + [Nested(st.ctx, aug.tag.field, Null)] &&
        r.out == Ok(st.(ctx := Or(env.a.answer(Nested(st.ctx, aug.tag.field, Null)), st.ctx)))) &&
      (g.out.Err? ==> r == Run(g.events, Err(g.out.error)))
  {
  }
}

=== FILE: libutils.dfy ===
/** The type-map helpers of lib/utils.js: the synthesized type names,
    `ensureInputType` / `ensureResultType` (which stamp their metadata only
    when they create the type), `isRootType` and
    `findRootTypeFieldForAugmentedTarget`. */
module LibUtils {
  import opened Outcomes
  import opened GqlType
  import opened SchemaModel
  import LibConfig

  /** `T + capitalize(mode) + 'Input'`. */
  function InputTypeName(typeName: string, mode: string): (r: string)
    ensures |r| == |typeName| + |mode| + 5
    ensures r[..|typeName|] == typeName && r[|r| - 5..] == "Input"
  {
    var r := typeName + Capitalize(mode) + "Input";
    assert r[..|typeName|] == typeName;
    r
  }

  /** `T + capitalize(mode) + capitalize(MODE_RESULT)`. */
  function ResultTypeName(typeName: string, mode: string): (r: string)
    ensures |r| == |typeName| + |mode| + |LibConfig.ModeResult|
    ensures r[..|typeName|] == typeName
  {
    var r := typeName + Capitalize(mode) + Capitalize(LibConfig.ModeResult);
    assert r[..|typeName|] == typeName;
    r
  }

  function InputMeta(typeName: string, mode: string): TypeMeta {
    TypeMeta(TypeInputTag, Some(typeName), Some(mode), None)
  }

  function ResultMeta(typeName: string, mode: string): TypeMeta {
    TypeMeta(TypeResultTag, Some(typeName), Some(mode), None)
  }

  /** lib/utils.js `ensureInputType`: creates the tagged, empty input type
      `T + Cap(mode) + Input` when it is absent; an existing type is returned
      untouched. */
  function EnsureInputType(s: Schema, typeName: string, mode: string): (r: (Schema, TypeDef))
    ensures r.1.name == InputTypeName(typeName, mode)
    ensures LookupType(r.0, r.1.name) == Some(r.1)
    ensures LookupType(s, r.1.name).Some? ==> r == (s, LookupType(s, r.1.name).value)
    ensures LookupType(s, r.1.name).None? ==> r.1 == NewInputType(r.1.name, [], InputMeta(typeName, mode))
    ensures forall n :: n != r.1.name ==> LookupType(r.0, n) == LookupType(s, n)
    ensures r.0.query == s.query && r.0.mutation == s.mutation && r.0.delayed == s.delayed
  {
    EnsureType(s, InputTypeName(typeName, mode), n => NewInputType(n, [], InputMeta(typeName, mode)))
  }

  /** lib/utils.js `ensureResultType`, the object-type counterpart. */
  function EnsureResultType(s: Schema, typeName: string, mode: string): (r: (Schema, TypeDef))
    ensures r.1.name == ResultTypeName(typeName, mode)
    ensures LookupType(r.0, r.1.name) == Some(r.1)
    ensures LookupType(s, r.1.name).Some? ==> r == (s, LookupType(s, r.1.name).value)
    ensures LookupType(s, r.1.name).None? ==> r.1 == NewObjectType(r.1.name, [], ResultMeta(typeName, mode))
    ensures forall n :: n != r.1.name ==> LookupType(r.0, n) == LookupType(s, n)
    ensures r.0.query == s.query && r.0.mutation == s.mutation && r.0.delayed == s.delayed
  {
    EnsureType(s, ResultTypeName(typeName, mode), n => NewObjectType(n, [], ResultMeta(typeName, mode)))
  }

  /** A repeated call returns the same entry and leaves the map as the first
      call left it. */
  lemma EnsureInputTypeIdempotent(s: Schema, typeName: string, mode: string)
    ensures var (s1, t1) := EnsureInputType(s, typeName, mode);
      EnsureInputType(s1, typeName, mode) == (s1, t1)
  {
  }

  lemma EnsureResultTypeIdempotent(s: Schema, typeName: string, mode: string)
    ensures var (s1, t1) := EnsureResultType(s, typeName, mode);
      EnsureResultType(s1, typeName, mode) == (s1, t1)
  {
  }

  /** A type that already carries another tag keeps it: the helpers of
      lib/utils.js never re-stamp. */
  lemma EnsureInputTypeKeepsForeignMeta(s: Schema, typeName: string, mode: string)
    requires LookupType(s, InputTypeName(typeName, mode)).Some?
    ensures EnsureInputType(s, typeName, mode).1.meta == LookupType(s, InputTypeName(typeName, mode)).value.meta
  {
  }

  /** A root field addressed by owner type and field name. */
  datatype FieldRef = FieldRef(owner: string, name: string)

  /** `field._augmentedTarget` names type `typeName` in mode `mode`. */
  predicate Targets(f: Field, typeName: string, mode: string) {
    f.meta.target.Some? && f.meta.target.value.args.typeArg == Some(typeName) && f.meta.target.value.mode == mode
  }

  /** The fields of `fs` (of type `owner`) that target (typeName, mode), in order. */
  function TargetsIn(owner: string, fs: seq<Field>, typeName: string, mode: string): (r: seq<FieldRef>)
    ensures forall i :: 0 <= i < |r| ==> r[i].owner == owner
    ensures forall i :: 0 <= i < |fs| && Targets(fs[i], typeName, mode) ==> FieldRef(owner, fs[i].name) in r
    ensures forall x :: x in r ==> exists i :: 0 <= i < |fs| && fs[i].name == x.name && Targets(fs[i], typeName, mode)
    decreases |fs|
  {
    if |fs| == 0 then []
    else
      var rest := TargetsIn(owner, fs[1..], typeName, mode);
      assert forall i :: 1 <= i < |fs| ==> fs[i] == fs[1..][i - 1];
      if Targets(fs[0], typeName, mode) then [FieldRef(owner, fs[0].name)] + rest else rest
  }

  function FieldsOf(s: Schema, name: string): seq<Field> {
    match LookupType(s, name)
    case None => []
    case Some(t) => t.fields
  }

  /** `findRootTypeFieldForAugmentedTarget`: the query fields, then the
      mutation fields, whose target is (typeName, mode). */
  function FindRootTargets(s: Schema, typeName: string, mode: string): (r: seq<FieldRef>)
    ensures forall x :: x in r ==> x.owner == s.query || Some(x.owner) == s.mutation
  {
    var q := TargetsIn(s.query, FieldsOf(s, s.query), typeName, mode);
    var m := if s.mutation.Some? then TargetsIn(s.mutation.value, FieldsOf(s, s.mutation.value), typeName, mode) else [];
    assert forall i :: 0 <= i < |m| ==> m[i].owner == s.mutation.value;
    q + m
  }

  /** A query field that targets (typeName, mode) is found. */
  lemma FindsQueryTarget(s: Schema, f: Field, typeName: string, mode: string)
    requires f in FieldsOf(s, s.query) && Targets(f, typeName, mode)
    ensures FieldRef(s.query, f.name) in FindRootTargets(s, typeName, mode)
  {
    var i :| 0 <= i < |FieldsOf(s, s.query)| && FieldsOf(s, s.query)[i] == f;
  }

  /** A root field (query or mutation) that targets (typeName, mode) is found. */
  lemma FindsRootTarget(s: Schema, owner: string, f: Field, typeName: string, mode: string)
    requires owner == s.query || Some(owner) == s.mutation
    requires f in FieldsOf(s, owner) && Targets(f, typeName, mode)
    ensures FieldRef(owner, f.name) in FindRootTargets(s, typeName, mode)
  {
    var i :| 0 <= i < |FieldsOf(s, owner)| && FieldsOf(s, owner)[i] == f;
    if owner != s.query {
      var m := TargetsIn(s.mutation.value, FieldsOf(s, s.mutation.value), typeName, mode);
      assert FieldRef(owner, f.name) in m;
    }
  }

  /** Every root field found exists. */
  lemma FoundTargetsExist(s: Schema, typeName: string, mode: string, x: FieldRef)
    requires x in FindRootTargets(s, typeName, mode)
    ensures GetField(s, x.owner, x.name).Some?
  {
    var q := TargetsIn(s.query, FieldsOf(s, s.query), typeName, mode);
    if x in q {
      var i :| 0 <= i < |FieldsOf(s, s.query)| && FieldsOf(s, s.query)[i].name == x.name && Targets(FieldsOf(s, s.query)[i], typeName, mode);
      assert FieldNames(FieldsOf(s, s.query))[i] == x.name;
    } else {
      var m := TargetsIn(s.mutation.value, FieldsOf(s, s.mutation.value), typeName, mode);
      assert x in m;
      var i :| 0 <= i < |FieldsOf(s, s.mutation.value)| && FieldsOf(s, s.mutation.value)[i].name == x.name && Targets(FieldsOf(s, s.mutation.value)[i], typeName, mode);
      assert FieldNames(FieldsOf(s, s.mutation.value))[i] == x.name;
    }
  }

  /** The targets found depend only on the root names and the root field lists. */
  lemma FindRootTargetsSame(s: Schema, t: Schema, typeName: string, mode: string)
    requires s.query == t.query && s.mutation == t.mutation
    requires FieldsOf(s, s.query) == FieldsOf(t, t.query)
    requires s.mutation.Some? ==> FieldsOf(s, s.mutation.value) == FieldsOf(t, t.mutation.value)
    ensures FindRootTargets(s, typeName, mode) == FindRootTargets(t, typeName, mode)
  {
  }

  /** A schema that keeps every field list and the root names finds every
      target found before (a root type it adds has nothing found before). */
  lemma FindRootTargetsKept(s: Schema, t: Schema, typeName: string, mode: string, x: FieldRef)
    requires KeepsFields(s, t) && s.query == t.query && s.mutation == t.mutation
    requires x in FindRootTargets(s, typeName, mode)
    ensures x in FindRootTargets(t, typeName, mode)
  {
    var q := TargetsIn(s.query, FieldsOf(s, s.query), typeName, mode);
    var m := if s.mutation.Some? then TargetsIn(s.mutation.value, FieldsOf(s, s.mutation.value), typeName, mode) else [];
    if LookupType(s, s.query).Some? {
      assert FieldsOf(t, t.query) == FieldsOf(s, s.query);
    } else {
      assert q == [];
    }
    if s.mutation.Some? {
      if LookupType(s, s.mutation.value).Some? {
        assert FieldsOf(t, t.mutation.value) == FieldsOf(s, s.mutation.value);
      } else {
        assert m == [];
      }
    }
  }
}

=== FILE: libvisit.dfy ===
/** `SchemaAugmenter.visitFieldDefinition` of lib/directives/common.js: the
    visit of one augment directive (`@query`, `@insert`, ...) on one field.
    On a root field it records the target and adds the response type and the
    batch / sort / page arguments; on a type field it builds the result type,
    records the mode and derives the filter or input arguments, queueing what
    cannot be applied yet. */
module LibVisit {
  import opened Outcomes
  import opened GqlType
  import opened SchemaModel
  import LibConfig
  import LibUtils
  import LibCommon
  import LibQuery
  import LibMutation
  import LibDeferred
  import Deferral

  /** One directive class: `makeQueryDirective(mode)` when `isQuery`,
      `makeMutationDirective(mode)` otherwise. */
  datatype Directive = Directive(mode: string, isQuery: bool)

  const CursorArg := Augment(LibConfig.ArgCursor, StringType, CursorCursor, None)

  // ---- `_augmentedTargetsByMode` -------------------------------------------

  /** `targets[m]`. */
  function ModeArgs(targets: seq<(string, DirArgs)>, m: string): Option<DirArgs>
    decreases |targets|
  {
    if |targets| == 0 then None
    else if targets[0].0 == m then Some(targets[0].1)
    else ModeArgs(targets[1..], m)
  }

  /** `targets[m] = a`: overwrites in place, or appends a new key. */
  function SetMode(targets: seq<(string, DirArgs)>, m: string, a: DirArgs): (r: seq<(string, DirArgs)>)
    ensures ModeArgs(r, m) == Some(a)
    ensures forall m' :: m' != m ==> ModeArgs(r, m') == ModeArgs(targets, m')
    ensures |r| == |targets| + (if ModeArgs(targets, m).Some? then 0 else 1)
    decreases |targets|
  {
    if |targets| == 0 then [(m, a)]
    else if targets[0].0 == m then
      var r := [(m, a)] + targets[1..];
      assert r[1..] == targets[1..];
      r
    else
      var rest := SetMode(targets[1..], m, a);
      var r := [targets[0]] + rest;
      assert r[1..] == rest;
      r
  }

  // ---- the argument sets shared by root and result fields ------------------

  /** `getArgNameForBatch()`: `filters` for the query directives, `inputs` for the mutation ones. */
  function BatchName(d: Directive): string {
    if d.isQuery then LibConfig.ArgFilters else LibConfig.ArgInputs
  }

  /** The argument of `augmentBatchForField`: a list over the input type of
      `typeName` in the batch mode, get-or-created. */
  function BatchAugment(s: Schema, d: Directive, typeName: string, batchMode: string): (r: (Schema, Augment))
    ensures r.1.name == BatchName(d)
    ensures LookupType(r.0, LibUtils.InputTypeName(typeName, LibQuery.Pick(Some(batchMode), d.mode))).Some?
    ensures KeepsFields(s, r.0) && r.0.query == s.query && r.0.mutation == s.mutation && r.0.delayed == s.delayed
  {
    var (s1, it) := LibCommon.EnsureInputType(s, typeName, LibQuery.Pick(Some(batchMode), d.mode));
    LibCommon.EnsureInputTypeKeepsFields(s, typeName, LibQuery.Pick(Some(batchMode), d.mode));
    (s1, LibCommon.BatchArg(d.isQuery, it.name))
  }

  /** `augmentBatchForField` on an argument list: the batch argument appended
      at most once, and the batch input type exists. */
  function AddBatch(s: Schema, d: Directive, typeName: string, batchMode: string, xs: seq<Augment>): (r: (Schema, seq<Augment>))
    ensures Names(r.1) == Names(xs) + {BatchName(d)}
    ensures LookupType(r.0, LibUtils.InputTypeName(typeName, LibQuery.Pick(Some(batchMode), d.mode))).Some?
    ensures KeepsFields(s, r.0) && r.0.query == s.query && r.0.mutation == s.mutation && r.0.delayed == s.delayed
  {
    var (s1, b) := BatchAugment(s, d, typeName, batchMode);
    NamesOne(b);
    (s1, AppendAbsent(xs, [b]))
  }

  /** `augmentPageForField`: `page` and the page size. */
  function AddPage(xs: seq<Augment>, pageSize: Option<int>): (r: seq<Augment>)
    ensures Names(r) == Names(xs) + {LibConfig.ArgPage, LibConfig.ArgPageSize}
  {
    var pa := LibCommon.PageArgs(pageSize);
    assert pa[0].name in Names(pa) && pa[1].name in Names(pa);
    assert Names(pa) == {LibConfig.ArgPage, LibConfig.ArgPageSize};
    AppendAbsent(xs, pa)
  }

  /** `augmentBatchForField`, `augmentSortForField` and `augmentPageForField`
      on `target`, as `batchArgs`, `sort` and `page` ask. */
  function Extras(s: Schema, d: Directive, target: Field, typeName: string, batchMode: string, args: DirArgs): (r: (Schema, Field))
    ensures r.1.name == target.name && r.1.ty == target.ty && r.1.meta == target.meta
    ensures Names(target.args) <= Names(r.1.args)
    ensures args.batchArgs ==> BatchName(d) in Names(r.1.args)
    ensures args.sort ==> LibConfig.ArgSort in Names(r.1.args)
    ensures args.page ==> LibConfig.ArgPage in Names(r.1.args) && LibConfig.ArgPageSize in Names(r.1.args)
    ensures !args.batchArgs && !args.sort && !args.page ==> r == (s, target)
    ensures KeepsFields(s, r.0) && r.0.query == s.query && r.0.mutation == s.mutation && r.0.delayed == s.delayed
  {
    var (s1, a1) := if args.batchArgs then AddBatch(s, d, typeName, batchMode, target.args) else (s, target.args);
    assert KeepsFields(s, s1) && Names(target.args) <= Names(a1);
    var (s2, a2) := if args.sort then LibCommon.AugmentSort(s1, a1) else (s1, a1);
    assert KeepsFields(s1, s2) by {
      forall n | LookupType(s1, n).Some?
        ensures LookupType(s2, n).Some? && LookupType(s2, n).value.fields == LookupType(s1, n).value.fields
      {
        if args.sort && n == LibCommon.SortInputName { assert s2 == s1; }
      }
    }
    assert Names(a1) <= Names(a2) && (args.sort ==> LibConfig.ArgSort in Names(a2));
    var a3 := if args.page then AddPage(a2, args.pageSize) else a2;
    assert Names(a2) <= Names(a3);
    KeepsFieldsTrans(s, s1, s2);
    (s2, target.(args := a3))
  }

  // ---- the root field --------------------------------------------------------

  /** The field returns a named `result.response` type already. */
  predicate IsResponseType(s: Schema, t: GType) {
    t.Named? && LibDeferred.TagOf(s, t.name) == ResponseTag
  }

  /** `response: true`: the field returns `ResponseType!`, plus a `cursor`
      argument when `cursor: true`. */
  function RootResponse(s: Schema, d: Directive, f: Field, args: DirArgs): (r: (Schema, Field))
    ensures r.1.name == f.name && r.1.meta == f.meta && Names(f.args) <= Names(r.1.args)
    ensures args.response && !IsResponseType(s, f.ty) ==>
      r.1.ty.NonNull? && NamedOf(r.1.ty).name == LibCommon.ResponseTypeName(NamedOf(f.ty).name, d.mode, args.cursor) &&
      LookupType(r.0, NamedOf(r.1.ty).name).Some? &&
      (args.cursor ==> LibConfig.ArgCursor in Names(r.1.args))
    ensures !(args.response && !IsResponseType(s, f.ty)) ==> r == (s, f)
    ensures KeepsFields(s, r.0) && r.0.query == s.query && r.0.mutation == s.mutation && r.0.delayed == s.delayed
  {
    if args.response && !IsResponseType(s, f.ty) then
      var (s1, rt) := LibCommon.EnsureResponseType(s, f.ty, d.mode, args.cursor);
      assert KeepsFields(s, s1) by {
        forall n | LookupType(s, n).Some?
          ensures LookupType(s1, n).Some? && LookupType(s1, n).value.fields == LookupType(s, n).value.fields
        {
          if n == rt.name { assert s1 == s; }
        }
      }
      var f1 := f.(ty := NonNull(TypeRef(rt)));
      assert NamedOf(f1.ty).name == rt.name;
      var f2 := if args.cursor then f1.(args := AppendAbsent(f1.args, [CursorArg])) else f1;
      assert Names(f.args) <= Names(f2.args) && (args.cursor ==> LibConfig.ArgCursor in Names(f2.args)) by {
        NamesOne(CursorArg);
      }
      (s1, f2)
    else (s, f)
  }

  /** The root branch of `visitFieldDefinition`. */
  function VisitRoot(s: Schema, d: Directive, owner: string, f: Field, args: DirArgs): (r: Result<Schema>)
    requires GetField(s, owner, f.name) == Some(f)
    ensures f.meta.target.Some? ==> r.Err? && r.error.ConfigError?
    ensures f.meta.target.None? && !Given(args.typeArg) ==> r.Err? && r.error.ConfigError?
    ensures f.meta.target.None? && Given(args.typeArg) ==> r.Ok?
  {
    if f.meta.target.Some? then
      Err(ConfigError("@" + d.mode + " conflicts with @" + f.meta.target.value.mode + " on root query / mutation field \"" + f.name + "\""))
    else if !Given(args.typeArg) then
      Err(ConfigError("@" + d.mode + "(type: ...) is required on root query / mutation fields"))
    else
      var f1 := f.(meta := f.meta.(target := Some(Target(d.mode, args))));
      var (s1, f2) := RootResponse(s, d, f1, args);
      var (s2, f3) := Extras(s1, d, f2, args.typeArg.value, d.mode, args);
      Ok(LibDeferred.FlushSchema(PutField(s2, owner, f3)))
  }

  /** The schema a successful root visit writes before its final flush, and
      the field it writes: the visited field with its target recorded. */
  lemma RootBeforeFlush(s: Schema, d: Directive, owner: string, f: Field, args: DirArgs)
    requires GetField(s, owner, f.name) == Some(f) && f.meta.target.None? && Given(args.typeArg)
    ensures var f1 := f.(meta := f.meta.(target := Some(Target(d.mode, args))));
      var (s1, f2) := RootResponse(s, d, f1, args);
      var (s2, f3) := Extras(s1, d, f2, args.typeArg.value, d.mode, args);
      var s3 := PutField(s2, owner, f3);
      VisitRoot(s, d, owner, f, args) == Ok(LibDeferred.FlushSchema(s3)) &&
      f3.name == f.name && f3.meta.target == Some(Target(d.mode, args)) && Names(f.args) <= Names(f3.args) &&
      GetField(s3, owner, f.name) == Some(f3) && f3 in LibUtils.FieldsOf(s3, owner) &&
      s3.query == s.query && s3.mutation == s.mutation && s3.delayed == s.delayed
  {
    var f1 := f.(meta := f.meta.(target := Some(Target(d.mode, args))));
    var (s1, f2) := RootResponse(s, d, f1, args);
    var (s2, f3) := Extras(s1, d, f2, args.typeArg.value, d.mode, args);
    assert LookupType(s, owner).Some?;
    assert LookupType(s2, owner).Some?;
    GetFieldAfterPut(s2, owner, f3, owner, f.name);
    var s3 := PutField(s2, owner, f3);
    var t := LookupType(s3, owner).value;
    var i := FieldIndex(t.fields, f.name).value;
    assert t.fields[i] == f3;
  }

  /** After a successful root visit the field keeps its recorded target. */
  lemma RootVisitRecordsTarget(s: Schema, d: Directive, owner: string, f: Field, args: DirArgs)
    requires GetField(s, owner, f.name) == Some(f) && f.meta.target.None? && Given(args.typeArg)
    ensures var r := VisitRoot(s, d, owner, f, args);
      r.Ok? && GetField(r.value, owner, f.name).Some? &&
      GetField(r.value, owner, f.name).value.meta.target == Some(Target(d.mode, args)) &&
      Names(f.args) <= Names(GetField(r.value, owner, f.name).value.args) &&
      r.value.query == s.query && r.value.mutation == s.mutation
  {
    RootBeforeFlush(s, d, owner, f, args);
    var f1 := f.(meta := f.meta.(target := Some(Target(d.mode, args))));
    var (s1, f2) := RootResponse(s, d, f1, args);
    var (s2, f3) := Extras(s1, d, f2, args.typeArg.value, d.mode, args);
    var s3 := PutField(s2, owner, f3);
    LibDeferred.FlushSchemaGrows(s3);
    assert GetField(s3, owner, f.name).Some?;
  }

  // ---- the result type -------------------------------------------------------

  function ResultMode(d: Directive, args: DirArgs): string {
    LibQuery.Pick(args.resultAs, LibQuery.Pick(args.asMode, d.mode))
  }

  /** The message of the result branch for a field that is neither input-typed nor an object. */
  function ResultError(owner: string, f: Field, d: Directive, args: DirArgs): string {
    var parts := ["result: true"]
      + (if Given(args.resultAs) then ["resultAs: " + args.resultAs.value] else [])
      + (if Given(args.asMode) then ["as: " + args.asMode.value] else []);
    "field " + owner + "." + f.name + " cannot be processed by @" + d.mode + "(" + JoinComma(parts) + ")"
  }

  function JoinComma(xs: seq<string>): string
    decreases |xs|
  {
    if |xs| == 0 then "" else if |xs| == 1 then xs[0] else xs[0] + ", " + JoinComma(xs[1..])
  }

  /** The type of the result-type field: the field's own type when it is an
      input type, the field's wrappers around the result type of its object
      type in the result mode otherwise. */
  function ResultFieldType(s: Schema, owner: string, f: Field, d: Directive, args: DirArgs): (r: Result<(Schema, GType)>)
    ensures IsInputType(f.ty) ==> r == Ok((s, f.ty))
    ensures !IsInputType(f.ty) && NamedOf(f.ty).kind == ObjectKind ==>
      r.Ok? && NamedOf(r.value.1).name == LibUtils.ResultTypeName(NamedOf(f.ty).name, ResultMode(d, args)) &&
      Wrappers(r.value.1) == Wrappers(f.ty)
    ensures !IsInputType(f.ty) && NamedOf(f.ty).kind != ObjectKind ==> r.Err? && r.error.ConfigError?
    ensures r.Ok? ==> KeepsFields(s, r.value.0) && r.value.0.query == s.query && r.value.0.mutation == s.mutation && r.value.0.delayed == s.delayed
  {
    var named := NamedOf(f.ty);
    if IsInputKind(named.kind) then Ok((s, f.ty))
    else if named.kind == ObjectKind then
      var (s1, art) := LibCommon.EnsureResultType(s, named.name, ResultMode(d, args));
      var ty := WrapLike(TypeRef(art), f.ty);
      assert Wrappers(ty) == Wrappers(f.ty) + [];
      Ok((s1, ty))
    else Err(ConfigError(ResultError(owner, f, d, args)))
  }

  /** Every field outside type `skip` is still there, grown. */
  ghost predicate GrowsBut(s: Schema, t: Schema, skip: string) {
    (forall n :: LookupType(s, n).Some? ==> LookupType(t, n).Some?) &&
    forall o, n :: o != skip && GetField(s, o, n).Some? ==>
      GetField(t, o, n).Some? && LibDeferred.FieldGrows(GetField(s, o, n).value, GetField(t, o, n).value)
  }

  /** The `result: true` branch: the result type `T + Cap(mode) + Result`
      gets a field of the same name, the root fields targeting (T, mode) are
      queued for return-type replacement, and the batch / sort / page
      arguments go on the result-type field. */
  function ResultPart(s: Schema, d: Directive, owner: string, f: Field, args: DirArgs): (r: Result<Schema>)
    ensures !IsInputType(f.ty) && NamedOf(f.ty).kind != ObjectKind ==> r.Err? && r.error.ConfigError?
    ensures (IsInputType(f.ty) || NamedOf(f.ty).kind == ObjectKind) ==> r.Ok?
  {
    match ResultTyped(s, d, owner, f, args)
    case Err(e) => Err(e)
    case Ok((s3, rtName, ty)) =>
      Ok(WrittenResultField(s3, d, rtName, ResultTypeField(owner, f, ty), owner, ResultMode(d, args), args))
  }

  /** The field `augmentTypeField` writes: the field's name, the given type,
      and the field's own `args` array, shared with it. */
  function ResultTypeField(owner: string, f: Field, ty: GType): (r: Field)
    ensures r.name == f.name && r.ty == ty && r.args == f.args
    ensures r.meta.argsOf == Some(ArgsHome(owner, f))
  {
    Field(f.name, ty, f.args, NoFieldMeta.(argsOf := Some(ArgsHome(owner, f))))
  }

  /** The first three steps of the result branch: get-or-create the result
      type, queue the root-type replacement, and type the result-type field.
      Every field is still there, grown. */
  function ResultTyped(s: Schema, d: Directive, owner: string, f: Field, args: DirArgs): (r: Result<(Schema, string, GType)>)
    ensures !IsInputType(f.ty) && NamedOf(f.ty).kind != ObjectKind ==> r.Err? && r.error.ConfigError?
    ensures (IsInputType(f.ty) || NamedOf(f.ty).kind == ObjectKind) ==> r.Ok?
    ensures r.Ok? ==> r.value.1 == LibUtils.ResultTypeName(owner, d.mode) && LookupType(r.value.0, r.value.1).Some?
    ensures r.Ok? && IsInputType(f.ty) ==> r.value.2 == f.ty
    ensures r.Ok? && !IsInputType(f.ty) ==>
      NamedOf(r.value.2).name == LibUtils.ResultTypeName(NamedOf(f.ty).name, ResultMode(d, args)) &&
      Wrappers(r.value.2) == Wrappers(f.ty)
  {
    var (s1, rt) := LibCommon.EnsureResultType(s, owner, d.mode);
    var s2 := LibDeferred.ApplyOnSchema(s1, ReplaceResultType(owner, d.mode, rt.name));
    assert LookupType(s2, rt.name).Some? by {
      LibDeferred.ApplyOnSchemaGrows(s1, ReplaceResultType(owner, d.mode, rt.name));
    }
    var (s3, ty) :- ResultFieldType(s2, owner, f, d, args);
    assert LookupType(s3, rt.name).Some?;
    Ok((s3, rt.name, ty))
  }

  /** The prefix of the result branch loses no field. */
  lemma ResultTypedGrows(s: Schema, d: Directive, owner: string, f: Field, args: DirArgs)
    requires ResultTyped(s, d, owner, f, args).Ok?
    ensures LibDeferred.Grows(s, ResultTyped(s, d, owner, f, args).value.0)
  {
    var (s1, rt) := LibCommon.EnsureResultType(s, owner, d.mode);
    var s2 := LibDeferred.ApplyOnSchema(s1, ReplaceResultType(owner, d.mode, rt.name));
    var (s3, ty) := ResultFieldType(s2, owner, f, d, args).value;
    assert KeepsFields(s, s1) by {
      forall n | LookupType(s, n).Some?
        ensures LookupType(s1, n).Some? && LookupType(s1, n).value.fields == LookupType(s, n).value.fields
      {
      }
    }
    LibDeferred.KeepsFieldsGrows(s, s1);
    LibDeferred.ApplyOnSchemaGrows(s1, ReplaceResultType(owner, d.mode, rt.name));
    LibDeferred.GrowsTrans(s, s1, s2);
    LibDeferred.KeepsFieldsGrows(s2, s3);
    LibDeferred.GrowsTrans(s, s2, s3);
  }

  /** The field exists and carries the batch, `sort` and page arguments the
      directive asks for. */
  predicate HasExtras(s: Schema, o: string, n: string, d: Directive, args: DirArgs) {
    GetField(s, o, n).Some? &&
    (args.batchArgs ==> LibDeferred.HasArgs(s, o, n, {BatchName(d)})) &&
    (args.sort ==> LibDeferred.HasArgs(s, o, n, {LibConfig.ArgSort})) &&
    (args.page ==> LibDeferred.HasArgs(s, o, n, {LibConfig.ArgPage, LibConfig.ArgPageSize}))
  }

  /** What the result branch leaves: every field outside the result type is
      kept (grown); the result type has the field, typed by the rule of
      `ResultFieldType`, carrying the field's arguments and sharing its list;
      and the batch / sort / page arguments land on that shared list, so the
      field itself and every other field holding the list carry them too. */
  lemma ResultPartEffect(s: Schema, d: Directive, owner: string, f: Field, args: DirArgs)
    requires ResultPart(s, d, owner, f, args).Ok?
    ensures var r := ResultPart(s, d, owner, f, args).value;
      var rtName := LibUtils.ResultTypeName(owner, d.mode);
      var h := ArgsHome(owner, f);
      GrowsBut(s, r, rtName) &&
      GetField(r, rtName, f.name).Some? &&
      Names(f.args) <= Names(GetField(r, rtName, f.name).value.args) &&
      GetField(r, rtName, f.name).value.meta.argsOf == Some(h) &&
      HasExtras(r, rtName, f.name, d, args) &&
      (forall o, n :: o != rtName && Holds(s, o, n, h.0, h.1) ==> HasExtras(r, o, n, d, args)) &&
      (GetField(s, owner, f.name) == Some(f) ==> HasExtras(r, owner, f.name, d, args)) &&
      (IsInputType(f.ty) ==> GetField(r, rtName, f.name).value.ty == f.ty) &&
      (!IsInputType(f.ty) ==>
        NamedOf(GetField(r, rtName, f.name).value.ty).name == LibUtils.ResultTypeName(NamedOf(f.ty).name, ResultMode(d, args)) &&
        Wrappers(GetField(r, rtName, f.name).value.ty) == Wrappers(f.ty))
  {
    ResultNameDiffers(owner, d.mode);
    var (s3, rtName, ty) := ResultTyped(s, d, owner, f, args).value;
    var rf := ResultTypeField(owner, f, ty);
    var h := ArgsHome(owner, f);
    assert ArgsHome(rtName, rf) == h;
    var r := WrittenResultField(s3, d, rtName, rf, owner, ResultMode(d, args), args);
    assert ResultPart(s, d, owner, f, args).value == r;
    ResultTypedGrows(s, d, owner, f, args);
    WriteResultField(s3, d, rtName, rf, owner, ResultMode(d, args), args);
    forall o, n | o != rtName && GetField(s, o, n).Some?
      ensures GetField(r, o, n).Some? && LibDeferred.FieldGrows(GetField(s, o, n).value, GetField(r, o, n).value)
    {
      if Holds(s3, o, n, h.0, h.1) {
      } else {
        assert GetField(r, o, n) == GetField(s3, o, n);
      }
    }
    forall o, n | o != rtName && Holds(s, o, n, h.0, h.1) ensures HasExtras(r, o, n, d, args) {
      LibDeferred.GrowsHolds(s, s3, o, n, h.0, h.1);
    }
  }

  /** The last steps of the result branch: the result-type field is written,
      then given its extra arguments through `augmentFieldArgs`. */
  function WrittenResultField(s3: Schema, d: Directive, rtName: string, rf: Field, owner: string, mode: string, args: DirArgs): Schema {
    SharedExtras(PutField(s3, rtName, rf), d, rtName, rf.name, owner, mode, args)
  }

  /** `augmentBatchForField`, `augmentSortForField` and `augmentPageForField`
      on field `fname` of `rtName`, as `batchArgs`, `sort` and `page` ask:
      each appends through `augmentFieldArgs`, onto the list the field holds. */
  function SharedExtras(s: Schema, d: Directive, rtName: string, fname: string, typeName: string, batchMode: string, args: DirArgs): Schema {
    var s1 := if args.batchArgs then PushBatch(s, d, rtName, fname, typeName, batchMode) else s;
    var s2 := if args.sort then PushSort(s1, rtName, fname) else s1;
    if args.page then LibDeferred.AppendArgs(s2, rtName, fname, LibCommon.PageArgs(args.pageSize)) else s2
  }

  function PushBatch(s: Schema, d: Directive, rtName: string, fname: string, typeName: string, batchMode: string): Schema {
    var (t, b) := BatchAugment(s, d, typeName, batchMode);
    LibDeferred.AppendArgs(t, rtName, fname, [b])
  }

  function PushSort(s: Schema, rtName: string, fname: string): Schema {
    var (t, a) := LibCommon.SortAugment(s);
    LibDeferred.AppendArgs(t, rtName, fname, [a])
  }

  /** Everything `u` has grown from `s` while touching only fields that hold
      the list field `fname` of `rtName` holds. */
  ghost predicate GrownOnList(s: Schema, u: Schema, rtName: string, fname: string) {
    LibDeferred.Grows(s, u) && u.delayed == s.delayed &&
    (forall o, n :: GetField(s, o, n).Some? ==> GetField(u, o, n).Some? && ArgsOnly(GetField(s, o, n).value, GetField(u, o, n).value)) &&
    forall o, n :: GetField(s, o, n).Some? && !SameList(s, rtName, fname, o, n) ==> GetField(u, o, n) == GetField(s, o, n)
  }

  /** `g` is `f` with other arguments. */
  predicate ArgsOnly(f: Field, g: Field) {
    g.(args := f.args) == f
  }

  /** One `augmentFieldArgs` of the extras, after a step that adds types at
      most: the list's holders gain the names, nothing else changes. */
  lemma PushOnList(s: Schema, u: Schema, t: Schema, rtName: string, fname: string, augs: seq<Augment>)
    requires GetField(s, rtName, fname).Some?
    requires GrownOnList(s, u, rtName, fname)
    requires KeepsFields(u, t) && t.query == u.query && t.mutation == u.mutation && t.delayed == u.delayed
    ensures var v := LibDeferred.AppendArgs(t, rtName, fname, augs);
      GrownOnList(s, v, rtName, fname) && LibDeferred.Grows(u, v) &&
      forall o, n :: SameList(s, rtName, fname, o, n) ==> LibDeferred.HasArgs(v, o, n, Names(augs))
  {
    var v := LibDeferred.AppendArgs(t, rtName, fname, augs);
    var h := ArgsHome(rtName, GetField(s, rtName, fname).value);
    LibDeferred.KeepsFieldsGrows(u, t);
    LibDeferred.GrowsTrans(s, u, t);
    LibDeferred.AppendArgsGrows(t, rtName, fname, augs);
    LibDeferred.GrowsTrans(s, t, v);
    LibDeferred.GrowsTrans(u, t, v);
    assert SameList(s, rtName, fname, rtName, fname);
    LibDeferred.GrowsHolds(s, t, rtName, fname, h.0, h.1);
    assert LibDeferred.AppendArgs(t, rtName, fname, augs).delayed == t.delayed;
    forall o, n | GetField(s, o, n).Some? && !SameList(s, rtName, fname, o, n) ensures GetField(v, o, n) == GetField(s, o, n) {
      KeepsFieldsGetField(u, t, o, n);
      LibDeferred.AppendArgsEffect(t, rtName, fname, augs, o, n, {});
    }
    forall o, n | SameList(s, rtName, fname, o, n) ensures LibDeferred.HasArgs(v, o, n, Names(augs)) {
      LibDeferred.GrowsHolds(s, t, o, n, h.0, h.1);
      LibDeferred.AppendArgsEffect(t, rtName, fname, augs, o, n, {});
    }
    forall o, n | GetField(s, o, n).Some? ensures GetField(v, o, n).Some? && ArgsOnly(GetField(s, o, n).value, GetField(v, o, n).value) {
      assert GetField(u, o, n).Some?;
      KeepsFieldsGetField(u, t, o, n);
      LibDeferred.AppendArgsEffect(t, rtName, fname, augs, o, n, {});
    }
  }

  lemma PushBatchOnList(s0: Schema, s: Schema, d: Directive, rtName: string, fname: string, typeName: string, batchMode: string)
    requires GetField(s0, rtName, fname).Some? && GrownOnList(s0, s, rtName, fname)
    ensures var r := PushBatch(s, d, rtName, fname, typeName, batchMode);
      GrownOnList(s0, r, rtName, fname) && LibDeferred.Grows(s, r) &&
      forall o, n :: SameList(s0, rtName, fname, o, n) ==> LibDeferred.HasArgs(r, o, n, {BatchName(d)})
  {
    var (t, b) := BatchAugment(s, d, typeName, batchMode);
    PushOnList(s0, s, t, rtName, fname, [b]);
    NamesOne(b);
  }

  lemma PushSortOnList(s0: Schema, s: Schema, rtName: string, fname: string)
    requires GetField(s0, rtName, fname).Some? && GrownOnList(s0, s, rtName, fname)
    ensures var r := PushSort(s, rtName, fname);
      GrownOnList(s0, r, rtName, fname) && LibDeferred.Grows(s, r) &&
      forall o, n :: SameList(s0, rtName, fname, o, n) ==> LibDeferred.HasArgs(r, o, n, {LibConfig.ArgSort})
  {
    var (t, a) := LibCommon.SortAugment(s);
    assert KeepsFields(s, t) by {
      forall n | LookupType(s, n).Some?
        ensures LookupType(t, n).Some? && LookupType(t, n).value.fields == LookupType(s, n).value.fields
      {
        if n == LibCommon.SortInputName { assert t == s; }
      }
    }
    PushOnList(s0, s, t, rtName, fname, [a]);
    NamesOne(a);
  }

  lemma PushPageOnList(s0: Schema, s: Schema, rtName: string, fname: string, pageSize: Option<int>)
    requires GetField(s0, rtName, fname).Some? && GrownOnList(s0, s, rtName, fname)
    ensures var r := LibDeferred.AppendArgs(s, rtName, fname, LibCommon.PageArgs(pageSize));
      GrownOnList(s0, r, rtName, fname) && LibDeferred.Grows(s, r) &&
      forall o, n :: SameList(s0, rtName, fname, o, n) ==> LibDeferred.HasArgs(r, o, n, {LibConfig.ArgPage, LibConfig.ArgPageSize})
  {
    var pa := LibCommon.PageArgs(pageSize);
    PushOnList(s0, s, s, rtName, fname, pa);
    assert pa[0].name in Names(pa) && pa[1].name in Names(pa);
  }

  /** The extras land on every holder of the field's list, and on nothing else. */
  lemma SharedExtrasEffect(s: Schema, d: Directive, rtName: string, fname: string, typeName: string, batchMode: string, args: DirArgs)
    requires GetField(s, rtName, fname).Some?
    ensures var r := SharedExtras(s, d, rtName, fname, typeName, batchMode, args);
      GrownOnList(s, r, rtName, fname) &&
      forall o, n :: SameList(s, rtName, fname, o, n) ==> HasExtras(r, o, n, d, args)
  {
    LibDeferred.GrowsRefl(s);
    var s1 := if args.batchArgs then PushBatch(s, d, rtName, fname, typeName, batchMode) else s;
    if args.batchArgs { PushBatchOnList(s, s, d, rtName, fname, typeName, batchMode); } else { LibDeferred.GrowsRefl(s1); }
    var s2 := if args.sort then PushSort(s1, rtName, fname) else s1;
    if args.sort { PushSortOnList(s, s1, rtName, fname); } else { LibDeferred.GrowsRefl(s2); }
    var r := if args.page then LibDeferred.AppendArgs(s2, rtName, fname, LibCommon.PageArgs(args.pageSize)) else s2;
    if args.page { PushPageOnList(s, s2, rtName, fname, args.pageSize); } else { LibDeferred.GrowsRefl(r); }
    assert r == SharedExtras(s, d, rtName, fname, typeName, batchMode, args);
    LibDeferred.GrowsTrans(s1, s2, r);
    forall o, n | SameList(s, rtName, fname, o, n) ensures HasExtras(r, o, n, d, args) {
      if args.batchArgs { LibDeferred.GrowsHasArgs(s1, r, o, n, {BatchName(d)}); }
      if args.sort { LibDeferred.GrowsHasArgs(s2, r, o, n, {LibConfig.ArgSort}); }
    }
  }

  /** Writing the result-type field keeps every type; a field of another type
      holding the same list as the written one grows and carries the extras,
      every other field of another type reads the same; the field itself has
      the given type, its arguments, and the extras. */
  lemma WriteResultField(s3: Schema, d: Directive, rtName: string, rf: Field, owner: string, mode: string, args: DirArgs)
    requires LookupType(s3, rtName).Some?
    ensures var r := WrittenResultField(s3, d, rtName, rf, owner, mode, args);
      var h := ArgsHome(rtName, rf);
      (forall n :: LookupType(s3, n).Some? ==> LookupType(r, n).Some?) &&
      (forall o, n :: o != rtName && GetField(s3, o, n).Some? && !Holds(s3, o, n, h.0, h.1) ==> GetField(r, o, n) == GetField(s3, o, n)) &&
      (forall o, n :: o != rtName && Holds(s3, o, n, h.0, h.1) ==>
        GetField(r, o, n).Some? && LibDeferred.FieldGrows(GetField(s3, o, n).value, GetField(r, o, n).value) && HasExtras(r, o, n, d, args)) &&
      GetField(r, rtName, rf.name).Some? && GetField(r, rtName, rf.name).value.ty == rf.ty &&
      GetField(r, rtName, rf.name).value.meta.argsOf == rf.meta.argsOf &&
      Names(rf.args) <= Names(GetField(r, rtName, rf.name).value.args) &&
      HasExtras(r, rtName, rf.name, d, args)
  {
    var s4 := PutField(s3, rtName, rf);
    var r := SharedExtras(s4, d, rtName, rf.name, owner, mode, args);
    var h := ArgsHome(rtName, rf);
    forall n | LookupType(s3, n).Some? ensures LookupType(s4, n).Some? { PutFieldKeepsTypes(s3, rtName, rf, n); }
    GetFieldAfterPut(s3, rtName, rf, rtName, rf.name);
    SharedExtrasEffect(s4, d, rtName, rf.name, owner, mode, args);
    assert SameList(s4, rtName, rf.name, rtName, rf.name);
    forall n | LookupType(s4, n).Some? ensures LookupType(r, n).Some? { }
    forall o, n | o != rtName ensures GetField(s4, o, n) == GetField(s3, o, n) && (SameList(s4, rtName, rf.name, o, n) <==> Holds(s3, o, n, h.0, h.1)) {
      GetFieldAfterPut(s3, rtName, rf, o, n);
    }
  }

  // ---- the filter / input arguments ------------------------------------------

  /** `this.getFieldAugments(field, details)` of the directive class. */
  function DirectiveAugments(s: Schema, d: Directive, owner: string, f: Field, args: DirArgs, table: map<string, seq<string>>): Result<(Schema, seq<Augment>)> {
    if d.isQuery then LibQuery.FieldAugments(s, owner, f, args, d.mode, table)
    else LibMutation.FieldAugments(s, owner, f, args, d.mode)
  }

  /** Deriving arguments creates input types at most. */
  lemma DirectiveAugmentsKeep(s: Schema, d: Directive, owner: string, f: Field, args: DirArgs, table: map<string, seq<string>>)
    ensures var r := DirectiveAugments(s, d, owner, f, args, table);
      r.Ok? ==> KeepsFields(s, r.value.0) && r.value.0.query == s.query && r.value.0.mutation == s.mutation && r.value.0.delayed == s.delayed
  {
    if !d.isQuery {
      MutationAugmentsKeep(s, owner, f, args, d.mode, LibQuery.SelectOperators(LibMutation.DefaultOperators, args.op, args.opInclude, args.opExclude));
    }
  }

  lemma {:induction false} MutationAugmentsKeep(s: Schema, owner: string, f: Field, args: DirArgs, mode: string, ops: seq<string>)
    ensures var r := LibMutation.OperatorAugments(s, owner, f, args, mode, ops);
      r.Ok? ==> KeepsFields(s, r.value.0) && r.value.0.query == s.query && r.value.0.mutation == s.mutation && r.value.0.delayed == s.delayed
    decreases |ops|
  {
    if |ops| > 0 {
      OperatorAugmentKeeps(s, owner, f, args, mode, ops[0]);
      match LibMutation.OperatorAugment(s, owner, f, args, mode, ops[0])
      case Err(_) =>
      case Ok((s1, a)) =>
        MutationAugmentsKeep(s1, owner, f, args, mode, ops[1..]);
        match LibMutation.OperatorAugments(s1, owner, f, args, mode, ops[1..])
        case Err(_) =>
        case Ok((s2, rest)) => KeepsFieldsTrans(s, s1, s2);
    }
  }

  lemma OperatorAugmentKeeps(s: Schema, owner: string, f: Field, args: DirArgs, mode: string, op: string)
    ensures var r := LibMutation.OperatorAugment(s, owner, f, args, mode, op);
      r.Ok? ==> KeepsFields(s, r.value.0) && r.value.0.query == s.query && r.value.0.mutation == s.mutation && r.value.0.delayed == s.delayed
  {
    var named := NamedOf(f.ty);
    if !IsInputKind(named.kind) && named.kind == ObjectKind {
      LibCommon.EnsureInputTypeKeepsFields(s, named.name, LibQuery.Pick(args.asMode, LibQuery.Pick(args.argsAs, mode)));
    }
  }

  /** The fields of non-root object types whose named type is `owner`, in
      type-map and field order. */
  function FieldsOfType(s: Schema, types: seq<TypeDef>, owner: string): (r: seq<LibUtils.FieldRef>)
    decreases |types|
  {
    if |types| == 0 then []
    else
      var t := types[0];
      var here := if t.kind == ObjectKind && !IsRootType(s, t.name) then FieldsNamed(t.name, t.fields, owner) else [];
      here + FieldsOfType(s, types[1..], owner)
  }

  function FieldsNamed(typeName: string, fs: seq<Field>, owner: string): (r: seq<LibUtils.FieldRef>)
    ensures forall x :: x in r ==> x.owner == typeName && exists i :: 0 <= i < |fs| && fs[i].name == x.name && NamedOf(fs[i].ty).name == owner
    decreases |fs|
  {
    if |fs| == 0 then []
    else
      var rest := FieldsNamed(typeName, fs[1..], owner);
      assert forall i :: 1 <= i < |fs| ==> fs[i] == fs[1..][i - 1];
      if NamedOf(fs[0].ty).name == owner then [LibUtils.FieldRef(typeName, fs[0].name)] + rest else rest
  }

  /** `applyOnTarget(typeField, ...)` for each field found. */
  function QueueResultArgs(s: Schema, refs: seq<LibUtils.FieldRef>, mode: string, augs: seq<Augment>): Schema
    decreases |refs|
  {
    if |refs| == 0 then s
    else
      var x := refs[0];
      QueueResultArgs(LibDeferred.ApplyOnField(s, x.owner, x.name, AugmentResultArgs(x.owner, x.name, mode, augs)), refs[1..], mode, augs)
  }

  lemma {:induction false} QueueResultArgsGrows(s: Schema, refs: seq<LibUtils.FieldRef>, mode: string, augs: seq<Augment>)
    ensures LibDeferred.Grows(s, QueueResultArgs(s, refs, mode, augs))
    decreases |refs|
  {
    if |refs| == 0 { LibDeferred.GrowsRefl(s); }
    else {
      var x := refs[0];
      var s1 := LibDeferred.ApplyOnField(s, x.owner, x.name, AugmentResultArgs(x.owner, x.name, mode, augs));
      LibDeferred.ApplyOnFieldGrows(s, x.owner, x.name, AugmentResultArgs(x.owner, x.name, mode, augs));
      QueueResultArgsGrows(s1, refs[1..], mode, augs);
      LibDeferred.GrowsTrans(s, s1, QueueResultArgs(s1, refs[1..], mode, augs));
    }
  }

  /** The `args: true` branch: the augments go into the input type
      `T + Cap(mode) + Input` (first writer wins), onto the root fields that
      target (T, mode) — now or once they appear — and onto the result types
      of the fields elsewhere that return `T`. */
  function ArgsPart(s: Schema, d: Directive, owner: string, f: Field, args: DirArgs, table: map<string, seq<string>>): (r: Result<Schema>)
    ensures DirectiveAugments(s, d, owner, f, args, table).Err? ==> r.Err?
    ensures DirectiveAugments(s, d, owner, f, args, table).Ok? ==> r.Ok?
  {
    var (s1, augs) :- DirectiveAugments(s, d, owner, f, args, table);
    if |augs| == 0 then Ok(s1)
    else
      var (s2, it) := LibCommon.EnsureInputType(s1, owner, d.mode);
      var s3 := PutType(s2, it.(inputFields := AppendAbsent(it.inputFields, augs)));
      var s4 := LibDeferred.ApplyOnSchema(s3, AugmentRootArgs(owner, d.mode, augs));
      Ok(QueueResultArgs(s4, FieldsOfType(s4, s4.types, owner), d.mode, augs))
  }

  /** The schema the args branch hands to `ApplyOnSchema`, and what it keeps. */
  lemma ArgsBeforeApply(s: Schema, d: Directive, owner: string, f: Field, args: DirArgs, table: map<string, seq<string>>)
    requires DirectiveAugments(s, d, owner, f, args, table).Ok?
    requires |DirectiveAugments(s, d, owner, f, args, table).value.1| > 0
    ensures var (s1, augs) := DirectiveAugments(s, d, owner, f, args, table).value;
      var (s2, it) := LibCommon.EnsureInputType(s1, owner, d.mode);
      var s3 := PutType(s2, it.(inputFields := AppendAbsent(it.inputFields, augs)));
      KeepsFields(s, s3) && s3.query == s.query && s3.mutation == s.mutation && s3.delayed == s.delayed &&
      LookupType(s3, LibUtils.InputTypeName(owner, d.mode)).Some? &&
      Names(augs) <= Names(LookupType(s3, LibUtils.InputTypeName(owner, d.mode)).value.inputFields)
  {
    DirectiveAugmentsKeep(s, d, owner, f, args, table);
    var (s1, augs) := DirectiveAugments(s, d, owner, f, args, table).value;
    var (s2, it) := LibCommon.EnsureInputType(s1, owner, d.mode);
    KeepsFieldsTrans(s, s1, s2);
  }

  /** The args branch keeps every field (grown), and the input type of
      (T, mode) holds an input field for every augment name. */
  lemma ArgsPartEffect(s: Schema, d: Directive, owner: string, f: Field, args: DirArgs, table: map<string, seq<string>>)
    requires ArgsPart(s, d, owner, f, args, table).Ok?
    ensures var r := ArgsPart(s, d, owner, f, args, table).value;
      var augs := DirectiveAugments(s, d, owner, f, args, table).value.1;
      LibDeferred.Grows(s, r) &&
      (|augs| > 0 ==> LookupType(r, LibUtils.InputTypeName(owner, d.mode)).Some?)
  {
    DirectiveAugmentsKeep(s, d, owner, f, args, table);
    var (s1, augs) := DirectiveAugments(s, d, owner, f, args, table).value;
    if |augs| == 0 {
      LibDeferred.KeepsFieldsGrows(s, s1);
    } else {
      ArgsBeforeApply(s, d, owner, f, args, table);
      var (s2, it) := LibCommon.EnsureInputType(s1, owner, d.mode);
      var s3 := PutType(s2, it.(inputFields := AppendAbsent(it.inputFields, augs)));
      var s4 := LibDeferred.ApplyOnSchema(s3, AugmentRootArgs(owner, d.mode, augs));
      LibDeferred.KeepsFieldsGrows(s, s3);
      LibDeferred.ApplyOnSchemaGrows(s3, AugmentRootArgs(owner, d.mode, augs));
      LibDeferred.GrowsTrans(s, s3, s4);
      var r := QueueResultArgs(s4, FieldsOfType(s4, s4.types, owner), d.mode, augs);
      QueueResultArgsGrows(s4, FieldsOfType(s4, s4.types, owner), d.mode, augs);
      LibDeferred.GrowsTrans(s, s4, r);
      assert LookupType(s4, LibUtils.InputTypeName(owner, d.mode)).Some?;
    }
  }

  // ---- the type field ----------------------------------------------------------

  /** The non-root branch of `visitFieldDefinition`. */
  function VisitTypeField(s: Schema, d: Directive, owner: string, f: Field, args: DirArgs, table: map<string, seq<string>>): (r: Result<Schema>)
    requires GetField(s, owner, f.name) == Some(f)
    ensures args.result && !IsInputType(f.ty) && NamedOf(f.ty).kind != ObjectKind ==> r.Err? && r.error.ConfigError?
  {
    var s1 :- if args.result then ResultPart(s, d, owner, f, args) else Ok(s);
    var f1 := match GetField(s1, owner, f.name) case Some(g) => g case None => f;
    var f2 := f1.(meta := f1.meta.(targetsByMode := SetMode(f1.meta.targetsByMode, d.mode, args)));
    TypeFieldTail(PutField(s1, owner, f2), d, owner, f2, args, table, f.name)
  }

  /** The end of the non-root branch: the `args` branch on the recorded
      field, then the flush of the field's own queue. */
  function TypeFieldTail(s2: Schema, d: Directive, owner: string, f2: Field, args: DirArgs, table: map<string, seq<string>>, fname: string): Result<Schema> {
    var s3 :- if args.argsOn then ArgsPart(s2, d, owner, f2, args, table) else Ok(s2);
    Ok(LibDeferred.FlushField(s3, owner, fname))
  }

  /** The end of the non-root branch keeps what the field has recorded. */
  lemma TypeFieldTailKeeps(s2: Schema, d: Directive, owner: string, f2: Field, args: DirArgs, table: map<string, seq<string>>, fname: string)
    requires GetField(s2, owner, fname).Some?
    requires TypeFieldTail(s2, d, owner, f2, args, table, fname).Ok?
    ensures var r := TypeFieldTail(s2, d, owner, f2, args, table, fname).value;
      GetField(r, owner, fname).Some? &&
      GetField(r, owner, fname).value.meta.targetsByMode == GetField(s2, owner, fname).value.meta.targetsByMode
  {
    var s3 := if args.argsOn then ArgsPart(s2, d, owner, f2, args, table).value else s2;
    if args.argsOn { ArgsPartEffect(s2, d, owner, f2, args, table); } else { LibDeferred.GrowsRefl(s2); }
    LibDeferred.FlushFieldGrows(s3, owner, fname);
    LibDeferred.GrowsTrans(s2, s3, LibDeferred.FlushField(s3, owner, fname));
  }

  /** After a successful type-field visit the field files the directive's
      arguments under its mode. */
  lemma TypeFieldRecordsMode(s: Schema, d: Directive, owner: string, f: Field, args: DirArgs, table: map<string, seq<string>>)
    requires GetField(s, owner, f.name) == Some(f)
    requires owner != LibUtils.ResultTypeName(owner, d.mode)
    requires VisitTypeField(s, d, owner, f, args, table).Ok?
    ensures var r := VisitTypeField(s, d, owner, f, args, table).value;
      GetField(r, owner, f.name).Some? && ModeArgs(GetField(r, owner, f.name).value.meta.targetsByMode, d.mode) == Some(args)
  {
    var s1 := if args.result then ResultPart(s, d, owner, f, args).value else s;
    if args.result { ResultPartEffect(s, d, owner, f, args); }
    assert GetField(s1, owner, f.name).Some?;
    var f1 := GetField(s1, owner, f.name).value;
    LibDeferred.FieldNamed(s1, owner, f.name);
    var f2 := f1.(meta := f1.meta.(targetsByMode := SetMode(f1.meta.targetsByMode, d.mode, args)));
    var s2 := PutField(s1, owner, f2);
    assert LookupType(s1, owner).Some?;
    GetFieldAfterPut(s1, owner, f2, owner, f.name);
    assert VisitTypeField(s, d, owner, f, args, table) == TypeFieldTail(s2, d, owner, f2, args, table, f.name);
    TypeFieldTailKeeps(s2, d, owner, f2, args, table, f.name);
  }

  /** A result-type field shares the list of the field it is built from: after
      a successful `result: true` visit asking for batch, sort or page
      arguments, the visited field carries them as well. */
  lemma ResultExtrasReachField(s: Schema, d: Directive, owner: string, f: Field, args: DirArgs, table: map<string, seq<string>>)
    requires GetField(s, owner, f.name) == Some(f)
    requires args.result && VisitTypeField(s, d, owner, f, args, table).Ok?
    ensures HasExtras(VisitTypeField(s, d, owner, f, args, table).value, owner, f.name, d, args)
  {
    var s1 := ResultPart(s, d, owner, f, args).value;
    ResultPartEffect(s, d, owner, f, args);
    assert HasExtras(s1, owner, f.name, d, args);
    var f1 := GetField(s1, owner, f.name).value;
    LibDeferred.FieldNamed(s1, owner, f.name);
    var f2 := f1.(meta := f1.meta.(targetsByMode := SetMode(f1.meta.targetsByMode, d.mode, args)));
    var s2 := PutField(s1, owner, f2);
    assert LookupType(s1, owner).Some?;
    GetFieldAfterPut(s1, owner, f2, owner, f.name);
    assert HasExtras(s2, owner, f.name, d, args);
    assert VisitTypeField(s, d, owner, f, args, table) == TypeFieldTail(s2, d, owner, f2, args, table, f.name);
    var s3 := if args.argsOn then ArgsPart(s2, d, owner, f2, args, table).value else s2;
    if args.argsOn { ArgsPartEffect(s2, d, owner, f2, args, table); } else { LibDeferred.GrowsRefl(s2); }
    var r := LibDeferred.FlushField(s3, owner, f.name);
    LibDeferred.FlushFieldGrows(s3, owner, f.name);
    LibDeferred.GrowsTrans(s2, s3, r);
    if args.batchArgs { LibDeferred.GrowsHasArgs(s2, r, owner, f.name, {BatchName(d)}); }
    if args.sort { LibDeferred.GrowsHasArgs(s2, r, owner, f.name, {LibConfig.ArgSort}); }
    if args.page { LibDeferred.GrowsHasArgs(s2, r, owner, f.name, {LibConfig.ArgPage, LibConfig.ArgPageSize}); }
  }

  /** The synthesized result type is never the type it is derived from. */
  lemma ResultNameDiffers(typeName: string, mode: string)
    ensures LibUtils.ResultTypeName(typeName, mode) != typeName
  {
  }

  // ---- the whole visit -------------------------------------------------------

  /** `visitFieldDefinition(field, {objectType: owner})` for directive `d`
      with arguments `args`. */
  function Visit(s: Schema, d: Directive, owner: string, fname: string, args: DirArgs, table: map<string, seq<string>>): (r: Result<Schema>)
    requires GetField(s, owner, fname).Some?
    ensures LibCommon.ValidateDirectiveArgs(d.mode, args.keys).Fail? ==> r.Err? && r.error.ConfigError?
    ensures LibCommon.ValidateDirectiveArgs(d.mode, args.keys).Pass? && IsRootType(s, owner) ==>
      r == VisitRoot(s, d, owner, GetField(s, owner, fname).value, args)
    ensures LibCommon.ValidateDirectiveArgs(d.mode, args.keys).Pass? && !IsRootType(s, owner) ==>
      r == VisitTypeField(s, d, owner, GetField(s, owner, fname).value, args, table)
  {
    LibDeferred.FieldNamed(s, owner, fname);
    var f := GetField(s, owner, fname).value;
    match LibCommon.ValidateDirectiveArgs(d.mode, args.keys)
    case Fail(e) => Err(e)
    case Pass =>
      if IsRootType(s, owner) then VisitRoot(s, d, owner, f, args) else VisitTypeField(s, d, owner, f, args, table)
  }

  /** A root field takes one augment directive: once one visit succeeded,
      any second one on the same field is refused. */
  lemma SecondRootVisitConflicts(s: Schema, d: Directive, d2: Directive, owner: string, fname: string, args: DirArgs, args2: DirArgs, table: map<string, seq<string>>)
    requires GetField(s, owner, fname).Some? && IsRootType(s, owner)
    requires Visit(s, d, owner, fname, args, table).Ok?
    ensures var s1 := Visit(s, d, owner, fname, args, table).value;
      GetField(s1, owner, fname).Some? &&
      var r := Visit(s1, d2, owner, fname, args2, table);
      r.Err? && r.error.ConfigError?
  {
    LibDeferred.FieldNamed(s, owner, fname);
    var f := GetField(s, owner, fname).value;
    assert LibCommon.ValidateDirectiveArgs(d.mode, args.keys).Pass?;
    assert Visit(s, d, owner, fname, args, table) == VisitRoot(s, d, owner, f, args);
    assert f.meta.target.None? && Given(args.typeArg);
    RootVisitRecordsTarget(s, d, owner, f, args);
    var s1 := VisitRoot(s, d, owner, f, args).value;
    assert IsRootType(s1, owner);
    LibDeferred.FieldNamed(s1, owner, fname);
    var g := GetField(s1, owner, fname).value;
    assert g.meta.target.Some?;
    var r := Visit(s1, d2, owner, fname, args2, table);
    if LibCommon.ValidateDirectiveArgs(d2.mode, args2.keys).Pass? {
      assert r == VisitRoot(s1, d2, owner, g, args2);
    }
  }

  /** Visit order, first half: filter or input arguments queued by a type
      field before any root field targets (T, mode) reach the root field that
      later targets (T, mode), and leave the queue. */
  lemma QueuedArgsReachLaterRoot(s: Schema, d: Directive, owner: string, fname: string, args: DirArgs, table: map<string, seq<string>>, augs: seq<Augment>)
    requires GetField(s, owner, fname).Some? && GetField(s, owner, fname).value.meta.target.None?
    requires owner == s.query || Some(owner) == s.mutation
    requires LibCommon.ValidateDirectiveArgs(d.mode, args.keys).Pass? && Given(args.typeArg)
    requires s.delayed == Some([AugmentRootArgs(args.typeArg.value, d.mode, augs)])
    ensures var r := Visit(s, d, owner, fname, args, table);
      r.Ok? && r.value.delayed.None? && LibDeferred.HasArgs(r.value, owner, fname, Names(augs))
  {
    LibDeferred.FieldNamed(s, owner, fname);
    var f := GetField(s, owner, fname).value;
    assert Visit(s, d, owner, fname, args, table) == VisitRoot(s, d, owner, f, args);
    RootBeforeFlush(s, d, owner, f, args);
    var f1 := f.(meta := f.meta.(target := Some(Target(d.mode, args))));
    var (s1, f2) := RootResponse(s, d, f1, args);
    var (s2, f3) := Extras(s1, d, f2, args.typeArg.value, d.mode, args);
    var s3 := PutField(s2, owner, f3);
    assert LibUtils.Targets(f3, args.typeArg.value, d.mode);
    FlushReachesRoot(s3, owner, f3, args.typeArg.value, d.mode, augs);
  }

  /** A schema queue holding only root arguments for (t, mode), flushed
      once a root field targets (t, mode): the field gets them, the queue empties. */
  lemma FlushReachesRoot(s: Schema, owner: string, f: Field, t: string, mode: string, augs: seq<Augment>)
    requires s.delayed == Some([AugmentRootArgs(t, mode, augs)])
    requires owner == s.query || Some(owner) == s.mutation
    requires GetField(s, owner, f.name) == Some(f) && f in LibUtils.FieldsOf(s, owner) && LibUtils.Targets(f, t, mode)
    ensures LibDeferred.FlushSchema(s).delayed.None? && LibDeferred.HasArgs(LibDeferred.FlushSchema(s), owner, f.name, Names(augs))
  {
    LibUtils.FindsRootTarget(s, owner, f, t, mode);
    var refs := LibUtils.FindRootTargets(s, t, mode);
    var k :| 0 <= k < |refs| && refs[k] == LibUtils.FieldRef(owner, f.name);
    var u := LibDeferred.AppendArgsAll(s, refs, augs);
    FlushRootArgs(s, t, mode, augs);
    assert LibDeferred.HasArgs(u, owner, f.name, Names(augs)) by {
      LibDeferred.AppendArgsAllEffect(s, refs, augs);
      assert GetField(s, refs[k].owner, refs[k].name).Some?;
    }
    assert GetField(u.(delayed := None), owner, f.name) == GetField(u, owner, f.name);
  }

  /** Flushing a queue that holds only root arguments for (t, mode), once a
      root field targets (t, mode), appends them to every such field. */
  lemma FlushRootArgs(s: Schema, t: string, mode: string, augs: seq<Augment>)
    requires s.delayed == Some([AugmentRootArgs(t, mode, augs)])
    requires |LibUtils.FindRootTargets(s, t, mode)| > 0
    ensures LibDeferred.FlushSchema(s) == LibDeferred.AppendArgsAll(s, LibUtils.FindRootTargets(s, t, mode), augs).(delayed := None)
  {
    var e := AugmentRootArgs(t, mode, augs);
    var refs := LibUtils.FindRootTargets(s, t, mode);
    LibDeferred.FlushSingle(s, e);
    assert LibDeferred.Ready(s, e) == Some(LibDeferred.Roots(refs));
    assert Deferral.Step(s, e, LibDeferred.Ready, LibDeferred.Run) == (LibDeferred.AppendArgsAll(s, refs, augs), false);
  }

  /** Root arguments queued on an empty schema queue reach every root field found. */
  lemma RootArgsApplied(s: Schema, typeName: string, mode: string, augs: seq<Augment>, x: LibUtils.FieldRef)
    requires s.delayed.None? && x in LibUtils.FindRootTargets(s, typeName, mode)
    ensures LibDeferred.HasArgs(LibDeferred.ApplyOnSchema(s, AugmentRootArgs(typeName, mode, augs)), x.owner, x.name, Names(augs))
  {
    LibUtils.FoundTargetsExist(s, typeName, mode, x);
    var refs := LibUtils.FindRootTargets(s, typeName, mode);
    LibDeferred.ApplyRootArgsReady(s, typeName, mode, augs);
    var k :| 0 <= k < |refs| && refs[k] == x;
  }

  /** Visit order, second half: when a root field already targets
      (T, mode) and nothing is queued, the arguments a type field's `args`
      branch derives reach that root field at once. */
  lemma ArgsReachExistingRoot(s: Schema, d: Directive, owner: string, f: Field, args: DirArgs, table: map<string, seq<string>>, x: LibUtils.FieldRef)
    requires s.delayed.None?
    requires x in LibUtils.FindRootTargets(s, owner, d.mode)
    requires ArgsPart(s, d, owner, f, args, table).Ok?
    ensures var augs := DirectiveAugments(s, d, owner, f, args, table).value.1;
      LibDeferred.HasArgs(ArgsPart(s, d, owner, f, args, table).value, x.owner, x.name, Names(augs))
  {
    var (s1, augs) := DirectiveAugments(s, d, owner, f, args, table).value;
    LibUtils.FoundTargetsExist(s, owner, d.mode, x);
    if |augs| == 0 {
      DirectiveAugmentsKeep(s, d, owner, f, args, table);
      assert Names(augs) == {};
      KeepsFieldsGetField(s, s1, x.owner, x.name);
    } else {
      ArgsBeforeApply(s, d, owner, f, args, table);
      var (s2, it) := LibCommon.EnsureInputType(s1, owner, d.mode);
      var s3 := PutType(s2, it.(inputFields := AppendAbsent(it.inputFields, augs)));
      LibUtils.FindRootTargetsKept(s, s3, owner, d.mode, x);
      KeepsFieldsGetField(s, s3, x.owner, x.name);
      RootArgsApplied(s3, owner, d.mode, augs, x);
      var s4 := LibDeferred.ApplyOnSchema(s3, AugmentRootArgs(owner, d.mode, augs));
      assert LibDeferred.HasArgs(s4, x.owner, x.name, Names(augs));
      QueueResultArgsGrows(s4, FieldsOfType(s4, s4.types, owner), d.mode, augs);
      LibDeferred.GrowsHasArgs(s4, QueueResultArgs(s4, FieldsOfType(s4, s4.types, owner), d.mode, augs), x.owner, x.name, Names(augs));
    }
  }
}

=== FILE: outcomes.dfy ===
/** The error kinds the system raises, and a failure-compatible result type. */
module Outcomes {

  datatype Option<+T> = None | Some(value: T)

  /** An optional string that is present and non-empty: a truthy string
      argument in JavaScript. */
  predicate Given(o: Option<string>) {
    o.Some? && o.value != ""
  }

  /** `xs` is `ys` with some elements left out, the rest in order. */
  predicate SubseqOf<E(==)>(xs: seq<E>, ys: seq<E>)
    decreases |ys|
  {
    if |xs| == 0 then true
    else if |ys| == 0 then false
    else (xs[0] == ys[0] && SubseqOf(xs[1..], ys[1..])) || SubseqOf(xs, ys[1..])
  }

  /** The sequences of `xss`, one after another. */
  function Flatten<T>(xss: seq<seq<T>>): seq<T>
    decreases |xss|
  {
    if |xss| == 0 then [] else xss[0] + Flatten(xss[1..])
  }

  /** Dropping the head of `ys` keeps every subsequence of its tail. */
  lemma SubseqSkip<E>(p: seq<E>, ys: seq<E>)
    requires |ys| > 0 && SubseqOf(p, ys[1..])
    ensures SubseqOf(p, ys)
  {
  }

  /** Every sequence is a subsequence of itself. */
  lemma {:induction false} SubseqRefl<E>(xs: seq<E>)
    ensures SubseqOf(xs, xs)
    decreases |xs|
  {
    if |xs| > 0 {
      SubseqRefl(xs[1..]);
    }
  }

  datatype Error =
    /** apollo's UserInputError: an unknown field, type or root name in a request. */
    | UserInputError(msg: string)
    /** apollo's ForbiddenError: an identity is present but the gate denies. */
    | ForbiddenError(msg: string)
    /** apollo's AuthenticationError: no identity, or the credential did not verify. */
    | AuthenticationError(msg: string)
    /** A plain `Error` thrown while building the schema: misplaced or conflicting annotations. */
    | ConfigError(msg: string)
    /** A JavaScript TypeError: a missing callback was called or a missing object was read. */
    | TypeError(msg: string)
    /** The recursion bound of the model was exhausted (stands for a stack overflow). */
    | RecursionLimit

  datatype Result<+T> = Ok(value: T) | Err(error: Error) {
    predicate IsFailure() {
      Err?
    }

    function PropagateFailure<U>(): Result<U>
      requires Err?
    {
      Err(error)
    }

    function Extract(): T
      requires Ok?
    {
      value
    }
  }

  /** `if (!cond) throw e`, usable with `:-`. */
  datatype Check = Pass | Fail(error: Error) {
    predicate IsFailure() {
      Fail?
    }

    function PropagateFailure<U>(): Result<U>
      requires Fail?
    {
      Err(error)
    }
  }

  function Need(cond: bool, e: Error): Check {
    if cond then Pass else Fail(e)
  }
}

=== FILE: responses.dfy ===
/** The lazy responses a root walk hands back: lib's `SimpleResponse` and
    `CompoundResponse` (lib/utils.js) and src's `ResultResolver`
    (src/directives/result.js). Each is a small memo whose getters call the
    adapter only while the facet asked for is still undefined. */
module Responses {
  import opened Outcomes
  import opened JsValue
  import opened Adapters

  /** The four facets of a lib response. */
  datatype Facet = FResults | FCursor | FCount | FDebug

  /** The memo of a `SimpleResponse`: whether the combined `return` was
      started, and each facet (`Undef` while undefined). */
  datatype Memo = Memo(resolving: bool, results: Value, cursor: Value, count: Value, debug: Value)

  const Fresh := Memo(false, Undef, Undef, Undef, Undef)

  function FacetOf(m: Memo, f: Facet): Value {
    match f
    case FResults => m.results
    case FCursor => m.cursor
    case FCount => m.count
    case FDebug => m.debug
  }

  function SetFacet(m: Memo, f: Facet, v: Value): (r: Memo)
    ensures FacetOf(r, f) == v && r.resolving == m.resolving
    ensures forall g :: g != f ==> FacetOf(r, g) == FacetOf(m, g)
  {
    match f
    case FResults => m.(results := v)
    case FCursor => m.(cursor := v)
    case FCount => m.(count := v)
    case FDebug => m.(debug := v)
  }

  /** `_resolve`: the combined `return` runs when it exists and has not
      been started, and sets every facet from its answer (`returned && returned.x`). */
  function Fetch(a: Adapter, ctxs: seq<Value>, m: Memo): (r: (Memo, seq<Event>))
    ensures !(CReturn in a.has && !m.resolving) ==> r == (m, [])
    ensures CReturn in a.has && !m.resolving ==>
      r.1 == [Return(ctxs, None)] && r.0.resolving &&
      forall f :: FacetOf(r.0, f) == AndGet(a.answer(Return(ctxs, None)), FacetKey(f))
  {
    if CReturn in a.has && !m.resolving then
      var ret := a.answer(Return(ctxs, None));
      (Memo(true, AndGet(ret, "results"), AndGet(ret, "cursor"), AndGet(ret, "count"), AndGet(ret, "debug")), [Return(ctxs, None)])
    else (m, [])
  }

  function FacetKey(f: Facet): string {
    match f
    case FResults => "results"
    case FCursor => "cursor"
    case FCount => "count"
    case FDebug => "debug"
  }

  /** The single-purpose callback of a facet; `cursor` has none. */
  function Fallback(f: Facet): Option<Callback> {
    match f
    case FResults => Some(CResults)
    case FCursor => None
    case FCount => Some(CCount)
    case FDebug => Some(CDebug)
  }

  function FallbackEvent(f: Facet, ctxs: seq<Value>): Event {
    match f
    case FResults => Results(ctxs)
    case FCount => Count(ctxs, None)
    case _ => Debug(ctxs)
  }

  /** One getter (`results()`, `cursor()`, `count()`, `debug()`): the memo
      after the call, the facet returned, and the calls made. */
  function Get(a: Adapter, ctxs: seq<Value>, m: Memo, f: Facet): (r: (Memo, Value, seq<Event>))
    ensures r.1 == FacetOf(r.0, f)
    ensures FacetOf(m, f) != Undef ==> r == (m, FacetOf(m, f), [])
  {
    var (m1, ev1) := if FacetOf(m, f) == Undef then Fetch(a, ctxs, m) else (m, []);
    if FacetOf(m1, f) == Undef && Fallback(f).Some? && Fallback(f).value in a.has then
      var e := FallbackEvent(f, ctxs);
      var m2 := SetFacet(m1, f, a.answer(e));
      (m2, a.answer(e), ev1 + [e])
    else (m1, FacetOf(m1, f), ev1)
  }

  /** A facet's fallback is called exactly when the facet is still undefined
      after the combined fetch and the adapter has the fallback; `cursor` never
      calls anything but the combined fetch. */
  lemma FallbackRule(a: Adapter, ctxs: seq<Value>, m: Memo, f: Facet)
    requires FacetOf(m, f) == Undef
    ensures var (m1, _) := Fetch(a, ctxs, m);
      var evs := Get(a, ctxs, m, f).2;
      var called := FacetOf(m1, f) == Undef && Fallback(f).Some? && Fallback(f).value in a.has;
      evs == Fetch(a, ctxs, m).1 + (if called then [FallbackEvent(f, ctxs)] else [])
    ensures f == FCursor ==> Get(a, ctxs, m, f).2 == Fetch(a, ctxs, m).1
  {
  }

  /** The number of combined `return` calls in a trace. */
  function Returns(evs: seq<Event>): nat
    decreases |evs|
  {
    if |evs| == 0 then 0 else (if evs[0].Return? then 1 else 0) + Returns(evs[1..])
  }

  lemma {:induction false} ReturnsConcat(xs: seq<Event>, ys: seq<Event>)
    ensures Returns(xs + ys) == Returns(xs) + Returns(ys)
    decreases |xs|
  {
    if |xs| == 0 {
      assert xs + ys == ys;
    } else {
      ReturnsConcat(xs[1..], ys);
      assert (xs + ys)[1..] == xs[1..] + ys;
    }
  }

  /** One getter calls `return` only from a memo that has not started it,
      and leaves the memo started if it was. */
  lemma GetReturns(a: Adapter, ctxs: seq<Value>, m: Memo, f: Facet)
    ensures var (m1, _, evs) := Get(a, ctxs, m, f);
      Returns(evs) <= (if m.resolving then 0 else 1) &&
      (m.resolving ==> m1.resolving) &&
      (Returns(evs) == 1 ==> m1.resolving)
  {
    var (m1, ev1) := if FacetOf(m, f) == Undef then Fetch(a, ctxs, m) else (m, []);
    assert Returns([]) == 0;
    assert Returns([Return(ctxs, None)]) == 1;
    if FacetOf(m1, f) == Undef && Fallback(f).Some? && Fallback(f).value in a.has {
      var e := FallbackEvent(f, ctxs);
      ReturnsConcat(ev1, [e]);
      assert Returns([e]) == 0;
    }
  }

  /** A sequence of getter calls on one response. */
  function Calls(a: Adapter, ctxs: seq<Value>, m: Memo, fs: seq<Facet>): (Memo, seq<Value>, seq<Event>)
    decreases |fs|
  {
    if |fs| == 0 then (m, [], [])
    else
      var (m1, v, ev) := Get(a, ctxs, m, fs[0]);
      var (m2, vs, evs) := Calls(a, ctxs, m1, fs[1..]);
      (m2, [v] + vs, ev + evs)
  }

  /** Whatever getters are called, in whatever order, the combined `return`
      runs at most once. */
  lemma {:induction false} ReturnAtMostOnce(a: Adapter, ctxs: seq<Value>, m: Memo, fs: seq<Facet>)
    ensures Returns(Calls(a, ctxs, m, fs).2) <= (if m.resolving then 0 else 1)
    ensures m.resolving ==> Calls(a, ctxs, m, fs).0.resolving
    decreases |fs|
  {
    if |fs| == 0 {
      assert Returns([]) == 0;
    } else {
      var (m1, v, ev) := Get(a, ctxs, m, fs[0]);
      GetReturns(a, ctxs, m, fs[0]);
      ReturnAtMostOnce(a, ctxs, m1, fs[1..]);
      var (m2, vs, evs) := Calls(a, ctxs, m1, fs[1..]);
      ReturnsConcat(ev, evs);
    }
  }

  // ---- CompoundResponse --------------------------------------------------

  /** One sub-response of a compound: its adapter, contexts and memo. */
  datatype Simple = Simple(a: Adapter, ctxs: seq<Value>, memo: Memo)

  /** The first defined value of a list, `Undef` when there is none. */
  function FirstDefined(vs: seq<Value>): Value
    decreases |vs|
  {
    if |vs| == 0 then Undef else if vs[0] != Undef then vs[0] else FirstDefined(vs[1..])
  }

  /** A compound getter: asks the sub-responses in order and stops at the
      first defined answer. */
  function CompoundGet(rs: seq<Simple>, f: Facet): (r: (seq<Simple>, Value, seq<Event>))
    ensures |r.0| == |rs|
    decreases |rs|
  {
    if |rs| == 0 then ([], Undef, [])
    else
      var (m1, v, ev) := Get(rs[0].a, rs[0].ctxs, rs[0].memo, f);
      var r0 := rs[0].(memo := m1);
      if v != Undef then ([r0] + rs[1..], v, ev)
      else
        var (rest, w, evs) := CompoundGet(rs[1..], f);
        ([r0] + rest, w, ev + evs)
  }

  /** What each sub-response's getter would answer on its own. */
  function Answers(rs: seq<Simple>, f: Facet): (r: seq<Value>)
    ensures |r| == |rs|
    ensures forall i :: 0 <= i < |rs| ==> r[i] == Get(rs[i].a, rs[i].ctxs, rs[i].memo, f).1
  {
    seq(|rs|, i requires 0 <= i < |rs| => Get(rs[i].a, rs[i].ctxs, rs[i].memo, f).1)
  }

  /** The compound answers the first defined facet over its sub-responses in
      list order. */
  lemma {:induction false} CompoundFirstDefined(rs: seq<Simple>, f: Facet)
    ensures CompoundGet(rs, f).1 == FirstDefined(Answers(rs, f))
    decreases |rs|
  {
    if |rs| > 0 {
      var ans := Answers(rs, f);
      assert Answers(rs[1..], f) == ans[1..];
      CompoundFirstDefined(rs[1..], f);
      assert Get(rs[0].a, rs[0].ctxs, rs[0].memo, f).1 == ans[0];
    }
  }

  /** Every sub-response after one with a defined answer is left untouched:
      its getter is never called. */
  lemma {:induction false} CompoundStopsAtFirst(rs: seq<Simple>, f: Facet, i: nat)
    requires i < |rs| && Get(rs[i].a, rs[i].ctxs, rs[i].memo, f).1 != Undef
    ensures forall j :: i < j < |rs| ==> CompoundGet(rs, f).0[j] == rs[j]
    decreases |rs|
  {
    var out := CompoundGet(rs, f).0;
    var m1 := Get(rs[0].a, rs[0].ctxs, rs[0].memo, f).0;
    if Get(rs[0].a, rs[0].ctxs, rs[0].memo, f).1 != Undef {
      assert out == [rs[0].(memo := m1)] + rs[1..];
      forall j | 0 < j < |rs| ensures out[j] == rs[j] {
        assert out[j] == rs[1..][j - 1];
      }
    } else {
      var rest := CompoundGet(rs[1..], f).0;
      assert out == [rs[0].(memo := m1)] + rest;
      assert i > 0 && rs[1..][i - 1] == rs[i];
      CompoundStopsAtFirst(rs[1..], f, i - 1);
      forall j | i < j < |rs| ensures out[j] == rs[j] {
        assert out[j] == rest[j - 1];
        assert rs[1..][j - 1] == rs[j];
      }
    }
  }

  // ---- src's ResultResolver ----------------------------------------------

  /** The memo of a `ResultResolver`: the contexts and `extra` of the walk,
      and the two facets it serves. */
  datatype Lazy = Lazy(ctxs: seq<Value>, extra: map<string, Value>, results: Value, count: Value)

  function NewLazy(ctxs: seq<Value>, extra: map<string, Value>): Lazy {
    Lazy(ctxs, extra, Undef, Undef)
  }

  /** `getResults`: `return(ctxs, extra)` only while the memo is undefined. */
  function GetResults(a: Adapter, l: Lazy): (r: (Lazy, Value, seq<Event>))
    ensures l.results != Undef ==> r == (l, l.results, [])
    ensures l.results == Undef && CReturn !in a.has ==> r == (l, Undef, [])
    ensures l.results == Undef && CReturn in a.has ==>
      r.2 == [Return(l.ctxs, Some(l.extra))] && r.1 == a.answer(Return(l.ctxs, Some(l.extra))) && r.0 == l.(results := r.1)
  {
    if l.results == Undef && CReturn in a.has then
      var v := a.answer(Return(l.ctxs, Some(l.extra)));
      (l.(results := v), v, [Return(l.ctxs, Some(l.extra))])
    else (l, l.results, [])
  }

  /** `getCount`: `count(ctxs, extra)` only while its memo is undefined. */
  function GetCount(a: Adapter, l: Lazy): (r: (Lazy, Value, seq<Event>))
    ensures l.count != Undef ==> r == (l, l.count, [])
    ensures l.count == Undef && CCount !in a.has ==> r == (l, Undef, [])
    ensures l.count == Undef && CCount in a.has ==>
      r.2 == [Count(l.ctxs, Some(l.extra))] && r.1 == a.answer(Count(l.ctxs, Some(l.extra))) && r.0 == l.(count := r.1)
  {
    if l.count == Undef && CCount in a.has then
      var v := a.answer(Count(l.ctxs, Some(l.extra)));
      (l.(count := v), v, [Count(l.ctxs, Some(l.extra))])
    else (l, l.count, [])
  }

  /** Asking twice calls `return` once when its answer is defined, and both
      answers agree; the counts memo is independent of the results memo. */
  lemma ResultsMemoized(a: Adapter, ctxs: seq<Value>, extra: map<string, Value>)
    requires a.answer(Return(ctxs, Some(extra))) != Undef
    ensures var (l1, v1, e1) := GetResults(a, NewLazy(ctxs, extra));
      var (l2, v2, e2) := GetResults(a, l1);
      v1 == v2 && e2 == [] && |e1| <= 1 && l1.ctxs == ctxs && l1.extra == extra &&
      GetCount(a, l1).2 == GetCount(a, NewLazy(ctxs, extra)).2
  {
  }
}

=== FILE: schema.dfy ===
/** The schema as the augmenter sees it: named types in type-map order, the
    fields and arguments of each, and the `_augment*` metadata the directives
    stash on them. The graphql-js objects are replaced by immutable records;
    a directive visit maps one schema value to the next. */
module SchemaModel {
  import opened Outcomes
  import opened GqlType
  import opened JsValue

  /** `_augmentType` of an argument or input field, with the `_augmented*`
      properties each tag carries. */
  datatype Tag =
    | FilterOperator(field: string, op: string)
    | FilterNested(field: string)
    | FilterFilters
    | FilterPagination
    | SortSort
    | CursorCursor
    | InputField(field: string, inputOp: Option<string>)
    | InputNested(field: string, inputOp: Option<string>)
    | InputNestedKey(field: string, inputOp: Option<string>, key: string, objectTypeName: string)
    | InputInputs
    | FilterCustomized(arg: string)
    | Untagged

  /** An argument of a field, or a field of an input type. */
  datatype Augment = Augment(name: string, ty: GType, tag: Tag, defaultValue: Option<Value>)

  /** `_augmentType` of a named type. */
  datatype TypeTag =
    | NoTag
    | TypeInputTag      // 'type.input'   (lib)
    | TypeResultTag     // 'type.result'  (lib)
    | ResponseTag       // 'result.response' (lib)
    | SortInputTag      // 'sort.inputType'
    | FilterTypeTag     // 'filter.type'  (src)
    | InputTypeTag      // 'input.type'   (src)
    | ResultTypeTag     // 'result.type'  (src)

  /** The arguments of a lib augment directive (`@query(...)`, `@insert(...)`, ...).
      `keys` lists the argument names as written; the other slots hold the
      values the visitor reads (`None`/`false` when absent). */
  datatype DirArgs = DirArgs(
    keys: seq<string>,
    typeArg: Option<string>,
    response: bool,
    cursor: bool,
    batchArgs: bool,
    sort: bool,
    page: bool,
    pageSize: Option<int>,
    asMode: Option<string>,
    argsOn: bool,
    argsAs: Option<string>,
    op: Option<seq<string>>,
    opInclude: Option<seq<string>>,
    opExclude: Option<seq<string>>,
    key: Option<string>,
    required: Option<bool>,
    result: bool,
    resultAs: Option<string>,
    resultArgs: bool)

  /** A deferred action of lib (an entry of `_augmentDelayed`), as data. */
  datatype Deferred =
    /** Replace the return type of root fields targeting (typeName, mode) by the result type. */
    | ReplaceResultType(typeName: string, mode: string, resultType: string)
    /** Append filter/input arguments to root fields targeting (typeName, mode). */
    | AugmentRootArgs(typeName: string, mode: string, augments: seq<Augment>)
    /** Append arguments to field `fieldName` of the result types of `ownerType`
        whose field asks for `resultArgs` in a mode resolving to `mode`. */
    | AugmentResultArgs(ownerType: string, fieldName: string, mode: string, augments: seq<Augment>)

  /** lib `_augmentedTarget` of a root field: the directive mode and its arguments. */
  datatype Target = Target(mode: string, args: DirArgs)

  datatype FieldMeta = FieldMeta(
    target: Option<Target>,                      // lib _augmentedTarget
    targetsByMode: seq<(string, DirArgs)>,       // lib _augmentedTargetsByMode, in insertion order
    delayed: Option<seq<Deferred>>,              // lib _augmentDelayed of the field
    mutationTarget: Option<(string, string)>,    // src _augmentedMutationTarget (mode, type)
    batchCustomized: Option<bool>,               // src _augmentBatch.includeCustomized
    resultMarked: bool,                          // src _augmentResult
    auth: Option<map<string, Value>>,            // src _auth
    argsOf: Option<(string, string)>)            // lib: the (type, field) whose `args` array this field holds

  datatype Field = Field(name: string, ty: GType, args: seq<Augment>, meta: FieldMeta)

  datatype TypeMeta = TypeMeta(
    tag: TypeTag,
    baseName: Option<string>,                    // _augmentedTypeName
    mode: Option<string>,                        // _augmentedMode
    auth: Option<map<string, Value>>)            // src _auth

  /** A named type; `fields` is meaningful for object types, `inputFields`
      for input object types. */
  datatype TypeDef = TypeDef(name: string, kind: Kind, fields: seq<Field>, inputFields: seq<Augment>, meta: TypeMeta)

  datatype Schema = Schema(
    types: seq<TypeDef>,
    query: string,
    mutation: Option<string>,
    delayed: Option<seq<Deferred>>,                          // lib schema._augmentDelayed
    mutationDelayed: map<(string, string), seq<Augment>>)    // src schema._augmentMutationTypeDelayed[mode][type]

  const NoFieldMeta := FieldMeta(None, [], None, None, None, false, None, None)
  const NoTypeMeta := TypeMeta(NoTag, None, None, None)

  function NewObjectType(name: string, fields: seq<Field>, meta: TypeMeta): TypeDef {
    TypeDef(name, ObjectKind, fields, [], meta)
  }

  function NewInputType(name: string, inputFields: seq<Augment>, meta: TypeMeta): TypeDef {
    TypeDef(name, InputObjectKind, [], inputFields, meta)
  }

  function TypeRef(t: TypeDef): GType {
    Named(t.name, t.kind)
  }

  // ---- names of argument lists ----------------------------------------

  predicate HasName(xs: seq<Augment>, n: string) {
    exists i :: 0 <= i < |xs| && xs[i].name == n
  }

  function Names(xs: seq<Augment>): set<string> {
    set i | 0 <= i < |xs| :: xs[i].name
  }

  predicate UniqueNames(xs: seq<Augment>) {
    forall i, j :: 0 <= i < j < |xs| ==> xs[i].name != xs[j].name
  }

  lemma NamesOne(a: Augment)
    ensures Names([a]) == {a.name}
  {
    assert [a][0] == a;
  }

  lemma NamesAppend(xs: seq<Augment>, a: Augment)
    ensures Names(xs + [a]) == Names(xs) + {a.name}
  {
    var ys := xs + [a];
    forall n | n in Names(ys) ensures n in Names(xs) + {a.name} {
      var i :| 0 <= i < |ys| && ys[i].name == n;
      if i < |xs| { assert xs[i].name == n; }
    }
    forall n | n in Names(xs) + {a.name} ensures n in Names(ys) {
      if n == a.name { assert ys[|xs|].name == n; }
      else { var i :| 0 <= i < |xs| && xs[i].name == n; assert ys[i].name == n; }
    }
  }

  /** One step of `augmentFieldArgs`: appends `a` unless its name is present. */
  function AppendOne(xs: seq<Augment>, a: Augment): (r: seq<Augment>)
    ensures r == xs || r == xs + [a]
    ensures Names(r) == Names(xs) + {a.name}
    ensures UniqueNames(xs) ==> UniqueNames(r)
  {
    NamesAppend(xs, a);
    if HasName(xs, a.name) then
      var i :| 0 <= i < |xs| && xs[i].name == a.name;
      assert a.name in Names(xs);
      xs
    else
      xs + [a]
  }

  /** lib/utils.js `augmentFieldArgs`, also the first-writer-wins write of
      input-type fields: appends each augment whose name is not yet present. */
  function AppendAbsent(xs: seq<Augment>, augments: seq<Augment>): (r: seq<Augment>)
    ensures |xs| <= |r| <= |xs| + |augments| && r[..|xs|] == xs
    ensures forall i :: |xs| <= i < |r| ==> r[i] in augments
    ensures Names(r) == Names(xs) + Names(augments)
    ensures UniqueNames(xs) ==> UniqueNames(r)
    decreases |augments|
  {
    if |augments| == 0 then
      assert Names(augments) == {};
      xs
    else
      var next := AppendOne(xs, augments[0]);
      var r := AppendAbsent(next, augments[1..]);
      AppendAbsentStep(xs, augments, next, r);
      r
  }

  lemma AppendAbsentStep(xs: seq<Augment>, augments: seq<Augment>, next: seq<Augment>, r: seq<Augment>)
    requires |augments| > 0 && next == AppendOne(xs, augments[0])
    requires |next| <= |r| <= |next| + |augments| - 1 && r[..|next|] == next
    requires forall i :: |next| <= i < |r| ==> r[i] in augments[1..]
    requires Names(r) == Names(next) + Names(augments[1..])
    ensures |xs| <= |r| <= |xs| + |augments| && r[..|xs|] == xs
    ensures forall i :: |xs| <= i < |r| ==> r[i] in augments
    ensures Names(r) == Names(xs) + Names(augments)
  {
    var a := augments[0];
    assert Names(augments) == {a.name} + Names(augments[1..]) by {
      NamesAppend([a], a);
      assert augments == [a] + augments[1..];
      NamesConcat([a], augments[1..]);
    }
    assert r[..|xs|] == next[..|xs|];
    forall i | |xs| <= i < |r| ensures r[i] in augments {
      if i < |next| { assert r[i] == next[i] == a; }
      else { assert r[i] in augments[1..]; }
    }
  }

  lemma NamesConcat(xs: seq<Augment>, ys: seq<Augment>)
    ensures Names(xs + ys) == Names(xs) + Names(ys)
  {
    var zs := xs + ys;
    forall n | n in Names(zs) ensures n in Names(xs) + Names(ys) {
      var i :| 0 <= i < |zs| && zs[i].name == n;
      if i < |xs| { assert xs[i].name == n; } else { assert ys[i - |xs|].name == n; }
    }
    forall n | n in Names(xs) + Names(ys) ensures n in Names(zs) {
      if n in Names(xs) { var i :| 0 <= i < |xs| && xs[i].name == n; assert zs[i].name == n; }
      else { var i :| 0 <= i < |ys| && ys[i].name == n; assert zs[|xs| + i].name == n; }
    }
  }

  lemma HasNameIffInNames(xs: seq<Augment>, n: string)
    ensures HasName(xs, n) <==> n in Names(xs)
  {
    if n in Names(xs) { var i :| 0 <= i < |xs| && xs[i].name == n; }
  }

  /** Appending the same augments twice appends nothing the second time. */
  lemma {:induction false} AppendAbsentIdempotent(xs: seq<Augment>, augments: seq<Augment>)
    ensures AppendAbsent(AppendAbsent(xs, augments), augments) == AppendAbsent(xs, augments)
  {
    var r := AppendAbsent(xs, augments);
    AppendAbsentNoop(r, augments);
  }

  /** When every augment name is already present nothing is appended. */
  lemma {:induction false} AppendAbsentNoop(xs: seq<Augment>, augments: seq<Augment>)
    requires Names(augments) <= Names(xs)
    ensures AppendAbsent(xs, augments) == xs
    decreases |augments|
  {
    if |augments| > 0 {
      var a := augments[0];
      assert a.name in Names(augments);
      HasNameIffInNames(xs, a.name);
      assert augments == [a] + augments[1..];
      NamesConcat([a], augments[1..]);
      AppendAbsentNoop(xs, augments[1..]);
    }
  }

  /** `obj[a.name] = a` on an ordered field map: replaces in place, or appends. */
  function PutOverwrite(xs: seq<Augment>, a: Augment): (r: seq<Augment>)
    ensures HasName(xs, a.name) ==> |r| == |xs|
    ensures !HasName(xs, a.name) ==> r == xs + [a]
    ensures forall i :: 0 <= i < |xs| && xs[i].name != a.name ==> r[i] == xs[i]
    ensures HasName(r, a.name)
    decreases |xs|
  {
    if |xs| == 0 then
      var r := [a];
      assert r[0].name == a.name;
      r
    else if xs[0].name == a.name then
      var r := [a] + xs[1..];
      assert r[0].name == a.name;
      r
    else
      var rest := PutOverwrite(xs[1..], a);
      assert HasName(xs, a.name) ==> HasName(xs[1..], a.name) by {
        if HasName(xs, a.name) { var i :| 0 <= i < |xs| && xs[i].name == a.name; assert xs[1..][i - 1].name == a.name; }
      }
      assert !HasName(xs, a.name) ==> !HasName(xs[1..], a.name) by {
        if HasName(xs[1..], a.name) { var i :| 0 <= i < |xs[1..]| && xs[1..][i].name == a.name; assert xs[i + 1].name == a.name; }
      }
      var r := [xs[0]] + rest;
      assert HasName(r, a.name) by { var i :| 0 <= i < |rest| && rest[i].name == a.name; assert r[i + 1].name == a.name; }
      r
  }

  // ---- lookup by name ---------------------------------------------------

  /** The first position holding `name`, as a JavaScript object keyed by
      name finds it: types and fields are both looked up this way. */
  function NameIndex(names: seq<string>, name: string): (r: Option<nat>)
    ensures r.Some? ==> r.value < |names| && names[r.value] == name
    ensures r.Some? ==> forall j :: 0 <= j < r.value ==> names[j] != name
    ensures r.None? ==> forall j :: 0 <= j < |names| ==> names[j] != name
    decreases |names|
  {
    if |names| == 0 then None
    else if names[0] == name then Some(0)
    else match NameIndex(names[1..], name)
      case None => None
      case Some(i) => Some(i + 1)
  }

  /** A name appended to a list that lacks it is found at the end; every
      other name is found where it was. */
  lemma {:induction false} NameIndexAppend(names: seq<string>, x: string, n: string)
    requires NameIndex(names, x).None?
    ensures NameIndex(names + [x], n) == if n == x then Some(|names|) else NameIndex(names, n)
    decreases |names|
  {
    if |names| > 0 {
      assert (names + [x])[1..] == names[1..] + [x];
      if names[0] != x {
        NameIndexAppend(names[1..], x, n);
      }
    }
  }

  // ---- the type map ---------------------------------------------------

  function TypeNames(ts: seq<TypeDef>): seq<string> {
    seq(|ts|, i requires 0 <= i < |ts| => ts[i].name)
  }

  function TypeIndex(ts: seq<TypeDef>, name: string): Option<nat> {
    NameIndex(TypeNames(ts), name)
  }

  /** `schema.getType(name)`. */
  function LookupType(s: Schema, name: string): Option<TypeDef> {
    match TypeIndex(s.types, name)
    case None => None
    case Some(i) => Some(s.types[i])
  }

  /** Stores a type under its name: replaces the entry with that name, or
      appends a new one at the end of the type map. */
  function PutType(s: Schema, t: TypeDef): (r: Schema)
    ensures LookupType(r, t.name) == Some(t)
    ensures forall n :: n != t.name ==> LookupType(r, n) == LookupType(s, n)
    ensures r.query == s.query && r.mutation == s.mutation
    ensures r.delayed == s.delayed && r.mutationDelayed == s.mutationDelayed
  {
    match TypeIndex(s.types, t.name)
    case Some(i) =>
      var r := s.(types := s.types[i := t]);
      assert TypeNames(r.types) == TypeNames(s.types);
      r
    case None =>
      var r := s.(types := s.types + [t]);
      assert TypeNames(r.types) == TypeNames(s.types) + [t.name];
      forall n ensures LookupType(r, n) == if n == t.name then Some(t) else LookupType(s, n) {
        NameIndexAppend(TypeNames(s.types), t.name, n);
      }
      r
  }

  /** graphql-tools `ensureType` of lib/directives/common.js: get-or-create.
      The factory `make` runs only when the name is absent. */
  function EnsureType(s: Schema, name: string, make: string -> TypeDef): (r: (Schema, TypeDef))
    ensures r.1.name == name
    ensures LookupType(r.0, name) == Some(r.1)
    ensures LookupType(s, name).Some? ==> r.0 == s && r.1 == LookupType(s, name).value
    ensures LookupType(s, name).None? ==> r.1 == make(name).(name := name)
    ensures forall n :: n != name ==> LookupType(r.0, n) == LookupType(s, n)
    ensures r.0.query == s.query && r.0.mutation == s.mutation && r.0.delayed == s.delayed
  {
    match LookupType(s, name)
    case Some(t) =>
      assert t.name == name by { var i := TypeIndex(s.types, name).value; }
      (s, t)
    case None =>
      var t := make(name).(name := name);
      (PutType(s, t), t)
  }

  /** Calling `EnsureType` again with the same name, whatever the factory,
      returns the same type and leaves the schema as the first call left it. */
  lemma EnsureTypeIdempotent(s: Schema, name: string, make: string -> TypeDef, other: string -> TypeDef)
    ensures EnsureType(EnsureType(s, name, make).0, name, other) == EnsureType(s, name, make)
  {
  }

  /** Storing a type that is already stored changes nothing. */
  lemma PutTypeSame(s: Schema, t: TypeDef)
    requires LookupType(s, t.name) == Some(t)
    ensures PutType(s, t) == s
  {
    var i := TypeIndex(s.types, t.name).value;
    assert s.types[i := t] == s.types;
  }

  /** Overwrites the metadata of the type stored under `name`, if any. */
  function SetTypeMeta(s: Schema, name: string, meta: TypeMeta): Schema {
    match LookupType(s, name)
    case None => s
    case Some(t) => PutType(s, t.(meta := meta))
  }

  /** Replaces the input fields of the type stored under `name`. */
  function PutInputFields(s: Schema, name: string, xs: seq<Augment>): (r: Schema)
    ensures LookupType(s, name).Some? ==> LookupType(r, name) == Some(LookupType(s, name).value.(inputFields := xs))
    ensures forall n :: n != name ==> LookupType(r, n) == LookupType(s, n)
    ensures KeepsFields(s, r)
    ensures r.query == s.query && r.mutation == s.mutation && r.mutationDelayed == s.mutationDelayed
  {
    match LookupType(s, name)
    case None => s
    case Some(t) =>
      assert t.name == name by { var i := TypeIndex(s.types, name).value; }
      PutType(s, t.(inputFields := xs))
  }

  // ---- fields -----------------------------------------------------------

  function FieldNames(fs: seq<Field>): seq<string> {
    seq(|fs|, i requires 0 <= i < |fs| => fs[i].name)
  }

  function FieldIndex(fs: seq<Field>, name: string): Option<nat> {
    NameIndex(FieldNames(fs), name)
  }

  /** `type.getFields()[name]` of an object type. */
  function FindField(t: TypeDef, name: string): Option<Field> {
    match FieldIndex(t.fields, name)
    case None => None
    case Some(i) => Some(t.fields[i])
  }

  /** The fields of an object type read as arguments of a walk: same names,
      same types, in field order, none of them tagged. */
  function FieldsAsArgs(fs: seq<Field>): (r: seq<Augment>)
    ensures |r| == |fs|
    ensures forall i :: 0 <= i < |fs| ==>
      r[i].name == fs[i].name && r[i].ty == fs[i].ty && r[i].tag == Untagged && r[i].defaultValue.None?
  {
    if |fs| == 0 then [] else [Augment(fs[0].name, fs[0].ty, Untagged, None)] + FieldsAsArgs(fs[1..])
  }

  /** `Object.values(type.getFields())`: input fields of an input type, fields
      of an object type; other types have no `getFields`. */
  function ArgsOfType(t: TypeDef): Result<seq<Augment>> {
    if t.kind == InputObjectKind then Ok(t.inputFields)
    else if t.kind == ObjectKind then Ok(FieldsAsArgs(t.fields))
    else Err(TypeError("type.getFields is not a function"))
  }

  /** `owner.getFields()[name]` looked up through the type map. */
  function GetField(s: Schema, owner: string, name: string): Option<Field> {
    match LookupType(s, owner)
    case None => None
    case Some(t) => FindField(t, name)
  }

  /** Stores `f` as the field of that name of `owner` (in place, or appended). */
  function PutField(s: Schema, owner: string, f: Field): Schema {
    match LookupType(s, owner)
    case None => s
    case Some(t) => PutType(s, t.(fields := PutFieldIn(t.fields, f)))
  }

  /** `type.getFields()[name]` of an input object type. */
  function FindInputField(t: TypeDef, name: string): Option<Augment>
    decreases |t.inputFields|
  {
    if |t.inputFields| == 0 then None
    else if t.inputFields[0].name == name then Some(t.inputFields[0])
    else FindInputField(t.(inputFields := t.inputFields[1..]), name)
  }

  predicate IsRootType(s: Schema, name: string) {
    name == s.query || s.mutation == Some(name)
  }

  /** Stores `f` in a field list under its name: in place, or appended. */
  function PutFieldIn(fs: seq<Field>, f: Field): (r: seq<Field>)
    ensures FieldIndex(r, f.name).Some? && r[FieldIndex(r, f.name).value] == f
    ensures forall n :: n != f.name ==> FieldIndex(r, n) == FieldIndex(fs, n)
    ensures forall n :: n != f.name && FieldIndex(fs, n).Some? ==> r[FieldIndex(r, n).value] == fs[FieldIndex(fs, n).value]
  {
    match FieldIndex(fs, f.name)
    case Some(i) =>
      var r := fs[i := f];
      assert FieldNames(r) == FieldNames(fs);
      r
    case None =>
      var r := fs + [f];
      assert FieldNames(r) == FieldNames(fs) + [f.name];
      forall n ensures FieldIndex(r, n) == if n == f.name then Some(|fs|) else FieldIndex(fs, n) {
        NameIndexAppend(FieldNames(fs), f.name, n);
      }
      r
  }

  /** Reading a field back after `PutField`. */
  lemma GetFieldAfterPut(s: Schema, owner: string, f: Field, o: string, n: string)
    requires LookupType(s, owner).Some?
    ensures GetField(PutField(s, owner, f), o, n) == if o == owner && n == f.name then Some(f) else GetField(s, o, n)
  {
    var t := LookupType(s, owner).value;
    assert t.name == owner by { var i := TypeIndex(s.types, owner).value; }
    var fs := PutFieldIn(t.fields, f);
    assert PutField(s, owner, f) == PutType(s, t.(fields := fs));
  }

  /** The field found under a name has that name. */
  lemma GetFieldName(s: Schema, owner: string, fname: string)
    ensures GetField(s, owner, fname).Some? ==> GetField(s, owner, fname).value.name == fname
  {
    if GetField(s, owner, fname).Some? {
      var i := FieldIndex(LookupType(s, owner).value.fields, fname).value;
    }
  }

  /** Storing a field that is already stored changes nothing. */
  lemma PutFieldSame(s: Schema, owner: string, f: Field)
    requires GetField(s, owner, f.name) == Some(f)
    ensures PutField(s, owner, f) == s
  {
    var t := LookupType(s, owner).value;
    assert t.name == owner by { var i := TypeIndex(s.types, owner).value; }
    var k := FieldIndex(t.fields, f.name).value;
    assert PutFieldIn(t.fields, f) == t.fields by { assert t.fields[k := f] == t.fields; }
    PutTypeSame(s, t);
  }

  /** `PutField` changes only the field list of its owner: which types exist,
      their kinds and metadata, the root names and the queues stay. */
  lemma PutFieldKeepsTypes(s: Schema, owner: string, f: Field, n: string)
    ensures var r := PutField(s, owner, f);
      (LookupType(r, n).Some? <==> LookupType(s, n).Some?) &&
      (LookupType(s, n).Some? ==>
        LookupType(r, n).value.kind == LookupType(s, n).value.kind && LookupType(r, n).value.meta == LookupType(s, n).value.meta) &&
      r.query == s.query && r.mutation == s.mutation && r.delayed == s.delayed && r.mutationDelayed == s.mutationDelayed
  {
  }

  /** Writing a field changes no input field map. */
  lemma PutFieldKeepsInputs(s: Schema, owner: string, f: Field)
    ensures forall n :: LookupType(PutField(s, owner, f), n).Some? ==>
      LookupType(s, n).Some? && LookupType(PutField(s, owner, f), n).value.inputFields == LookupType(s, n).value.inputFields
  {
  }

  /** `t` has every type of `s`, with the same field list. */
  ghost predicate KeepsFields(s: Schema, t: Schema) {
    forall n :: LookupType(s, n).Some? ==> LookupType(t, n).Some? && LookupType(t, n).value.fields == LookupType(s, n).value.fields
  }

  lemma KeepsFieldsTrans(s: Schema, t: Schema, u: Schema)
    requires KeepsFields(s, t) && KeepsFields(t, u)
    ensures KeepsFields(s, u)
  {
  }

  /** Fields read through a schema that keeps the field lists read the same. */
  lemma KeepsFieldsGetField(s: Schema, t: Schema, o: string, n: string)
    requires KeepsFields(s, t) && GetField(s, o, n).Some?
    ensures GetField(t, o, n) == GetField(s, o, n)
  {
  }

  /** Get-or-create adds a type at most; it never changes one. */
  lemma EnsureTypeKeepsFields(s: Schema, name: string, make: string -> TypeDef)
    ensures KeepsFields(s, EnsureType(s, name, make).0)
  {
  }

  // ---- argument lists held by several fields ------------------------------

  /** Field `f` stored on type `t` holds the argument list of field `n` of
      `o`: it is that field, or a field built over the same `args` array. */
  predicate SharesArgs(t: string, f: Field, o: string, n: string) {
    (t == o && f.name == n) || f.meta.argsOf == Some((o, n))
  }

  /** The field whose argument list field `f` of type `t` holds. */
  function ArgsHome(t: string, f: Field): (r: (string, string))
    ensures SharesArgs(t, f, r.0, r.1)
    ensures f.meta.argsOf.None? ==> r == (t, f.name)
  {
    if f.meta.argsOf.Some? then f.meta.argsOf.value else (t, f.name)
  }

  /** Field `m` of `t` exists and holds the argument list of field `n` of `o`. */
  predicate Holds(s: Schema, t: string, m: string, o: string, n: string) {
    GetField(s, t, m).Some? && SharesArgs(t, GetField(s, t, m).value, o, n)
  }

  /** Field `m` of `t` holds the argument list that field `n` of `o` holds. */
  predicate SameList(s: Schema, o: string, n: string, t: string, m: string) {
    GetField(s, o, n).Some? && Holds(s, t, m, ArgsHome(o, GetField(s, o, n).value).0, ArgsHome(o, GetField(s, o, n).value).1)
  }

  function GrowField(t: string, f: Field, o: string, n: string, augs: seq<Augment>): Field {
    if SharesArgs(t, f, o, n) then f.(args := AppendAbsent(f.args, augs)) else f
  }

  function GrowType(t: TypeDef, o: string, n: string, augs: seq<Augment>): TypeDef {
    t.(fields := seq(|t.fields|, i requires 0 <= i < |t.fields| => GrowField(t.name, t.fields[i], o, n, augs)))
  }

  /** `augmentFieldArgs` on a list that several fields hold: every field
      holding the list of field `n` of `o` has the augments appended (first
      writer wins); every other field, and everything else, stays. */
  function AppendShared(s: Schema, o: string, n: string, augs: seq<Augment>): (r: Schema)
    ensures r.query == s.query && r.mutation == s.mutation && r.delayed == s.delayed && r.mutationDelayed == s.mutationDelayed
  {
    s.(types := seq(|s.types|, i requires 0 <= i < |s.types| => GrowType(s.types[i], o, n, augs)))
  }

  /** Reading a field back after `AppendShared`: a holder of the list has the
      augments appended, any other field reads the same. */
  lemma AppendSharedGet(s: Schema, o: string, n: string, augs: seq<Augment>, t: string, m: string)
    ensures var g := GetField(AppendShared(s, o, n, augs), t, m);
      (g.Some? <==> GetField(s, t, m).Some?) &&
      (Holds(s, t, m, o, n) ==> g == Some(GetField(s, t, m).value.(args := AppendAbsent(GetField(s, t, m).value.args, augs)))) &&
      (!Holds(s, t, m, o, n) ==> g == GetField(s, t, m))
  {
    var r := AppendShared(s, o, n, augs);
    assert TypeNames(r.types) == TypeNames(s.types);
    match TypeIndex(s.types, t)
    case None =>
      assert GetField(r, t, m) == None && GetField(s, t, m) == None;
    case Some(i) =>
      var ty := s.types[i];
      var gy := r.types[i];
      assert gy == GrowType(ty, o, n, augs) && ty.name == t;
      assert LookupType(s, t) == Some(ty) && LookupType(r, t) == Some(gy);
      assert FieldNames(gy.fields) == FieldNames(ty.fields);
      match FieldIndex(ty.fields, m)
      case None =>
        assert GetField(r, t, m) == None && GetField(s, t, m) == None;
      case Some(j) =>
        assert GetField(s, t, m) == Some(ty.fields[j]);
        assert GetField(r, t, m) == Some(GrowField(t, ty.fields[j], o, n, augs));
  }

  /** `AppendShared` keeps every type, its kind, metadata and input fields. */
  lemma AppendSharedTypes(s: Schema, o: string, n: string, augs: seq<Augment>, t: string)
    ensures var r := AppendShared(s, o, n, augs);
      (LookupType(r, t).Some? <==> LookupType(s, t).Some?) &&
      (LookupType(s, t).Some? ==>
        LookupType(r, t).value.kind == LookupType(s, t).value.kind && LookupType(r, t).value.meta == LookupType(s, t).value.meta &&
        LookupType(r, t).value.inputFields == LookupType(s, t).value.inputFields)
  {
    assert TypeNames(AppendShared(s, o, n, augs).types) == TypeNames(s.types);
  }
}

=== FILE: srcauthdirective.dfy ===
/** The `@auth` directive of the older generation (src/directives/auth.js):
    where the per-mode credentials land on a type or a field, and the
    placeholder value a denied result field resolves to. */
module SrcAuthDirective {
  import opened Outcomes
  import opened GqlType
  import opened JsValue
  import opened SchemaModel
  import SrcConfig
  import SrcResolver

  /** `ALL_AUTH_PREFIXES`: the modes an `all` entry stands for. */
  const AllPrefixes: seq<string> :=
    [SrcConfig.ModeQuery, SrcConfig.ModeInsert, SrcConfig.ModeUpdate, SrcConfig.ModeUpsert, SrcConfig.ModeResult]

  predicate AllGiven(args: map<string, Value>) {
    "all" in args && Truthy(args["all"])
  }

  /** `_addAuth`: a truthy `all` entry is copied onto every mode. */
  function AddAuth(args: map<string, Value>): (r: map<string, Value>)
    ensures !AllGiven(args) ==> r == args
    ensures AllGiven(args) ==> forall i :: 0 <= i < |AllPrefixes| ==> AllPrefixes[i] in r && r[AllPrefixes[i]] == args["all"]
    ensures forall k :: k in args && (!AllGiven(args) || k !in AllPrefixes) ==> k in r && r[k] == args[k]
    ensures forall k :: k in r ==> k in args || (AllGiven(args) && k in AllPrefixes)
  {
    if AllGiven(args) then args + map p | p in AllPrefixes :: args["all"] else args
  }

  /** Adding twice is adding once: `all` itself is not a mode, so the second
      pass copies the same value again. */
  lemma AddAuthIdempotent(args: map<string, Value>)
    ensures AddAuth(AddAuth(args)) == AddAuth(args)
  {
    var r := AddAuth(args);
    if AllGiven(args) {
      assert "all" !in AllPrefixes;
      assert AllGiven(r) && r["all"] == args["all"];
    }
  }

  /** What the resolver reads for a mode after `AddAuth`: the `all` value
      for the five modes when `all` is truthy, else the mode's own entry. */
  lemma AddAuthAsRead(args: map<string, Value>, mode: string)
    ensures SrcResolver.AuthConfig(Some(AddAuth(args)), Some(mode)) ==
      if AllGiven(args) && mode in AllPrefixes then args["all"]
      else if mode in args then args[mode] else Undef
  {
    if AllGiven(args) && mode in AllPrefixes {
      var i :| 0 <= i < |AllPrefixes| && AllPrefixes[i] == mode;
    }
  }

  const OnRootQuery := ConfigError("directive \"@auth\" should not be used on root query type")
  const OnRootMutation := ConfigError("directive \"@auth\" should not be used on root mutation type")

  /** `Auth.visitObject` on type `name`. */
  function VisitObject(s: Schema, name: string, args: map<string, Value>): (r: Result<Schema>)
    ensures name == s.query ==> r == Err(OnRootQuery)
    ensures name != s.query && s.mutation == Some(name) ==> r == Err(OnRootMutation)
    ensures !IsRootType(s, name) ==> r.Ok? && r.value.query == s.query && r.value.mutation == s.mutation
    ensures !IsRootType(s, name) ==> forall n :: n != name ==> LookupType(r.value, n) == LookupType(s, n)
    ensures !IsRootType(s, name) && LookupType(s, name).Some? ==>
      LookupType(r.value, name) == Some(LookupType(s, name).value.(meta := LookupType(s, name).value.meta.(auth := Some(AddAuth(args)))))
  {
    if name == s.query then Err(OnRootQuery)
    else if s.mutation == Some(name) then Err(OnRootMutation)
    else
      match LookupType(s, name)
      case None => Ok(s)
      case Some(t) =>
        assert t.name == name by { var i := TypeIndex(s.types, name).value; }
        Ok(SetTypeMeta(s, name, t.meta.(auth := Some(AddAuth(args)))))
  }

  /** `Auth.visitFieldDefinition` on field `fname` of `owner`. */
  function VisitField(s: Schema, owner: string, fname: string, args: map<string, Value>): (r: Schema)
    requires GetField(s, owner, fname).Some?
    ensures var f := GetField(s, owner, fname).value;
      GetField(r, owner, fname) == Some(f.(meta := f.meta.(auth := Some(AddAuth(args)))))
    ensures forall o, n :: (o != owner || n != fname) ==> GetField(r, o, n) == GetField(s, o, n)
  {
    var f := GetField(s, owner, fname).value;
    var g := f.(meta := f.meta.(auth := Some(AddAuth(args))));
    forall o, n ensures GetField(PutField(s, owner, g), o, n) == if o == owner && n == g.name then Some(g) else GetField(s, o, n) {
      GetFieldAfterPut(s, owner, g, o, n);
    }
    PutField(s, owner, g)
  }

  /** A type visited with `@auth` gates every walk of it under a mode with
      that mode's entry, or with `all`. */
  lemma VisitObjectGates(s: Schema, name: string, args: map<string, Value>, mode: string)
    requires !IsRootType(s, name) && LookupType(s, name).Some?
    ensures SrcResolver.AuthConfig(LookupType(VisitObject(s, name, args).value, name).value.meta.auth, Some(mode)) ==
      if AllGiven(args) && mode in AllPrefixes then args["all"]
      else if mode in args then args[mode] else Undef
  {
    AddAuthAsRead(args, mode);
  }

  // ---- getDefaultValue -------------------------------------------------

  predicate IsStringLike(t: GType) {
    t.Named? && (t.name == "String" || t.name == "ID" || t.name == "JSON" || t.kind == EnumKind)
  }

  predicate IsNumeric(t: GType) {
    t.Named? && (t.name == "Int" || t.name == "Float")
  }

  predicate IsDateLike(t: GType) {
    t.Named? && (t.name == "DateTime" || t.name == "Date" || t.name == "Time")
  }

  /** A placeholder: `undefined`, or an empty or zero value of some kind;
      never `null`. */
  predicate Blank(v: Value) {
    v == Undef || v == Arr([]) || v.Obj? || v == Str("") || v == Num(0) || v == Date(0) || v == Bool(false)
  }

  /** The placeholder for a Non-Null type other than a list or an object
      type, decided by the name of the type underneath. */
  function LeafDefault(u: GType): (r: Value)
    ensures Blank(r) && (r.Obj? ==> u.Named? && u.name == "JSONObject")
    ensures !u.Named? ==> r == Undef
  {
    if !u.Named? then Undef
    else if u.name == "JSONObject" then Obj(map[])
    else if IsStringLike(u) then Str("")
    else if IsNumeric(u) then Num(0)
    else if IsDateLike(u) then Date(0)
    else if u.name == "Boolean" then Bool(false)
    else Undef
  }

  /** `getDefaultValue`: what a result field whose read was denied resolves
      to. Object types are looked up in the type map; the recursion through
      Non-Null object fields is bounded by `fuel`, and running out stands
      for the stack overflow a cycle of Non-Null object fields causes. */
  function DefaultValue(s: Schema, t: GType, fuel: nat): (r: Result<Value>)
    ensures !t.NonNull? ==> r == Ok(Undef)
    ensures t.NonNull? && t.ofType.List? ==> r == Ok(Arr([]))
    ensures r.Ok? ==> Blank(r.value)
    ensures r.Ok? && r.value.Obj? ==>
      t.NonNull? && t.ofType.Named? && (t.ofType.kind == ObjectKind || t.ofType.name == "JSONObject")
    ensures r.Err? ==> r.error == RecursionLimit && t.NonNull? && t.ofType.Named? && t.ofType.kind == ObjectKind
    decreases fuel, 0
  {
    if !t.NonNull? then Ok(Undef)
    else if t.ofType.List? then Ok(Arr([]))
    else if t.ofType.Named? && t.ofType.kind == ObjectKind then
      if fuel == 0 then Err(RecursionLimit)
      else ObjectDefault(s, t.ofType.name, fuel - 1)
    else Ok(LeafDefault(t.ofType))
  }

  /** The placeholder of an object type: the defined placeholders of its
      fields. */
  function ObjectDefault(s: Schema, name: string, fuel: nat): (r: Result<Value>)
    ensures r.Ok? ==> r.value.Obj?
    ensures r.Err? ==> r.error == RecursionLimit
    decreases fuel, 2
  {
    match LookupType(s, name)
    case None => Ok(Obj(map[]))
    case Some(d) =>
      match FieldDefaults(s, d.fields, fuel)
      case Err(e) => Err(e)
      case Ok(m) => Ok(Obj(m))
  }

  /** The fields of an object type have distinct names. */
  predicate FieldNamesUnique(fs: seq<Field>) {
    forall i, j :: 0 <= i < j < |fs| ==> fs[i].name != fs[j].name
  }

  /** The loop of `getDefaultValue` over the fields of an object type: a
      field is present exactly when its own default is defined, with that
      default. */
  function FieldDefaults(s: Schema, fs: seq<Field>, fuel: nat): (r: Result<map<string, Value>>)
    ensures r.Ok? ==> forall k :: k in r.value ==> exists i :: 0 <= i < |fs| && fs[i].name == k
    ensures r.Ok? ==> forall i :: 0 <= i < |fs| ==> DefaultValue(s, fs[i].ty, fuel).Ok?
    ensures r.Ok? && FieldNamesUnique(fs) ==> forall i :: 0 <= i < |fs| ==>
      (fs[i].name in r.value <==> DefaultValue(s, fs[i].ty, fuel).value != Undef) &&
      (fs[i].name in r.value ==> r.value[fs[i].name] == DefaultValue(s, fs[i].ty, fuel).value)
    ensures r.Err? <==> exists i :: 0 <= i < |fs| && DefaultValue(s, fs[i].ty, fuel).Err?
    ensures r.Err? ==> r.error == RecursionLimit
    decreases fuel, 1
  {
    var rs := seq(|fs|, i requires 0 <= i < |fs| => DefaultValue(s, fs[i].ty, fuel));
    var r := Collect(fs, rs);
    assert forall i :: 0 <= i < |fs| ==> rs[i] == DefaultValue(s, fs[i].ty, fuel);
    assert r.Err? ==> r.error == RecursionLimit by {
      if r.Err? {
        var i :| 0 <= i < |fs| && rs[i] == Err(r.error);
      }
    }
    r
  }

  /** The loop body over the fields and their computed placeholders, in
      field order: the first error stops the loop, a defined placeholder is
      stored under its field's name. */
  function Collect(fs: seq<Field>, rs: seq<Result<Value>>): (r: Result<map<string, Value>>)
    requires |fs| == |rs|
    ensures r.Ok? ==> forall k :: k in r.value ==> exists i :: 0 <= i < |fs| && fs[i].name == k
    ensures r.Ok? ==> forall i :: 0 <= i < |rs| ==> rs[i].Ok?
    ensures r.Ok? && FieldNamesUnique(fs) ==> forall i :: 0 <= i < |fs| ==>
      (fs[i].name in r.value <==> rs[i].value != Undef) &&
      (fs[i].name in r.value ==> r.value[fs[i].name] == rs[i].value)
    ensures r.Err? <==> exists i :: 0 <= i < |rs| && rs[i].Err?
    ensures r.Err? ==> exists i :: 0 <= i < |rs| && rs[i] == Err(r.error)
    decreases |fs|
  {
    if |fs| == 0 then Ok(map[])
    else
      var rest := Collect(fs[1..], rs[1..]);
      if rs[0].Err? then Err(rs[0].error)
      else if rest.Err? then
        assert exists i :: 0 <= i < |rs| && rs[i] == Err(rest.error) by {
          var i :| 0 <= i < |rs[1..]| && rs[1..][i] == Err(rest.error);
          assert rs[i + 1] == rs[1..][i];
        }
        Err(rest.error)
      else
        var d := rs[0].value;
        var r := if d != Undef then map[fs[0].name := d] + rest.value else rest.value;
        assert forall k :: k in r ==> exists i :: 0 <= i < |fs| && fs[i].name == k by {
          forall k | k in r ensures exists i :: 0 <= i < |fs| && fs[i].name == k {
            if k != fs[0].name || d == Undef {
              var i :| 0 <= i < |fs[1..]| && fs[1..][i].name == k;
              assert fs[i + 1].name == k;
            } else {
              assert fs[0].name == k;
            }
          }
        }
        assert forall i :: 0 <= i < |rs| ==> rs[i].Ok? by {
          forall i | 0 <= i < |rs| ensures rs[i].Ok? {
            if i > 0 { assert rs[i] == rs[1..][i - 1]; }
          }
        }
        assert FieldNamesUnique(fs) ==> forall i :: 0 <= i < |fs| ==>
          (fs[i].name in r <==> rs[i].value != Undef) && (fs[i].name in r ==> r[fs[i].name] == rs[i].value) by {
          if FieldNamesUnique(fs) {
            assert FieldNamesUnique(fs[1..]);
            forall i | 0 <= i < |fs|
              ensures (fs[i].name in r <==> rs[i].value != Undef) && (fs[i].name in r ==> r[fs[i].name] == rs[i].value)
            {
              if i == 0 {
                assert forall j :: 0 <= j < |fs[1..]| ==> fs[1..][j].name != fs[0].name by {
                  forall j | 0 <= j < |fs[1..]| ensures fs[1..][j].name != fs[0].name {
                    assert fs[1..][j] == fs[j + 1];
                  }
                }
                assert fs[0].name !in rest.value;
              } else {
                assert fs[i] == fs[1..][i - 1] && rs[i] == rs[1..][i - 1];
                assert fs[i].name != fs[0].name;
              }
            }
          }
        }
        Ok(r)
  }

  /** The placeholder for a Non-Null object type holds an entry for exactly
      the fields whose own placeholder is defined, each with that
      placeholder. */
  lemma ObjectDefaultFields(s: Schema, name: string, fuel: nat)
    requires fuel > 0 && LookupType(s, name).Some? && FieldNamesUnique(LookupType(s, name).value.fields)
    requires DefaultValue(s, NonNull(Named(name, ObjectKind)), fuel).Ok?
    ensures var fs := LookupType(s, name).value.fields;
      var v := DefaultValue(s, NonNull(Named(name, ObjectKind)), fuel).value;
      v.Obj? && (forall k :: k in v.props ==> exists i :: 0 <= i < |fs| && fs[i].name == k) &&
      forall i :: 0 <= i < |fs| ==>
        DefaultValue(s, fs[i].ty, fuel - 1).Ok? &&
        (fs[i].name in v.props <==> DefaultValue(s, fs[i].ty, fuel - 1).value != Undef) &&
        (fs[i].name in v.props ==> v.props[fs[i].name] == DefaultValue(s, fs[i].ty, fuel - 1).value)
  {
    var fs := LookupType(s, name).value.fields;
    var m := FieldDefaults(s, fs, fuel - 1);
    assert m.Ok?;
  }
}

=== FILE: srcbatch.dfy ===
/** The `@batch` directive of the older generation (src/directives/batch.js):
    the list argument `filters` on a query field and `inputs` on a mutation
    field, typed by the filter or input type of the field's object type, with
    the field's own hand-written arguments optionally copied into that type. */
module SrcBatch {
  import opened Outcomes
  import opened GqlType
  import opened JsValue
  import opened SchemaModel
  import LibUtils
  import SrcConfig
  import SrcQuery
  import SrcInput
  import SrcResolver
  import SrcAuthDirective

  // ---- includeCustomized --------------------------------------------------

  /** The copy of a hand-written argument stored in the filter or input type. */
  function CustomizedOf(a: Augment): Augment {
    Augment(a.name, a.ty, FilterCustomized(a.name), None)
  }

  /** The names of the arguments without `_augmentType`. */
  function UntaggedNames(args: seq<Augment>): set<string> {
    set i | 0 <= i < |args| && args[i].tag == Untagged :: args[i].name
  }

  /** On a field map with distinct names, `obj[a.name] = a` keeps the names
      distinct and leaves `a` as the only entry of its name. */
  lemma {:induction false} PutOverwriteUnique(xs: seq<Augment>, a: Augment)
    requires UniqueNames(xs)
    ensures var r := PutOverwrite(xs, a);
      UniqueNames(r) && Names(r) == Names(xs) + {a.name} &&
      forall i :: 0 <= i < |r| && r[i].name == a.name ==> r[i] == a
    decreases |xs|
  {
    if |xs| == 0 {
      assert PutOverwrite(xs, a) == [a];
      NamesOne(a);
    } else if xs[0].name == a.name {
      assert PutOverwrite(xs, a) == [a] + xs[1..];
      ReplaceHead(xs, a);
    } else {
      var rest := PutOverwrite(xs[1..], a);
      assert PutOverwrite(xs, a) == [xs[0]] + rest;
      assert xs == [xs[0]] + xs[1..];
      assert UniqueNames(xs[1..]) by {
        forall i, j | 0 <= i < j < |xs[1..]| ensures xs[1..][i].name != xs[1..][j].name {
          assert xs[1..][i] == xs[i + 1] && xs[1..][j] == xs[j + 1];
        }
      }
      PutOverwriteUnique(xs[1..], a);
      ConsUnique(xs[0], rest, xs[1..], a);
    }
  }

  lemma ReplaceHead(xs: seq<Augment>, a: Augment)
    requires UniqueNames(xs) && |xs| > 0 && xs[0].name == a.name
    ensures var r := [a] + xs[1..];
      UniqueNames(r) && Names(r) == Names(xs) + {a.name} &&
      forall i :: 0 <= i < |r| && r[i].name == a.name ==> r[i] == a
  {
    var r := [a] + xs[1..];
    assert forall i :: 0 < i < |r| ==> r[i] == xs[i];
    assert xs == [xs[0]] + xs[1..];
    NamesConcat([a], xs[1..]);
    NamesConcat([xs[0]], xs[1..]);
    NamesOne(a);
    NamesOne(xs[0]);
  }

  /** Putting an entry of another name in front of the result of the
      recursive step keeps the three facts. */
  lemma ConsUnique(x: Augment, rest: seq<Augment>, tail: seq<Augment>, a: Augment)
    requires x.name != a.name && UniqueNames([x] + tail)
    requires UniqueNames(rest) && Names(rest) == Names(tail) + {a.name}
    requires forall i :: 0 <= i < |rest| && rest[i].name == a.name ==> rest[i] == a
    ensures var r := [x] + rest;
      UniqueNames(r) && Names(r) == Names([x] + tail) + {a.name} &&
      forall i :: 0 <= i < |r| && r[i].name == a.name ==> r[i] == a
  {
    var r := [x] + rest;
    NamesConcat([x], rest);
    NamesConcat([x], tail);
    NamesOne(x);
    assert forall j :: 0 <= j < |tail| ==> tail[j].name != x.name by {
      forall j | 0 <= j < |tail| ensures tail[j].name != x.name {
        assert ([x] + tail)[0] == x && ([x] + tail)[j + 1] == tail[j];
      }
    }
    assert x.name !in Names(tail);
    forall i, j | 0 <= i < j < |r| ensures r[i].name != r[j].name {
      assert r[j] == rest[j - 1];
      if i == 0 { assert r[j].name in Names(rest); }
      else { assert r[i] == rest[i - 1]; }
    }
    forall i | 0 <= i < |r| && r[i].name == a.name ensures r[i] == a {
      assert r[i] == rest[i - 1];
    }
  }

  /** The `for (const arg of field.args)` loop: every hand-written argument
      is written, by name, into the type's field map. Entries of other names
      stay where they were; every entry of a written name is the copy of a
      hand-written argument of that name. */
  function Customize(fields: seq<Augment>, args: seq<Augment>): (r: seq<Augment>)
    requires UniqueNames(fields)
    ensures UniqueNames(r) && |fields| <= |r|
    ensures Names(r) == Names(fields) + UntaggedNames(args)
    ensures forall i :: 0 <= i < |fields| && fields[i].name !in UntaggedNames(args) ==> r[i] == fields[i]
    ensures forall j :: 0 <= j < |r| && r[j].name in UntaggedNames(args) ==>
      exists k :: 0 <= k < |args| && args[k].tag == Untagged && r[j] == CustomizedOf(args[k])
    decreases |args|
  {
    if |args| == 0 then
      assert UntaggedNames(args) == {};
      fields
    else
      var a := args[0];
      var next := if a.tag == Untagged then PutOverwrite(fields, CustomizedOf(a)) else fields;
      assert UniqueNames(next) && Names(next) == Names(fields) + (if a.tag == Untagged then {a.name} else {}) &&
        (a.tag == Untagged ==> forall i :: 0 <= i < |next| && next[i].name == a.name ==> next[i] == CustomizedOf(a)) by {
        if a.tag == Untagged { PutOverwriteUnique(fields, CustomizedOf(a)); }
      }
      var r := Customize(next, args[1..]);
      CustomizeStep(fields, args, next, r);
      r
  }

  /** The hand-written names of a non-empty argument list: the first one's,
      if it is hand-written, and the rest's. */
  lemma UntaggedNamesCons(args: seq<Augment>)
    requires |args| > 0
    ensures UntaggedNames(args) == (if args[0].tag == Untagged then {args[0].name} else {}) + UntaggedNames(args[1..])
  {
    var a := args[0];
    var u1 := UntaggedNames(args[1..]);
    forall n | n in UntaggedNames(args) ensures n in (if a.tag == Untagged then {a.name} else {}) + u1 {
      var k :| 0 <= k < |args| && args[k].tag == Untagged && args[k].name == n;
      if k > 0 { assert args[1..][k - 1] == args[k]; }
    }
    forall n | n in u1 ensures n in UntaggedNames(args) {
      var k :| 0 <= k < |args[1..]| && args[1..][k].tag == Untagged && args[1..][k].name == n;
      assert args[k + 1] == args[1..][k];
    }
  }

  lemma CustomizeStep(fields: seq<Augment>, args: seq<Augment>, next: seq<Augment>, r: seq<Augment>)
    requires |args| > 0 && UniqueNames(fields)
    requires |fields| <= |next|
    requires forall i :: 0 <= i < |fields| && (args[0].tag != Untagged || fields[i].name != args[0].name) ==> next[i] == fields[i]
    requires Names(next) == Names(fields) + (if args[0].tag == Untagged then {args[0].name} else {})
    requires args[0].tag == Untagged ==>
      forall i :: 0 <= i < |next| && next[i].name == args[0].name ==> next[i] == CustomizedOf(args[0])
    requires UniqueNames(r) && |next| <= |r|
    requires Names(r) == Names(next) + UntaggedNames(args[1..])
    requires forall i :: 0 <= i < |next| && next[i].name !in UntaggedNames(args[1..]) ==> r[i] == next[i]
    requires forall j :: 0 <= j < |r| && r[j].name in UntaggedNames(args[1..]) ==>
      exists k :: 0 <= k < |args[1..]| && args[1..][k].tag == Untagged && r[j] == CustomizedOf(args[1..][k])
    ensures |fields| <= |r|
    ensures Names(r) == Names(fields) + UntaggedNames(args)
    ensures forall i :: 0 <= i < |fields| && fields[i].name !in UntaggedNames(args) ==> r[i] == fields[i]
    ensures forall j :: 0 <= j < |r| && r[j].name in UntaggedNames(args) ==>
      exists k :: 0 <= k < |args| && args[k].tag == Untagged && r[j] == CustomizedOf(args[k])
  {
    UntaggedNamesCons(args);
    CustomizeKeeps(fields, args, next, r);
    if args[0].tag == Untagged { HasNameIffInNames(next, args[0].name); }
    CustomizeWrites(args, next, r);
  }

  lemma CustomizeKeeps(fields: seq<Augment>, args: seq<Augment>, next: seq<Augment>, r: seq<Augment>)
    requires |args| > 0
    requires UntaggedNames(args) == (if args[0].tag == Untagged then {args[0].name} else {}) + UntaggedNames(args[1..])
    requires |fields| <= |next|
    requires forall i :: 0 <= i < |fields| && (args[0].tag != Untagged || fields[i].name != args[0].name) ==> next[i] == fields[i]
    requires |next| <= |r|
    requires forall i :: 0 <= i < |next| && next[i].name !in UntaggedNames(args[1..]) ==> r[i] == next[i]
    ensures |fields| <= |r|
    ensures forall i :: 0 <= i < |fields| && fields[i].name !in UntaggedNames(args) ==> r[i] == fields[i]
  {
    forall i | 0 <= i < |fields| && fields[i].name !in UntaggedNames(args) ensures r[i] == fields[i] {
      assert next[i] == fields[i];
    }
  }

  lemma CustomizeWrites(args: seq<Augment>, next: seq<Augment>, r: seq<Augment>)
    requires |args| > 0
    requires UntaggedNames(args) == (if args[0].tag == Untagged then {args[0].name} else {}) + UntaggedNames(args[1..])
    requires args[0].tag == Untagged ==> HasName(next, args[0].name)
    requires args[0].tag == Untagged ==>
      forall i :: 0 <= i < |next| && next[i].name == args[0].name ==> next[i] == CustomizedOf(args[0])
    requires UniqueNames(r) && |next| <= |r|
    requires forall i :: 0 <= i < |next| && next[i].name !in UntaggedNames(args[1..]) ==> r[i] == next[i]
    requires forall j :: 0 <= j < |r| && r[j].name in UntaggedNames(args[1..]) ==>
      exists k :: 0 <= k < |args[1..]| && args[1..][k].tag == Untagged && r[j] == CustomizedOf(args[1..][k])
    ensures forall j :: 0 <= j < |r| && r[j].name in UntaggedNames(args) ==>
      exists k :: 0 <= k < |args| && args[k].tag == Untagged && r[j] == CustomizedOf(args[k])
  {
    var u1 := UntaggedNames(args[1..]);
    forall j | 0 <= j < |r| && r[j].name in UntaggedNames(args)
      ensures exists k :: 0 <= k < |args| && args[k].tag == Untagged && r[j] == CustomizedOf(args[k])
    {
      if r[j].name in u1 {
        var k :| 0 <= k < |args[1..]| && args[1..][k].tag == Untagged && r[j] == CustomizedOf(args[1..][k]);
        assert args[k + 1] == args[1..][k];
      } else {
        var m :| 0 <= m < |next| && next[m].name == args[0].name;
        assert r[m] == next[m];
        assert r[j].name == r[m].name;
        assert j == m;
        assert r[j] == CustomizedOf(args[0]);
      }
    }
  }

  /** The input fields of `name`, when stored, have distinct names (they are
      the keys of a field map). */
  predicate InputFieldsUnique(s: Schema, name: string) {
    LookupType(s, name).Some? ==> UniqueNames(LookupType(s, name).value.inputFields)
  }

  /** Every input field map of the schema has distinct names. */
  ghost predicate InputsUnique(s: Schema) {
    forall n :: InputFieldsUnique(s, n)
  }

  /** The input fields after get-or-create of `t`: copied from `f`'s
      hand-written arguments when `customized`. */
  function CustomizedFields(t: TypeDef, f: Field, customized: bool): (r: seq<Augment>)
    requires UniqueNames(t.inputFields)
  {
    if customized then Customize(t.inputFields, f.args) else t.inputFields
  }

  // ---- query side: augmentField ---------------------------------------------

  /** `filters: [TInput!]`. */
  function FiltersArg(filterType: TypeDef): Augment {
    Augment(SrcConfig.ArgFilters, List(NonNull(TypeRef(filterType))), FilterFilters, None)
  }

  /** The filter type of `typeName` after `ensureQueryInputType` and the
      optional copy of `f`'s hand-written arguments. */
  function FilterTypeFor(s: Schema, typeName: string, f: Field): (r: (Schema, TypeDef))
    requires InputFieldsUnique(s, SrcQuery.FilterTypeName(typeName))
    ensures var (s1, t1) := SrcQuery.EnsureQueryInputType(s, typeName);
      r.1 == t1.(inputFields := CustomizedFields(t1, f, f.meta.batchCustomized == Some(true)))
    ensures r.1.name == SrcQuery.FilterTypeName(typeName) && r.1.meta.tag == FilterTypeTag
    ensures LookupType(r.0, r.1.name) == Some(r.1)
    ensures forall n :: n != r.1.name ==> LookupType(r.0, n) == LookupType(s, n)
    ensures KeepsFields(s, r.0)
    ensures r.0.query == s.query && r.0.mutation == s.mutation && r.0.mutationDelayed == s.mutationDelayed
  {
    var (s1, t1) := SrcQuery.EnsureQueryInputType(s, typeName);
    var xs := CustomizedFields(t1, f, f.meta.batchCustomized == Some(true));
    var s2 := PutInputFields(s1, t1.name, xs);
    KeepsFieldsTrans(s, s1, s2);
    (s2, t1.(inputFields := xs))
  }

  /** `augmentField` on an existing target field: a field that already has
      `filters` is left alone; otherwise it gets `filters` over the filter
      type of `typeName`. */
  function AugmentField(s: Schema, owner: string, fname: string, typeName: string): (r: Schema)
    requires GetField(s, owner, fname).Some? && InputsUnique(s)
    ensures HasName(GetField(s, owner, fname).value.args, SrcConfig.ArgFilters) ==> r == s
    ensures r.query == s.query && r.mutation == s.mutation
  {
    var f := GetField(s, owner, fname).value;
    if HasName(f.args, SrcConfig.ArgFilters) then s
    else
      var (s1, ft) := FilterTypeFor(s, typeName, f);
      PutField(s1, owner, f.(args := f.args + [FiltersArg(ft)]))
  }

  /** A field without `filters` gets exactly one argument, `filters`, typed
      by a list of the filter type, which carries the filter tag and (with
      `includeCustomized`) the field's hand-written arguments. */
  lemma AugmentFieldAppends(s: Schema, owner: string, fname: string, typeName: string)
    requires GetField(s, owner, fname).Some? && InputsUnique(s)
    requires !HasName(GetField(s, owner, fname).value.args, SrcConfig.ArgFilters)
    requires owner != SrcQuery.FilterTypeName(typeName)
    ensures var f := GetField(s, owner, fname).value;
      var r := AugmentField(s, owner, fname, typeName);
      var n := SrcQuery.FilterTypeName(typeName);
      LookupType(r, n).Some? && LookupType(r, n).value.meta.tag == FilterTypeTag &&
      LookupType(r, n).value.meta.baseName == Some(typeName) &&
      GetField(r, owner, fname) == Some(f.(args := f.args + [FiltersArg(LookupType(r, n).value)])) &&
      (f.meta.batchCustomized == Some(true) ==> Names(f.args) - Names(LookupType(r, n).value.inputFields) <= Names(f.args) - UntaggedNames(f.args))
  {
    var f := GetField(s, owner, fname).value;
    var (s1, ft) := FilterTypeFor(s, typeName, f);
    KeepsFieldsGetField(s, s1, owner, fname);
    assert LookupType(s1, owner).Some?;
    var g := f.(args := f.args + [FiltersArg(ft)]);
    GetFieldAfterPut(s1, owner, g, owner, fname);
    PutFieldKeepsTypes(s1, owner, g, ft.name);
    assert LookupType(PutField(s1, owner, g), ft.name) == Some(ft) by {
      var t := LookupType(s1, owner).value;
      assert t.name == owner by { var i := TypeIndex(s1.types, owner).value; }
    }
  }

  /** `augmentField` keeps every input field map free of repeated names. */
  lemma AugmentFieldKeepsUnique(s: Schema, owner: string, fname: string, typeName: string)
    requires GetField(s, owner, fname).Some? && InputsUnique(s)
    ensures InputsUnique(AugmentField(s, owner, fname, typeName))
  {
    var f := GetField(s, owner, fname).value;
    if !HasName(f.args, SrcConfig.ArgFilters) {
      assert InputFieldsUnique(s, SrcQuery.FilterTypeName(typeName));
      var (s1, ft) := FilterTypeFor(s, typeName, f);
      var h := f.(args := f.args + [FiltersArg(ft)]);
      var r := PutField(s1, owner, h);
      PutFieldKeepsInputs(s1, owner, h);
      var (s2, t1) := SrcQuery.EnsureQueryInputType(s, typeName);
      assert UniqueNames(t1.inputFields);
      assert UniqueNames(ft.inputFields);
      forall n ensures InputFieldsUnique(r, n) {
        if n != ft.name { assert InputFieldsUnique(s, n); }
      }
    }
  }

  // ---- mutation side ----------------------------------------------------------

  /** `inputs: [TInput!]`. */
  function InputsArg(inputType: TypeDef): Augment {
    Augment(SrcConfig.ArgInputs, List(NonNull(TypeRef(inputType))), InputInputs, None)
  }

  /** Get-or-create the input type of `typeName` recording `recordedMode`,
      copy the hand-written arguments when `customized`, and append `inputs`. */
  function MutationInputs(s: Schema, owner: string, f: Field, typeName: string, mode: string, recordedMode: string): (r: Schema)
    requires LookupType(s, owner).Some? && InputsUnique(s)
    requires LibUtils.InputTypeName(typeName, recordedMode) == LibUtils.InputTypeName(typeName, mode)
    ensures r.query == s.query && r.mutation == s.mutation
  {
    var (s1, it) := SrcInput.EnsureInputType(s, typeName, recordedMode);
    assert InputFieldsUnique(s, it.name);
    var xs := CustomizedFields(it, f, f.meta.batchCustomized == Some(true));
    var s2 := PutInputFields(s1, it.name, xs);
    PutField(s2, owner, f.(args := f.args + [InputsArg(it.(inputFields := xs))]))
  }

  /** A mutation prefix and its mode name the same input type: the two
      differ only in the case of the first letter. */
  lemma PrefixAndModeShareInputType(typeName: string, prefix: string, mode: string)
    requires (prefix, mode) in [(SrcConfig.PrefixInsert, SrcConfig.ModeInsert),
      (SrcConfig.PrefixUpdate, SrcConfig.ModeUpdate), (SrcConfig.PrefixUpsert, SrcConfig.ModeUpsert)]
    ensures LibUtils.InputTypeName(typeName, prefix) == LibUtils.InputTypeName(typeName, mode)
  {
    assert Capitalize(prefix) == prefix && Capitalize(mode) == prefix by {
      assert Upper(prefix[0]) == prefix[0] && Upper(mode[0]) == prefix[0];
      assert [Upper(prefix[0])] + prefix[1..] == prefix;
    }
  }

  const NoPrefix := ConfigError("the root mutation fields where directive \"@batch\" is applied should start with any of the following: Insert, Update, Upsert")

  function NoType(fname: string, typeName: string): Error {
    ConfigError("directive \"@batch\" used on field \"" + fname + "\" but \"" + typeName + "\" does not match any of the existing types")
  }

  /** Which name the input type created for `inputs` records as its mode. */
  datatype ModeSource = RecordPrefix | RecordMode

  /** The mutation branch on the field `f` (already marked) of the root
      mutation type `owner`. */
  function VisitMutation(s: Schema, owner: string, f: Field, src: ModeSource): (r: Result<Schema>)
    requires LookupType(s, owner).Some? && InputsUnique(s)
    ensures SrcConfig.MutationPrefix(f.name).None? ==> r == Err(NoPrefix)
    ensures SrcConfig.MutationPrefix(f.name).Some? && LookupType(s, f.name[|SrcConfig.MutationPrefix(f.name).value.0|..]).None? ==>
      r == Err(NoType(f.name, f.name[|SrcConfig.MutationPrefix(f.name).value.0|..]))
    ensures r.Ok? ==> r.value.query == s.query && r.value.mutation == s.mutation
  {
    match SrcConfig.MutationPrefix(f.name)
    case None => Err(NoPrefix)
    case Some((prefix, mode)) =>
      var typeName := f.name[|prefix|..];
      if LookupType(s, typeName).None? then Err(NoType(f.name, typeName))
      else if HasName(f.args, SrcConfig.ArgInputs) then Ok(s)
      else
        var recorded := if src == RecordPrefix then prefix else mode;
        PrefixAndModeShareInputType(typeName, prefix, mode);
        Ok(MutationInputs(s, owner, f, typeName, mode, recorded))
  }

  /** `field._augmentBatch = this.args`. */
  function Mark(s: Schema, owner: string, fname: string, includeCustomized: Option<bool>): (r: Schema)
    requires GetField(s, owner, fname).Some? && InputsUnique(s)
    ensures var f := GetField(s, owner, fname).value;
      GetField(r, owner, fname) == Some(f.(meta := f.meta.(batchCustomized := includeCustomized)))
    ensures LookupType(r, owner).Some? && InputsUnique(r)
    ensures r.query == s.query && r.mutation == s.mutation
  {
    var f0 := GetField(s, owner, fname).value;
    var f := f0.(meta := f0.meta.(batchCustomized := includeCustomized));
    GetFieldAfterPut(s, owner, f, owner, fname);
    PutFieldKeepsInputs(s, owner, f);
    PutFieldKeepsTypes(s, owner, f, owner);
    var r := PutField(s, owner, f);
    assert InputsUnique(r) by {
      forall n ensures InputFieldsUnique(r, n) { assert InputFieldsUnique(s, n); }
    }
    r
  }

  /** `Batch.visitFieldDefinition` on field `fname` of `owner`, with the
      directive's `includeCustomized`; `src` says which of the prefix and
      the mode names the created input type's mode. */
  function VisitWith(s: Schema, owner: string, fname: string, includeCustomized: Option<bool>, src: ModeSource): (r: Result<Schema>)
    requires GetField(s, owner, fname).Some? && InputsUnique(s)
    ensures s.mutation == Some(owner) && SrcConfig.MutationPrefix(fname).None? ==> r == Err(NoPrefix)
    ensures (s.mutation == Some(owner) && SrcConfig.MutationPrefix(fname).Some? &&
             LookupType(s, fname[|SrcConfig.MutationPrefix(fname).value.0|..]).None?) ==>
      r == Err(NoType(fname, fname[|SrcConfig.MutationPrefix(fname).value.0|..]))
    ensures s.mutation != Some(owner) ==> r.Ok?
    ensures r.Ok? ==> r.value.query == s.query && r.value.mutation == s.mutation
  {
    var s0 := Mark(s, owner, fname, includeCustomized);
    var f := GetField(s0, owner, fname).value;
    assert forall n :: LookupType(s0, n).Some? <==> LookupType(s, n).Some? by {
      PutFieldKeepsTypes(s, owner, GetField(s0, owner, fname).value, fname);
      forall n ensures LookupType(s0, n).Some? <==> LookupType(s, n).Some? {
        PutFieldKeepsTypes(s, owner, f, n);
      }
    }
    if s.mutation == Some(owner) then VisitMutation(s0, owner, f, src)
    else if owner == s.query then Ok(AugmentField(s0, owner, fname, fname))
    else if f.meta.resultMarked then Ok(AugmentField(s0, owner, fname, NamedOf(f.ty).name))
    else Ok(s0)
  }

  /** The visit as src/directives/batch.js writes it: the created input type
      records the prefix (`Insert`) as its mode. */
  function VisitAsWritten(s: Schema, owner: string, fname: string, includeCustomized: Option<bool>): (r: Result<Schema>)
    requires GetField(s, owner, fname).Some? && InputsUnique(s)
    ensures r == VisitWith(s, owner, fname, includeCustomized, RecordPrefix)
  {
    VisitWith(s, owner, fname, includeCustomized, RecordPrefix)
  }

  /** The visit with the mode recorded, as `@insert`/`@update`/`@upsert`
      record it when they create the same input type. */
  function Visit(s: Schema, owner: string, fname: string, includeCustomized: Option<bool>): (r: Result<Schema>)
    requires GetField(s, owner, fname).Some? && InputsUnique(s)
    ensures r == VisitWith(s, owner, fname, includeCustomized, RecordMode)
  {
    VisitWith(s, owner, fname, includeCustomized, RecordMode)
  }

  // ---- what the mutation branch leaves behind ---------------------------------

  /** The fields a freshly created input type starts with. */
  function FreshInputFields(f: Field): seq<Augment> {
    if f.meta.batchCustomized == Some(true) then Customize([], f.args) else []
  }

  /** When the input type is absent, `MutationInputs` creates it with the
      recorded mode and the copied arguments, types `inputs` by it, and
      changes no other type's metadata. */
  lemma MutationInputsCreates(s: Schema, owner: string, f: Field, typeName: string, mode: string, recordedMode: string)
    requires LookupType(s, owner).Some? && InputsUnique(s)
    requires LibUtils.InputTypeName(typeName, recordedMode) == LibUtils.InputTypeName(typeName, mode)
    requires LookupType(s, LibUtils.InputTypeName(typeName, mode)).None?
    requires owner != LibUtils.InputTypeName(typeName, mode)
    ensures var n := LibUtils.InputTypeName(typeName, mode);
      var r := MutationInputs(s, owner, f, typeName, mode, recordedMode);
      var it := NewInputType(n, FreshInputFields(f), SrcInput.InputMeta(typeName, recordedMode));
      LookupType(r, n) == Some(it) &&
      GetField(r, owner, f.name) == Some(f.(args := f.args + [InputsArg(it)])) &&
      forall m :: m != n ==>
        (LookupType(r, m).Some? <==> LookupType(s, m).Some?) &&
        (LookupType(s, m).Some? ==> LookupType(r, m).value.meta == LookupType(s, m).value.meta)
  {
    var n := LibUtils.InputTypeName(typeName, mode);
    var (s1, it) := SrcInput.EnsureInputType(s, typeName, recordedMode);
    var xs := CustomizedFields(it, f, f.meta.batchCustomized == Some(true));
    var s2 := PutInputFields(s1, it.name, xs);
    var g := f.(args := f.args + [InputsArg(it.(inputFields := xs))]);
    assert LookupType(s2, owner).Some?;
    GetFieldAfterPut(s2, owner, g, owner, f.name);
    forall m ensures (LookupType(PutField(s2, owner, g), m).Some? <==> LookupType(s2, m).Some?) &&
      (LookupType(s2, m).Some? ==> LookupType(PutField(s2, owner, g), m).value.meta == LookupType(s2, m).value.meta)
    {
      PutFieldKeepsTypes(s2, owner, g, m);
    }
    assert LookupType(PutField(s2, owner, g), n) == LookupType(s2, n) by {
      var t := LookupType(s2, owner).value;
      assert t.name == owner by { var i := TypeIndex(s2.types, owner).value; }
    }
  }

  /** On a root mutation field without `inputs` whose input type is still
      absent, the visit creates that type (recording the mode `src` picks)
      and appends `inputs` typed by it; it reports the created type. */
  lemma VisitMutationCreates(s: Schema, owner: string, fname: string, inc: Option<bool>, src: ModeSource)
    requires GetField(s, owner, fname).Some? && InputsUnique(s) && s.mutation == Some(owner)
    requires SrcConfig.MutationPrefix(fname).Some?
    requires var (p, m) := SrcConfig.MutationPrefix(fname).value;
      LookupType(s, fname[|p|..]).Some? && LookupType(s, LibUtils.InputTypeName(fname[|p|..], m)).None? &&
      owner != LibUtils.InputTypeName(fname[|p|..], m)
    requires !HasName(GetField(s, owner, fname).value.args, SrcConfig.ArgInputs)
    ensures var (p, m) := SrcConfig.MutationPrefix(fname).value;
      var f := GetField(s, owner, fname).value;
      var g := f.(meta := f.meta.(batchCustomized := inc));
      var n := LibUtils.InputTypeName(fname[|p|..], m);
      var r := VisitWith(s, owner, fname, inc, src);
      var it := NewInputType(n, FreshInputFields(g), SrcInput.InputMeta(fname[|p|..], if src == RecordPrefix then p else m));
      r.Ok? && LookupType(r.value, n) == Some(it) &&
      GetField(r.value, owner, fname) == Some(g.(args := f.args + [InputsArg(it)])) &&
      forall k :: k != n ==>
        (LookupType(r.value, k).Some? <==> LookupType(s, k).Some?) &&
        (LookupType(s, k).Some? ==> LookupType(r.value, k).value.meta == LookupType(s, k).value.meta)
  {
    var (p, m) := SrcConfig.MutationPrefix(fname).value;
    var f := GetField(s, owner, fname).value;
    var g := f.(meta := f.meta.(batchCustomized := inc));
    var s0 := Mark(s, owner, fname, inc);
    assert GetField(s0, owner, fname) == Some(g);
    forall k ensures (LookupType(s0, k).Some? <==> LookupType(s, k).Some?) &&
      (LookupType(s, k).Some? ==> LookupType(s0, k).value.meta == LookupType(s, k).value.meta)
    {
      PutFieldKeepsTypes(s, owner, g, k);
    }
    var recorded := if src == RecordPrefix then p else m;
    PrefixAndModeShareInputType(fname[|p|..], p, m);
    assert g.name == fname by { GetFieldName(s, owner, fname); }
    MutationInputsCreates(s0, owner, g, fname[|p|..], m, recorded);
  }

  // ---- the recorded mode, as written and as intended ------------------------

  /** The walk of one element of `inputs` on an insert field: `_resolve` is
      called with the input type's name and no field. */
  function ElementWalk(n: string): SrcResolver.Req {
    SrcResolver.Req(None, Some(n), Some(SrcConfig.ModeInsert), Undef, Undef, false)
  }

  /** The element walk over an input type created by the visit: its fields,
      the type it stands for, and the recorded mode. */
  lemma ElementWalkPrepares(r: Schema, n: string, t: string, recorded: string, xs: seq<Augment>)
    requires LookupType(r, n) == Some(NewInputType(n, xs, SrcInput.InputMeta(t, recorded))) && t != ""
    ensures SrcResolver.Prepare(r, ElementWalk(n)) == Ok((xs, t, Some(recorded)))
  {
  }

  /** As written, the input type `@batch` creates for `InsertT` records the
      prefix `Insert` as its mode, so each element of `inputs` is walked
      under mode `Insert`; the `@auth` entries of `T` are keyed by the mode
      names, so the walk reads no credential for `T` even when `T` demands
      one for inserts. */
  lemma BatchModeAsWrittenSkipsAuth(s: Schema, owner: string, fname: string, inc: Option<bool>, a: map<string, Value>)
    requires GetField(s, owner, fname).Some? && InputsUnique(s) && s.mutation == Some(owner)
    requires SrcConfig.PrefixInsert <= fname && |fname| > |SrcConfig.PrefixInsert|
    requires var t := fname[|SrcConfig.PrefixInsert|..];
      LookupType(s, t).Some? && LookupType(s, t).value.meta.auth == Some(SrcAuthDirective.AddAuth(a)) &&
      LookupType(s, LibUtils.InputTypeName(t, SrcConfig.ModeInsert)).None? &&
      owner != LibUtils.InputTypeName(t, SrcConfig.ModeInsert)
    requires !HasName(GetField(s, owner, fname).value.args, SrcConfig.ArgInputs)
    requires SrcConfig.PrefixInsert !in a && SrcConfig.ModeInsert in a && Truthy(a[SrcConfig.ModeInsert])
    ensures var t := fname[|SrcConfig.PrefixInsert|..];
      var n := LibUtils.InputTypeName(t, SrcConfig.ModeInsert);
      var r := VisitAsWritten(s, owner, fname, inc);
      r.Ok? && SrcResolver.Prepare(r.value, ElementWalk(n)).Ok? &&
      SrcResolver.Prepare(r.value, ElementWalk(n)).value.1 == t &&
      SrcResolver.Prepare(r.value, ElementWalk(n)).value.2 == Some(SrcConfig.PrefixInsert) &&
      LookupType(r.value, t).Some? &&
      SrcResolver.AuthConfig(LookupType(r.value, t).value.meta.auth, Some(SrcConfig.PrefixInsert)) == Undef &&
      Truthy(SrcResolver.AuthConfig(LookupType(s, t).value.meta.auth, Some(SrcConfig.ModeInsert)))
  {
    var t := fname[|SrcConfig.PrefixInsert|..];
    var n := LibUtils.InputTypeName(t, SrcConfig.ModeInsert);
    var f := GetField(s, owner, fname).value;
    var g := f.(meta := f.meta.(batchCustomized := inc));
    var it := NewInputType(n, FreshInputFields(g), SrcInput.InputMeta(t, SrcConfig.PrefixInsert));
    var rr := VisitAsWritten(s, owner, fname, inc);
    assert rr.Ok? && LookupType(rr.value, n) == Some(it) &&
      LookupType(rr.value, t).Some? && LookupType(rr.value, t).value.meta == LookupType(s, t).value.meta by {
      assert SrcConfig.MutationPrefix(fname) == Some((SrcConfig.PrefixInsert, SrcConfig.ModeInsert));
      VisitMutationCreates(s, owner, fname, inc, RecordPrefix);
      assert t != n;
    }
    ElementWalkPrepares(rr.value, n, t, SrcConfig.PrefixInsert, FreshInputFields(g));
    UnkeyedPrefix(a);
  }

  /** `@auth` keys its entries by mode names: absent a hand-written
      `Insert` entry, nothing is stored under the prefix, while an insert
      entry is there to read. */
  lemma UnkeyedPrefix(a: map<string, Value>)
    requires SrcConfig.PrefixInsert !in a && SrcConfig.ModeInsert in a && Truthy(a[SrcConfig.ModeInsert])
    ensures SrcResolver.AuthConfig(Some(SrcAuthDirective.AddAuth(a)), Some(SrcConfig.PrefixInsert)) == Undef
    ensures Truthy(SrcResolver.AuthConfig(Some(SrcAuthDirective.AddAuth(a)), Some(SrcConfig.ModeInsert)))
  {
    SrcAuthDirective.AddAuthAsRead(a, SrcConfig.PrefixInsert);
    SrcAuthDirective.AddAuthAsRead(a, SrcConfig.ModeInsert);
    assert SrcConfig.PrefixInsert !in SrcAuthDirective.AllPrefixes;
  }

  /** Recording the mode instead, the element walk runs under `insert` and
      reads `T`'s insert credential, as the walk of a single `@insert`
      mutation does. */
  lemma BatchModeIntendedKeepsAuth(s: Schema, owner: string, fname: string, inc: Option<bool>, a: map<string, Value>)
    requires GetField(s, owner, fname).Some? && InputsUnique(s) && s.mutation == Some(owner)
    requires SrcConfig.PrefixInsert <= fname && |fname| > |SrcConfig.PrefixInsert|
    requires var t := fname[|SrcConfig.PrefixInsert|..];
      LookupType(s, t).Some? && LookupType(s, t).value.meta.auth == Some(SrcAuthDirective.AddAuth(a)) &&
      LookupType(s, LibUtils.InputTypeName(t, SrcConfig.ModeInsert)).None? &&
      owner != LibUtils.InputTypeName(t, SrcConfig.ModeInsert)
    requires !HasName(GetField(s, owner, fname).value.args, SrcConfig.ArgInputs)
    ensures var t := fname[|SrcConfig.PrefixInsert|..];
      var n := LibUtils.InputTypeName(t, SrcConfig.ModeInsert);
      var r := Visit(s, owner, fname, inc);
      r.Ok? && SrcResolver.Prepare(r.value, ElementWalk(n)).Ok? &&
      SrcResolver.Prepare(r.value, ElementWalk(n)).value.1 == t &&
      SrcResolver.Prepare(r.value, ElementWalk(n)).value.2 == Some(SrcConfig.ModeInsert) &&
      LookupType(r.value, t).Some? &&
      SrcResolver.AuthConfig(LookupType(r.value, t).value.meta.auth, Some(SrcConfig.ModeInsert)) ==
        SrcResolver.AuthConfig(LookupType(s, t).value.meta.auth, Some(SrcConfig.ModeInsert))
  {
    var t := fname[|SrcConfig.PrefixInsert|..];
    var n := LibUtils.InputTypeName(t, SrcConfig.ModeInsert);
    assert SrcConfig.MutationPrefix(fname) == Some((SrcConfig.PrefixInsert, SrcConfig.ModeInsert));
    VisitMutationCreates(s, owner, fname, inc, RecordMode);
    var r := Visit(s, owner, fname, inc).value;
    var f := GetField(s, owner, fname).value;
    var g := f.(meta := f.meta.(batchCustomized := inc));
    ElementWalkPrepares(r, n, t, SrcConfig.ModeInsert, FreshInputFields(g));
    assert t != n;
    assert LookupType(r, t).value.meta == LookupType(s, t).value.meta;
  }

  // ---- the query side of the visit ----------------------------------------------

  /** A root query field without `filters` gets `filters` over the filter
      type of the type it is named after. */
  lemma VisitQueryAppendsFilters(s: Schema, fname: string, inc: Option<bool>)
    requires GetField(s, s.query, fname).Some? && InputsUnique(s) && s.mutation != Some(s.query)
    requires !HasName(GetField(s, s.query, fname).value.args, SrcConfig.ArgFilters)
    requires s.query != SrcQuery.FilterTypeName(fname)
    ensures var f := GetField(s, s.query, fname).value;
      var g := f.(meta := f.meta.(batchCustomized := inc));
      var r := Visit(s, s.query, fname, inc);
      var n := SrcQuery.FilterTypeName(fname);
      r.Ok? && LookupType(r.value, n).Some? && LookupType(r.value, n).value.meta.tag == FilterTypeTag &&
      LookupType(r.value, n).value.meta.baseName == Some(fname) &&
      GetField(r.value, s.query, fname) == Some(g.(args := f.args + [FiltersArg(LookupType(r.value, n).value)]))
  {
    var s0 := Mark(s, s.query, fname, inc);
    assert InputFieldsUnique(s0, SrcQuery.FilterTypeName(fname));
    AugmentFieldAppends(s0, s.query, fname, fname);
  }

  /** A field that already has `filters` (or `inputs` on a mutation field)
      is only marked; so a second visit with the same arguments after a
      successful one changes nothing. */
  lemma VisitIdempotentOnQuery(s: Schema, fname: string, inc: Option<bool>)
    requires GetField(s, s.query, fname).Some? && InputsUnique(s) && s.mutation != Some(s.query)
    requires s.query != SrcQuery.FilterTypeName(fname)
    ensures var r := Visit(s, s.query, fname, inc);
      r.Ok? && GetField(r.value, s.query, fname).Some? && InputsUnique(r.value) &&
      Visit(r.value, s.query, fname, inc) == r
  {
    var f := GetField(s, s.query, fname).value;
    var g := f.(meta := f.meta.(batchCustomized := inc));
    var s0 := Mark(s, s.query, fname, inc);
    var r := Visit(s, s.query, fname, inc).value;
    if HasName(f.args, SrcConfig.ArgFilters) {
      assert r == s0;
    } else {
      VisitQueryAppendsFilters(s, fname, inc);
      AugmentFieldKeepsUnique(s0, s.query, fname, fname);
      var h := GetField(r, s.query, fname).value;
      assert h.args[|f.args|].name == SrcConfig.ArgFilters;
    }
    var g2 := GetField(r, s.query, fname).value;
    assert HasName(g2.args, SrcConfig.ArgFilters);
    assert g2.meta.batchCustomized == inc;
    GetFieldName(r, s.query, fname);
    assert g2.(meta := g2.meta.(batchCustomized := inc)) == g2;
    PutFieldSame(r, s.query, g2);
    assert Mark(r, s.query, fname, inc) == r;
  }
}

=== FILE: srcconfig.dfy ===
/** The constants of the older generation (src/config.js): argument names,
    root-field prefixes, modes and the default operator table. */
module SrcConfig {
  import opened Outcomes

  const ArgFilters := "filters"
  const ArgInputs := "inputs"
  const ArgSort := "sort"
  const ArgLimit := "limit"
  const ArgOffset := "offset"
  const ArgPage := "page"
  /** The page-size argument shares its name with the limit. */
  const ArgPageSize := "limit"

  const PrefixQuery := ""
  const PrefixInsert := "Insert"
  const PrefixUpdate := "Update"
  const PrefixUpsert := "Upsert"
  const PrefixResult := "Result"

  const ModeQuery := "query"
  const ModeInsert := "insert"
  const ModeUpdate := "update"
  const ModeUpsert := "upsert"
  const ModeResult := "result"

  const RangeOps: seq<string> := ["gt", "gte", "lt", "lte"]
  const RegexOps: seq<string> := ["regex", "not_regex"]

  /** `DEFAULT_OPERATORS[name]`: the operator list configured for a scalar
      name (or `Enum`), `None` for a name the table does not mention. */
  function DefaultOperators(name: string): Option<seq<string>> {
    if name == "Boolean" || name == "JSONObject" then Some(["is"])
    else if name == "Float" || name == "Int" || name == "DateTime" then
      Some(["is", "not", "in", "not_in", "gt", "gte", "lt", "lte"])
    else if name == "String" || name == "ID" then
      Some(["is", "not", "in", "not_in", "gt", "gte", "lt", "lte", "regex", "not_regex"])
    else if name == "Enum" then Some(["is", "not", "in", "not_in"])
    else None
  }

  /** The names the table has an entry for. */
  predicate InTable(name: string) {
    name in {"Boolean", "Float", "Int", "String", "ID", "Enum", "JSONObject", "DateTime"}
  }

  lemma DefaultOperatorsDomain(name: string)
    ensures DefaultOperators(name).Some? <==> InTable(name)
  {
  }

  /** `is` heads every configured list. */
  lemma IsFirst(name: string)
    requires InTable(name)
    ensures |DefaultOperators(name).value| > 0 && DefaultOperators(name).value[0] == "is"
  {
  }

  /** Range operators only for Float, Int, String, ID and DateTime; regex
      operators only for String and ID. */
  lemma OperatorPolicy(name: string, op: string)
    requires DefaultOperators(name).Some? && op in DefaultOperators(name).value
    ensures op in RangeOps ==> name in {"Float", "Int", "String", "ID", "DateTime"}
    ensures op in RegexOps ==> name in {"String", "ID"}
    ensures name in {"Boolean", "JSONObject"} ==> op == "is"
    ensures name == "Enum" ==> op !in RangeOps && op !in RegexOps
  {
  }

  /** The rename of the page size into the limit during normalisation is the identity. */
  lemma PageSizeIsLimit()
    ensures ArgPageSize == ArgLimit
  {
  }

  /** Every root name has the query prefix; the mutation prefixes are
      non-empty and no one of them is a prefix of another. */
  lemma Prefixes()
    ensures PrefixQuery == ""
    ensures |PrefixInsert| > 0 && |PrefixUpdate| > 0 && |PrefixUpsert| > 0
    ensures PrefixInsert != PrefixUpdate && PrefixInsert != PrefixUpsert && PrefixUpdate != PrefixUpsert
    ensures !(PrefixInsert <= PrefixUpdate) && !(PrefixInsert <= PrefixUpsert)
    ensures !(PrefixUpdate <= PrefixInsert) && !(PrefixUpdate <= PrefixUpsert)
    ensures !(PrefixUpsert <= PrefixInsert) && !(PrefixUpsert <= PrefixUpdate)
  {
    assert PrefixInsert[0] != PrefixUpdate[0];
    assert PrefixUpdate[2] != PrefixUpsert[2];
  }

  /** `Object.keys(allMutationModes).find(p => fieldName.startsWith(p))`. */
  function MutationPrefix(name: string): (r: Option<(string, string)>)
    ensures r.Some? ==> r.value.0 <= name
    ensures r.Some? ==> r.value in [(PrefixInsert, ModeInsert),
      (PrefixUpdate, ModeUpdate), (PrefixUpsert, ModeUpsert)]
    ensures r.None? <==> !(PrefixInsert <= name) && !(PrefixUpdate <= name) && !(PrefixUpsert <= name)
  {
    if PrefixInsert <= name then Some((PrefixInsert, ModeInsert))
    else if PrefixUpdate <= name then Some((PrefixUpdate, ModeUpdate))
    else if PrefixUpsert <= name then Some((PrefixUpsert, ModeUpsert))
    else None
  }
}

=== FILE: srcinput.dfy ===
/** The `@insert` / `@update` / `@upsert` directives of the older generation
    (src/directives/input.js). On a root mutation field the visit registers
    the field as the target of (mode, type) and hands it the arguments queued
    for that pair; on a type field it derives one input augment, writes it to
    the type's input type and passes it on to the target field, or queues it
    until the target is registered. */
module SrcInput {
  import opened Outcomes
  import opened GqlType
  import opened SchemaModel
  import LibUtils
  import SrcResolver

  /** The directive arguments the visitor reads. */
  datatype InputArgs = InputArgs(typeArg: Option<string>, key: Option<string>, required: Option<bool>)

  function InputMeta(typeName: string, mode: string): TypeMeta {
    TypeMeta(InputTypeTag, Some(typeName), Some(mode), None)
  }

  /** `ensureInputType`: get-or-create `T + Cap(mode) + Input`, tagged only
      when it is created. */
  function EnsureInputType(s: Schema, typeName: string, mode: string): (r: (Schema, TypeDef))
    ensures r.1.name == LibUtils.InputTypeName(typeName, mode)
    ensures LookupType(r.0, r.1.name) == Some(r.1)
    ensures LookupType(s, r.1.name).Some? ==> r == (s, LookupType(s, r.1.name).value)
    ensures LookupType(s, r.1.name).None? ==> r.1 == NewInputType(r.1.name, [], InputMeta(typeName, mode))
    ensures forall n :: n != r.1.name ==> LookupType(r.0, n) == LookupType(s, n)
    ensures KeepsFields(s, r.0)
    ensures r.0.query == s.query && r.0.mutation == s.mutation && r.0.mutationDelayed == s.mutationDelayed
  {
    EnsureType(s, LibUtils.InputTypeName(typeName, mode), n => NewInputType(n, [], InputMeta(typeName, mode)))
  }

  /** A repeat call returns the same type and leaves the schema as it was. */
  lemma EnsureInputTypeIdempotent(s: Schema, typeName: string, mode: string)
    ensures var (s1, t1) := EnsureInputType(s, typeName, mode);
      EnsureInputType(s1, typeName, mode) == (s1, t1)
  {
  }

  // ---- root mutation targets ---------------------------------------------

  /** `f._augmentedMutationTarget` is (mode, typeName). */
  predicate TargetOf(f: Field, mode: string, typeName: string) {
    f.meta.mutationTarget == Some((mode, typeName))
  }

  /** `Object.values(fields).find(...)`: the first field targeting (mode, typeName). */
  function FindTarget(fs: seq<Field>, mode: string, typeName: string): (r: Option<nat>)
    ensures r.Some? ==> r.value < |fs| && TargetOf(fs[r.value], mode, typeName)
    ensures r.Some? ==> forall j :: 0 <= j < r.value ==> !TargetOf(fs[j], mode, typeName)
    ensures r.None? ==> forall j :: 0 <= j < |fs| ==> !TargetOf(fs[j], mode, typeName)
    decreases |fs|
  {
    if |fs| == 0 then None
    else if TargetOf(fs[0], mode, typeName) then Some(0)
    else match FindTarget(fs[1..], mode, typeName)
      case None => None
      case Some(i) => Some(i + 1)
  }

  /** The fields of the root mutation type (none without one). */
  function MutationFields(s: Schema): seq<Field> {
    if s.mutation.None? then []
    else match LookupType(s, s.mutation.value)
      case None => []
      case Some(t) => t.fields
  }

  /** `schema._augmentMutationTypeDelayed[mode][typeName] || []`. */
  function Queued(s: Schema, mode: string, typeName: string): seq<Augment> {
    if (mode, typeName) in s.mutationDelayed then s.mutationDelayed[(mode, typeName)] else []
  }

  /** No two root mutation fields target the same (mode, type). */
  predicate OneTargetEach(s: Schema) {
    var fs := MutationFields(s);
    forall i, j :: 0 <= i < j < |fs| && fs[i].meta.mutationTarget.Some? ==>
      fs[j].meta.mutationTarget != fs[i].meta.mutationTarget
  }

  function RootError(mode: string, what: string): Error {
    ConfigError("directive \"@" + mode + "\" " + what)
  }

  /** The visit on a root mutation field: `type` is required, a field takes
      one target, a (mode, type) pair takes one field; the field records its
      target and receives every argument queued for the pair. */
  function VisitRoot(s: Schema, mode: string, args: InputArgs, f: Field): (r: Result<Schema>)
    requires s.mutation.Some?
    ensures !Given(args.typeArg) ==> r.Err? && r.error.ConfigError?
    ensures f.meta.mutationTarget.Some? ==> r.Err? && r.error.ConfigError?
    ensures Given(args.typeArg) && FindTarget(MutationFields(s), mode, args.typeArg.value).Some? ==> r.Err? && r.error.ConfigError?
    ensures Given(args.typeArg) && f.meta.mutationTarget.None? && FindTarget(MutationFields(s), mode, args.typeArg.value).None? ==>
      r.Ok? && r.value.mutationDelayed == s.mutationDelayed
  {
    if !Given(args.typeArg) then Err(RootError(mode, "must specify \"type\" when used on root mutation fields"))
    else if f.meta.mutationTarget.Some? then
      Err(RootError(mode, "conflicts with other directives on root mutation field \"" + f.name + "\""))
    else
      var t := args.typeArg.value;
      if FindTarget(MutationFields(s), mode, t).Some? then
        Err(RootError(mode, "should be used on only 1 root mutation field for type \"" + t + "\""))
      else
        var g := f.(args := f.args + Queued(s, mode, t), meta := f.meta.(mutationTarget := Some((mode, t))));
        Ok(PutField(s, s.mutation.value, g))
  }

  /** Registering a target runs the queued actions: the field now carries the
      target and its arguments followed by every argument queued for
      (mode, type), in queue order. */
  lemma VisitRootRegisters(s: Schema, mode: string, args: InputArgs, f: Field)
    requires s.mutation.Some? && GetField(s, s.mutation.value, f.name) == Some(f)
    requires VisitRoot(s, mode, args, f).Ok?
    ensures var r := VisitRoot(s, mode, args, f).value;
      var t := args.typeArg.value;
      GetField(r, s.mutation.value, f.name) ==
        Some(f.(args := f.args + Queued(s, mode, t), meta := f.meta.(mutationTarget := Some((mode, t)))))
  {
    var t := args.typeArg.value;
    var g := f.(args := f.args + Queued(s, mode, t), meta := f.meta.(mutationTarget := Some((mode, t))));
    GetFieldAfterPut(s, s.mutation.value, g, s.mutation.value, f.name);
  }

  /** At most one root mutation field per (mode, type): a successful visit
      keeps the invariant. */
  lemma VisitRootKeepsOneTarget(s: Schema, mode: string, args: InputArgs, f: Field)
    requires s.mutation.Some? && GetField(s, s.mutation.value, f.name) == Some(f)
    requires OneTargetEach(s) && VisitRoot(s, mode, args, f).Ok?
    ensures OneTargetEach(VisitRoot(s, mode, args, f).value)
  {
    var m := s.mutation.value;
    var t := args.typeArg.value;
    var g := f.(args := f.args + Queued(s, mode, t), meta := f.meta.(mutationTarget := Some((mode, t))));
    var ty := LookupType(s, m).value;
    assert ty.name == m by { var i := TypeIndex(s.types, m).value; }
    var k := FieldIndex(ty.fields, f.name).value;
    var fs := ty.fields;
    var r := VisitRoot(s, mode, args, f).value;
    assert r == PutType(s, ty.(fields := fs[k := g]));
    var gs := MutationFields(r);
    assert gs == fs[k := g];
    forall i, j | 0 <= i < j < |gs| && gs[i].meta.mutationTarget.Some?
      ensures gs[j].meta.mutationTarget != gs[i].meta.mutationTarget
    {
      if i == k { assert !TargetOf(fs[j], mode, t); }
      else if j == k { assert !TargetOf(fs[i], mode, t); }
    }
  }

  // ---- the augment of a type field ----------------------------------------

  /** `args.required === undefined && field.type instanceof GraphQLNonNull || args.required`. */
  predicate Required(required: Option<bool>, fieldType: GType) {
    (required.None? && fieldType.NonNull?) || required == Some(true)
  }

  /** The list wrapping of a nested augment: for a list field one list level
      over the augment type, with Non-Null elements when the field's are. */
  function ListLike(t: GType, fieldType: GType): (r: GType)
    requires !t.NonNull?
    ensures NamedOf(r) == NamedOf(t)
    ensures !Nullable(fieldType).List? ==> r == t
    ensures Nullable(fieldType).List? ==> r.List? && (r.ofType.NonNull? <==> Nullable(fieldType).ofType.NonNull?)
    ensures Nullable(fieldType).List? ==> r.ofType == t || r.ofType == NonNull(t)
  {
    var nf := Nullable(fieldType);
    if nf.List? then List(if nf.ofType.NonNull? then NonNull(t) else t) else t
  }

  /** Which type name a `input.nestedKey` augment records for the sub-walk. */
  datatype KeyRecord =
    /** As written: `augType.name` read after `augType` became the key's type. */
    | KeyTypeName
    /** As evidently intended: the input type of the object type. */
    | InputTypeNameOfObject

  /** The type and tag of an object field's augment, before the list wrapping
      and the required rule. */
  function NestedBase(s: Schema, mode: string, args: InputArgs, field: Field, rec: KeyRecord): (r: Result<(Schema, GType, Tag)>)
    requires NamedOf(field.ty).kind == ObjectKind
    ensures r.Ok? ==>
      (KeepsFields(s, r.value.0) && r.value.0.query == s.query && r.value.0.mutation == s.mutation &&
       r.value.0.mutationDelayed == s.mutationDelayed)
    ensures r.Ok? ==> r.value.1.Named?
    ensures !Given(args.key) ==>
      (r.Ok? && r.value.2 == InputNested(field.name, None) &&
       r.value.1 == TypeRef(EnsureInputType(s, NamedOf(field.ty).name, mode).1))
    ensures r.Ok? && Given(args.key) ==>
      (r.value.2.InputNestedKey? && r.value.2.key == args.key.value && IsInputType(r.value.1) &&
       LookupType(s, NamedOf(field.ty).name).Some? && FindField(LookupType(s, NamedOf(field.ty).name).value, args.key.value).Some? &&
       r.value.1 == Nullable(FindField(LookupType(s, NamedOf(field.ty).name).value, args.key.value).value.ty))
    ensures (Given(args.key) &&
             (LookupType(s, NamedOf(field.ty).name).None? ||
              FindField(LookupType(s, NamedOf(field.ty).name).value, args.key.value).None?)) ==>
      r.Err? && r.error.ConfigError?
  {
    var named := NamedOf(field.ty);
    var (s1, it) := EnsureInputType(s, named.name, mode);
    if !Given(args.key) then Ok((s1, TypeRef(it), InputNested(field.name, None)))
    else
      var key := args.key.value;
      var sub := if LookupType(s, named.name).Some? then FindField(LookupType(s, named.name).value, key) else None;
      if sub.None? then
        Err(ConfigError("field \"" + key + "\" does not exist in type \"" + named.name + "\""))
      else
        var kt := Nullable(sub.value.ty);
        if kt.List? || !IsInputType(kt) || !kt.Named? then
          Err(ConfigError("field \"" + key + "\" in type \"" + named.name + "\" as an input key needs to be of a scalar type"))
        else
          var recorded := if rec.KeyTypeName? then kt.name else it.name;
          Ok((s1, kt, InputNestedKey(field.name, None, key, recorded)))
  }

  /** The augment `field` contributes in `mode`: `input.field` with the
      nullable field type for an input-typed field, `input.nested` or
      `input.nestedKey` for an object field, an error for other kinds; Non-Null
      by the required rule. */
  function FieldAugment(s: Schema, mode: string, args: InputArgs, field: Field, rec: KeyRecord): (r: Result<(Schema, Augment)>)
    ensures r.Ok? ==>
      (KeepsFields(s, r.value.0) && r.value.0.query == s.query && r.value.0.mutation == s.mutation &&
       r.value.0.mutationDelayed == s.mutationDelayed && r.value.1.name == field.name)
    ensures IsInputType(field.ty) ==>
      r == Ok((s, Augment(field.name, if Required(args.required, field.ty) then NonNull(Nullable(field.ty)) else Nullable(field.ty),
                            InputField(field.name, None), None)))
    ensures !IsInputType(field.ty) && NamedOf(field.ty).kind != ObjectKind ==> r.Err? && r.error.ConfigError?
    ensures NamedOf(field.ty).kind == ObjectKind ==>
      (r.Ok? <==> NestedBase(s, mode, args, field, rec).Ok?)
    ensures NamedOf(field.ty).kind == ObjectKind && r.Ok? ==>
      var b := NestedBase(s, mode, args, field, rec).value;
      r.value.0 == b.0 && r.value.1.tag == b.2 &&
      r.value.1.ty == (if Required(args.required, field.ty) then NonNull(ListLike(b.1, field.ty)) else ListLike(b.1, field.ty))
  {
    var named := NamedOf(field.ty);
    if IsInputKind(named.kind) then
      var ty := Nullable(field.ty);
      Ok((s, Augment(field.name, if Required(args.required, field.ty) then NonNull(ty) else ty, InputField(field.name, None), None)))
    else if named.kind == ObjectKind then
      var (s1, base, tag) :- NestedBase(s, mode, args, field, rec);
      var ty := ListLike(base, field.ty);
      Ok((s1, Augment(field.name, if Required(args.required, field.ty) then NonNull(ty) else ty, tag, None)))
    else
      Err(ConfigError("field " + field.name + " cannot be processed as " + mode))
  }

  /** The required rule as an if-and-only-if: the augment is Non-Null exactly
      when `required` is true, or unset on a Non-Null field. */
  lemma RequiredRule(s: Schema, mode: string, args: InputArgs, field: Field, rec: KeyRecord)
    requires Valid(field.ty) && FieldAugment(s, mode, args, field, rec).Ok?
    ensures FieldAugment(s, mode, args, field, rec).value.1.ty.NonNull? <==> Required(args.required, field.ty)
  {
    if NamedOf(field.ty).kind == ObjectKind {
      var b := NestedBase(s, mode, args, field, rec).value;
      assert b.1.Named?;
    }
  }

  /** A list field wraps the augment in exactly one list level, keeping the
      Non-Null-ness of the elements; the named type underneath is the base. */
  lemma ListFieldWrapsOnce(s: Schema, mode: string, args: InputArgs, field: Field, rec: KeyRecord)
    requires NamedOf(field.ty).kind == ObjectKind && Nullable(field.ty).List?
    requires FieldAugment(s, mode, args, field, rec).Ok?
    ensures var a := FieldAugment(s, mode, args, field, rec).value.1;
      var b := NestedBase(s, mode, args, field, rec).value;
      var l := Nullable(a.ty);
      l.List? && (l.ofType.NonNull? <==> Nullable(field.ty).ofType.NonNull?) && Nullable(l.ofType) == b.1
  {
  }

  // ---- the visit -----------------------------------------------------------

  /** The root mutation type is present in the type map. */
  predicate HasMutationType(s: Schema) {
    s.mutation.Some? && LookupType(s, s.mutation.value).Some?
  }

  /** The root mutation fields read the same in a schema that keeps every
      field list and the root names. */
  lemma KeepsMutationFields(s: Schema, t: Schema)
    requires HasMutationType(s) && KeepsFields(s, t) && t.mutation == s.mutation
    ensures HasMutationType(t) && MutationFields(t) == MutationFields(s)
  {
  }

  /** The augment of `f` in `mode` and the schema after `inputTypeFields[name] = augment`
      on the owner's input type. */
  function Stored(s: Schema, mode: string, args: InputArgs, owner: string, f: Field, rec: KeyRecord): (r: Result<(Schema, Augment)>)
    ensures r.Ok? ==>
      (KeepsFields(s, r.value.0) && r.value.0.query == s.query && r.value.0.mutation == s.mutation &&
       r.value.0.mutationDelayed == s.mutationDelayed)
    ensures r.Ok? && HasMutationType(s) ==> HasMutationType(r.value.0) && MutationFields(r.value.0) == MutationFields(s)
    ensures r.Ok? ==>
      (FieldAugment(EnsureInputType(s, owner, mode).0, mode, args, f, rec).Ok? &&
       r.value.1 == FieldAugment(EnsureInputType(s, owner, mode).0, mode, args, f, rec).value.1)
    ensures r.Ok? ==>
      (LookupType(r.value.0, LibUtils.InputTypeName(owner, mode)).Some? &&
       HasName(LookupType(r.value.0, LibUtils.InputTypeName(owner, mode)).value.inputFields, f.name))
  {
    var (s1, it) := EnsureInputType(s, owner, mode);
    var (s2, a) :- FieldAugment(s1, mode, args, f, rec);
    var name := LibUtils.InputTypeName(owner, mode);
    assert LookupType(s2, name).Some?;
    var s3 := PutInputFields(s2, name, PutOverwrite(LookupType(s2, name).value.inputFields, a));
    KeepsFieldsTrans(s, s1, s2);
    KeepsFieldsTrans(s, s2, s3);
    assert HasMutationType(s) ==> HasMutationType(s3) && MutationFields(s3) == MutationFields(s) by {
      if HasMutationType(s) { KeepsMutationFields(s, s3); }
    }
    Ok((s3, a))
  }

  /** The visit on field `f` of a type that is not a root type. */
  function VisitTypeField(s: Schema, mode: string, args: InputArgs, owner: string, f: Field, rec: KeyRecord): (r: Result<Schema>)
    ensures r.Ok? ==> r.value.query == s.query && r.value.mutation == s.mutation
    ensures r.Ok? <==> Stored(s, mode, args, owner, f, rec).Ok?
  {
    var (s3, a) :- Stored(s, mode, args, owner, f, rec);
    var passed := a.(ty := Nullable(a.ty));
    if s3.mutation.None? then Ok(s3)
    else match FindTarget(MutationFields(s3), mode, owner)
      case Some(i) =>
        var mf := MutationFields(s3)[i];
        Ok(PutField(s3, s3.mutation.value, mf.(args := mf.args + [passed])))
      case None =>
        Ok(s3.(mutationDelayed := s3.mutationDelayed[(mode, owner) := Queued(s3, mode, owner) + [passed]]))
  }

  /** `visitFieldDefinition(mode, schema, args, field, {objectType: owner})`,
      with `input.nestedKey` recording the object's input type. */
  function Visit(s: Schema, mode: string, args: InputArgs, owner: string, fname: string): (r: Result<Schema>)
    requires GetField(s, owner, fname).Some?
    ensures owner == s.query ==> r == Err(RootError(mode, "should not be used on root query fields"))
    ensures owner != s.query && s.mutation == Some(owner) ==> r == VisitRoot(s, mode, args, GetField(s, owner, fname).value)
    ensures !IsRootType(s, owner) ==> r == VisitTypeField(s, mode, args, owner, GetField(s, owner, fname).value, InputTypeNameOfObject)
  {
    var f := GetField(s, owner, fname).value;
    if owner == s.query then Err(RootError(mode, "should not be used on root query fields"))
    else if s.mutation == Some(owner) then VisitRoot(s, mode, args, f)
    else VisitTypeField(s, mode, args, owner, f, InputTypeNameOfObject)
  }

  // ---- the type name a nestedKey augment records ---------------------------

  /** As written, the augment records the name of the key's own type (a scalar
      or an enum): the walk that later looks that name up finds a type without
      fields and fails with a TypeError (or a user-input error when the name
      is not in the type map), whatever the caller sends. */
  lemma NestedKeyAsWrittenBreaksWalk(s: Schema, mode: string, args: InputArgs, f: Field, u: Schema, req: SrcResolver.Req)
    requires NamedOf(f.ty).kind == ObjectKind && Given(args.key)
    requires FieldAugment(s, mode, args, f, KeyTypeName).Ok?
    requires var n := FieldAugment(s, mode, args, f, KeyTypeName).value.1.tag.objectTypeName;
      req.field.None? && req.typeName == Some(n) &&
      (LookupType(u, n).Some? ==> LookupType(u, n).value.kind in {ScalarKind, EnumKind})
    ensures var a := FieldAugment(s, mode, args, f, KeyTypeName).value.1;
      a.tag.InputNestedKey? && a.tag.objectTypeName == NamedOf(a.ty).name &&
      SrcResolver.Prepare(u, req).Err?
  {
    var b := NestedBase(s, mode, args, f, KeyTypeName).value;
    assert b.1.Named?;
  }

  /** As intended, the augment records the input type of the object type; a
      walk on it reads that input type's fields in the directive's mode. */
  lemma NestedKeyIntendedWalks(s: Schema, mode: string, args: InputArgs, f: Field, req: SrcResolver.Req)
    requires NamedOf(f.ty).kind == ObjectKind && Given(args.key)
    requires FieldAugment(s, mode, args, f, InputTypeNameOfObject).Ok? && NamedOf(f.ty).name != ""
    requires LookupType(s, LibUtils.InputTypeName(NamedOf(f.ty).name, mode)).None?
    requires var n := FieldAugment(s, mode, args, f, InputTypeNameOfObject).value.1.tag.objectTypeName;
      req.field.None? && req.typeName == Some(n)
    ensures var (s1, a) := FieldAugment(s, mode, args, f, InputTypeNameOfObject).value;
      a.tag.InputNestedKey? && a.tag.objectTypeName == LibUtils.InputTypeName(NamedOf(f.ty).name, mode) &&
      SrcResolver.Prepare(s1, req) == Ok(([], NamedOf(f.ty).name, Some(mode)))
  {
    var named := NamedOf(f.ty);
    var (s1, it) := EnsureInputType(s, named.name, mode);
    var b := NestedBase(s, mode, args, f, InputTypeNameOfObject).value;
    assert b.0 == s1;
    assert LookupType(s1, it.name) == Some(NewInputType(it.name, [], InputMeta(named.name, mode)));
  }

  /** Before the target exists: the augment, made nullable, joins the end of
      the queue of (mode, owner), and no field of any type changes. */
  lemma TypeFieldQueues(s: Schema, mode: string, args: InputArgs, owner: string, f: Field, rec: KeyRecord)
    requires HasMutationType(s) && !IsRootType(s, owner)
    requires FindTarget(MutationFields(s), mode, owner).None?
    requires VisitTypeField(s, mode, args, owner, f, rec).Ok?
    ensures var a := Stored(s, mode, args, owner, f, rec).value.1;
      var r := VisitTypeField(s, mode, args, owner, f, rec).value;
      Queued(r, mode, owner) == Queued(s, mode, owner) + [a.(ty := Nullable(a.ty))] &&
      (forall k :: k != (mode, owner) && k in s.mutationDelayed ==> k in r.mutationDelayed && r.mutationDelayed[k] == s.mutationDelayed[k]) &&
      KeepsFields(s, r)
  {
  }

  /** Once the target exists: the target field gets the augment, made
      nullable, appended to its arguments, and the queue is left alone. */
  lemma TypeFieldReachesTarget(s: Schema, mode: string, args: InputArgs, owner: string, f: Field, rec: KeyRecord, i: nat)
    requires HasMutationType(s) && !IsRootType(s, owner)
    requires FindTarget(MutationFields(s), mode, owner) == Some(i)
    requires VisitTypeField(s, mode, args, owner, f, rec).Ok?
    ensures var a := Stored(s, mode, args, owner, f, rec).value.1;
      var r := VisitTypeField(s, mode, args, owner, f, rec).value;
      var mf := MutationFields(s)[i];
      GetField(r, s.mutation.value, mf.name) == Some(mf.(args := mf.args + [a.(ty := Nullable(a.ty))])) &&
      r.mutationDelayed == s.mutationDelayed
  {
    var (s3, a) := Stored(s, mode, args, owner, f, rec).value;
    var mf := MutationFields(s)[i];
    var g := mf.(args := mf.args + [a.(ty := Nullable(a.ty))]);
    GetFieldAfterPut(s3, s.mutation.value, g, s.mutation.value, mf.name);
  }
}

=== FILE: srcpage.dfy ===
/** The `@pageable` directive of the older generation (src/directives/page.js):
    the `page` and page-size arguments of a root query field. */
module SrcPage {
  import opened Outcomes
  import opened GqlType
  import opened JsValue
  import opened SchemaModel
  import SrcConfig

  /** `size >= 0` on the Int directive argument as JavaScript compares it:
      `undefined` compares false, `null` compares as 0. */
  predicate AtLeastZero(size: Value) {
    (size.Num? && size.n >= 0) || size.Null?
  }

  /** `page: Int = 1`. */
  const PageArg := Augment(SrcConfig.ArgPage, IntType, FilterPagination, Some(Num(1)))

  /** The page-size argument, defaulting to `size` when `size >= 0`, else 1. */
  function SizeArg(size: Value): (r: Augment)
    ensures r.name == SrcConfig.ArgPageSize && r.defaultValue.Some?
    ensures size.Num? && size.n >= 0 ==> r.defaultValue == Some(size)
    ensures size.Undef? || (size.Num? && size.n < 0) ==> r.defaultValue == Some(Num(1))
  {
    Augment(SrcConfig.ArgPageSize, IntType, FilterPagination, Some(if AtLeastZero(size) then size else Num(1)))
  }

  /** The two conditional pushes, both decided on the arguments as they were
      before the visit. */
  function PageArgs(xs: seq<Augment>, size: Value): (r: seq<Augment>)
    ensures |xs| <= |r| <= |xs| + 2 && r[..|xs|] == xs
    ensures Names(r) == Names(xs) + {SrcConfig.ArgPage, SrcConfig.ArgPageSize}
  {
    var withPage := if HasName(xs, SrcConfig.ArgPage) then xs else xs + [PageArg];
    var r := if HasName(xs, SrcConfig.ArgPageSize) then withPage else withPage + [SizeArg(size)];
    HasNameIffInNames(xs, SrcConfig.ArgPage);
    HasNameIffInNames(xs, SrcConfig.ArgPageSize);
    NamesAppend(xs, PageArg);
    NamesAppend(withPage, SizeArg(size));
    assert r[..|xs|] == xs;
    r
  }

  /** The same outcome as appending both arguments first-writer-wins: the
      page-size name differs from `page`, so checking the size against the
      arguments before or after the `page` push agrees. */
  lemma PageArgsAreAppendAbsent(xs: seq<Augment>, size: Value)
    ensures PageArgs(xs, size) == AppendAbsent(xs, [PageArg, SizeArg(size)])
  {
    var withPage := AppendOne(xs, PageArg);
    assert [PageArg, SizeArg(size)][1..] == [SizeArg(size)];
    assert AppendAbsent(withPage, []) == withPage;
    assert AppendAbsent(xs, [PageArg, SizeArg(size)]) == AppendOne(withPage, SizeArg(size));
    assert HasName(withPage, SrcConfig.ArgPageSize) <==> HasName(xs, SrcConfig.ArgPageSize) by {
      if HasName(xs, SrcConfig.ArgPageSize) {
        var i :| 0 <= i < |xs| && xs[i].name == SrcConfig.ArgPageSize;
        assert withPage[i] == xs[i];
      }
    }
  }

  /** A second application adds nothing. */
  lemma PageArgsIdempotent(xs: seq<Augment>, size: Value, size2: Value)
    ensures PageArgs(PageArgs(xs, size), size2) == PageArgs(xs, size)
  {
    var r := PageArgs(xs, size);
    HasNameIffInNames(r, SrcConfig.ArgPage);
    HasNameIffInNames(r, SrcConfig.ArgPageSize);
  }

  const NotRoot := ConfigError("directive \"@pageable\" should only be used on root query field definitions")

  function NoType(fname: string): Error {
    ConfigError("directive \"@pageable\" used on field \"" + fname + "\" which does not match any of the existing types")
  }

  /** `Page.visitFieldDefinition` on field `fname` of `owner`. */
  function Visit(s: Schema, owner: string, fname: string, size: Value): (r: Result<Schema>)
    requires GetField(s, owner, fname).Some?
    ensures owner != s.query ==> r == Err(NotRoot)
    ensures owner == s.query && LookupType(s, fname).None? ==> r == Err(NoType(fname))
    ensures owner == s.query && LookupType(s, fname).Some? ==>
      var f := GetField(s, owner, fname).value;
      r.Ok? && GetField(r.value, owner, fname) == Some(f.(args := PageArgs(f.args, size)))
  {
    if owner != s.query then Err(NotRoot)
    else if LookupType(s, fname).None? then Err(NoType(fname))
    else
      var f := GetField(s, owner, fname).value;
      var g := f.(args := PageArgs(f.args, size));
      GetFieldAfterPut(s, owner, g, owner, fname);
      Ok(PutField(s, owner, g))
  }
}

=== FILE: srcquery.dfy ===
/** The `@query` directive of the older generation (src/directives/query.js):
    the operator policy, the shared filter input type of an object type and
    the visit that adds filter arguments to it and to the root query field
    named after the type. */
module SrcQuery {
  import opened Outcomes
  import opened GqlType
  import opened SchemaModel
  import SrcConfig
  import LibQuery

  /** `getEligibleOperators`: decided by the type's name alone, not by the
      configuration table. */
  function EligibleOperators(t: GType): (r: seq<string>)
    ensures |r| > 0 && r[0] == "is"
    ensures "not" in r <==> NamedOf(t).name !in {"Boolean", "JSONObject"}
    ensures "gt" in r <==> NamedOf(t).name in {"Float", "Int", "String", "ID", "DateTime"}
    ensures "regex" in r <==> NamedOf(t).name in {"String", "ID"}
  {
    var n := NamedOf(t).name;
    ["is"]
    + (if n !in {"Boolean", "JSONObject"} then ["not", "in", "not_in"] else [])
    + (if n in {"Float", "Int", "String", "ID", "DateTime"} then SrcConfig.RangeOps else [])
    + (if n in {"String", "ID"} then SrcConfig.RegexOps else [])
  }

  /** The policy agrees with `DEFAULT_OPERATORS` of src/config.js: a scalar the
      table names gets its entry, every other type (enums, custom scalars)
      gets the `Enum` entry. */
  lemma EligibleMatchesTable(t: GType)
    ensures NamedOf(t).name != "Enum" && SrcConfig.InTable(NamedOf(t).name) ==>
      EligibleOperators(t) == SrcConfig.DefaultOperators(NamedOf(t).name).value
    ensures !SrcConfig.InTable(NamedOf(t).name) || NamedOf(t).name == "Enum" ==>
      EligibleOperators(t) == SrcConfig.DefaultOperators("Enum").value
  {
    var n := NamedOf(t).name;
    if n in {"Boolean", "JSONObject"} {
      SmallTable(t);
    } else if n in {"Float", "Int", "String", "ID", "DateTime"} {
      RangeTable(t);
    } else {
      assert n !in {"String", "ID"};
      assert !SrcConfig.InTable(n) || n == "Enum";
    }
  }

  lemma SmallTable(t: GType)
    requires NamedOf(t).name in {"Boolean", "JSONObject"}
    ensures EligibleOperators(t) == SrcConfig.DefaultOperators(NamedOf(t).name).value
  {
  }

  lemma RangeTable(t: GType)
    requires NamedOf(t).name in {"Float", "Int", "String", "ID", "DateTime"}
    ensures EligibleOperators(t) == SrcConfig.DefaultOperators(NamedOf(t).name).value
  {
  }

  /** `${typeName}${FIELD_PREFIX_QUERY}Input`. */
  function FilterTypeName(typeName: string): string {
    typeName + SrcConfig.PrefixQuery + "Input"
  }

  function EmptyInputType(name: string): TypeDef {
    NewInputType(name, [], NoTypeMeta)
  }

  /** The metadata `ensureQueryInputType` writes on every call. */
  function FilterMeta(m: TypeMeta, typeName: string): TypeMeta {
    m.(tag := FilterTypeTag, baseName := Some(typeName), mode := Some(SrcConfig.PrefixQuery))
  }

  /** `ensureQueryInputType`: get-or-create the filter input type, then
      (re)write its filter metadata; nothing else in the schema changes. */
  function EnsureQueryInputType(s: Schema, typeName: string): (r: (Schema, TypeDef))
    ensures r.1.name == FilterTypeName(typeName)
    ensures LookupType(r.0, r.1.name) == Some(r.1)
    ensures r.1.meta.tag == FilterTypeTag && r.1.meta.baseName == Some(typeName) && r.1.meta.mode == Some("")
    ensures LookupType(s, r.1.name).Some? ==>
      r.1 == LookupType(s, r.1.name).value.(meta := FilterMeta(LookupType(s, r.1.name).value.meta, typeName))
    ensures LookupType(s, r.1.name).None? ==> r.1.kind == InputObjectKind && r.1.inputFields == []
    ensures forall n :: n != r.1.name ==> LookupType(r.0, n) == LookupType(s, n)
    ensures KeepsFields(s, r.0)
    ensures r.0.query == s.query && r.0.mutation == s.mutation && r.0.mutationDelayed == s.mutationDelayed
  {
    var name := FilterTypeName(typeName);
    var (s1, t) := EnsureType(s, name, EmptyInputType);
    var t1 := t.(meta := FilterMeta(t.meta, typeName));
    (PutType(s1, t1), t1)
  }

  /** A repeat call returns the same type and leaves the schema as it was. */
  lemma EnsureQueryInputTypeIdempotent(s: Schema, typeName: string)
    ensures var (s1, t1) := EnsureQueryInputType(s, typeName);
      EnsureQueryInputType(s1, typeName) == (s1, t1)
  {
    var (s1, t1) := EnsureQueryInputType(s, typeName);
    PutTypeSame(s1, t1);
  }

  /** One `filter.operator` augment. */
  function OperatorAugment(field: string, named: GType, op: string): Augment {
    Augment(LibQuery.OperatorFieldName(field, op), LibQuery.OperatorType(named, op, false), FilterOperator(field, op), None)
  }

  /** The augments of the visit: one per operator (`op` when given, else the
      policy) for an input-typed field, one `filter.nested` typed by the
      filter input type of the field's object type, none for other kinds. */
  function FieldAugments(s: Schema, field: Field, op: Option<seq<string>>): (r: (Schema, seq<Augment>))
    ensures KeepsFields(s, r.0)
    ensures r.0.query == s.query && r.0.mutation == s.mutation && r.0.mutationDelayed == s.mutationDelayed
    ensures !IsInputType(field.ty) && NamedOf(field.ty).kind != ObjectKind ==> r == (s, [])
  {
    var named := NamedOf(field.ty);
    if IsInputKind(named.kind) then
      var ops := if op.Some? then op.value else EligibleOperators(named);
      (s, seq(|ops|, i requires 0 <= i < |ops| => OperatorAugment(field.name, named, ops[i])))
    else if named.kind == ObjectKind then
      var (s1, t) := EnsureQueryInputType(s, named.name);
      (s1, [Augment(field.name, TypeRef(t), FilterNested(field.name), None)])
    else (s, [])
  }

  /** An input-typed field: one augment per operator in operator order, named
      `field` for `is` and `field_op` otherwise, a list of the scalar for
      `in` / `not_in` and the scalar itself for the rest, never Non-Null. */
  lemma OperatorAugments(s: Schema, field: Field, op: Option<seq<string>>)
    requires IsInputType(field.ty)
    ensures var named := NamedOf(field.ty);
      var ops := if op.Some? then op.value else EligibleOperators(named);
      var (s1, augs) := FieldAugments(s, field, op);
      s1 == s && |augs| == |ops| &&
      forall i :: 0 <= i < |ops| ==>
        augs[i].name == (if ops[i] == "is" then field.name else field.name + "_" + ops[i]) &&
        augs[i].tag == FilterOperator(field.name, ops[i]) &&
        augs[i].ty == (if ops[i] in ["in", "not_in"] then List(named) else named)
  {
    var named := NamedOf(field.ty);
    var ops := if op.Some? then op.value else EligibleOperators(named);
    var (s1, augs) := FieldAugments(s, field, op);
    assert s1 == s;
    assert |augs| == |ops|;
    forall i | 0 <= i < |ops|
      ensures augs[i].name == (if ops[i] == "is" then field.name else field.name + "_" + ops[i])
      ensures augs[i].tag == FilterOperator(field.name, ops[i])
      ensures augs[i].ty == (if ops[i] in ["in", "not_in"] then List(named) else named)
    {
      assert augs[i] == OperatorAugment(field.name, named, ops[i]);
      assert ops[i] in ["in", "not_in"] <==> ops[i] == "in" || ops[i] == "not_in";
    }
  }

  /** An object field: exactly one `filter.nested` augment named after the
      field and typed by the filter input type of the field's type. */
  lemma NestedAugment(s: Schema, field: Field, op: Option<seq<string>>)
    requires NamedOf(field.ty).kind == ObjectKind
    ensures var (s1, augs) := FieldAugments(s, field, op);
      |augs| == 1 && augs[0].name == field.name && augs[0].tag == FilterNested(field.name) &&
      augs[0].ty.Named? && augs[0].ty.name == FilterTypeName(NamedOf(field.ty).name) &&
      LookupType(s1, augs[0].ty.name).Some? && LookupType(s1, augs[0].ty.name).value.meta.tag == FilterTypeTag
  {
  }

  function RootError(root: string): Error {
    ConfigError("directive \"@query\" should not be used on root " + root + " fields")
  }

  /** The augments of `field` of `owner` and the schema after writing them
      into the owner's filter input type, first writer wins. */
  function Written(s: Schema, owner: string, field: Field, op: Option<seq<string>>): (r: (Schema, seq<Augment>))
    ensures KeepsFields(s, r.0)
    ensures r.0.query == s.query && r.0.mutation == s.mutation && r.0.mutationDelayed == s.mutationDelayed
    ensures var (s1, _) := EnsureQueryInputType(s, owner);
      var (s2, augs) := FieldAugments(s1, field, op);
      r.1 == augs && LookupType(r.0, FilterTypeName(owner)).Some? &&
      LookupType(r.0, FilterTypeName(owner)).value.inputFields ==
        AppendAbsent(LookupType(s2, FilterTypeName(owner)).value.inputFields, augs)
  {
    var (s1, _) := EnsureQueryInputType(s, owner);
    var (s2, augs) := FieldAugments(s1, field, op);
    var name := FilterTypeName(owner);
    var fit := LookupType(s2, name).value;
    var s3 := PutInputFields(s2, name, AppendAbsent(fit.inputFields, augs));
    KeepsFieldsTrans(s, s1, s2);
    KeepsFieldsTrans(s, s2, s3);
    (s3, augs)
  }

  /** `Query.visitFieldDefinition` on field `fname` of `owner`. */
  function Visit(s: Schema, owner: string, fname: string, op: Option<seq<string>>): (r: Result<Schema>)
    requires GetField(s, owner, fname).Some?
    ensures owner == s.query ==> r == Err(RootError("query"))
    ensures owner != s.query && s.mutation == Some(owner) ==> r == Err(RootError("mutation"))
    ensures !IsRootType(s, owner) ==> r.Ok? && r.value.query == s.query && r.value.mutation == s.mutation
  {
    if owner == s.query then Err(RootError("query"))
    else if s.mutation == Some(owner) then Err(RootError("mutation"))
    else
      var (s3, augs) := Written(s, owner, GetField(s, owner, fname).value, op);
      match GetField(s3, s.query, owner)
      case None => Ok(s3)
      case Some(qf) => Ok(PutField(s3, s.query, qf.(args := qf.args + augs)))
  }

  /** The filter input type of the owner keeps its fields and gains those
      augments whose names were new (first writer wins). */
  lemma VisitFilterType(s: Schema, owner: string, fname: string, op: Option<seq<string>>)
    requires GetField(s, owner, fname).Some? && !IsRootType(s, owner)
    ensures var (s3, augs) := Written(s, owner, GetField(s, owner, fname).value, op);
      var r := Visit(s, owner, fname, op).value;
      LookupType(r, FilterTypeName(owner)).Some? &&
      LookupType(r, FilterTypeName(owner)).value.inputFields == LookupType(s3, FilterTypeName(owner)).value.inputFields
  {
    var (s3, augs) := Written(s, owner, GetField(s, owner, fname).value, op);
    var r := Visit(s, owner, fname, op).value;
    if GetField(s3, s.query, owner).Some? {
      var qf := GetField(s3, s.query, owner).value;
      PutFieldKeepsInputs(s3, s.query, qf.(args := qf.args + augs));
      PutFieldKeepsTypes(s3, s.query, qf.(args := qf.args + augs), FilterTypeName(owner));
    }
  }

  /** The root query field named after the owner, when there is one, gets
      every augment appended, without deduplication; no other field of any
      type changes. */
  lemma VisitQueryField(s: Schema, owner: string, fname: string, op: Option<seq<string>>)
    requires GetField(s, owner, fname).Some? && !IsRootType(s, owner)
    ensures var augs := Written(s, owner, GetField(s, owner, fname).value, op).1;
      var r := Visit(s, owner, fname, op).value;
      (GetField(s, s.query, owner).Some? ==>
        GetField(r, s.query, owner) == Some(GetField(s, s.query, owner).value.(args := GetField(s, s.query, owner).value.args + augs))) &&
      (forall o, n :: (o != s.query || n != owner) && GetField(s, o, n).Some? ==> GetField(r, o, n) == GetField(s, o, n))
  {
    var (s3, augs) := Written(s, owner, GetField(s, owner, fname).value, op);
    var r := Visit(s, owner, fname, op).value;
    if GetField(s3, s.query, owner).Some? {
      var qf := GetField(s3, s.query, owner).value;
      assert r == PutField(s3, s.query, qf.(args := qf.args + augs));
      QueryFieldAppended(s, s3, owner, qf, augs);
    } else {
      assert r == s3;
      forall o, n | GetField(s, o, n).Some? ensures GetField(r, o, n) == GetField(s, o, n) {
        KeepsFieldsGetField(s, s3, o, n);
      }
    }
  }

  /** The appending step of `VisitQueryField`, on the schema the writes left. */
  lemma QueryFieldAppended(s: Schema, s3: Schema, owner: string, qf: Field, augs: seq<Augment>)
    requires KeepsFields(s, s3) && s3.query == s.query && GetField(s3, s.query, owner) == Some(qf)
    ensures var r := PutField(s3, s.query, qf.(args := qf.args + augs));
      (GetField(s, s.query, owner).Some? ==>
        GetField(r, s.query, owner) == Some(GetField(s, s.query, owner).value.(args := GetField(s, s.query, owner).value.args + augs))) &&
      (forall o, n :: (o != s.query || n != owner) && GetField(s, o, n).Some? ==> GetField(r, o, n) == GetField(s, o, n))
  {
    var g := qf.(args := qf.args + augs);
    var r := PutField(s3, s.query, g);
    GetFieldName(s3, s.query, owner);
    GetFieldAfterPut(s3, s.query, g, s.query, owner);
    if GetField(s, s.query, owner).Some? {
      KeepsFieldsGetField(s, s3, s.query, owner);
    }
    forall o, n | GetField(s, o, n).Some? && (o != s.query || n != owner)
      ensures GetField(r, o, n) == GetField(s, o, n)
    {
      KeepsFieldsGetField(s, s3, o, n);
      GetFieldAfterPut(s3, s.query, g, o, n);
    }
  }
}

=== FILE: srcresolver.dfy ===
/** src's `AugmentedArgResolver` (src/tools.js): from a root field name to
    the field, mode and type it stands for, then the recursive walk of the
    declared arguments that drives the adapter, and the hand-over of the
    collected contexts to the adapter's `return`. The walk is fuel-bounded;
    running out stands for a stack overflow. */
module SrcResolver {
  import opened Outcomes
  import opened JsValue
  import opened GqlType
  import opened SchemaModel
  import SrcConfig
  import AuthGate
  import opened Adapters
  import Responses

  /** What the walk reads but never changes: the schema, the adapter, the
      caller's identity (`jwtPayload`) and the `depthFirst` option. */
  datatype Env = Env(s: Schema, a: Adapter, identity: Value, depthFirst: bool)

  /** The options of one `_resolve` call. */
  datatype Req = Req(field: Option<Field>, typeName: Option<string>, mode: Option<string>,
                     parent: Value, existing: Value, useResultType: bool)

  /** What a walk hands back: a value, or the lazy `ResultResolver`. */
  datatype Answer = Plain(v: Value) | Later(lazy: Responses.Lazy)

  /** The accumulators of the argument loop. */
  datatype St = St(ctx: Value, ctxs: seq<Value>, extra: map<string, Value>, processed: bool)

  /** What every step of one walk shares: the type walked, its name, the
      mode, the caller's parent and the argument values. */
  datatype Walk = Walk(t: TypeDef, typeName: string, mode: Option<string>, parent: Value, args: map<string, Value>)

  function ValueOf(r: Answer): Value {
    if r.Plain? then r.v else Undef
  }

  // ---- the argument list of one walk -------------------------------------

  function ModeKey(mode: Option<string>): string {
    if mode.Some? then mode.value else "undefined"
  }

  /** `(x._auth || {})[mode]`. */
  function AuthConfig(auth: Option<map<string, Value>>, mode: Option<string>): Value {
    if auth.None? then Undef else ArgValue(auth.value, ModeKey(mode))
  }

  /** The first part of `_resolve`: the declared arguments, the type name
      and the mode of the walk. */
  function Prepare(s: Schema, q: Req): (r: Result<(seq<Augment>, string, Option<string>)>)
    ensures q.field.Some? ==> r.Ok? && r.value.0 == q.field.value.args && r.value.2 == q.mode
    ensures q.field.Some? && Given(q.typeName) ==> r.value.1 == q.typeName.value
    ensures q.field.Some? && !Given(q.typeName) ==> r.value.1 == NamedOf(q.field.value.ty).name
    ensures q.field.None? && (q.typeName.None? || LookupType(s, q.typeName.value).None?) ==>
      r == Err(UserInputError("type \"" + ModeKey(q.typeName) + "\" is not valid"))
  {
    if q.field.Some? then
      var tn := if Given(q.typeName) then q.typeName.value else NamedOf(q.field.value.ty).name;
      Ok((q.field.value.args, tn, q.mode))
    else
      var n := ModeKey(q.typeName);
      match (if q.typeName.None? then None else LookupType(s, n))
      case None => Err(UserInputError("type \"" + n + "\" is not valid"))
      case Some(t) =>
        var tn := if Given(t.meta.baseName) then t.meta.baseName.value else n;
        var augs :- ArgsOfType(t);
        if tn == "" then Err(TypeError("Cannot read properties of undefined (reading 'type')"))
        else Ok((augs, tn, t.meta.mode))
  }

  /** `existingCtx || await init(parent, ...)`. */
  function Start(env: Env, q: Req, typeName: string): (r: Run<Value>)
    ensures Recorded(env.a, r.events)
    ensures Truthy(q.existing) ==> r == Run([], Ok(q.existing))
    ensures !Truthy(q.existing) && CInit !in env.a.has ==> r.events == [] && r.out.Err? && r.out.error.TypeError?
    ensures !Truthy(q.existing) && CInit in env.a.has ==>
      r == Run([Init(q.parent, typeName)], Ok(env.a.answer(Init(q.parent, typeName))))
  {
    if Truthy(q.existing) then Run([], Ok(q.existing))
    else if CInit !in env.a.has then Run([], Err(TypeError("resolvers.init is not a function")))
    else Run([Init(q.parent, typeName)], Ok(env.a.answer(Init(q.parent, typeName))))
  }

  /** The target field's entry for the mode, read from the walked type; an
      argument naming a field the type lacks reads `_auth` of `undefined`. */
  function TargetConfig(t: TypeDef, f: string, mode: Option<string>): Result<Value> {
    match FindField(t, f)
    case Some(fd) => Ok(AuthConfig(fd.meta.auth, mode))
    case None =>
      if FindInputField(t, f).Some? then Ok(Undef)
      else Err(TypeError("Cannot read properties of undefined (reading '_auth')"))
  }

  /** The gate on a target field, before its effect. */
  function FieldGate(env: Env, w: Walk, ctx: Value, f: string): (r: Run<()>)
    ensures Recorded(env.a, r.events)
    ensures CAuth !in env.a.has ==> r.events == []
    ensures CAuth in env.a.has && r.events != [] ==>
      r.events[0].Auth? && r.events[0].ctx == ctx && r.events[0].authField == Some(f) && r.events[0].authType == Some(w.typeName)
    ensures r.out.Ok? <==>
      (TargetConfig(w.t, f, w.mode).Ok? &&
       !(CAuth in env.a.has && AuthGate.Denies(Some(env.a.verdict(Auth(ctx, Some(w.typeName), Some(f), TargetConfig(w.t, f, w.mode).value))))))
  {
    match TargetConfig(w.t, f, w.mode)
    case Err(e) => Run([], Err(e))
    case Ok(cfg) => Gate(env.a, Auth(ctx, Some(w.typeName), Some(f), cfg), env.identity)
  }

  // ---- the steps that do not recurse -------------------------------------

  /** The field an effect of this tag is gated on, if any. */
  function GatedField(t: Tag): Option<string> {
    match t
    case FilterOperator(f, _) => Some(f)
    case FilterNested(f) => Some(f)
    case InputField(f, _) => Some(f)
    case InputNested(f, _) => Some(f)
    case InputNestedKey(f, _, _, _) => Some(f)
    case _ => None
  }

  /** The tags that walk a sub-argument. */
  predicate Recursive(t: Tag) {
    t.FilterNested? || t.FilterFilters? || t.InputNested? || t.InputNestedKey? || t.InputInputs?
  }

  /** A field-targeted callback `e` behind the gate on field `f`: the gate's
      events, then `e` and its effect on the context. */
  function GatedCall(env: Env, w: Walk, st: St, f: string, e: Event): (r: Run<St>)
    requires KindOf(e) in env.a.has && !e.Auth?
    ensures Recorded(env.a, r.events)
    ensures r.out.Ok? ==> r.out.value == st.(ctx := Effect(env.a, e, st.ctx), processed := true)
    ensures CAuth in env.a.has && r.events != [] ==>
      r.events[0].Auth? && r.events[0].ctx == st.ctx && r.events[0].authField == Some(f)
    ensures CAuth !in env.a.has ==> r.events == [] || r.events == [e]
  {
    var g := FieldGate(env, w, st.ctx, f);
    if g.out.Err? then Run(g.events, Err(g.out.error))
    else
      RecordedConcat(env.a, g.events, [e]);
      Run(g.events + [e], Ok(st.(ctx := Effect(env.a, e, st.ctx), processed := true)))
  }

  /** One step for a tag that calls at most one callback: `filter.operator`,
      `input.field`, `filter.pagination`, `sort.sort` and the default (any
      other argument, `cursor.cursor` included, goes to `others`). */
  function PlainStep(env: Env, w: Walk, aug: Augment, st: St): (r: Run<St>)
    requires !Recursive(aug.tag)
    ensures Recorded(env.a, r.events)
    ensures aug.name !in w.args ==> r == Run([], Ok(st))
    ensures r.out.Ok? ==> r.out.value.ctxs == st.ctxs
    ensures r.out.Ok? && (aug.tag.FilterPagination? || aug.tag.SortSort?) ==>
      r.events == [] && r.out.value.ctx == st.ctx && r.out.value.processed == st.processed &&
      r.out.value.extra == (if aug.name in w.args then st.extra[aug.name := w.args[aug.name]] else st.extra)
    ensures r.out.Ok? && !(aug.tag.FilterPagination? || aug.tag.SortSort?) ==> r.out.value.extra == st.extra
    ensures CAuth in env.a.has && GatedField(aug.tag).Some? && r.events != [] ==>
      r.events[0].Auth? && r.events[0].ctx == st.ctx && r.events[0].authField == GatedField(aug.tag)
    ensures GatedField(aug.tag).None? ==> forall i :: 0 <= i < |r.events| ==> !r.events[i].Auth?
  {
    var present := aug.name in w.args;
    var v := ArgValue(w.args, aug.name);
    match aug.tag
    case FilterOperator(f, op) =>
      if present && CFilter in env.a.has then GatedCall(env, w, st, f, Filter(st.ctx, f, op, v))
      else Run([], Ok(st))
    case InputField(f, _) =>
      if present && CInput in env.a.has then GatedCall(env, w, st, f, Input(st.ctx, f, v))
      else Run([], Ok(st))
    case FilterPagination =>
      Run([], Ok(if present then st.(extra := st.extra[aug.name := v]) else st))
    case SortSort =>
      Run([], Ok(if present then st.(extra := st.extra[aug.name := v]) else st))
    case _ =>
      if present && COthers in env.a.has then
        var e := Others(st.ctx, aug.name, v);
        Run([e], Ok(st.(ctx := Effect(env.a, e, st.ctx), processed := true)))
      else Run([], Ok(st))
  }

  /** A filter or input applies only when its argument was given and the
      adapter has the callback; then the gate runs first, on the same context
      and naming the target field, and the callback's truthy answer replaces
      the context. */
  lemma OperatorStepTrace(env: Env, w: Walk, aug: Augment, st: St)
    requires aug.tag.FilterOperator? || aug.tag.InputField?
    requires aug.name in w.args
    ensures var r := PlainStep(env, w, aug, st);
      var cb := if aug.tag.FilterOperator? then CFilter else CInput;
      var e := if aug.tag.FilterOperator? then Filter(st.ctx, aug.tag.field, aug.tag.op, w.args[aug.name])
               else Input(st.ctx, aug.tag.field, w.args[aug.name]);
      (cb !in env.a.has ==> r == Run([], Ok(st))) &&
      (cb in env.a.has && r.out.Ok? ==>
        r.events == FieldGate(env, w, st.ctx, aug.tag.field).events + [e] &&
        r.out.value == st.(ctx := Or(env.a.answer(e), st.ctx), processed := true)) &&
      (cb in env.a.has ==> (r.out.Ok? <==> FieldGate(env, w, st.ctx, aug.tag.field).out.Ok?))
  {
  }

  // ---- the walk ----------------------------------------------------------

  /** `_resolve`: at most `fuel` nested walks deep. */
  function ResolveArgs(env: Env, args: Value, q: Req, fuel: nat): (r: Run<Answer>)
    ensures Recorded(env.a, r.events)
    ensures fuel == 0 ==> r == Run([], Err(RecursionLimit))
    ensures fuel > 0 && Prepare(env.s, q).Err? ==> r == Run([], Err(Prepare(env.s, q).error))
    ensures fuel > 0 && Prepare(env.s, q).Ok? && !Truthy(q.existing) && CInit !in env.a.has ==>
      r.events == [] && r.out.Err? && r.out.error.TypeError?
    ensures fuel > 0 && Prepare(env.s, q).Ok? && !Truthy(q.existing) && CInit in env.a.has ==>
      |r.events| > 0 && r.events[0] == Init(q.parent, Prepare(env.s, q).value.1)
    ensures Truthy(q.existing) && r.out.Ok? ==> r.out.value.Plain?
    decreases fuel, 6, 0
  {
    if fuel == 0 then Run([], Err(RecursionLimit))
    else match Prepare(env.s, q)
    case Err(e) => Run([], Err(e))
    case Ok((augs, typeName, mode)) =>
      var start := Start(env, q, typeName);
      if start.out.Err? then Run(start.events, Err(start.out.error))
      else
        var rest := Started(env, args, q, augs, typeName, mode, start.out.value, fuel);
        RecordedConcat(env.a, start.events, rest.events);
        Run(start.events + rest.events, rest.out)
  }

  /** The walk once the context is known: the type gate, the loop over the
      ordered arguments and the end of the walk. */
  function Started(env: Env, args: Value, q: Req, augs: seq<Augment>, typeName: string, mode: Option<string>, ctx: Value, fuel: nat): (r: Run<Answer>)
    requires fuel > 0
    ensures Recorded(env.a, r.events)
    ensures Truthy(q.existing) && r.out.Ok? ==> r.out.value.Plain?
    decreases fuel, 5, 0
  {
    match LookupType(env.s, typeName)
    case None => Run([], Err(TypeError("Cannot read properties of undefined (reading '_auth')")))
    case Some(t) =>
      var g := Gate(env.a, Auth(ctx, Some(typeName), None, AuthConfig(t.meta.auth, mode)), env.identity);
      if g.out.Err? then Run(g.events, Err(g.out.error))
      else if ArgMap(args).None? && |augs| > 0 then
        Run(g.events, Err(TypeError("Cannot read properties of a non-object argument")))
      else
        var m := if ArgMap(args).Some? then ArgMap(args).value else map[];
        var w := Walk(t, typeName, mode, q.parent, m);
        var l := Loop(env, w, Order(augs, env.depthFirst), St(ctx, [], map[], false), fuel);
        RecordedConcat(env.a, g.events, l.events);
        if l.out.Err? then Run(g.events + l.events, Err(l.out.error))
        else
          var fin := Finish(env, q, l.out.value);
          RecordedConcat(env.a, g.events + l.events, fin.events);
          Run(g.events + l.events + fin.events, fin.out)
  }

  /** The loop over the ordered arguments. */
  function Loop(env: Env, w: Walk, items: seq<Augment>, st: St, fuel: nat): (r: Run<St>)
    ensures Recorded(env.a, r.events)
    ensures r.out.Ok? ==> |st.ctxs| <= |r.out.value.ctxs| && r.out.value.ctxs[..|st.ctxs|] == st.ctxs
    ensures r.out.Ok? && st.processed ==> r.out.value.processed
    decreases fuel, 4, |items|
  {
    if |items| == 0 then Run([], Ok(st))
    else
      var s1 := Step(env, w, items[0], st, fuel);
      if s1.out.Err? then s1
      else
        var rest := Loop(env, w, items[1..], s1.out.value, fuel);
        Run(s1.events + rest.events, rest.out)
  }

  /** One argument of the loop. */
  function Step(env: Env, w: Walk, aug: Augment, st: St, fuel: nat): (r: Run<St>)
    ensures Recorded(env.a, r.events)
    ensures r.out.Ok? ==> |st.ctxs| <= |r.out.value.ctxs| && r.out.value.ctxs[..|st.ctxs|] == st.ctxs
    ensures r.out.Ok? && st.processed ==> r.out.value.processed
    ensures r.out.Ok? && (aug.tag.FilterFilters? || aug.tag.InputInputs?) ==>
      r.out.value.ctx == st.ctx && r.out.value.extra == st.extra &&
      |r.out.value.ctxs| == |st.ctxs| + (if ArgValue(w.args, aug.name).Arr? then |ArgValue(w.args, aug.name).elems| else 0)
    // `filter.nested` fires on an object-typed value (null included) when
    // `nested` exists, walking it as a whole, and otherwise does nothing
    ensures aug.tag.FilterNested? ==>
      var v := ArgValue(w.args, aug.name);
      (IsObjectLike(v) && CNested in env.a.has ==>
        r == NestedStep(env, w, aug, aug.tag.field, None, NameIfNamed(aug.ty), v, st, fuel)) &&
      (!(IsObjectLike(v) && CNested in env.a.has) ==> r == Run([], Ok(st)))
    // `input.nested` likewise; an array's elements are walked on the named type
    ensures aug.tag.InputNested? ==>
      var v := ArgValue(w.args, aug.name);
      (IsObjectLike(v) && CNested in env.a.has ==>
        r == NestedStep(env, w, aug, aug.tag.field, None,
                        if v.Arr? then Some(NamedOf(aug.ty).name) else NameIfNamed(aug.ty), v, st, fuel)) &&
      (!(IsObjectLike(v) && CNested in env.a.has) ==> r == Run([], Ok(st)))
    // `input.nestedKey` fires when the argument is given and `nested` exists
    ensures aug.tag.InputNestedKey? ==>
      (aug.name in w.args && CNested in env.a.has ==>
        r == NestedStep(env, w, aug, aug.tag.field, Some(aug.tag.key), Some(aug.tag.objectTypeName),
                        ArgValue(w.args, aug.name), st, fuel)) &&
      (!(aug.name in w.args && CNested in env.a.has) ==> r == Run([], Ok(st)))
    decreases fuel, 3, 0
  {
    var v := ArgValue(w.args, aug.name);
    match aug.tag
    case FilterFilters => Batch(env, w, aug, st, fuel)
    case InputInputs => Batch(env, w, aug, st, fuel)
    case FilterNested(f) =>
      if IsObjectLike(v) && CNested in env.a.has then
        NestedStep(env, w, aug, f, None, NameIfNamed(aug.ty), v, st, fuel)
      else Run([], Ok(st))
    case InputNested(f, _) =>
      if IsObjectLike(v) && CNested in env.a.has then
        NestedStep(env, w, aug, f, None, if v.Arr? then Some(NamedOf(aug.ty).name) else NameIfNamed(aug.ty), v, st, fuel)
      else Run([], Ok(st))
    case InputNestedKey(f, _, key, objectTypeName) =>
      if aug.name in w.args && CNested in env.a.has then
        NestedStep(env, w, aug, f, Some(key), Some(objectTypeName), v, st, fuel)
      else Run([], Ok(st))
    case _ =>
      PlainStep(env, w, aug, st)
  }

  /** `augmentedArg.type.name`: only a named type has one. */
  function NameIfNamed(t: GType): Option<string> {
    if t.Named? then Some(t.name) else None
  }

  /** `filter.filters` / `input.inputs`: one fresh context per element of an
      array value, each walked on the element with the caller's parent, all
      pushed onto the batch list. */
  function Batch(env: Env, w: Walk, aug: Augment, st: St, fuel: nat): (r: Run<St>)
    requires aug.tag.FilterFilters? || aug.tag.InputInputs?
    ensures Recorded(env.a, r.events)
    ensures r.out.Ok? ==> r.out.value.ctx == st.ctx && r.out.value.extra == st.extra && r.out.value.processed == st.processed
    ensures r.out.Ok? ==>
      var v := ArgValue(w.args, aug.name);
      |r.out.value.ctxs| == |st.ctxs| + (if v.Arr? then |v.elems| else 0) && r.out.value.ctxs[..|st.ctxs|] == st.ctxs
    decreases fuel, 2, 0
  {
    var v := ArgValue(w.args, aug.name);
    if v.Arr? then
      var each := Each(env, w, v.elems, None, Some(NamedOf(aug.ty).name), w.parent, fuel);
      if each.out.Err? then Run(each.events, Err(each.out.error))
      else
        var r := st.(ctxs := st.ctxs + each.out.value);
        assert r.ctxs[..|st.ctxs|] == st.ctxs;
        Run(each.events, Ok(r))
    else Run([], Ok(st))
  }

  /** `filter.nested`, `input.nested` and `input.nestedKey` once the value
      passed the condition: the gate, then the sub-walk(s), then `nested`.
      `filter.nested` walks its value as a whole, arrays included. */
  function NestedStep(env: Env, w: Walk, aug: Augment, f: string, key: Option<string>, subType: Option<string>,
                      v: Value, st: St, fuel: nat): (r: Run<St>)
    requires CNested in env.a.has
    ensures Recorded(env.a, r.events)
    ensures r.out.Ok? ==> r.out.value.ctxs == st.ctxs && r.out.value.extra == st.extra && r.out.value.processed
    // the field gate on the current context decides first: a refusal stops before any sub-walk
    ensures var g := FieldGate(env, w, st.ctx, f);
      g.out.Err? ==> r == Run(g.events, Err(g.out.error))
    // then the sub-walks, whose failure stops before `nested`
    ensures var g := FieldGate(env, w, st.ctx, f);
      var sub := NestedValue(env, w, aug, key, subType, v, st.ctx, fuel);
      g.out.Ok? && sub.out.Err? ==> r == Run(g.events + sub.events, Err(sub.out.error))
    // and last `nested` on the same context, whose truthy answer replaces it
    ensures var g := FieldGate(env, w, st.ctx, f);
      var sub := NestedValue(env, w, aug, key, subType, v, st.ctx, fuel);
      r.out.Ok? ==>
        g.out.Ok? && sub.out.Ok? &&
        r.events == g.events + sub.events + [Nested(st.ctx, f, sub.out.value)] &&
        r.out.value.ctx == Or(env.a.answer(Nested(st.ctx, f, sub.out.value)), st.ctx)
    ensures CAuth in env.a.has && r.out.Ok? ==>
      r.events[0].Auth? && r.events[0].ctx == st.ctx && r.events[0].authField == Some(f) &&
      r.events[|r.events| - 1].Nested? && r.events[|r.events| - 1].ctx == st.ctx
    decreases fuel, 2, 0
  {
    var g := FieldGate(env, w, st.ctx, f);
    if g.out.Err? then Run(g.events, Err(g.out.error))
    else
      var sub := NestedValue(env, w, aug, key, subType, v, st.ctx, fuel);
      RecordedConcat(env.a, g.events, sub.events);
      if sub.out.Err? then Run(g.events + sub.events, Err(sub.out.error))
      else
        var e := Nested(st.ctx, f, sub.out.value);
        RecordedConcat(env.a, g.events + sub.events, [e]);
        Run(g.events + sub.events + [e], Ok(st.(ctx := Effect(env.a, e, st.ctx), processed := true)))
  }

  /** The value handed to `nested`: the contexts of the per-element walks of
      an array, or the result of the walk of the value. */
  function NestedValue(env: Env, w: Walk, aug: Augment, key: Option<string>, subType: Option<string>,
                       v: Value, ctx: Value, fuel: nat): (r: Run<Value>)
    ensures Recorded(env.a, r.events)
    ensures v.Arr? && !aug.tag.FilterNested? && r.out.Ok? ==> r.out.value.Arr? && |r.out.value.elems| == |v.elems|
    decreases fuel, 1, 0
  {
    if v.Arr? && !aug.tag.FilterNested? then
      var each := Each(env, w, v.elems, key, subType, ctx, fuel);
      if each.out.Err? then Run(each.events, Err(each.out.error))
      else Run(each.events, Ok(Arr(each.out.value)))
    else if fuel == 0 then Run([], Err(RecursionLimit))
    else
      var sub := ResolveArgs(env, Wrap(key, v), Req(None, subType, w.mode, ctx, Undef, false), fuel - 1);
      if sub.out.Err? then Run(sub.events, Err(sub.out.error))
      else Run(sub.events, Ok(ValueOf(sub.out.value)))
  }

  /** The walk of one element of an array: `init(parent)` gives a fresh
      context, then `_resolve` walks the element (wrapped under `key` when
      given) on that context with `subParent` as parent. */
  function ElementRun(env: Env, w: Walk, e: Value, key: Option<string>, subType: Option<string>,
                      subParent: Value, fuel: nat): (r: Run<Answer>)
    ensures Recorded(env.a, r.events)
    ensures CInit !in env.a.has ==> r == Run([], Err(TypeError("resolvers.init is not a function")))
    ensures CInit in env.a.has ==> |r.events| > 0 && r.events[0] == Init(w.parent, w.typeName)
    ensures CInit in env.a.has && fuel > 0 ==>
      var sub := ResolveArgs(env, Wrap(key, e), Req(None, subType, w.mode, subParent, env.a.answer(Init(w.parent, w.typeName)), false), fuel - 1);
      r == Run([Init(w.parent, w.typeName)] + sub.events, sub.out)
    ensures CInit in env.a.has && fuel == 0 ==> r == Run([Init(w.parent, w.typeName)], Err(RecursionLimit))
    decreases fuel, 0, 0
  {
    if CInit !in env.a.has then Run([], Err(TypeError("resolvers.init is not a function")))
    else
      var ev := Init(w.parent, w.typeName);
      if fuel == 0 then Run([ev], Err(RecursionLimit))
      else
        var sub := ResolveArgs(env, Wrap(key, e), Req(None, subType, w.mode, subParent, env.a.answer(ev), false), fuel - 1);
        RecordedConcat(env.a, [ev], sub.events);
        Run([ev] + sub.events, sub.out)
  }

  /** The element walks of `elems`, one per element, in array order. */
  function ElementRuns(env: Env, w: Walk, elems: seq<Value>, key: Option<string>, subType: Option<string>,
                       subParent: Value, fuel: nat): seq<Run<Answer>>
    decreases fuel, 0, 1
  {
    seq(|elems|, i requires 0 <= i < |elems| => ElementRun(env, w, elems[i], key, subType, subParent, fuel))
  }

  /** One sub-walk per element, each on its own `init(parent)` context, in
      array order (see `EachValues`, `EachTrace`, `EachFirstFailure`). */
  function Each(env: Env, w: Walk, elems: seq<Value>, key: Option<string>, subType: Option<string>,
                subParent: Value, fuel: nat): (r: Run<seq<Value>>)
    ensures Recorded(env.a, r.events)
    ensures r.out.Ok? ==> |r.out.value| == |elems|
    ensures |elems| > 0 && CInit in env.a.has ==> |r.events| > 0 && r.events[0] == Init(w.parent, w.typeName)
    ensures |elems| > 0 && CInit !in env.a.has ==> r.events == [] && r.out.Err?
    decreases fuel, 0, |elems| + 2
  {
    if |elems| == 0 then Run([], Ok([]))
    else
      var head := ElementRun(env, w, elems[0], key, subType, subParent, fuel);
      if head.out.Err? then Run(head.events, Err(head.out.error))
      else
        var rest := Each(env, w, elems[1..], key, subType, subParent, fuel);
        RecordedConcat(env.a, head.events, rest.events);
        Run(head.events + rest.events,
          if rest.out.Err? then Err(rest.out.error) else Ok([ValueOf(head.out.value)] + rest.out.value))
  }

  /** Result `i` of the loop is the value of element `i`'s walk, run on the
      context `init(parent)` answered. */
  lemma {:induction false} EachValues(env: Env, w: Walk, elems: seq<Value>, key: Option<string>, subType: Option<string>,
                                      subParent: Value, fuel: nat)
    ensures var r := Each(env, w, elems, key, subType, subParent, fuel);
      r.out.Ok? ==> forall i :: 0 <= i < |elems| ==>
        fuel > 0 &&
        ResolveArgs(env, Wrap(key, elems[i]), Req(None, subType, w.mode, subParent, env.a.answer(Init(w.parent, w.typeName)), false), fuel - 1).out.Ok? &&
        r.out.value[i] == ValueOf(ResolveArgs(env, Wrap(key, elems[i]), Req(None, subType, w.mode, subParent, env.a.answer(Init(w.parent, w.typeName)), false), fuel - 1).out.value)
    decreases |elems|
  {
    var r := Each(env, w, elems, key, subType, subParent, fuel);
    if |elems| > 0 && r.out.Ok? {
      var head := ElementRun(env, w, elems[0], key, subType, subParent, fuel);
      var rest := Each(env, w, elems[1..], key, subType, subParent, fuel);
      EachValues(env, w, elems[1..], key, subType, subParent, fuel);
      assert r.out.value == [ValueOf(head.out.value)] + rest.out.value;
      forall i | 0 <= i < |elems|
        ensures fuel > 0 &&
          ResolveArgs(env, Wrap(key, elems[i]), Req(None, subType, w.mode, subParent, env.a.answer(Init(w.parent, w.typeName)), false), fuel - 1).out.Ok? &&
          r.out.value[i] == ValueOf(ResolveArgs(env, Wrap(key, elems[i]), Req(None, subType, w.mode, subParent, env.a.answer(Init(w.parent, w.typeName)), false), fuel - 1).out.value)
      {
        if i > 0 { assert elems[i] == elems[1..][i - 1] && r.out.value[i] == rest.out.value[i - 1]; }
      }
    }
  }

  /** The trace of a successful loop is the elements' traces one after
      another, and each element's trace starts with its own `init(parent)`. */
  lemma {:induction false} EachTrace(env: Env, w: Walk, elems: seq<Value>, key: Option<string>, subType: Option<string>,
                                     subParent: Value, fuel: nat)
    ensures var r := Each(env, w, elems, key, subType, subParent, fuel);
      var runs := ElementRuns(env, w, elems, key, subType, subParent, fuel);
      r.out.Ok? ==>
        r.events == Flatten(Traces(runs)) &&
        forall i :: 0 <= i < |elems| ==> |runs[i].events| > 0 && runs[i].events[0] == Init(w.parent, w.typeName)
    decreases |elems|
  {
    var r := Each(env, w, elems, key, subType, subParent, fuel);
    var runs := ElementRuns(env, w, elems, key, subType, subParent, fuel);
    if |elems| == 0 {
      assert Traces(runs) == [];
    } else if r.out.Ok? {
      var head := ElementRun(env, w, elems[0], key, subType, subParent, fuel);
      var rest := Each(env, w, elems[1..], key, subType, subParent, fuel);
      var later := ElementRuns(env, w, elems[1..], key, subType, subParent, fuel);
      EachTrace(env, w, elems[1..], key, subType, subParent, fuel);
      assert runs[0] == head && later == runs[1..];
      assert CInit in env.a.has;
      assert r.events == head.events + rest.events;
      assert Traces(runs)[1..] == Traces(later);
      assert Flatten(Traces(runs)) == head.events + Flatten(Traces(later));
      forall i | 0 <= i < |elems| ensures |runs[i].events| > 0 && runs[i].events[0] == Init(w.parent, w.typeName) {
        if i > 0 { assert runs[i] == later[i - 1]; }
      }
    }
  }

  /** A failing loop fails with the failure of the first element whose walk fails. */
  lemma {:induction false} EachFirstFailure(env: Env, w: Walk, elems: seq<Value>, key: Option<string>, subType: Option<string>,
                                            subParent: Value, fuel: nat)
    ensures var r := Each(env, w, elems, key, subType, subParent, fuel);
      var runs := ElementRuns(env, w, elems, key, subType, subParent, fuel);
      r.out.Err? ==> exists i :: 0 <= i < |elems| && runs[i].out == Err(r.out.error) && forall j :: 0 <= j < i ==> runs[j].out.Ok?
    decreases |elems|
  {
    var r := Each(env, w, elems, key, subType, subParent, fuel);
    var runs := ElementRuns(env, w, elems, key, subType, subParent, fuel);
    if |elems| > 0 && r.out.Err? {
      var head := ElementRun(env, w, elems[0], key, subType, subParent, fuel);
      assert runs[0] == head;
      if head.out.Err? {
        assert r.out == Err(head.out.error);
        assert runs[0].out == Err(r.out.error);
      } else {
        var rest := Each(env, w, elems[1..], key, subType, subParent, fuel);
        var later := ElementRuns(env, w, elems[1..], key, subType, subParent, fuel);
        EachFirstFailure(env, w, elems[1..], key, subType, subParent, fuel);
        assert later == runs[1..];
        assert rest.out.Err? && r.out == Err(rest.out.error);
        var i :| 0 <= i < |elems[1..]| && later[i].out == Err(rest.out.error) && forall j :: 0 <= j < i ==> later[j].out.Ok?;
        assert runs[i + 1] == later[i];
        forall j | 0 <= j < i + 1 ensures runs[j].out.Ok? {
          if j > 0 { assert runs[j] == later[j - 1]; }
        }
      }
    }
  }

  /** A batch argument with an array value appends, after the contexts
      already collected, the context of each element's own walk in array
      order: element `i` walked on a fresh `init(parent)` context with the
      caller's parent. */
  lemma BatchElements(env: Env, w: Walk, aug: Augment, st: St, fuel: nat)
    requires aug.tag.FilterFilters? || aug.tag.InputInputs?
    ensures var r := Batch(env, w, aug, st, fuel);
      var v := ArgValue(w.args, aug.name);
      var q := Req(None, Some(NamedOf(aug.ty).name), w.mode, w.parent, env.a.answer(Init(w.parent, w.typeName)), false);
      r.out.Ok? && v.Arr? ==> forall i :: 0 <= i < |v.elems| ==>
        fuel > 0 && ResolveArgs(env, v.elems[i], q, fuel - 1).out.Ok? &&
        r.out.value.ctxs[|st.ctxs| + i] == ValueOf(ResolveArgs(env, v.elems[i], q, fuel - 1).out.value)
  {
    var v := ArgValue(w.args, aug.name);
    if v.Arr? {
      EachValues(env, w, v.elems, None, Some(NamedOf(aug.ty).name), w.parent, fuel);
      assert forall i :: 0 <= i < |v.elems| ==> Wrap(None, v.elems[i]) == v.elems[i];
    }
  }

  /** An array handed to `input.nested` or `input.nestedKey` is walked
      element by element in array order, each on a fresh `init(parent)`
      context under the current one; `nested` receives element `i`'s context. */
  lemma NestedArrayElements(env: Env, w: Walk, aug: Augment, key: Option<string>, subType: Option<string>,
                            v: Value, ctx: Value, fuel: nat)
    requires v.Arr? && !aug.tag.FilterNested?
    ensures var r := NestedValue(env, w, aug, key, subType, v, ctx, fuel);
      var q := Req(None, subType, w.mode, ctx, env.a.answer(Init(w.parent, w.typeName)), false);
      r.out.Ok? ==>
        r.out.value.Arr? && |r.out.value.elems| == |v.elems| &&
        forall i :: 0 <= i < |v.elems| ==>
          fuel > 0 && ResolveArgs(env, Wrap(key, v.elems[i]), q, fuel - 1).out.Ok? &&
          r.out.value.elems[i] == ValueOf(ResolveArgs(env, Wrap(key, v.elems[i]), q, fuel - 1).out.value)
  {
    EachValues(env, w, v.elems, key, subType, ctx, fuel);
  }

  // ---- the end of a walk ---------------------------------------------------

  /** The list handed to `return`: the root context joins the batch contexts,
      in front, when some argument was processed or there is no batch. */
  function RootContexts(st: St): seq<Value> {
    if st.processed || |st.ctxs| == 0 then [st.ctx] + st.ctxs else st.ctxs
  }

  /** The root list is never empty, ends with every batch context in order,
      and holds the root context, in front, exactly when an argument was
      processed or there is no batch. */
  lemma RootContextsRule(st: St)
    ensures var r := RootContexts(st);
      |r| >= 1 && |r| >= |st.ctxs| && r[|r| - |st.ctxs|..] == st.ctxs &&
      (|r| == |st.ctxs| + 1 <==> st.processed || |st.ctxs| == 0) &&
      (|r| == |st.ctxs| + 1 ==> r[0] == st.ctx)
  {
    var r := RootContexts(st);
    if st.processed || |st.ctxs| == 0 {
      assert r[1..] == st.ctxs;
    }
  }

  /** The `extra` bag after normalisation: the page size (configured as
      `limit` itself) stays, `page` goes, and `offset = limit * (page - 1)`
      is added when both were given, under JavaScript's number conversion
      (`null` counts as 0). Operands that convert to no integer give
      `undefined` here. */
  function Normalise(extra: map<string, Value>): (r: map<string, Value>)
    ensures SrcConfig.ArgPage !in r
    ensures forall k :: k in extra && k != SrcConfig.ArgPage && k != SrcConfig.ArgOffset ==> k in r && r[k] == extra[k]
    ensures forall k :: k in r && k != SrcConfig.ArgOffset ==> k in extra
    ensures var page := ArgValue(extra, SrcConfig.ArgPage); var limit := ArgValue(extra, SrcConfig.ArgLimit);
      (page != Undef && limit != Undef ==>
        SrcConfig.ArgOffset in r &&
        r[SrcConfig.ArgOffset] ==
          (if ToNumber(page).Some? && ToNumber(limit).Some? then Num(ToNumber(limit).value * (ToNumber(page).value - 1)) else Undef)) &&
      (!(page != Undef && limit != Undef) ==> ArgValue(r, SrcConfig.ArgOffset) == ArgValue(extra, SrcConfig.ArgOffset))
  {
    var page := ArgValue(extra, SrcConfig.ArgPage);
    var limit := ArgValue(extra, SrcConfig.ArgLimit);
    if page == Undef then extra - {SrcConfig.ArgPage}
    else
      var e1 := extra - {SrcConfig.ArgPage};
      if limit == Undef then e1
      else e1[SrcConfig.ArgOffset := Offset(limit, page)]
  }

  /** `limit * (page - 1)`. */
  function Offset(limit: Value, page: Value): Value {
    match (ToNumber(limit), ToNumber(page))
    case (Some(l), Some(p)) => Num(l * (p - 1))
    case _ => Undef
  }

  /** A `null` page or limit is the number 0: `page: null` moves the offset
      one page back, `limit: null` gives offset 0. */
  lemma NormaliseNulls(limit: int, page: int)
    ensures Normalise(map[SrcConfig.ArgLimit := Num(limit), SrcConfig.ArgPage := Null])[SrcConfig.ArgOffset] == Num(-limit)
    ensures Normalise(map[SrcConfig.ArgLimit := Null, SrcConfig.ArgPage := Num(page)])[SrcConfig.ArgOffset] == Num(0)
  {
    var e := map[SrcConfig.ArgLimit := Num(limit), SrcConfig.ArgPage := Null];
    var e2 := map[SrcConfig.ArgLimit := Null, SrcConfig.ArgPage := Num(page)];
    assert ArgValue(e, SrcConfig.ArgPage) == Null && ArgValue(e, SrcConfig.ArgLimit) == Num(limit);
    assert ArgValue(e2, SrcConfig.ArgPage) == Num(page) && ArgValue(e2, SrcConfig.ArgLimit) == Null;
  }

  /** Normalising twice is normalising once. */
  lemma NormaliseIdempotent(extra: map<string, Value>)
    ensures Normalise(Normalise(extra)) == Normalise(extra)
  {
    var n := Normalise(extra);
    assert ArgValue(n, SrcConfig.ArgPage) == Undef;
    assert n - {SrcConfig.ArgPage} == n;
  }

  /** The first page has offset zero, and each next page moves the offset
      by one page size. */
  lemma OffsetOfPages(limit: int, page: int)
    ensures Normalise(map[SrcConfig.ArgLimit := Num(limit), SrcConfig.ArgPage := Num(1)])[SrcConfig.ArgOffset] == Num(0)
    ensures var e := map[SrcConfig.ArgLimit := Num(limit), SrcConfig.ArgPage := Num(page)];
      var e2 := map[SrcConfig.ArgLimit := Num(limit), SrcConfig.ArgPage := Num(page + 1)];
      Normalise(e2)[SrcConfig.ArgOffset].n == Normalise(e)[SrcConfig.ArgOffset].n + limit
  {
    var e := map[SrcConfig.ArgLimit := Num(limit), SrcConfig.ArgPage := Num(page)];
    var e2 := map[SrcConfig.ArgLimit := Num(limit), SrcConfig.ArgPage := Num(page + 1)];
    assert ArgValue(e, SrcConfig.ArgPage) == Num(page) && ArgValue(e, SrcConfig.ArgLimit) == Num(limit);
    assert ArgValue(e2, SrcConfig.ArgPage) == Num(page + 1) && ArgValue(e2, SrcConfig.ArgLimit) == Num(limit);
    assert limit * (page + 1 - 1) == limit * (page - 1) + limit;
  }

  /** The end of `_resolve`: a sub-walk on an existing context returns it; a
      walk under a parent ends with `resolve`; a root walk hands the root
      list and the normalised `extra` to a `ResultResolver`, lazily or asked
      for its results at once. */
  function Finish(env: Env, q: Req, st: St): (r: Run<Answer>)
    ensures Recorded(env.a, r.events)
    ensures Truthy(q.existing) ==> r == Run([], Ok(Plain(st.ctx)))
    ensures !Truthy(q.existing) && Truthy(q.parent) ==>
      (CResolve in env.a.has <==> r.out.Ok?) &&
      (r.out.Ok? ==> r == Run([Adapters.Resolve(st.ctx)], Ok(Plain(env.a.answer(Adapters.Resolve(st.ctx))))))
    ensures !Truthy(q.existing) && !Truthy(q.parent) ==> r == FinishRoot(env, q.useResultType, st)
  {
    if Truthy(q.existing) then Run([], Ok(Plain(st.ctx)))
    else if Truthy(q.parent) then
      if CResolve !in env.a.has then Run([], Err(TypeError("resolvers.resolve is not a function")))
      else Run([Adapters.Resolve(st.ctx)], Ok(Plain(env.a.answer(Adapters.Resolve(st.ctx)))))
    else FinishRoot(env, q.useResultType, st)
  }

  /** The end of a root walk. */
  function FinishRoot(env: Env, useResultType: bool, st: St): (r: Run<Answer>)
    ensures Recorded(env.a, r.events)
    ensures useResultType ==> r == Run([], Ok(Later(Responses.NewLazy(RootContexts(st), Normalise(st.extra)))))
    ensures !useResultType ==>
      r.out.Ok? && r.out.value.Plain? &&
      r.events == (if CReturn in env.a.has then [Return(RootContexts(st), Some(Normalise(st.extra)))] else []) &&
      r.out.value.v == (if CReturn in env.a.has then env.a.answer(Return(RootContexts(st), Some(Normalise(st.extra)))) else Undef)
  {
    var l := Responses.NewLazy(RootContexts(st), Normalise(st.extra));
    if useResultType then Run([], Ok(Later(l)))
    else
      var g := Responses.GetResults(env.a, l);
      Run(g.2, Ok(Plain(g.1)))
  }

  // ---- the root lookup ------------------------------------------------------

  /** A root field name: the field, its mode and the type name it targets. */
  function RootLookup(s: Schema, name: string): (r: Result<(Field, string, string)>)
    ensures r.Err? ==> r.error.UserInputError?
  {
    match SrcConfig.MutationPrefix(name)
    case Some((p, mode)) =>
      (match (if s.mutation.Some? then GetField(s, s.mutation.value, name) else None)
       case None => Err(UserInputError("mutation type \"" + name + "\" is not valid"))
       case Some(f) => Ok((f, mode, name[|p|..])))
    case None =>
      match GetField(s, s.query, name)
      case None => Err(UserInputError("query type \"" + name + "\" is not valid"))
      case Some(f) => Ok((f, SrcConfig.ModeQuery, name[|SrcConfig.PrefixQuery|..]))
  }

  /** The prefix table decides the namespace: a name with a mutation prefix is
      looked up in the mutation type only, with the prefix's mode and the rest
      of the name as type; any other name is a query on the type of that
      name. The name is the prefix followed by the type name, so the lookup
      is never "unknown". */
  lemma RootLookupRule(s: Schema, name: string)
    ensures var r := RootLookup(s, name);
      (SrcConfig.MutationPrefix(name).Some? ==>
        var (p, mode) := SrcConfig.MutationPrefix(name).value;
        (r.Ok? <==> s.mutation.Some? && GetField(s, s.mutation.value, name).Some?) &&
        (r.Ok? ==>
           r.value.0 == GetField(s, s.mutation.value, name).value && r.value.1 == mode && name == p + r.value.2)) &&
      (SrcConfig.MutationPrefix(name).None? ==>
        (r.Ok? <==> GetField(s, s.query, name).Some?) &&
        (r.Ok? ==> r.value.0 == GetField(s, s.query, name).value && r.value.1 == SrcConfig.ModeQuery && r.value.2 == name))
  {
    SrcConfig.Prefixes();
    match SrcConfig.MutationPrefix(name)
    case Some((p, mode)) =>
      assert name == p + name[|p|..];
    case None =>
      assert name[|SrcConfig.PrefixQuery|..] == name;
  }

  /** `field.type._augmentType === 'result.type'` on the root field's own type. */
  predicate UsesResultType(s: Schema, f: Field) {
    f.ty.Named? && LookupType(s, f.ty.name).Some? && LookupType(s, f.ty.name).value.meta.tag == ResultTypeTag
  }

  /** `resolve(parent, args, context, info)`: a nested field of `parentType`
      under a truthy parent, or a root field; the walk gets no parent. */
  function Top(env: Env, parent: Value, parentType: string, fieldName: string, args: Value, fuel: nat): (r: Run<Answer>)
    ensures Recorded(env.a, r.events)
    ensures Truthy(parent) && GetField(env.s, parentType, fieldName).None? ==>
      r == Run([], Err(UserInputError("field \"" + fieldName + "\" from type \"" + parentType + "\" is not valid")))
    ensures !Truthy(parent) && RootLookup(env.s, fieldName).Err? ==> r == Run([], Err(RootLookup(env.s, fieldName).error))
    ensures !Truthy(parent) && RootLookup(env.s, fieldName).Ok? ==>
      var (f, mode, typeName) := RootLookup(env.s, fieldName).value;
      r == ResolveArgs(env, args, Req(Some(f), Some(typeName), Some(mode), Undef, Undef, UsesResultType(env.s, f)), fuel)
  {
    if Truthy(parent) then
      match GetField(env.s, parentType, fieldName)
      case None => Run([], Err(UserInputError("field \"" + fieldName + "\" from type \"" + parentType + "\" is not valid")))
      case Some(f) => ResolveArgs(env, args, Req(Some(f), None, Some(SrcConfig.ModeQuery), Undef, Undef, false), fuel)
    else
      match RootLookup(env.s, fieldName)
      case Err(e) => Run([], Err(e))
      case Ok((f, mode, typeName)) =>
        ResolveArgs(env, args, Req(Some(f), Some(typeName), Some(mode), Undef, Undef, UsesResultType(env.s, f)), fuel)
  }

  /** The whole of `resolve(parent, args, context, info)`: the credential is
      read first with `getJwtPayload(context, info.schema)` (`schemaObj` is
      the schema object as a value, `verify` stands for `jwt.verify`). A
      credential that does not verify throws before any field lookup or
      resolver call; otherwise its payload, or `undefined` when there is
      none, is the identity of the walk. */
  function ResolveCall(s: Schema, a: Adapter, depthFirst: bool, context: Value, schemaObj: Value,
                       verify: (string, Value, Value) -> AuthGate.Verification,
                       parent: Value, parentType: string, fieldName: string, args: Value, fuel: nat): (r: Run<Answer>)
    ensures Recorded(a, r.events)
    ensures AuthGate.GetJwtPayload(context, schemaObj, false, verify).Err? ==>
      r.events == [] && r.out.Err? && r.out.error.AuthenticationError?
    ensures AuthGate.GetJwtPayload(context, schemaObj, false, verify).Ok? ==>
      r == Top(Env(s, a, AuthGate.GetJwtPayload(context, schemaObj, false, verify).value, depthFirst),
               parent, parentType, fieldName, args, fuel)
  {
    match AuthGate.GetJwtPayload(context, schemaObj, false, verify)
    case Err(e) => Run([], Err(e))
    case Ok(identity) => Top(Env(s, a, identity, depthFirst), parent, parentType, fieldName, args, fuel)
  }

  /** A call is refused before anything else exactly when a credential is
      present, the schema carries a secret, and verification rejects the
      token; the error carries the verifier's reason. Without a credential
      the walk runs with an `undefined` identity. */
  lemma {:induction false} ResolveCallRejects(s: Schema, a: Adapter, depthFirst: bool, context: Value, schemaObj: Value,
                                              verify: (string, Value, Value) -> AuthGate.Verification,
                                              parent: Value, parentType: string, fieldName: string, args: Value, fuel: nat)
    ensures var r := ResolveCall(s, a, depthFirst, context, schemaObj, verify, parent, parentType, fieldName, args, fuel);
      var token := AuthGate.Guess(context, AuthGate.ContextPath);
      var conf := AuthGate.Guess(schemaObj, AuthGate.AuthPath);
      var refused := token.Str? && AuthGate.IsObjectValue(conf) && !IsNullish(Get(conf, "secret")) &&
        verify(AuthGate.StripBearer(token.s), Get(conf, "secret"), Get(conf, "options")).Rejected?;
      (refused ==>
        r == Run([], Err(AuthenticationError("authentication failed: " +
          verify(AuthGate.StripBearer(token.s), Get(conf, "secret"), Get(conf, "options")).reason)))) &&
      (!refused ==> exists id :: r == Top(Env(s, a, id, depthFirst), parent, parentType, fieldName, args, fuel)) &&
      (!token.Str? ==> r == Top(Env(s, a, Undef, depthFirst), parent, parentType, fieldName, args, fuel))
  {
    var j := AuthGate.GetJwtPayload(context, schemaObj, false, verify);
    var token := AuthGate.Guess(context, AuthGate.ContextPath);
    var conf := AuthGate.Guess(schemaObj, AuthGate.AuthPath);
    if token.Str? && AuthGate.IsObjectValue(conf) && !IsNullish(Get(conf, "secret")) {
      AuthGate.VerifyGetsStrippedToken(context, schemaObj, false, verify);
    }
    if j.Ok? {
      assert ResolveCall(s, a, depthFirst, context, schemaObj, verify, parent, parentType, fieldName, args, fuel)
        == Top(Env(s, a, j.value, depthFirst), parent, parentType, fieldName, args, fuel);
    }
  }

  // ---- the gate as src calls it --------------------------------------------

  /** The gate as src/tools.js calls it: the type's or field's `@auth` entry
      for the mode lands in the callback slot of `checkAuth` and the
      adapter's `auth` in the options slot. A falsy entry counts as no
      callback and allows; a truthy one, being a directive argument and not
      a function, raises a TypeError when called. */
  function GateAsWritten(a: Adapter, cfg: Value, identity: Value): (r: Run<()>)
    ensures r.events == []
    ensures r.out.Ok? <==> !Truthy(cfg)
  {
    if Truthy(cfg) then Run([], Err(TypeError("checkAuthFn is not a function")))
    else Run([], Ok(()))
  }

  /** As written, the adapter's `auth` callback is never consulted: the
      outcome does not depend on the adapter or the identity, a type that
      sets `@auth` for the mode always fails, and one that does not always
      passes, even when the adapter would deny. */
  lemma GateAsWrittenIgnoresAdapter(a: Adapter, b: Adapter, cfg: Value, identity: Value, other: Value, ctx: Value)
    requires CAuth in a.has && a.verdict(Auth(ctx, Some("T"), None, Str("admin"))) == AuthGate.Allow(true)
    requires CAuth in b.has && b.verdict(Auth(ctx, Some("T"), None, Undef)) == AuthGate.Allow(false)
    ensures GateAsWritten(a, cfg, identity) == GateAsWritten(b, cfg, other)
    ensures GateAsWritten(a, Str("admin"), identity).out.Err?
    ensures Gate(a, Auth(ctx, Some("T"), None, Str("admin")), identity).out.Ok?
    ensures GateAsWritten(b, Undef, identity).out.Ok?
    ensures Gate(b, Auth(ctx, Some("T"), None, Undef), identity).out.Err?
  {
  }

  /** The gate the walk uses instead: the adapter's `auth` callback is asked,
      with the mode's `@auth` entry in the recorded call, and decides alone. */
  lemma IntendedGateConsultsAdapter(env: Env, w: Walk, ctx: Value, cfg: Value)
    ensures var e := Auth(ctx, Some(w.typeName), None, cfg);
      var r := Gate(env.a, e, env.identity);
      (CAuth in env.a.has ==> r.events == [e] && (r.out.Err? <==> AuthGate.Denies(Some(env.a.verdict(e))))) &&
      (CAuth !in env.a.has ==> r == Run([], Ok(())))
  {
  }
}

=== FILE: srcresult.dfy ===
/** The `@result` directive of the older generation (src/directives/result.js):
    the result object type `TResult` holding `results` and `count`, and the
    visit that gives a root query field that type. The lazy `ResultResolver`
    behind the two fields is in module Responses. */
module SrcResult {
  import opened Outcomes
  import opened GqlType
  import opened SchemaModel
  import SrcConfig

  /** `${getNamedType(fieldType).name}${FIELD_PREFIX_RESULT}`. */
  function ResultTypeName(fieldType: GType): string {
    NamedOf(fieldType).name + SrcConfig.PrefixResult
  }

  /** The two fields of a result type: `results` of the field's own type and
      `count: Int`. */
  function ResultFields(fieldType: GType): seq<Field> {
    [Field("results", fieldType, [], NoFieldMeta), Field("count", IntType, [], NoFieldMeta)]
  }

  function ResultMeta(fieldType: GType): TypeMeta {
    TypeMeta(ResultTypeTag, Some(NamedOf(fieldType).name), None, None)
  }

  /** `ensureResultType`: get-or-create; an existing type is returned as is. */
  function EnsureResultType(s: Schema, fieldType: GType): (r: (Schema, TypeDef))
    ensures r.1.name == ResultTypeName(fieldType)
    ensures LookupType(r.0, r.1.name) == Some(r.1)
    ensures LookupType(s, r.1.name).Some? ==> r == (s, LookupType(s, r.1.name).value)
    ensures LookupType(s, r.1.name).None? ==>
      r.1 == NewObjectType(r.1.name, ResultFields(fieldType), ResultMeta(fieldType))
    ensures forall n :: n != r.1.name ==> LookupType(r.0, n) == LookupType(s, n)
    ensures r.0.query == s.query && r.0.mutation == s.mutation && r.0.mutationDelayed == s.mutationDelayed
  {
    EnsureType(s, ResultTypeName(fieldType), n => NewObjectType(n, ResultFields(fieldType), ResultMeta(fieldType)))
  }

  /** `field.type._augmentType === 'result.type'`: only a named type can carry
      the tag; a list or Non-Null wrapper never does. */
  predicate IsResultTyped(s: Schema, t: GType) {
    t.Named? && LookupType(s, t.name).Some? && LookupType(s, t.name).value.meta.tag == ResultTypeTag
  }

  /** `Result.visitFieldDefinition` on field `fname` of `owner`. */
  function Visit(s: Schema, owner: string, fname: string): (r: Schema)
    requires GetField(s, owner, fname).Some?
    ensures owner != s.query || IsResultTyped(s, GetField(s, owner, fname).value.ty) ==> r == s
    ensures r.query == s.query && r.mutation == s.mutation
  {
    var f := GetField(s, owner, fname).value;
    if owner == s.query && !IsResultTyped(s, f.ty) then
      var (s1, rt) := EnsureResultType(s, f.ty);
      PutField(s1, owner, f.(ty := TypeRef(rt)))
    else s
  }

  /** A root query field that is not yet result-typed is retyped to the
      result type of its type, whose `results` field keeps the original type
      when the visit creates it. */
  lemma VisitWraps(s: Schema, fname: string)
    requires GetField(s, s.query, fname).Some? && !IsResultTyped(s, GetField(s, s.query, fname).value.ty)
    requires LookupType(s, ResultTypeName(GetField(s, s.query, fname).value.ty)).None?
    requires ResultTypeName(GetField(s, s.query, fname).value.ty) != s.query
    ensures var f := GetField(s, s.query, fname).value;
      var r := Visit(s, s.query, fname);
      GetField(r, s.query, fname) == Some(f.(ty := Named(ResultTypeName(f.ty), ObjectKind))) &&
      LookupType(r, ResultTypeName(f.ty)) == Some(NewObjectType(ResultTypeName(f.ty), ResultFields(f.ty), ResultMeta(f.ty)))
  {
    var f := GetField(s, s.query, fname).value;
    var (s1, rt) := EnsureResultType(s, f.ty);
    assert GetField(s1, s.query, fname) == Some(f);
    GetFieldAfterPut(s1, s.query, f.(ty := TypeRef(rt)), s.query, fname);
  }

  /** Never wrapped twice: when the result type's name is free or already
      holds a result type, a second visit changes nothing. */
  lemma VisitIdempotent(s: Schema, owner: string, fname: string)
    requires GetField(s, owner, fname).Some?
    requires var n := ResultTypeName(GetField(s, owner, fname).value.ty);
      LookupType(s, n).None? || LookupType(s, n).value.meta.tag == ResultTypeTag
    ensures GetField(Visit(s, owner, fname), owner, fname).Some?
    ensures Visit(Visit(s, owner, fname), owner, fname) == Visit(s, owner, fname)
  {
    var f := GetField(s, owner, fname).value;
    if owner == s.query && !IsResultTyped(s, f.ty) {
      var (s1, rt) := EnsureResultType(s, f.ty);
      assert rt.meta.tag == ResultTypeTag;
      assert LookupType(s1, owner).Some?;
      var g := f.(ty := TypeRef(rt));
      var r := PutField(s1, owner, g);
      GetFieldAfterPut(s1, owner, g, owner, fname);
      PutFieldKeepsTypes(s1, owner, g, rt.name);
      assert LookupType(r, rt.name).value.meta.tag == ResultTypeTag;
      assert IsResultTyped(r, g.ty);
    }
  }
}

=== FILE: srcsort.dfy ===
/** The `@sortable` directive of the older generation (src/directives/sort.js):
    the shared `sortInput` type and the `sort` argument of a root query field. */
module SrcSort {
  import opened Outcomes
  import opened GqlType
  import opened JsValue
  import opened SchemaModel
  import SrcConfig

  /** `${ARG_NAME_SORT}Input`. */
  const SortInputName := SrcConfig.ArgSort + "Input"

  /** `sortInput { by: String!, desc: Boolean = false }`, tagged. */
  function SortInputDef(): TypeDef {
    NewInputType(SortInputName,
      [Augment("by", NonNull(StringType), Untagged, None), Augment("desc", BooleanType, Untagged, Some(Bool(false)))],
      TypeMeta(SortInputTag, None, None, None))
  }

  /** `sort: [sortInput!]`. */
  function SortArg(t: TypeDef): Augment {
    Augment(SrcConfig.ArgSort, List(NonNull(TypeRef(t))), SortSort, None)
  }

  const NotRoot := ConfigError("directive \"@sortable\" should only be used on root query field definitions")

  function NoType(fname: string): Error {
    ConfigError("directive \"@sortable\" used on field \"" + fname + "\" which does not match any of the existing types")
  }

  /** `Sort.visitFieldDefinition` on field `fname` of `owner`. */
  function Visit(s: Schema, owner: string, fname: string): (r: Result<Schema>)
    requires GetField(s, owner, fname).Some?
    ensures owner != s.query ==> r == Err(NotRoot)
    ensures owner == s.query && LookupType(s, fname).None? ==> r == Err(NoType(fname))
    ensures (owner == s.query && LookupType(s, fname).Some? && LookupType(s, SortInputName).Some? &&
             LookupType(s, SortInputName).value.meta.tag == NoTag) ==> r == Ok(s)
    ensures r.Ok? ==> r.value.query == s.query && r.value.mutation == s.mutation
  {
    if owner != s.query then Err(NotRoot)
    else if LookupType(s, fname).None? then Err(NoType(fname))
    else
      var f := GetField(s, owner, fname).value;
      match LookupType(s, SortInputName)
      case None =>
        var s1 := PutType(s, SortInputDef());
        Ok(PutField(s1, owner, f.(args := AppendOne(f.args, SortArg(SortInputDef())))))
      case Some(t) =>
        if t.meta.tag == NoTag then Ok(s)
        else Ok(PutField(s, owner, f.(args := AppendOne(f.args, SortArg(t)))))
  }

  /** A successful visit that did not stop early leaves `sortInput` tagged in
      the map and gives the field a `sort` argument over it, appended only if
      the field had none; every other argument stays where it was. */
  lemma VisitAddsSort(s: Schema, fname: string)
    requires GetField(s, s.query, fname).Some? && LookupType(s, fname).Some?
    requires LookupType(s, SortInputName).None? || LookupType(s, SortInputName).value.meta.tag != NoTag
    requires SortInputName != s.query
    ensures var f := GetField(s, s.query, fname).value;
      var r := Visit(s, s.query, fname).value;
      var t := LookupType(r, SortInputName);
      t.Some? && t.value.meta.tag != NoTag &&
      GetField(r, s.query, fname) == Some(f.(args := AppendOne(f.args, SortArg(t.value)))) &&
      (HasName(f.args, SrcConfig.ArgSort) ==> GetField(r, s.query, fname) == Some(f))
  {
    var f := GetField(s, s.query, fname).value;
    var t := if LookupType(s, SortInputName).Some? then LookupType(s, SortInputName).value else SortInputDef();
    var s1 := if LookupType(s, SortInputName).Some? then s else PutType(s, SortInputDef());
    assert LookupType(s1, SortInputName) == Some(t);
    assert LookupType(s1, s.query) == LookupType(s, s.query);
    var g := f.(args := AppendOne(f.args, SortArg(t)));
    GetFieldAfterPut(s1, s.query, g, s.query, fname);
    PutFieldKeepsTypes(s1, s.query, g, SortInputName);
    if HasName(f.args, SrcConfig.ArgSort) {
      assert AppendOne(f.args, SortArg(t)) == f.args;
    }
  }

  /** Visiting twice is visiting once. */
  lemma VisitIdempotent(s: Schema, fname: string)
    requires GetField(s, s.query, fname).Some? && LookupType(s, fname).Some?
    requires LookupType(s, SortInputName).None? || LookupType(s, SortInputName).value.meta.tag != NoTag
    requires SortInputName != s.query && fname != SortInputName
    ensures var r := Visit(s, s.query, fname).value;
      GetField(r, s.query, fname).Some? && Visit(r, s.query, fname) == Ok(r)
  {
    VisitAddsSort(s, fname);
    var r := Visit(s, s.query, fname).value;
    var t := LookupType(r, SortInputName).value;
    var g := GetField(r, s.query, fname).value;
    assert HasName(g.args, SrcConfig.ArgSort) by {
      assert SrcConfig.ArgSort in Names(g.args);
      HasNameIffInNames(g.args, SrcConfig.ArgSort);
    }
    assert LookupType(r, fname).Some?;
    assert AppendOne(g.args, SortArg(t)) == g.args;
    GetFieldName(r, s.query, fname);
    PutFieldSame(r, s.query, g);
  }
}

=== FILE: values.dfy ===
/** JavaScript values as seen by the argument walker, the adapter and the
    credential lookup. Numbers are unbounded integers; object key order is
    not modelled (objects are maps). */
module JsValue {
  import opened Outcomes

  datatype Value =
    | Undef
    | Null
    | Bool(b: bool)
    | Num(n: int)
    | Str(s: string)
    | Obj(props: map<string, Value>)
    | Arr(elems: seq<Value>)
    | Date(epoch: int)

  /** JavaScript truthiness: `undefined`, `null`, `false`, `0` and `""` are falsy. */
  predicate Truthy(v: Value) {
    match v
    case Undef => false
    case Null => false
    case Bool(b) => b
    case Num(n) => n != 0
    case Str(s) => s != ""
    case _ => true
  }

  /** `typeof v === 'object'`, which holds for `null`, arrays and dates too. */
  predicate IsObjectLike(v: Value) {
    v.Null? || v.Obj? || v.Arr? || v.Date?
  }

  /** `v == null`: null or undefined. */
  predicate IsNullish(v: Value) {
    v.Null? || v.Undef?
  }

  /** Property read `v[k]` on a value that has no other properties of interest. */
  function Get(v: Value, k: string): Value {
    if v.Obj? && k in v.props then v.props[k] else Undef
  }

  /** JavaScript's number conversion, where it gives an integer: `null` and
      `false` are 0, `true` is 1, a date is its epoch value. Strings, arrays,
      objects and `undefined` (a parse, or `NaN`) give nothing. */
  function ToNumber(v: Value): Option<int> {
    match v
    case Num(n) => Some(n)
    case Null => Some(0)
    case Bool(b) => Some(if b then 1 else 0)
    case Date(e) => Some(e)
    case _ => None
  }

  /** `a || b` on values. */
  function Or(a: Value, b: Value): Value {
    if Truthy(a) then a else b
  }

  /** `a && a.k`, the facet read on an adapter's combined return value. */
  function AndGet(a: Value, k: string): Value {
    if Truthy(a) then Get(a, k) else a
  }
}
